=== FILE: README.md ===
# react-native-ble-manager in Dafny

A model of the native core of react-native-ble-manager, the React Native
bridge to the Bluetooth Low Energy stacks of iOS (CoreBluetooth) and
Android (`android.bluetooth`). Every operation is a pure function. It takes
the manager's state and the answers of the platform, and returns the next
state together with the list of effects the native code would produce:
callbacks invoked, events emitted to JavaScript, requests handed to the
radio.

What is modelled:

- **iOS manager** (`ios/SwiftBleManager.swift`):
  - The callback dictionaries keyed by peripheral id, or by
    `peripheral|characteristic`, and how they are answered.
  - The per-characteristic write queues.
  - The notification buffers.
  - Every command from `getContext` to `stopNotification`.
  - Every CoreBluetooth delegate event, including the disconnect cleanup,
    the power-off sweep and state restoration.
  - Modules: `IosState`, `CallbackTable`, `IosCommands`, `IosEvents`,
    `IosProperties`.
- **iOS helper** (`ios/Helper.swift`):
  - The state names.
  - The characteristic property decoder and the attribute lookups.
  - The request keys.
  - The advertisement reformatting.
  - `hexadecimalString`.
  - Module: `IosHelper`.
- **Android peripheral** (`Peripheral.java`):
  - One callback slot per request kind.
  - The write queue.
  - The connection-state machine and every GATT callback.
  - Modules: `AndroidPeripheral`, `AndroidGatt`.
- **Android manager** (`BleManager.java`):
  - The registry of peripherals, in `LinkedHashMap` order.
  - Start, enable, state reporting, scan, connect, command dispatch,
    listings and `bytesToHex`.
  - Module: `AndroidManager`.
- **Scan managers and scan records** (`DefaultScanManager`,
  `LollipopScanManager`, `LegacyScanManager`, `ScanResult`):
  - The scan managers' session counter, filters, timers and result
    handlers.
  - The scan-record parser.
  - The advertising maps of `DefaultPeripheral` and `LollipopPeripheral`.
  - Modules: `ScanManagers`, `ScanRecord`, `AdvertisingMaps`.
- **Android helpers** (`Helper.java`, `UUIDHelper.java`,
  `NotifyBufferContainer.java`):
  - Decoders, UUID conversions and the notification buffer.
  - Modules: `AndroidHelper`, `UuidHelper`, `AndroidNotifyBuffer`.
- **JavaScript error wrapper** (`src/BleError.ts`): module `BleErrors`.
- **Expo config plugins**:
  - The published Android-manifest plugin: module `ManifestPlugins`.
  - The example app's copies, and its Info.plist plugin: module
    `ExamplePlugins`.

Modules ending in `Properties` hold the lemmas that relate several calls:
round trips, frame properties, idempotence, and the corrected variants of
the defects listed under Findings.

The model follows the code where the code departs from the library's
stated design of one pending caller per operation key:

- The iOS manager appends every callback for a key and answers them all
  together.
- The Android peripheral keeps one slot per request kind and lets a new
  request overwrite a waiting one.
- On iOS a connection attempt can be answered with a failure and then
  reported connected by its timer. On Android `connect` answers success
  before the radio acts, so a failed link never reaches its caller.

## Model

Paths are relative to the repository root. `A/` stands for
`android/src/main/java/it/innove/`, and the table cells spell it out.

| member | source | states |
|---|---|---|
| CallbackTable.Insert | ios/SwiftBleManager.swift:108-120 | registering keeps every callback already waiting under the key, puts the new one last, and leaves the other keys alone |
| CallbackTable.Invoke | ios/SwiftBleManager.swift:122-134 | every callback waiting under the key is handed out exactly once and the key is forgotten; an absent key changes nothing |
| CallbackTable.InvokeAnswersInRegistrationOrder | ios/SwiftBleManager.swift:108-134 | callbacks registered one after another on a key are answered together, each once, in registration order; the other keys keep theirs |
| CallbackTable.FlushPrefix | ios/SwiftBleManager.swift:1225-1283 | the table splits into the keys starting with the prefix and the others, with no key lost, none in both, and every value kept |
| IosState.InitialIsValid | ios/SwiftBleManager.swift:38-56 | a fresh manager satisfies the registry invariant, with nothing connected and nothing registered |
| IosState.AnswerKey | ios/SwiftBleManager.swift:173-185 | answering a key resolves exactly its callbacks with one outcome and forgets that key only |
| IosState.AnswerPrefix | ios/SwiftBleManager.swift:1225-1283 | answering by prefix empties exactly the keys starting with the prefix and resolves exactly those callbacks |
| IosState.Answer | ios/SwiftBleManager.swift:122-134 | answering an empty table does nothing at all; otherwise every waiting callback is answered with the one outcome |
| Chunking.ChunkingIsUnique | ios/SwiftBleManager.swift:812-833 | there is only one split of the data into full `max`-byte pieces followed by one non-empty remainder |
| Chunking.ChunksCount | ios/SwiftBleManager.swift:812-833 | the number of pieces is the number of `max`-byte blocks needed to hold the data |
| Chunking.SplitForQueue | ios/SwiftBleManager.swift:812-833 | the acknowledged-write loop produces that unique chunking: pieces of `max` bytes, a non-empty last piece, all joining back into the data |
| Chunking.SplitWithoutResponse | ios/SwiftBleManager.swift:894-916 | the unacknowledged-write loop produces the same chunking as the acknowledged one |
| Chunking.SplitFirstAndRest | android/src/main/java/it/innove/Peripheral.java:696-717 | the Android split's first piece and queued pieces together are the same chunking, the first piece full |
| IosNotifyBuffer.New | ios/NotifyBufferContainer.swift:19-22 | a new container is empty, and it is full from the start exactly when its capacity is zero |
| IosNotifyBuffer.FullMeansNoRoom | ios/NotifyBufferContainer.swift:11-17 | a container is full exactly when no room remains |
| IosNotifyBuffer.Reset | ios/NotifyBufferContainer.swift:24-26 | resetting empties the container and keeps its capacity |
| IosNotifyBuffer.Put | ios/NotifyBufferContainer.swift:28-46 | a put keeps the old items as a prefix, takes as much of the value as fits, returns the rest, and is full whenever something is returned; a full container takes nothing |
| IosNotifyBuffer.ZeroCapacityMakesNoProgress | ios/SwiftBleManager.swift:1677-1690 | with a capacity of zero or less, a fresh buffer is full and put and reset change nothing, so the feeding loop cannot progress |
| IosNotifyBuffer.Drain | ios/SwiftBleManager.swift:1677-1690 | feeding a value emits only full buffers, leaves the container not full, and loses and duplicates no byte: emitted bytes followed by the kept ones are the old items followed by the value |
| AndroidNotifyBuffer.Allocate | android/src/main/java/it/innove/NotifyBufferContainer.java:8-10 | a negative size throws (`None`); any other size gives an empty buffer of exactly that size |
| AndroidNotifyBuffer.Reset | android/src/main/java/it/innove/NotifyBufferContainer.java:11-13 | a reset empties the buffer and keeps its size |
| AndroidNotifyBuffer.Put | android/src/main/java/it/innove/NotifyBufferContainer.java:14-31 | a value that fits is appended whole; otherwise the buffer is filled to the limit and the rest is handed back, so the kept part and the rest are the value |
| AndroidNotifyBuffer.PutFillsExactly | android/src/main/java/it/innove/NotifyBufferContainer.java:14-34 | after a put the buffer is full exactly when the value was at least the remaining room |
| Flags.DecodeNamesEachSetFlag | ios/Helper.swift:138-185 | with distinct names, each name is reported exactly when its own bit is set |
| Flags.DecodeOnlyListedNames | ios/Helper.swift:138-185 | a name outside the decoder's list is never reported |
| IosHelper.StateName | ios/Helper.swift:4-21 | every raw manager state is reported as one of the six documented names |
| IosHelper.StateNameRoundTrip | ios/Helper.swift:4-21 | the five definite states have distinct names that lead back to them; exactly the other values read "unknown" |
| IosHelper.PeripheralId | ios/Helper.swift:416-418 | a peripheral's id is its identifier, of the same length and with no upper-case letter |
| IosHelper.Key | ios/Helper.swift:187-193 | no ensures of its own: "peripheral|characteristic"; that keys start with their peripheral and determine the characteristic is stated by IosHelper.KeysStartWithTheirPeripheral and KeyDeterminesCharacteristic |
| IosHelper.DescriptorKey | ios/Helper.swift:195-202 | no ensures of its own: "peripheral|characteristic|descriptor"; its prefix property is stated by IosHelper.KeysStartWithTheirPeripheral |
| IosHelper.KeysStartWithTheirPeripheral | ios/Helper.swift:187-202 | every request key of a peripheral starts with its id and with no other id of the same length |
| IosHelper.KeyDeterminesCharacteristic | ios/Helper.swift:187-193 | for a given peripheral, equal keys mean the same characteristic |
| IosHelper.DecodeProperties | ios/Helper.swift:138-185 | each of the ten property names appears, valued by itself, exactly when its bit is set, and no other name appears |
| IosHelper.ParseIgnoresCase | ios/SwiftBleManager.swift:194-195 | a full UUID string reads as the same 128-bit UUID in either case |
| IosHelper.SameUuidIgnoresCase | ios/SwiftBleManager.swift:194-195 | a UUID string and its lower-case spelling compare equal, both ways |
| IosHelper.ShortFormIsBaseForm | ios/SwiftBleManager.swift:194-195 | four hexadecimal digits compare equal to the full UUID that places them in the Bluetooth base |
| IosHelper.MediumFormIsBaseForm | ios/SwiftBleManager.swift:194-195 | a 32-bit UUID string compares equal to its full form in the Bluetooth base |
| IosHelper.FindService | ios/Helper.swift:224-235 | the result is the first service whose UUID `isEqual` to the one asked for (case ignored, short forms expanded into the base), and it is absent exactly when no service has it |
| IosHelper.FindCharacteristicWith | ios/Helper.swift:237-257 | the result is the first characteristic whose UUID `isEqual` to the one asked for and that has all the asked properties, and it is absent exactly when none qualifies |
| IosHelper.FindCharacteristic | ios/Helper.swift:259-275 | the result is the first characteristic whose UUID `isEqual` to the one asked for, and it is absent exactly when none has it |
| IosHelper.FindDescriptor | ios/Helper.swift:204-222 | the result is the first descriptor whose UUID `isEqual` to the one asked for, and it is absent exactly when none has it |
| IosHelper.EmptyPropertyIsPlainLookup | ios/Helper.swift:237-275 | asking for no property finds the same characteristic as the plain lookup |
| IosHelper.ConvertUuidList | ios/Helper.swift:71-100 | a UUID list moves to its new name as lower-cased strings; a value of another shape is left where it was |
| IosHelper.ConvertServiceDataKey | ios/Helper.swift:53-69 | a service-data dictionary moves to "serviceData" with every entry converted; anything else is left as it was |
| IosHelper.ManufacturerId | ios/Helper.swift:119-124 | the company id is the first two bytes read little-endian |
| IosHelper.Hex4RoundTrip | ios/Helper.swift:119-124 | the four-digit text of a company id reads back as that id |
| IosHelper.ManufacturerKeyReadsBack | ios/Helper.swift:119-133 | the key manufacturer data is filed under reads back as the two opening bytes, little-endian |
| IosHelper.ManufacturerFrame | ios/Helper.swift:119-133 | the manufacturer conversion touches its three keys only |
| IosHelper.Reformat | ios/Helper.swift:31-136 | no ensures of its own: the seven renaming stages, then the manufacturer data; stated key by key by IosHelper.ReformatKeepsUnknownKeys, ReformatRenamesLocalName, ReformatRenamesIsConnectable, ReformatRenamesTxPowerLevel, ReformatServiceUuids and ReformatManufacturerData |
| IosHelper.KeptToTheEnd | ios/Helper.swift:31-136 | a key that no later stage owns keeps its value to the end of reformatting |
| IosHelper.StageFrame | ios/Helper.swift:31-136 | each stage of the reformatting agrees with its input on every key it does not own |
| IosHelper.ReformatKeepsUnknownKeys | ios/Helper.swift:31-136 | keys the reformatting does not know, spelled unlike any of the seventeen it handles or produces, are present after it exactly when present before, with the same value |
| IosHelper.ReformatRenamesLocalName | ios/Helper.swift:35-39 | the local name moves to "localName" unchanged and the platform key is gone |
| IosHelper.ReformatRenamesIsConnectable | ios/Helper.swift:41-45 | the connectable flag moves to "isConnectable" unchanged and the platform key is gone |
| IosHelper.ReformatRenamesTxPowerLevel | ios/Helper.swift:47-51 | the transmit power moves to "txPowerLevel" unchanged and the platform key is gone |
| IosHelper.ReformatServiceUuids | ios/Helper.swift:71-84 | the service UUIDs end up under "serviceUUIDs" as lower-cased strings and the platform key is gone |
| IosHelper.ReformatManufacturerData | ios/Helper.swift:119-133 | manufacturer data ends up as its raw bytes plus, when at least two bytes long, the payload under the company id's four hex digits |
| IosHelper.HexadecimalString | ios/Helper.swift:390-399 | the text is empty exactly for empty data and otherwise has five characters per byte less one |
| IosHelper.HexadecimalStringRoundTrip | ios/Helper.swift:390-399 | the text reads back as the bytes, in order |
| IosHelper.SamePeripheralIgnoresCaseAndData | ios/Helper.swift:375-377 | peripheral equality depends on the identifier alone, ignoring its case, and is compatible with itself |
| IosHelper.Info | ios/Helper.swift:302-315 | the reported map carries the peripheral's id, name and RSSI, and its advertisement exactly when it has one, reformatted |
| IosCommands.CharacteristicFor | ios/SwiftBleManager.swift:224-245 | the characteristic is found exactly when one has a UUID equal to the one asked for; a match with the wanted property wins, then an indicating one for notifications, then any with that UUID |
| IosCommands.GetContext | ios/SwiftBleManager.swift:187-265 | a context is found exactly when the peripheral exists under the string given, and the service and a characteristic with UUIDs equal to the ones asked for exist; an unknown peripheral gets the source's message |
| IosCommands.Scan | ios/SwiftBleManager.swift:338-404 | scanning forgets exactly the peripherals neither connected nor connecting, keeps the others unchanged, sets the name filter, arms the timer exactly when a positive (fractional) number of seconds is given, answers last, and keeps the manager invariant |
| IosCommands.StopScan | ios/SwiftBleManager.swift:413-424 | stopping disarms the scan timer, changes nothing else, and reports status 0 |
| IosCommands.Connect | ios/SwiftBleManager.swift:426-475 | a known or retrievable peripheral gets the callback queued behind any earlier one and a connect request; an unknown UUID and a malformed one are refused with their own messages |
| IosCommands.Disconnect | ios/SwiftBleManager.swift:477-511 | disconnecting changes no state: it switches off every notifying characteristic, asks to cancel the link and answers; an unknown id is refused |
| IosCommands.RetrieveServices | ios/SwiftBleManager.swift:513-544 | a reachable peripheral gets the callback registered under its id and a discovery request; otherwise it is refused and nothing is registered |
| IosCommands.ReadRssiCommand | ios/SwiftBleManager.swift:546-564 | a reachable peripheral gets the callback registered under its id and an RSSI request; otherwise it is refused and nothing is registered |
| IosCommands.ReadCommand | ios/SwiftBleManager.swift:930-959 | a found characteristic gets the callback registered under its key and a read request; otherwise the lookup's message is returned and nothing changes |
| IosCommands.ReadDescriptor | ios/SwiftBleManager.swift:566-616 | a found descriptor gets the callback registered under the descriptor key and a read request; a missing context or descriptor is refused |
| IosCommands.WriteDescriptor | ios/SwiftBleManager.swift:618-674 | a found descriptor gets the callback registered and a write of the bytes; a missing context or descriptor is refused |
| IosCommands.Enqueue | ios/SwiftBleManager.swift:136-156 | the chunks join the key's queue behind those already there, and the head of the whole queue comes out to be sent; other keys are untouched |
| IosCommands.Dequeue | ios/SwiftBleManager.swift:158-171 | the next chunk comes out in order, or the key is forgotten when its queue is empty; other keys are untouched |
| IosCommands.WriteCommand | ios/SwiftBleManager.swift:769-861 | an acknowledged write registers its callback under the key and sends the queue's head, its chunks joining the key's queue; a failed lookup is refused; with a size of 0 a longer value never returns, and with a negative size a non-empty value traps while an empty one only sends the queue's head |
| IosCommands.WriteWithoutResponseCommand | ios/SwiftBleManager.swift:863-928 | an unacknowledged write changes no state, sends every chunk in order, and answers at once; with a size of 0 a non-empty value writes empty chunks without end, and a negative size traps before any write |
| IosCommands.StartNotification | ios/SwiftBleManager.swift:961-1033 | the callback is registered under the key, a buffer length of any value installs an empty buffer of that capacity, and notifications are switched on; the manager invariant is kept |
| IosCommands.StopNotification | ios/SwiftBleManager.swift:1035-1077 | a notifying characteristic has its callback registered, its buffer dropped and notifications switched off; any other is answered at once; the invariant is kept |
| IosEvents.ScanTimerFired | ios/SwiftBleManager.swift:406-411 | an armed timer stops the scan and reports status 10; a disarmed one does nothing |
| IosEvents.DidConnect | ios/SwiftBleManager.swift:1149-1177 | a radio connection only arms one more connect timer for the peripheral |
| IosEvents.ConnectTimerFired | ios/SwiftBleManager.swift:1161-1176 | a pending timer marks the peripheral connected and answers all its connect callbacks with success; without one nothing happens |
| IosEvents.DidFailToConnect | ios/SwiftBleManager.swift:1179-1193 | all connect callbacks of the peripheral are answered with the failure message and forgotten; other keys are untouched |
| IosEvents.ForgetKeyed | ios/SwiftBleManager.swift:1209-1223 | the connect, RSSI and services callbacks under the id are answered with the outcome and forgotten; everything else is untouched |
| IosEvents.ForgetPrefixed | ios/SwiftBleManager.swift:1225-1283 | in each listed table the keys starting with the id are answered and forgotten, the other keys and tables kept |
| IosEvents.DidDisconnect | ios/SwiftBleManager.swift:1195-1308 | the peripheral stops counting as connected and loses its buffers; every answer is the disconnect failure; the event comes last; the registry, queues and timers are kept, as is the invariant |
| IosEvents.DropLink | ios/SwiftBleManager.swift:1285-1297 | exactly the peripheral's buffers are dropped and it leaves the connected set; no callback table changes |
| IosEvents.DisconnectStranded | ios/SwiftBleManager.swift:1314-1324 | the power-off loop removes from the connected set exactly the stranded ids, whatever order the set is walked in |
| IosEvents.DidUpdateState | ios/SwiftBleManager.swift:1310-1326 | the state's name is reported first; only "off" changes state, and then an id stays connected exactly when it is not stranded |
| IosEvents.HandleDiscovered | ios/SwiftBleManager.swift:1328-1354 | only the sighted peripheral's entry changes, to the registered object (or the new one) with the new RSSI and advertisement, and that entry is announced |
| IosEvents.Sighted | ios/SwiftBleManager.swift:1333-1340 | a sighting sets RSSI and advertisement and keeps identity, name, link state and services |
| IosEvents.DidDiscover | ios/SwiftBleManager.swift:1356-1392 | a peripheral failing the name filter is ignored; one passing it is handled as a sighting |
| IosEvents.DidDiscoverServices | ios/SwiftBleManager.swift:1394-1422 | on success the peripheral's latch becomes the set of its service handles and each service, in order, is asked for its included services and then its characteristics; on error nothing happens |
| IosEvents.DidDiscoverIncludedServices | ios/SwiftBleManager.swift:1424-1434 | on success characteristic discovery is asked for the service; an error does nothing |
| IosEvents.DidDiscoverCharacteristics | ios/SwiftBleManager.swift:1436-1459 | on success the service's latch becomes the set of its characteristic handles, under the service UUID, and each characteristic's descriptors are asked for |
| IosEvents.DidDiscoverDescriptors | ios/SwiftBleManager.swift:1461-1513 | the characteristic leaves its latch and a service with an empty latch leaves the peripheral's; only the peripheral's own services callbacks can be answered |
| IosEvents.DidReadRssi | ios/SwiftBleManager.swift:1515-1537 | all RSSI callbacks of the peripheral get the reading, or the error, and are forgotten |
| IosEvents.DidUpdateDescriptorValue | ios/SwiftBleManager.swift:1539-1622 | the callbacks under the descriptor key are answered with the value, or the error, and forgotten; other keys are untouched |
| IosEvents.DidUpdateValue | ios/SwiftBleManager.swift:1624-1695 | waiting reads take the value and nothing is emitted; otherwise the value is emitted whole, or fed through the key's buffer; a buffer with no capacity changes nothing and, for a non-empty value, emits empty buffers without end; only the read callbacks and buffer of the key change |
| IosEvents.ValuesOfEmitFull | ios/SwiftBleManager.swift:1677-1690 | the emitted notification events carry exactly the full buffers, in order |
| IosEvents.DidUpdateNotificationState | ios/SwiftBleManager.swift:1697-1775 | JavaScript hears the new state first; an error drops the buffer and fails the start and stop callbacks; a success answers the start or the stop side |
| IosEvents.DidWriteDescriptor | ios/SwiftBleManager.swift:1777-1806 | the callbacks under the descriptor key are answered with success or the error and forgotten; other keys are untouched |
| IosEvents.DidWriteValue | ios/SwiftBleManager.swift:1808-1849 | only the key's write callbacks and queue can change, and without waiting callbacks nothing happens |
| IosEvents.WriteAckFailure | ios/SwiftBleManager.swift:1808-1849 | an error answers the write callbacks with it and empties the key's queue |
| IosEvents.WriteAckSendsNext | ios/SwiftBleManager.swift:1808-1849 | a success with chunks queued sends exactly the next one and keeps the callbacks waiting |
| IosEvents.WriteAckCompletes | ios/SwiftBleManager.swift:1808-1849 | a success with nothing queued answers the callbacks with success and forgets the queue |
| IosEvents.WriteAcknowledged | ios/SwiftBleManager.swift:1832-1846 | a successful acknowledgement changes only the write callbacks and queue of its own key |
| IosEvents.PeripheralChanged | ios/SwiftBleManager.swift:353-354 | CoreBluetooth changing a registered peripheral's link state (the `instance.state` the manager reads) and its services replaces only that entry's state and services; an unregistered id changes nothing; no effects; the registry invariant is kept |
| IosEvents.WillRestoreState | ios/SwiftBleManager.swift:1127-1147 | restored peripherals are registered afresh, without RSSI or advertisement, and reported together; nothing else changes; an empty list does nothing |
| IosEvents.Restore | ios/SwiftBleManager.swift:1127-1147 | the registry afterwards holds the old ids and the restored ones; an id not restored keeps its entry, and every entry stays under its own id |
| IosProperties.AcksSendQueuedChunks | ios/SwiftBleManager.swift:1808-1849 | as many successful acknowledgements as queued chunks send exactly those chunks, in order, keeping the callbacks waiting |
| IosProperties.ChunkedWriteCompletes | ios/SwiftBleManager.swift:1808-1849 | one more acknowledgement after that answers the waiting callbacks once, with success, and forgets the queue |
| IosProperties.WriteThenAcknowledge | ios/SwiftBleManager.swift:812-858 | a long acknowledged write on an idle key sends every chunk in order, one per acknowledgement, then answers the callback once |
| IosProperties.ReadRssiThenReading | ios/SwiftBleManager.swift:1515-1537 | a reachable peripheral's RSSI request is answered by `didReadRSSI`, together with the earlier ones on the id, with the reading, and nothing else changes |
| IosProperties.RetrieveServicesAnsweredAfterDiscovery | ios/SwiftBleManager.swift:1394-1513 | for one service with one characteristic, the services callback is not answered during service and characteristic discovery and is answered with the peripheral's services once the descriptors are found |
| IosProperties.ReadDescriptorThenValue | ios/SwiftBleManager.swift:1539-1622 | a descriptor read that went out is answered by the descriptor's update, with the value or the error, and its key is forgotten |
| IosProperties.WriteDescriptorThenAcknowledge | ios/SwiftBleManager.swift:1777-1806 | a descriptor write that went out is answered by its acknowledgement, with success or the error; only its key is forgotten |
| IosProperties.DisconnectForgetsKeyed | ios/SwiftBleManager.swift:1209-1223 | a disconnect forgets the connect, RSSI and services callbacks of that id and keeps every other id's |
| IosProperties.DisconnectForgetsPrefixed | ios/SwiftBleManager.swift:1225-1283 | a disconnect forgets every keyed request starting with the id and keeps every other |
| IosProperties.DisconnectAnswersKeyed | ios/SwiftBleManager.swift:1209-1223 | every callback the disconnect forgets under the id is answered with the disconnect failure |
| IosProperties.DisconnectAnswersPrefixed | ios/SwiftBleManager.swift:1225-1283 | every callback forgotten by prefix is answered with the disconnect failure, one answer per table |
| IosProperties.DisconnectKeepsUnprefixed | ios/SwiftBleManager.swift:1225-1283 | a request key not starting with the id keeps its waiting callbacks in every table flushed by prefix |
| IosProperties.DisconnectSparesOtherRequests | ios/SwiftBleManager.swift:1225-1283 | the requests of any other peripheral survive the disconnect |
| IosProperties.DisconnectSparesOtherBuffers | ios/SwiftBleManager.swift:1285-1297 | the notification buffers of any other peripheral survive the disconnect |
| IosProperties.TimerReportsSuccessAfterFailure | ios/SwiftBleManager.swift:1149-1193 | a failure between the connection and its timer fails the callback, and the timer still marks the peripheral connected |
| IosProperties.ReadsOnOneKeyAnsweredTogether | ios/SwiftBleManager.swift:108-134 | two reads of one characteristic before the value arrives both get it, in request order |
| IosProperties.DiscoveryKeepsOneEntryPerId | ios/SwiftBleManager.swift:1328-1354 | discovery keeps every registry entry under its own id |
| IosProperties.SightingUpdatesKnown | ios/SwiftBleManager.swift:1328-1342 | a known peripheral keeps its identity, name, link state and services and takes the new RSSI and advertisement |
| IosProperties.SightingRegistersUnknown | ios/SwiftBleManager.swift:1343-1354 | an unknown peripheral is added with the new RSSI and advertisement, and every other entry stays |
| IosProperties.SightingAnnounced | ios/SwiftBleManager.swift:1328-1354 | either way the registered object is announced, and no other entry changes |
| AndroidHelper.DecodeProperties | android/src/main/java/it/innove/Helper.java:11-61 | each of the eight property names appears, valued by itself, exactly when its bit is set, and no other name appears |
| AndroidHelper.PropertiesAgreeWithIos | android/src/main/java/it/innove/Helper.java:11-61 | for masks without the two iOS-only bits, both platforms report the same property names |
| AndroidHelper.IosOnlyNamesUnlisted | android/src/main/java/it/innove/Helper.java:11-61 | the Android decoder never reports the two encryption-required names iOS has |
| AndroidHelper.DecodeCharacteristicPermissions | android/src/main/java/it/innove/Helper.java:63-102 | each permission name appears, valued by itself, exactly when its bit is set, and no other key appears |
| AndroidHelper.DecodeDescriptorPermissions | android/src/main/java/it/innove/Helper.java:104-144 | each permission name appears, valued by itself, exactly when its bit is set, and no other key appears |
| AndroidHelper.PermissionDecodersAgree | android/src/main/java/it/innove/Helper.java:63-144 | the characteristic and descriptor decoders agree on every mask |
| AndroidGatt.FindNotify | android/src/main/java/it/innove/Peripheral.java:535-559 | a notifying characteristic first, then an indicating one, then any with the UUID; nothing without a service or a matching UUID |
| AndroidGatt.FindReadable | android/src/main/java/it/innove/Peripheral.java:637-655 | a readable characteristic first, then any with the UUID; nothing without a service or a matching UUID |
| AndroidGatt.FindWritable | android/src/main/java/it/innove/Peripheral.java:813-834 | one with the write type's property first, then any with the UUID; nothing without a service or a matching UUID |
| AndroidGatt.LookupsFallBackToAnyWithUuid | android/src/main/java/it/innove/Peripheral.java:535-559 | when no characteristic has the wanted property, each lookup returns the first with the UUID |
| AndroidGatt.CccdIsShortUuid | android/src/main/java/it/innove/Peripheral.java:44 | the configuration-descriptor constant is the 16-bit UUID 2902, and prints back as "2902" |
| AndroidGatt.CccdValue | android/src/main/java/it/innove/Peripheral.java:485-494 | notification is preferred over indication; disabling writes the disable value; neither property gives no value |
| AndroidGatt.CccdValueBits | android/src/main/java/it/innove/Peripheral.java:485-494 | read as a 16-bit configuration, an enabling value sets exactly one of the two bits and the disable value sets none |
| UuidHelper.IsValidBleUuid | android/src/main/java/it/innove/UUIDHelper.java:14-31 | null and empty are invalid; four characters are valid exactly when all hex; other lengths exactly when they parse |
| UuidHelper.ValidConverts | android/src/main/java/it/innove/UUIDHelper.java:14-41 | every string the validator accepts converts to a UUID |
| UuidHelper.ParsePrinted | android/src/main/java/it/innove/UUIDHelper.java:34-44 | printing a UUID and parsing the text gives it back |
| UuidHelper.PrintParsed | android/src/main/java/it/innove/UUIDHelper.java:34-44 | parsing a canonical text and printing gives the text in lower case |
| UuidHelper.FilledShape | android/src/main/java/it/innove/UUIDHelper.java:10-38 | four hex digits put into the base UUID make a canonical UUID text |
| UuidHelper.FromString | android/src/main/java/it/innove/UUIDHelper.java:34-40 | no ensures of its own: a four-character string goes into the base and anything else is parsed strictly; what it accepts and returns is stated by UuidHelper.ValidConverts, PrintParsed, ShortRoundTrip and LongRoundTrip |
| UuidHelper.ToString | android/src/main/java/it/innove/UUIDHelper.java:42-53 | no ensures of its own: a UUID in the base prints as its four digits, any other as its canonical text; stated by UuidHelper.ParsePrinted, ShortRoundTrip and LongRoundTrip |
| UuidHelper.ShortRoundTrip | android/src/main/java/it/innove/UUIDHelper.java:34-53 | a 16-bit UUID converts and prints back as its four digits, lower-cased |
| UuidHelper.LongRoundTrip | android/src/main/java/it/innove/UUIDHelper.java:34-53 | every UUID converts to text and back to itself, shortened or not |
| AndroidPeripheral.Discovered | android/src/main/java/it/innove/Peripheral.java:65-70 | a scanned peripheral starts disconnected, without a GATT client, waiting callbacks or queued pieces |
| AndroidPeripheral.Complete | android/src/main/java/it/innove/Peripheral.java:388-407 | a completion invokes the slot's callback once and empties the slot; an empty slot ignores the event |
| AndroidPeripheral.LinkUp | android/src/main/java/it/innove/Peripheral.java:297-321 | the link is marked up and the connect event emitted; the only callback answered is a waiting connect, with success, last |
| AndroidPeripheral.Orphaned | android/src/main/java/it/innove/Peripheral.java:333-350 | every waiting request gets "Device disconnected", and a waiting connect gets "Connection error" last; only waiting callbacks are invoked |
| AndroidPeripheral.LinkDownAsWritten | android/src/main/java/it/innove/Peripheral.java:323-352 | the link goes down, every slot is answered and emptied, and the write queue is kept (see Findings) |
| AndroidPeripheral.LinkDown | android/src/main/java/it/innove/Peripheral.java:323-352 | the same disconnection, with the same effects, and the write queue also emptied |
| AndroidPeripheral.ConnectionStateChange | android/src/main/java/it/innove/Peripheral.java:292-354 | the connected and disconnected states go to their handlers, the disconnection as written, keeping the write queue; any other state only records the client |
| AndroidPeripheral.ConnectionStateChangeCorrected | android/src/main/java/it/innove/Peripheral.java:292-354 | corrected, a disconnection also empties the write queue; every other state is handled as written |
| AndroidPeripheral.Connect | android/src/main/java/it/innove/Peripheral.java:99-130 | an unconnected peripheral opens a client and reports success at once; a connected one answers from its client state |
| AndroidPeripheral.Disconnect | android/src/main/java/it/innove/Peripheral.java:132-148 | the link is marked down, the connect callback dropped unanswered, other slots and queue kept, and the event emitted only with a client |
| AndroidPeripheral.ServicesDiscovered | android/src/main/java/it/innove/Peripheral.java:283-290 | the waiting services callback is completed with the services |
| AndroidPeripheral.CharacteristicRead | android/src/main/java/it/innove/Peripheral.java:388-407 | the waiting read gets the value on success and the error otherwise |
| AndroidPeripheral.DescriptorWrite | android/src/main/java/it/innove/Peripheral.java:436-447 | the waiting notify callback gets success or the error |
| AndroidPeripheral.ReadRemoteRssi | android/src/main/java/it/innove/Peripheral.java:450-462 | a success is stored as the RSSI and answered; a failure is answered with the error; no waiting callback means nothing happens |
| AndroidPeripheral.MtuChanged | android/src/main/java/it/innove/Peripheral.java:798-809 | the waiting MTU callback gets the MTU or the error |
| AndroidPeripheral.CharacteristicChanged | android/src/main/java/it/innove/Peripheral.java:373-385 | a notification is passed on as an event and nothing changes |
| AndroidPeripheral.CharacteristicWrite | android/src/main/java/it/innove/Peripheral.java:410-433 | with a write waiting, the next queued piece is sent whatever the status, and an empty queue answers the write |
| AndroidPeripheral.Refuse | android/src/main/java/it/innove/Peripheral.java:563-570 | a command goes ahead exactly when connected with a client; otherwise it is answered with the matching error |
| AndroidPeripheral.Read | android/src/main/java/it/innove/Peripheral.java:561-584 | only the read slot can change, and only to the new callback; a missing characteristic is refused |
| AndroidPeripheral.ReadRssiAsWritten | android/src/main/java/it/innove/Peripheral.java:586-602 | a refused request answers the callback but empties the read slot and keeps the RSSI one (see Findings) |
| AndroidPeripheral.ReadRssi | android/src/main/java/it/innove/Peripheral.java:586-602 | only the RSSI slot can change, and a refused request leaves it empty |
| AndroidPeripheral.RetrieveServices | android/src/main/java/it/innove/Peripheral.java:621-632 | a ready peripheral keeps the callback in the services slot and asks for discovery |
| AndroidPeripheral.RequestMtu | android/src/main/java/it/innove/Peripheral.java:778-795 | a ready peripheral keeps the callback in the MTU slot and asks for the MTU |
| AndroidPeripheral.SetNotify | android/src/main/java/it/innove/Peripheral.java:464-530 | the notify slot takes the callback exactly when the registration succeeds, the configuration descriptor exists and its write goes out, with the value for the characteristic's properties; each failure has its own answer; other slots are kept |
| AndroidPeripheral.Single | android/src/main/java/it/innove/Peripheral.java:750-758 | a one-request write answers a refusal with "Write failed" and a free slot, keeps an acknowledged write's callback, and answers an unacknowledged one at once |
| AndroidPeripheral.Issue | android/src/main/java/it/innove/Peripheral.java:691-758 | an acknowledged long write sends the first piece and queues exactly the others; an unacknowledged one sends pieces until one is refused and answers once; with a size of 0 a non-empty value never returns, with a negative size it throws, both after an acknowledged write took the slot, and an empty value writes a null value |
| AndroidPeripheral.WriteAsWritten | android/src/main/java/it/innove/Peripheral.java:667-762 | a refused command gets the matching error; a missing characteristic is answered "not found"; one busy condition refuses once and issues nothing; an idle peripheral issues the write; a write while a long write is queued and waiting answers its callback twice (see Findings); in every case but that one it agrees with `Write` |
| AndroidPeripheral.Write | android/src/main/java/it/innove/Peripheral.java:667-762 | a busy peripheral refuses once and is unchanged; an idle one issues the write |
| AndroidPeripheralProperties.AcknowledgementsSendQueue | android/src/main/java/it/innove/Peripheral.java:410-433 | each acknowledgement sends the next queued piece, in order, until the queue is empty |
| AndroidPeripheralProperties.DiscoveryAnsweredByEvent | android/src/main/java/it/innove/Peripheral.java:283-290 | a discovery that went out is not answered by the command and is answered once, with the services, by `onServicesDiscovered` |
| AndroidPeripheralProperties.ReadAnsweredByEvent | android/src/main/java/it/innove/Peripheral.java:388-407 | an accepted read is answered once, by `onCharacteristicRead`, with the value or the error; a refused one is answered at once and the event finds nobody waiting |
| AndroidPeripheralProperties.MtuAnsweredByEvent | android/src/main/java/it/innove/Peripheral.java:798-809 | an MTU request that went out is answered once, by `onMtuChanged`, with the MTU granted or the error |
| AndroidPeripheralProperties.NotifyAnsweredByDescriptorWrite | android/src/main/java/it/innove/Peripheral.java:436-447 | a notification switch whose descriptor write went out is answered once, by `onDescriptorWrite` |
| AndroidPeripheralProperties.NotifyAnsweredNowOrLater | android/src/main/java/it/innove/Peripheral.java:464-520 | whatever the platform answers, the switch is answered at once exactly when it is not left waiting |
| AndroidPeripheralProperties.LongWriteDelivered | android/src/main/java/it/innove/Peripheral.java:667-762 | a long acknowledged write sends every piece in order and answers once, with the status of the last acknowledgement, leaving the peripheral as it found it |
| AndroidPeripheralProperties.ConnectFailureNeverReported | android/src/main/java/it/innove/Peripheral.java:99-130 | connect answers success before the radio acts, so a later link failure never reaches the connect callback |
| AndroidPeripheralProperties.ReadRssiRefusalLosesRead | android/src/main/java/it/innove/Peripheral.java:586-602 | as written, a refused RSSI request drops a waiting read's callback |
| AndroidPeripheralProperties.ReadRssiRefusalKeepsRead | android/src/main/java/it/innove/Peripheral.java:586-602 | corrected, the waiting read is still answered with its value |
| AndroidPeripheralProperties.SecondWriteAnsweredTwice | android/src/main/java/it/innove/Peripheral.java:683-689 | as written, a write during a long write has its callback invoked twice |
| AndroidPeripheralProperties.SecondWriteAnsweredOnce | android/src/main/java/it/innove/Peripheral.java:683-689 | corrected, it is refused once and the write under way is untouched |
| AndroidPeripheralProperties.QueueOutlivesDisconnect | android/src/main/java/it/innove/Peripheral.java:323-352 | as written, pieces queued at disconnection make every later write be refused |
| AndroidPeripheralProperties.WriteAfterReconnect | android/src/main/java/it/innove/Peripheral.java:323-352 | corrected, the first write after reconnecting goes out |
| AndroidManager.Get | android/src/main/java/it/innove/BleManager.java:294 | a registered key yields its peripheral and an unregistered one nothing |
| AndroidManager.Put | android/src/main/java/it/innove/BleManager.java:302 | the key then yields the new peripheral, the other keys are unchanged, a present key keeps its place, and keys stay unique |
| AndroidManager.KeepConnected | android/src/main/java/it/innove/BleManager.java:120-125 | exactly the connected entries remain, in order |
| AndroidManager.Start | android/src/main/java/it/innove/BleManager.java:78-89 | no adapter is refused; otherwise the state receiver is registered and the call answered |
| AndroidManager.EnableBluetooth | android/src/main/java/it/innove/BleManager.java:92-107 | a disabled adapter keeps the callback for the user's answer; a missing one is refused; an enabled one is answered at once |
| AndroidManager.ActivityResult | android/src/main/java/it/innove/BleManager.java:552-562 | the kept callback gets the user's verdict once and is dropped; other results do nothing |
| AndroidManager.CheckState | android/src/main/java/it/innove/BleManager.java:434-453 | "on" exactly for the on state, "off" for everything else |
| AndroidManager.ReceiverState | android/src/main/java/it/innove/BleManager.java:455-486 | each of the four adapter states has its own name, and "" is reported exactly for anything else |
| AndroidManager.Scan | android/src/main/java/it/innove/BleManager.java:110-132 | a missing adapter is refused, a disabled one ignored; otherwise the registry keeps its connected entries, the scanner starts and the call is answered; a malformed UUID throws |
| AndroidManager.ScanTimerFired | android/src/main/java/it/innove/BleManager.java:193-215 | the timer stops the scan and reports it, whatever happened since |
| AndroidManager.StopScan | android/src/main/java/it/innove/BleManager.java:252-288 | an enabled adapter stops scanning and answers; otherwise the matching error |
| AndroidManager.Discover | android/src/main/java/it/innove/BleManager.java:150-180 | an unknown address is appended and announced; a known one only gets the new RSSI, silently; other keys are unchanged |
| AndroidManager.Run | android/src/main/java/it/innove/BleManager.java:311-391 | running a peripheral step stores its result under the key only |
| AndroidManager.ConnectAsWritten | android/src/main/java/it/innove/BleManager.java:291-309 | an id missing as given is upper-cased and a new peripheral put under it, replacing any registered there (see Findings) |
| AndroidManager.Connect | android/src/main/java/it/innove/BleManager.java:291-309 | a peripheral registered under the upper-cased id is connected rather than replaced |
| AndroidManager.Perform | android/src/main/java/it/innove/BleManager.java:311-391 | a command runs on the peripheral as written: `disconnect` answers after disconnecting, `readRSSI` and `write` run their as-written versions, `read` and the notification switch run `Read` and `SetNotify` with the platform's answers; a command throws exactly when one of its UUIDs is malformed |
| AndroidManager.PerformCorrected | android/src/main/java/it/innove/BleManager.java:311-391 | corrected, `readRSSI` and `write` run their corrected versions; every other command runs as written |
| AndroidManager.Dispatch | android/src/main/java/it/innove/BleManager.java:311-391 | an unknown id gets "Peripheral not found"; a known one runs the command as written; only that entry changes and keys stay unique |
| AndroidManager.DispatchCorrected | android/src/main/java/it/innove/BleManager.java:311-391 | the same dispatch over the corrected commands |
| AndroidManager.DiscoveredPeripherals | android/src/main/java/it/innove/BleManager.java:489-505 | the answer lists every registered key, in registry order |
| AndroidManager.HasService | android/src/main/java/it/innove/Peripheral.java:275-281 | null without a client; true exactly when the client knows the service |
| AndroidManager.AcceptAsWritten | android/src/main/java/it/innove/BleManager.java:515-523 | the last requested UUID alone decides (see Findings) |
| AndroidManager.Accept | android/src/main/java/it/innove/BleManager.java:515-523 | a peripheral is accepted exactly when it offers one of the requested services |
| AndroidManager.Collect | android/src/main/java/it/innove/BleManager.java:508-536 | the answer holds exactly the connected, accepted keys, and throws exactly when the filter is null for a connected peripheral |
| AndroidManager.ConnectedPeripheralsAsWritten | android/src/main/java/it/innove/BleManager.java:508-536 | nothing changes; an empty registry answers an empty list; malformed UUIDs throw otherwise; otherwise the answer lists exactly the connected peripherals the last-UUID filter accepts |
| AndroidManager.ConnectedPeripherals | android/src/main/java/it/innove/BleManager.java:508-536 | the same with the corrected filter; the answer lists exactly the connected peripherals offering any requested service, all of them when none is requested |
| AndroidManager.BytesToHex | android/src/main/java/it/innove/BleManager.java:539-549 | two upper-case digits per byte, high nibble first |
| AndroidManager.BytesToHexRoundTrip | android/src/main/java/it/innove/BleManager.java:539-549 | the text reads back as the bytes |
| AndroidManager.BytesToHexIsUpper | android/src/main/java/it/innove/BleManager.java:539-549 | the text has no lower-case letter |
| AndroidManagerProperties.DiscoverTwiceReportsOnce | android/src/main/java/it/innove/BleManager.java:150-180 | a peripheral seen twice is registered and announced once |
| AndroidManagerProperties.ScanKeepsConnected | android/src/main/java/it/innove/BleManager.java:120-125 | a scan forgets exactly the unconnected peripherals, and connected ones keep their state |
| AndroidManagerProperties.ConnectUnknownId | android/src/main/java/it/innove/BleManager.java:294-307 | an unknown valid address gets a new connected peripheral under its upper-cased key; an invalid one is refused and nothing changes |
| AndroidManagerProperties.ConnectReplacesRegistered | android/src/main/java/it/innove/BleManager.java:294-302 | as written, a lower-case id drops the connected peripheral registered under the address |
| AndroidManagerProperties.ConnectKeepsRegistered | android/src/main/java/it/innove/BleManager.java:294-302 | corrected, the registry is left as it was |
| AndroidManagerProperties.LastServiceDecides | android/src/main/java/it/innove/BleManager.java:515-523 | as written, a peripheral offering only the first of two services is left out |
| AndroidManagerProperties.AnyServiceAccepts | android/src/main/java/it/innove/BleManager.java:515-523 | corrected, that peripheral is listed |
| AndroidManagerProperties.EnableAnsweredOnce | android/src/main/java/it/innove/BleManager.java:552-562 | enabling answers the callback exactly once, and a repeated result answers nobody |
| AndroidManagerProperties.StateReportsAgree | android/src/main/java/it/innove/BleManager.java:434-486 | the receiver and `checkState` agree on the settled states |
| ScanManagers.Increment | android/src/main/java/it/innove/ScanManager.java:21 | the session counter adds one with Java `int` wrap-around |
| ScanManagers.StopScan | android/src/main/java/it/innove/DefaultScanManager.java:46-55 | stopping advances the session, stops the scanner and answers |
| ScanManagers.ServiceFilters | android/src/main/java/it/innove/DefaultScanManager.java:96-102 | one filter per requested UUID, in order, or none when a UUID is malformed |
| ScanManagers.NameFilters | android/src/main/java/it/innove/DefaultScanManager.java:105-112 | one filter per expected name, in order |
| ScanManagers.ManufacturerFilters | android/src/main/java/it/innove/DefaultScanManager.java:114-155 | a mask of another length than the data refuses the scan; otherwise the filter carries the low bytes |
| ScanManagers.Started | android/src/main/java/it/innove/DefaultScanManager.java:157-196 | a timed scan takes a fresh session and arms its timer; the call is answered |
| ScanManagers.Scan | android/src/main/java/it/innove/DefaultScanManager.java:58-197 | each manager uses its own filters, and a scan that cannot start leaves the manager unchanged |
| ScanManagers.TimerFired | android/src/main/java/it/innove/DefaultScanManager.java:160-195 | a timer acts only while its session is current, stopping the scanner if the adapter is on and reporting the stop |
| ScanManagers.DefaultResult | android/src/main/java/it/innove/DefaultScanManager.java:199-224 | every sighting is saved and announced; a null record throws |
| ScanManagers.Upserted | android/src/main/java/it/innove/DefaultScanManager.java:213-219 | a sighting leaves the known peripheral, or a new one, with the new RSSI, and with the new bytes unless the manager keeps the first ones |
| ScanManagers.LollipopResult | android/src/main/java/it/innove/LollipopScanManager.java:97-127 | a null record is skipped; otherwise the peripheral is created or refreshed and announced |
| ScanManagers.LegacyResult | android/src/main/java/it/innove/LegacyScanManager.java:32-62 | a new address is registered and announced; a known one only gets the RSSI |
| ScanManagers.DefaultBatch | android/src/main/java/it/innove/DefaultScanManager.java:238-252 | the results are handled in order until one throws |
| ScanManagers.LollipopBatch | android/src/main/java/it/innove/LollipopScanManager.java:129-131 | a batch changes nothing |
| ScanManagers.ScanFailed | android/src/main/java/it/innove/DefaultScanManager.java:254-261 | the default manager clears its flag and reports the code; the Lollipop one sends an empty stop event |
| ScanManagersProperties.AdvanceWraps | android/src/main/java/it/innove/ScanManager.java:21 | `k` increments add `k` modulo 2^32 |
| ScanManagersProperties.AdvanceReturnsIff | android/src/main/java/it/innove/ScanManager.java:21 | the counter returns to its start exactly after a multiple of 2^32 increments |
| ScanManagersProperties.StaleTimerIsNoOp | android/src/main/java/it/innove/DefaultScanManager.java:160-195 | a timer whose session was advanced past, fewer than 2^32 times, does nothing |
| ScanManagersProperties.StopDisarmsTimer | android/src/main/java/it/innove/DefaultScanManager.java:46-55 | after a stop, the stopped scan's timer does nothing |
| ScanManagersProperties.ScanStartsIff | android/src/main/java/it/innove/DefaultScanManager.java:58-197 | the scanner starts exactly when the filters can be built; otherwise nothing changes |
| ScanManagersProperties.UntimedRestartKeepsOldTimer | android/src/main/java/it/innove/DefaultScanManager.java:157-196 | an untimed scan keeps the session, so an earlier timer ends it too |
| ScanManagersProperties.TimedRestartSupersedes | android/src/main/java/it/innove/DefaultScanManager.java:157-196 | a second timed scan makes the first timer inert and the second active |
| ScanManagersProperties.DefaultFilterOrder | android/src/main/java/it/innove/DefaultScanManager.java:96-155 | service filters in request order, then name filters, then the manufacturer filter |
| ScanManagersProperties.IgnoredArguments | android/src/main/java/it/innove/LollipopScanManager.java:40-93 | the Lollipop manager depends only on the UUIDs, the legacy one on neither UUIDs nor options |
| ScanManagersProperties.BatchAnnouncesEach | android/src/main/java/it/innove/DefaultScanManager.java:238-252 | a batch with all records present announces every result, in order |
| ScanManagersProperties.BatchRegistersEach | android/src/main/java/it/innove/DefaultScanManager.java:238-252 | such a batch leaves every one of its addresses registered |
| ScanManagersProperties.BatchKeepsRegistered | android/src/main/java/it/innove/DefaultScanManager.java:238-252 | a batch never unregisters an address |
| ScanManagersProperties.BatchTouchesOnlyItsAddresses | android/src/main/java/it/innove/DefaultScanManager.java:238-252 | a batch changes the registry only under its own addresses and keeps keys unique |
| ScanManagersProperties.BatchStopsAtNull | android/src/main/java/it/innove/DefaultScanManager.java:238-252 | a batch announces the results before its first null record, then stops |
| ScanManagersProperties.LegacySeenTwiceReportsOnce | android/src/main/java/it/innove/LegacyScanManager.java:32-62 | the legacy manager announces an address once and keeps its first bytes |
| ScanManagersProperties.DefaultSeenTwiceReportsTwice | android/src/main/java/it/innove/DefaultScanManager.java:199-224 | the default manager announces every sighting and keeps the latest bytes |
| ScanRecord.SparsePut | android/src/main/java/it/innove/ScanResult.java:144 | the value under the key is replaced or inserted in key order |
| ScanRecord.Signed | android/src/main/java/it/innove/ScanResult.java:122-124 | a byte reads as Java's signed byte |
| ScanRecord.Extract | android/src/main/java/it/innove/ScanResult.java:180-184 | the copy succeeds exactly when the range is within the array |
| ScanRecord.Slices | android/src/main/java/it/innove/ScanResult.java:167-177 | the list is read in slices of the width, and fails when one leaves the array |
| ScanRecord.Walk | android/src/main/java/it/innove/ScanResult.java:88-151 | no ensures of its own: the structure loop from a position; stated by ScanRecordProperties.WalkAt, ZeroLengthStops, SkippedOverrunIsTolerated and ParseEncoded |
| ScanRecord.ParseFromBytes | android/src/main/java/it/innove/ScanResult.java:73-165 | null in gives null out; otherwise the raw bytes are always kept |
| ScanRecord.Structure | android/src/main/java/it/innove/ScanResult.java:97-151 | one structure's handling leaves the record's lists and maps well formed, or fails |
| ScanRecord.UuidWidth | android/src/main/java/it/innove/ScanResult.java:102-116 | the service list types read UUIDs of 2, 4 or 16 bytes; every other type reads none |
| ScanRecordProperties.ParseEncoded | android/src/main/java/it/innove/ScanResult.java:73-165 | well-formed structures parse into the values they carry, with the input as raw bytes |
| ScanRecordProperties.SlicesRead | android/src/main/java/it/innove/ScanResult.java:167-177 | a list of whole UUIDs reads as those UUIDs |
| ScanRecordProperties.ZeroLengthStops | android/src/main/java/it/innove/ScanResult.java:88-93 | a zero length byte ends the parse; what follows stays only in the raw bytes |
| ScanRecordProperties.LastValuesWin | android/src/main/java/it/innove/ScanResult.java:122-145 | a repeated company id keeps the later data, and tx power reads as a signed byte |
| ScanRecordProperties.UuidListsAppend | android/src/main/java/it/innove/ScanResult.java:102-106 | two 16-bit lists are read in order, one UUID per two bytes |
| ScanRecordProperties.ShortManufacturerFallsBack | android/src/main/java/it/innove/ScanResult.java:137-163 | a manufacturer structure too short for its id falls back to the raw bytes alone |
| ScanRecordProperties.SkippedOverrunIsTolerated | android/src/main/java/it/innove/ScanResult.java:146-151 | a skipped type may claim more bytes than remain, and the parse still succeeds |
| ScanRecordProperties.WalkAt | android/src/main/java/it/innove/ScanResult.java:88-151 | walking over consecutive encoded structures applies each one in turn, in order |
| AdvertisingMaps.FromResult | android/src/main/java/it/innove/DefaultPeripheral.java:27-31 | a result with a record gives a peripheral holding it and its bytes; one without throws |
| AdvertisingMaps.FromDevice | android/src/main/java/it/innove/DefaultPeripheral.java:33-36 | a device-only peripheral has no bytes, result or record |
| AdvertisingMaps.DefaultUpdate | android/src/main/java/it/innove/DefaultPeripheral.java:115-120 | result and record are replaced, and the bytes too unless the record is null, which throws |
| AdvertisingMaps.LollipopUpdate | android/src/main/java/it/innove/LollipopPeripheral.java:87-93 | the record and its bytes are replaced, the result kept; a null record throws |
| AdvertisingMaps.StripNul | android/src/main/java/it/innove/DefaultPeripheral.java:66 | exactly the NUL characters are removed |
| AdvertisingMaps.ServiceUuidStrings | android/src/main/java/it/innove/DefaultPeripheral.java:68-74 | one printed UUID per service, in order; none when absent |
| AdvertisingMaps.ServiceDataEntries | android/src/main/java/it/innove/DefaultPeripheral.java:76-84 | every non-null entry appears under its printed UUID, and nothing else |
| AdvertisingMaps.Connectable | android/src/main/java/it/innove/DefaultPeripheral.java:53-61 | before O always true; from O on the result's flag, or absent without a result |
| AdvertisingMaps.ManufacturerOf | android/src/main/java/it/innove/DefaultPeripheral.java:86-102 | only the first entry is reported, under its `%04x` key, with raw bytes that are the big-endian id then the data |
| AdvertisingMaps.BigEndianReadsBack | android/src/main/java/it/innove/DefaultPeripheral.java:94-96 | the four bytes of the key read back as the key |
| AdvertisingMaps.DefaultName | android/src/main/java/it/innove/DefaultPeripheral.java:43-46 | the device name, else the record's; it throws without a result or record |
| AdvertisingMaps.FieldsOf | android/src/main/java/it/innove/LollipopPeripheral.java:54-76 | the local name is the device name with NULs removed and absent exactly when it is; service UUIDs as printed; service data without null entries (empty without a map); the record's tx power |
| AdvertisingMaps.DefaultMap | android/src/main/java/it/innove/DefaultPeripheral.java:38-113 | the advertising map appears exactly when a name and bytes are available |
| AdvertisingMaps.LollipopMap | android/src/main/java/it/innove/LollipopPeripheral.java:35-85 | the map appears exactly when bytes are held, and reports them as the manufacturer data |
| AdvertisingMapsProperties.StripNulKeepsClean | android/src/main/java/it/innove/DefaultPeripheral.java:66 | a name without NULs is kept, and cleaning is idempotent |
| AdvertisingMaps.Format04x | android/src/main/java/it/innove/DefaultPeripheral.java:92 | at least four characters; for a 16-bit id the text is the iOS key and reads back as the id (AdvertisingMapsProperties.Format04xOfCompanyId) |
| AdvertisingMapsProperties.Format04xOfCompanyId | android/src/main/java/it/innove/DefaultPeripheral.java:92 | for a 16-bit id the Android key matches the iOS key and reads back as the id |
| AdvertisingMapsProperties.ReportedManufacturerIsSmallest | android/src/main/java/it/innove/DefaultPeripheral.java:86-100 | the entry reported is the one with the smallest company id |
| AdvertisingMapsProperties.ServiceUuidsReadBack | android/src/main/java/it/innove/DefaultPeripheral.java:68-74 | every printed service UUID converts back to the record's UUID |
| AdvertisingMapsProperties.ServiceDataWithoutNulls | android/src/main/java/it/innove/DefaultPeripheral.java:76-84 | without null values the map keeps one entry per entry, in order |
| AdvertisingMapsProperties.SerialisersAgree | android/src/main/java/it/innove/LollipopPeripheral.java:35-85 | both serialisers agree on the bytes, the connectable flag and the record fields |
| AdvertisingMapsProperties.DeviceOnlyFallsBack | android/src/main/java/it/innove/DefaultPeripheral.java:33-36 | a device-only peripheral gets no advertising map from either serialiser |
| AdvertisingMapsProperties.DefaultUpdateReplacesTogether | android/src/main/java/it/innove/DefaultPeripheral.java:115-120 | after an update with a record, the map reports the new bytes, record and flag together |
| AdvertisingMapsProperties.DefaultUpdateWithoutRecord | android/src/main/java/it/innove/DefaultPeripheral.java:115-120 | after an update without a record, the old bytes remain without record fields, or the map is lost for a nameless device |
| AdvertisingMapsProperties.LollipopReportsWholePayload | android/src/main/java/it/innove/LollipopPeripheral.java:87-93 | the Lollipop map reports the last whole payload as manufacturer data |
| BleErrors.Construct | src/BleError.ts:46-111 | a string becomes the message; a non-object and an invalid object carry no fields; a valid object has each of its nine fields copied, null exactly when the property is absent or null, and a non-empty domain added to the name |
| BleErrors.ExactlyOneBranch | src/BleError.ts:46-91 | exactly one of the constructor's four branches applies to any value |
| BleErrors.ShapeOf | src/BleError.ts:3-32 | a value is a string, a non-object, an invalid error object or a valid one, each exactly under its test |
| BleErrors.NumberOrNull | src/BleError.ts:100-109 | a number field is copied exactly when it is a number, and is null otherwise |
| BleErrors.StringOrNull | src/BleError.ts:100-109 | a string field is copied exactly when it is a string, and is null otherwise |
| BleErrors.EncodedNumber | src/BleError.ts:100-109 | a number key of an encoded error reads as its field |
| BleErrors.EncodedString | src/BleError.ts:100-109 | a string key of an encoded error reads as its field |
| BleErrors.EncodeRoundTrip | src/BleError.ts:91-110 | an encoded error is valid, and the constructor gives back its message and fields, the domain in the name when non-empty |
| ManifestPlugins.Name | plugin/src/withBLEAndroidManifest.ts:141-143 | the name is the first `android:name` attribute, and absent exactly when there is none |
| ManifestPlugins.Count | plugin/src/withBLEAndroidManifest.ts:141-143 | the count of entries of a name is zero exactly when none has it |
| ManifestPlugins.AddOnce | plugin/src/withBLEAndroidManifest.ts:136-158 | an entry is appended exactly when none of its name exists, and afterwards one exists |
| ManifestPlugins.AddLocation | plugin/src/withBLEAndroidManifest.ts:63-126 | only `uses-permission-sdk-23` can change, and only by appending |
| ManifestPlugins.AddScan | plugin/src/withBLEAndroidManifest.ts:132-159 | only `uses-permission` changes, by appending the scan entry when it is missing |
| ManifestPlugins.AddConnect | plugin/src/withBLEAndroidManifest.ts:161-183 | only `uses-permission` changes, by appending, and the connect entry is then present |
| ManifestPlugins.AddCompanion | plugin/src/withBLEAndroidManifest.ts:185-206 | only `uses-feature` changes, by appending, and the companion entry is then present |
| ManifestPlugins.AddHardware | plugin/src/withBLEAndroidManifest.ts:209-230 | only `uses-feature` changes, by appending, and the hardware entry is then present |
| ManifestPluginsProperties.AddOnceAtMostOnce | plugin/src/withBLEAndroidManifest.ts:136-158 | an adder keeps the count of its name, or makes it exactly one |
| ManifestPluginsProperties.AddOnceSparesOthers | plugin/src/withBLEAndroidManifest.ts:136-158 | an adder leaves the count of any other name alone |
| ManifestPluginsProperties.LocationListsBoth | plugin/src/withBLEAndroidManifest.ts:63-126 | afterwards both location permissions are listed, and a manifest listing both is untouched |
| ManifestPluginsProperties.MissingCounts | plugin/src/withBLEAndroidManifest.ts:93-113 | each location entry is to be added once when unlisted and not at all when listed |
| ManifestPluginsProperties.LocationAddsMissing | plugin/src/withBLEAndroidManifest.ts:63-126 | each location permission is appended exactly when neither list names it |
| ManifestPluginsProperties.EntryAttributes | plugin/src/withBLEAndroidManifest.ts:87-156 | the optional attributes appear exactly when their flag asks for them |
| ManifestPluginsProperties.FeaturesOnRequest | plugin/src/withBLEAndroidManifest.ts:47-52 | features not asked for are left as they were |
| ManifestPluginsProperties.WithBleFeatures | plugin/src/withBLEAndroidManifest.ts:47-52 | the feature list is the companion adder, then the hardware adder, each when asked for |
| ManifestPluginsProperties.PermissionStepsDone | plugin/src/withBLEAndroidManifest.ts:35-46 | after the location, scan and connect steps both location permissions and both Bluetooth permissions are listed |
| ManifestPluginsProperties.DoneIsFixed | plugin/src/withBLEAndroidManifest.ts:29-55 | a manifest the plugin has already processed is left as it is |
| ManifestPlugins.WithBle | plugin/src/withBLEAndroidManifest.ts:29-55 | no ensures of its own: location, scan and connect permissions, then the companion and hardware features on request; stated by ManifestPluginsProperties.WithBleFeatures, WithBleIsDone, WithBleIdempotent and WithBleAppendsOnly |
| ManifestPluginsProperties.WithBleIsDone | plugin/src/withBLEAndroidManifest.ts:29-55 | one run lists every permission and requested feature |
| ManifestPluginsProperties.WithBleIdempotent | plugin/src/withBLEAndroidManifest.ts:29-55 | running the plugin twice is running it once |
| ManifestPluginsProperties.WithBleAppendsOnly | plugin/src/withBLEAndroidManifest.ts:29-55 | every list keeps its old entries as a prefix |
| ExamplePlugins.WithBle | example/plugins/withBLEAndroidManifest.js:16-28 | no ensures of its own: the same steps with the companion feature always and the hardware feature only for background use; stated by ManifestPluginsProperties.ExampleSharesTheRest and ExampleWithBleIdempotent |
| ExamplePlugins.AddLocation | example/plugins/withBLEAndroidManifest.js:36-60 | afterwards both location permissions are in `uses-permission-sdk-23`, old entries kept as a prefix |
| ExamplePlugins.WithBluetoothPermissions | example/plugins/withBluetoothPermissions.js:6-17 | a disabled option changes nothing; otherwise the description is the given text, else the existing one, else the default |
| ManifestPluginsProperties.ExampleAddsBoth | example/plugins/withBLEAndroidManifest.js:36-60 | on a list with neither permission, both are appended, coarse first |
| ManifestPluginsProperties.LocationVariantsDiffer | example/plugins/withBLEAndroidManifest.js:36-60 | a permission only in `uses-permission` is added again by the example's copy but not by the published plugin |
| ManifestPluginsProperties.LocationVariantsAgree | example/plugins/withBLEAndroidManifest.js:36-60 | when `uses-permission` names neither, the two location adders agree |
| ManifestPluginsProperties.ExampleSharesTheRest | example/plugins/withBLEAndroidManifest.js:16-28 | apart from `uses-permission-sdk-23`, the example's plugin matches the published one with the companion feature on |
| ManifestPluginsProperties.ExampleWithBleIdempotent | example/plugins/withBLEAndroidManifest.js:16-28 | running the example's plugin twice is running it once |
| ManifestPluginsProperties.BluetoothPermissionsIdempotent | example/plugins/withBluetoothPermissions.js:6-17 | running it twice is running it once, and a later run without the option keeps the description |

## Left out

- `PeripheralService.java`, `CompanionScanner.java`, `ErrorHelper.java`,
  `BLECommand.java`, the JavaScript wrappers and type declarations, and
  `ios/BleManager.swift` are not part of this model. They are bridge
  plumbing around the core.
- Threads, timers, the main-thread hops and `Thread.sleep` are not modelled.
  Each timer is an armed flag or a counted token that a separate event
  fires, and the order of events is the caller's choice.
- Base64 and the `WritableMap` and JSON encodings are left out. Values are
  the bytes or maps they encode.
- Scan settings (scan mode, match mode, number of matches, legacy flag,
  report delay) are left out. They are passed to the platform unchanged.
- `ensureToolsAvailable` and `withInfoPlist`/`withAndroidManifest` are Expo
  calls outside the repository. The plugins are modelled on the manifest
  and the property list directly.
- ManifestPlugins.Items: a permission list that is present but not an array
  is treated as missing. An item without `$` is not modelled.
- ExamplePlugins.WithBluetoothPermissions: a non-string, non-false option
  is not modelled.
- The scan managers are modelled against the registry of `AndroidManager`.
  The `BleManager.java` in the repository predates them and does not wire
  them in, so the registry calls they make are modelled as map operations.
- BleErrors.Construct: JavaScript numbers are Dafny `real`s. The
  non-enumerable `raw` property is left out.
- UuidHelper.IsValidBleUuid: `UUID.fromString` accepts only the canonical
  8-4-4-4-12 shape here. The JDK's leniency toward shorter groups is not
  modelled.
- IosNotifyBuffer.Drain requires a positive capacity. A buffer of capacity
  zero or less is handled by IosEvents.DidUpdateValue, where the Swift loop
  never ends on a non-empty value (ZeroCapacityMakesNoProgress).
- A command or event that never returns is the effect `Spin`, carrying the
  effects it repeats; a Swift trap is `Trap` and a Java exception leaving
  `write` is `Thrown`. What happens to the app afterwards is not modelled.
- IosCommands.GetContext: `CBUUID(string:)` raises on a string that is not a
  16-, 32- or 128-bit UUID (ios/SwiftBleManager.swift:194-195, 592, 647).
  The model lets such a string match no attribute instead.
- IosHelper stage functions: the individual stages of `reformatAdvertisementData`
  carry no frame ensures of their own. StageFrame, KeptToTheEnd and
  ManufacturerFrame state their frames as lemmas.
- IosHelper.ConvertManufacturerData has no ensures.
  ReformatManufacturerData and ConvertManufacturerDataSplits state what
  it produces.
- Swift dictionary iteration order is unspecified. A flush that answers
  several keys is reported as one batch per table, keyed by request key,
  not as a sequence of calls.
- CoreBluetooth itself is left out: the peripheral objects, their
  attribute tables and their link state. Such changes enter through
  IosEvents.PeripheralChanged, and the platform's answers are parameters.
- ScanManagers.Increment: the session counter wraps at 2^32 as Java's
  `int` does. Elsewhere, Java `int` overflow of RSSI, MTU and lengths is
  not modelled, because those values come from the platform within range.

## Findings

| source | as written | input that shows it | evidently intended | confidence | as-written member | corrected member |
|---|---|---|---|---|---|---|
| android/src/main/java/it/innove/Peripheral.java:586-602 | a refused `readRemoteRssi` sets `readCallback = null` after answering, leaving `readRSSICallback` set | a characteristic read waiting, then `readRSSI` with the platform refusing | clear `readRSSICallback`, the slot just answered | high (not executed) | AndroidPeripheralProperties.ReadRssiRefusalLosesRead | AndroidPeripheralProperties.ReadRssiRefusalKeepsRead |
| android/src/main/java/it/innove/Peripheral.java:667-762 | the two busy checks are separate `if`s without `return`, each invoking the callback | a long acknowledged write under way (pieces queued and callback waiting), then a second `write` | refuse once | high (not executed) | AndroidPeripheralProperties.SecondWriteAnsweredTwice | AndroidPeripheralProperties.SecondWriteAnsweredOnce |
| android/src/main/java/it/innove/Peripheral.java:323-352 | the disconnect handler empties every callback but not `writeQueue` | a link lost between two pieces of a long write, then a reconnect and a `write` | empty the write queue with the callbacks | medium (not executed) | AndroidPeripheralProperties.QueueOutlivesDisconnect | AndroidPeripheralProperties.WriteAfterReconnect |
| android/src/main/java/it/innove/BleManager.java:291-309 | the lookup uses the id as given; on a miss the upper-cased id gets a new peripheral, overwriting a registered one | `connect` with the lower-case address of a connected peripheral | look up the upper-cased id before creating | medium (not executed) | AndroidManagerProperties.ConnectReplacesRegistered | AndroidManagerProperties.ConnectKeepsRegistered |
| android/src/main/java/it/innove/BleManager.java:515-523 | `accept` is overwritten for each requested UUID, so the last one alone decides | two service UUIDs, a connected peripheral offering only the first | accept when any requested service is offered | medium (not executed) | AndroidManagerProperties.LastServiceDecides | AndroidManagerProperties.AnyServiceAccepts |

=== FILE: advertising_maps.dfy ===
/** The advertising maps the two Android peripheral classes hand to
    JavaScript (DefaultPeripheral.java and LollipopPeripheral.java under
    android/src/main/java/it/innove/), and their `updateData`.  The platform
    `ScanResult` and `ScanRecord` are records of what their getters return;
    the Base64 and byte-array encodings of `byteArrayToWritableMap` are left
    as the bytes themselves. */
module AdvertisingMaps {
  import opened Common
  import Hex
  import opened UuidHelper

  // ---------------------------------------------------------------------------
  // The platform objects

  /** A `BluetoothDevice`: its name may be null. */
  datatype Device = Device(name: Option<string>, address: string)

  /** What a platform `ScanRecord` answers.  Service data is a map whose
      values may be null, listed in the map's iteration order; manufacturer
      data is a `SparseArray`, listed in index order. */
  datatype PlatformRecord = PlatformRecord(
    deviceName: Option<string>,
    serviceUuids: Option<seq<Uuid>>,
    serviceData: Option<seq<(Uuid, Option<Bytes>)>>,
    manufacturer: Option<seq<(Int32, Bytes)>>,
    txPower: int,
    bytes: Bytes)

  /** What a platform `ScanResult` answers. */
  datatype PlatformResult = PlatformResult(connectable: bool, record: Option<PlatformRecord>)

  /** The fields the serialisers read: the device, the advertised RSSI, the
      raw advertising bytes (null for a peripheral made from a device alone),
      the scan result (`DefaultPeripheral` only) and the record. */
  datatype Held = Held(
    device: Device, rssi: int, bytes: Option<Bytes>, result: Option<PlatformResult>, record: Option<PlatformRecord>)

  // ---------------------------------------------------------------------------
  // Construction and updateData

  /** The constructor from a scan result; `None` when the result has no
      record, where `getScanRecord().getBytes()` throws. */
  function FromResult(device: Device, rssi: int, result: PlatformResult): (r: Option<Held>)
    ensures r.None? <==> result.record.None?
    ensures r.Some? ==> r.value.bytes == Some(result.record.value.bytes) && r.value.record == result.record
                        && r.value.result == Some(result) && r.value.device == device && r.value.rssi == rssi
  {
    match result.record
    case None => None
    case Some(rec) => Some(Held(device, rssi, Some(rec.bytes), Some(result), Some(rec)))
  }

  /** The constructor from a device alone: no RSSI, bytes, result or record. */
  function FromDevice(device: Device): (r: Held)
    ensures r.bytes.None? && r.result.None? && r.record.None? && r.device == device
  {
    Held(device, 0, None, None, None)
  }

  /** What `updateData` leaves behind, and whether it threw. */
  datatype Updated = Updated(held: Held, thrown: bool)

  /** `DefaultPeripheral.updateData`: result, record and bytes are replaced
      together.  A result without a record has already been stored, with
      the null record, when reading the bytes throws; the bytes stay. */
  function DefaultUpdate(h: Held, result: PlatformResult): (r: Updated)
    ensures r.thrown <==> result.record.None?
    ensures r.held.result == Some(result) && r.held.record == result.record
    ensures r.held.bytes == (if result.record.Some? then Some(result.record.value.bytes) else h.bytes)
    ensures r.held.device == h.device && r.held.rssi == h.rssi
  {
    var stored := h.(result := Some(result), record := result.record);
    match result.record
    case None => Updated(stored, true)
    case Some(rec) => Updated(stored.(bytes := Some(rec.bytes)), false)
  }

  /** `LollipopPeripheral.updateData`: takes the record of the result, and
      its bytes; the result itself is not kept. */
  function LollipopUpdate(h: Held, result: PlatformResult): (r: Updated)
    ensures r.thrown <==> result.record.None?
    ensures r.held.record == result.record && r.held.result == h.result
    ensures r.held.bytes == (if result.record.Some? then Some(result.record.value.bytes) else h.bytes)
    ensures r.held.device == h.device && r.held.rssi == h.rssi
  {
    var stored := h.(record := result.record);
    match result.record
    case None => Updated(stored, true)
    case Some(rec) => Updated(stored.(bytes := Some(rec.bytes)), false)
  }

  // ---------------------------------------------------------------------------
  // Pieces of the maps

  /** `replace("\0", "")`: every NUL character removed, the others kept in
      order. */
  function StripNul(s: string): (r: string)
    ensures forall c :: c in r <==> c in s && c != '\0'
    ensures |r| <= |s|
  {
    if s == [] then []
    else if s[0] == '\0' then StripNul(s[1..])
    else [s[0]] + StripNul(s[1..])
  }

  /** Lower-case hexadecimal digits of `n`, without leading zeros. */
  function HexDigits(n: nat): (r: string)
    ensures 1 <= |r|
    decreases n
  {
    if n < 16 then [Hex.LowerDigit(n)] else HexDigits(n / 16) + [Hex.LowerDigit(n % 16)]
  }

  /** The 32-bit two's-complement pattern of a Java `int`. */
  function Unsigned(x: Int32): (v: nat)
    ensures v < 0x1_0000_0000 && (v - x) % 0x1_0000_0000 == 0
  {
    if x < 0 then x + 0x1_0000_0000 else x
  }

  /** `String.format("%04x", key)`: the hexadecimal digits of the key's bit
      pattern, padded with zeros to four characters. */
  function Format04x(key: Int32): (r: string)
    ensures |r| >= 4
  {
    var digits := HexDigits(Unsigned(key));
    if |digits| < 4 then seq(4 - |digits|, _ => '0') + digits else digits
  }

  /** `ByteBuffer.allocate(4).putInt(key).array()`: big-endian. */
  function BigEndian4(key: Int32): (r: Bytes)
    ensures |r| == 4
  {
    var v := Unsigned(key);
    var q1 := v / 256;
    var q2 := q1 / 256;
    var q3 := q2 / 256;
    [q3 as byte, (q2 % 256) as byte, (q1 % 256) as byte, (v % 256) as byte]
  }

  /** `ByteBuffer.getInt`: four big-endian bytes read as a Java `int`. */
  function ReadInt(b: Bytes): int
    requires |b| == 4
  {
    var v := ((b[0] as int * 256 + b[1] as int) * 256 + b[2] as int) * 256 + b[3] as int;
    if v >= 0x8000_0000 then v - 0x1_0000_0000 else v
  }

  /** The service UUIDs as `uuidToString` prints them, in record order; an
      absent or empty list gives an empty array. */
  function ServiceUuidStrings(uuids: Option<seq<Uuid>>): (r: seq<string>)
    ensures uuids.None? ==> r == []
    ensures uuids.Some? ==> |r| == |uuids.value| && forall i :: 0 <= i < |r| ==> r[i] == ToString(uuids.value[i])
  {
    match uuids
    case None => []
    case Some(us) => seq(|us|, i requires 0 <= i < |us| => ToString(us[i]))
  }

  /** The service-data map: entries with a null value are skipped, the
      others keyed by `uuidToString`, in iteration order. */
  function ServiceDataEntries(entries: seq<(Uuid, Option<Bytes>)>): (r: seq<(string, Bytes)>)
    ensures |r| <= |entries|
    ensures forall u, b :: (u, Some(b)) in entries ==> (ToString(u), b) in r
    ensures forall e :: e in r ==> exists u :: (u, Some(e.1)) in entries && e.0 == ToString(u)
  {
    if entries == [] then []
    else
      var rest := ServiceDataEntries(entries[1..]);
      match entries[0].1
      case None => rest
      case Some(b) => [(ToString(entries[0].0), b)] + rest
  }

  /** The fields both serialisers take from a non-null record. */
  datatype RecordFields = RecordFields(
    localName: Option<string>, serviceUuids: seq<string>, serviceData: seq<(string, Bytes)>, txPowerLevel: int)

  function FieldsOf(rec: PlatformRecord): (r: RecordFields)
    ensures r.localName.None? <==> rec.deviceName.None?
    ensures r.localName.Some? ==> r.localName.value == StripNul(rec.deviceName.value)
    ensures r.serviceUuids == ServiceUuidStrings(rec.serviceUuids)
    ensures rec.serviceData.None? ==> r.serviceData == []
    ensures rec.serviceData.Some? ==> r.serviceData == ServiceDataEntries(rec.serviceData.value)
    ensures r.txPowerLevel == rec.txPower
  {
    RecordFields(
      if rec.deviceName.None? then None else Some(StripNul(rec.deviceName.value)),
      ServiceUuidStrings(rec.serviceUuids),
      if rec.serviceData.None? then [] else ServiceDataEntries(rec.serviceData.value),
      rec.txPower)
  }

  /** `isConnectable`: from Android O on it comes from the scan result and
      is left out without one; before O it is always true. */
  function Connectable(atLeastO: bool, result: Option<PlatformResult>): (r: Option<bool>)
    ensures !atLeastO ==> r == Some(true)
    ensures atLeastO ==> (r.Some? <==> result.Some?) && (r.Some? ==> r.value == result.value.connectable)
  {
    if !atLeastO then Some(true)
    else if result.None? then None
    else Some(result.value.connectable)
  }

  // ---------------------------------------------------------------------------
  // DefaultPeripheral.asWritableMap

  /** The manufacturer part of the default map: only the first entry of the
      `SparseArray`, keyed by `%04x` of its id, and the raw bytes as the
      4-byte big-endian id followed by the data (empty without an entry). */
  datatype Manufacturer = Manufacturer(data: seq<(string, Bytes)>, raw: Bytes)

  function ManufacturerOf(entries: Option<seq<(Int32, Bytes)>>): (r: Manufacturer)
    ensures entries.None? || entries.value == [] ==> r == Manufacturer([], [])
    ensures entries.Some? && entries.value != [] ==>
              var key := entries.value[0].0;
              var data := entries.value[0].1;
              && r.data == [(Format04x(key), data)]
              && |r.raw| == 4 + |data|
              && ReadInt(r.raw[..4]) == key && r.raw[4..] == data
  {
    if entries.None? || entries.value == [] then Manufacturer([], [])
    else
      var key := entries.value[0].0;
      var data := entries.value[0].1;
      var raw := BigEndian4(key) + data;
      assert raw[..4] == BigEndian4(key);
      BigEndianReadsBack(key);
      Manufacturer([(Format04x(key), data)], raw)
  }

  /** Reading the four bytes `putInt` wrote gives the key back. */
  lemma BigEndianReadsBack(key: Int32)
    ensures ReadInt(BigEndian4(key)) == key
  {
    var v := Unsigned(key);
    var q1 := v / 256;
    var q2 := q1 / 256;
    var q3 := q2 / 256;
    assert v == q1 * 256 + v % 256;
    assert q1 == q2 * 256 + q1 % 256;
    assert q2 == q3 * 256 + q2 % 256;
    assert v == ((q3 * 256 + q2 % 256) * 256 + q1 % 256) * 256 + v % 256;
  }

  /** The `advertising` map of a `DefaultPeripheral`; `record` is present
      when the peripheral holds a record. */
  datatype DefaultAdvertising = DefaultAdvertising(
    rawData: Bytes, isConnectable: Option<bool>, record: Option<(RecordFields, Manufacturer)>)

  /** The map returned: name, id, RSSI and advertising; or the map of the
      base class alone, when the `try` block is abandoned by an exception. */
  datatype Described<A> = Described(name: Option<string>, id: string, rssi: int, advertising: A) | BaseOnly

  /** The name put into the map: the device name, else the record name of
      the scan result; `None` (the exception) when there is no result or it
      has no record. */
  function DefaultName(h: Held): (r: Option<Option<string>>)
    ensures h.device.name.Some? ==> r == Some(h.device.name)
    ensures h.device.name.None? ==>
              (r.None? <==> h.result.None? || h.result.value.record.None?)
    ensures h.device.name.None? && r.Some? ==> r.value == h.result.value.record.value.deviceName
  {
    if h.device.name.Some? then Some(h.device.name)
    else if h.result.None? || h.result.value.record.None? then None
    else Some(h.result.value.record.value.deviceName)
  }

  /** `DefaultPeripheral.asWritableMap`.  A missing name with nothing to
      fall back on, or missing bytes, throw inside the `try`. */
  function DefaultMap(h: Held, atLeastO: bool): (r: Described<DefaultAdvertising>)
    ensures r.BaseOnly? <==> DefaultName(h).None? || h.bytes.None?
    ensures r.Described? ==>
              && r.name == DefaultName(h).value && r.id == h.device.address && r.rssi == h.rssi
              && r.advertising.rawData == h.bytes.value
              && r.advertising.isConnectable == Connectable(atLeastO, h.result)
              && (r.advertising.record.Some? <==> h.record.Some?)
              && (h.record.Some? ==>
                    r.advertising.record.value == (FieldsOf(h.record.value), ManufacturerOf(h.record.value.manufacturer)))
  {
    match DefaultName(h)
    case None => BaseOnly
    case Some(name) =>
      match h.bytes
      case None => BaseOnly
      case Some(bytes) =>
        var record := if h.record.None? then None
                      else Some((FieldsOf(h.record.value), ManufacturerOf(h.record.value.manufacturer)));
        Described(name, h.device.address, h.rssi, DefaultAdvertising(bytes, Connectable(atLeastO, h.result), record))
  }

  // ---------------------------------------------------------------------------
  // LollipopPeripheral.asWritableMap

  /** The `advertising` map of a `LollipopPeripheral`: its
      `manufacturerData` is the whole raw advertising payload. */
  datatype LollipopAdvertising = LollipopAdvertising(
    manufacturerData: Bytes, isConnectable: Option<bool>, record: Option<RecordFields>)

  /** `LollipopPeripheral.asWritableMap` puts only the advertising map over
      the base class's; `None` when missing bytes throw before it. */
  function LollipopMap(h: Held, atLeastO: bool): (r: Option<LollipopAdvertising>)
    ensures r.None? <==> h.bytes.None?
    ensures r.Some? ==>
              && r.value.manufacturerData == h.bytes.value
              && r.value.isConnectable == Connectable(atLeastO, h.result)
              && (r.value.record.Some? <==> h.record.Some?)
              && (h.record.Some? ==> r.value.record.value == FieldsOf(h.record.value))
  {
    match h.bytes
    case None => None
    case Some(bytes) =>
      Some(LollipopAdvertising(bytes, Connectable(atLeastO, h.result),
                               if h.record.None? then None else Some(FieldsOf(h.record.value))))
  }
}

=== FILE: advertising_maps_properties.dfy ===
/** Properties of the Android advertising maps: what a reader of the map can
    get back from it (the company id, the manufacturer bytes, the service
    UUIDs), how the local name is cleaned, and how the two serialisers and
    `updateData` relate. */
module AdvertisingMapsProperties {
  import opened Common
  import Hex
  import IosHelper
  import opened UuidHelper
  import opened AdvertisingMaps

  // ---------------------------------------------------------------------------
  // The local name

  /** Removing NULs from two pieces is removing them from the whole. */
  lemma {:induction false} StripNulAppend(a: string, b: string)
    ensures StripNul(a + b) == StripNul(a) + StripNul(b)
    decreases |a|
  {
    if a == [] {
      assert a + b == b;
    } else {
      assert (a + b)[1..] == a[1..] + b;
      StripNulAppend(a[1..], b);
    }
  }

  /** A name without NULs is put as it is, and cleaning twice is cleaning
      once. */
  lemma {:induction false} StripNulKeepsClean(s: string)
    ensures '\0' !in s ==> StripNul(s) == s
    ensures StripNul(StripNul(s)) == StripNul(s)
    decreases |s|
  {
    if s != [] {
      StripNulKeepsClean(s[1..]);
      if s[0] != '\0' {
        var t := StripNul(s[1..]);
        assert ([s[0]] + t)[1..] == t;
      }
    }
  }

  // ---------------------------------------------------------------------------
  // The manufacturer entry

  /** The padding `%04x` puts before `k` digits. */
  lemma Padding(digits: string)
    requires 1 <= |digits| <= 4
    ensures Format04xPad(digits) == seq(4 - |digits|, _ => '0') + digits
  {
  }

  function Format04xPad(digits: string): string
    requires |digits| <= 4
  {
    if |digits| == 4 then digits
    else if |digits| == 3 then ['0'] + digits
    else if |digits| == 2 then ['0', '0'] + digits
    else ['0', '0', '0'] + digits
  }

  lemma OneDigit(key: int)
    requires 0 <= key < 16
    ensures HexDigits(key) == [Hex.LowerDigit(key)]
    ensures Format04xPad(HexDigits(key)) == IosHelper.Hex4(key)
  {
    assert key / 16 == 0 && key % 16 == key;
  }

  lemma TwoDigits(key: int)
    requires 16 <= key < 256
    ensures HexDigits(key) == [Hex.LowerDigit(key / 16), Hex.LowerDigit(key % 16)]
    ensures Format04xPad(HexDigits(key)) == IosHelper.Hex4(key)
  {
    var m1 := key / 16;
    assert m1 < 16 && m1 / 16 == 0 && m1 % 16 == m1;
    assert HexDigits(m1) == [Hex.LowerDigit(m1)];
  }

  lemma ThreeDigits(key: int)
    requires 256 <= key < 4096
    ensures HexDigits(key) == [Hex.LowerDigit(key / 16 / 16), Hex.LowerDigit(key / 16 % 16), Hex.LowerDigit(key % 16)]
    ensures Format04xPad(HexDigits(key)) == IosHelper.Hex4(key)
  {
    var m1 := key / 16;
    assert 16 <= m1 < 256;
    TwoDigits(m1);
    var m2 := m1 / 16;
    assert m2 < 16 && m2 / 16 == 0 && m2 % 16 == m2;
  }

  lemma FourDigits(key: int)
    requires 4096 <= key < 0x10000
    ensures |HexDigits(key)| == 4 && Format04xPad(HexDigits(key)) == IosHelper.Hex4(key)
  {
    var m1 := key / 16;
    assert 256 <= m1 < 4096;
    ThreeDigits(m1);
  }

  lemma SmallKeyDigits(key: int)
    requires 0 <= key < 0x10000
    ensures |HexDigits(key)| <= 4 && Format04xPad(HexDigits(key)) == IosHelper.Hex4(key)
  {
    if key < 16 {
      OneDigit(key);
    } else if key < 256 {
      TwoDigits(key);
    } else if key < 4096 {
      ThreeDigits(key);
    } else {
      FourDigits(key);
      ThreeDigits(key / 16);
    }
  }

  /** For a 16-bit company identifier, `%04x` prints the same four digits as
      the iOS helper, and they read back as the identifier. */
  lemma Format04xOfCompanyId(key: Int32)
    requires 0 <= key < 0x10000
    ensures Format04x(key) == IosHelper.Hex4(key)
    ensures IosHelper.ParseHex4(Format04x(key)) == Some(key)
  {
    IosHelper.Hex4RoundTrip(key);
    SmallKeyDigits(key);
    var d := HexDigits(key);
    assert Unsigned(key) == key;
    if |d| < 4 {
      Padding(d);
    }
  }

  /** `SparseArray` indices run in increasing key order. */
  predicate IncreasingKeys(entries: seq<(Int32, Bytes)>) {
    forall i, j :: 0 <= i < j < |entries| ==> entries[i].0 < entries[j].0
  }

  /** The one manufacturer entry the default map reports is the one with
      the smallest company id; every other entry is dropped. */
  lemma ReportedManufacturerIsSmallest(entries: seq<(Int32, Bytes)>)
    requires IncreasingKeys(entries) && entries != []
    ensures var m := ManufacturerOf(Some(entries));
            && |m.data| == 1
            && ReadInt(m.raw[..4]) == entries[0].0
            && forall i :: 0 < i < |entries| ==> ReadInt(m.raw[..4]) < entries[i].0
  {
  }

  // ---------------------------------------------------------------------------
  // Service UUIDs

  /** Every printed service UUID converts back, with `uuidFromString`, to
      the UUID the record holds. */
  lemma ServiceUuidsReadBack(uuids: seq<Uuid>)
    ensures var printed := ServiceUuidStrings(Some(uuids));
            forall i :: 0 <= i < |uuids| ==> FromString(printed[i]) == Some(uuids[i])
  {
    forall i | 0 <= i < |uuids|
      ensures FromString(ServiceUuidStrings(Some(uuids))[i]) == Some(uuids[i])
    {
      LongRoundTrip(uuids[i]);
    }
  }

  /** A service-data map with no null values keeps one entry per entry. */
  lemma {:induction false} ServiceDataWithoutNulls(entries: seq<(Uuid, Option<Bytes>)>)
    requires forall i :: 0 <= i < |entries| ==> entries[i].1.Some?
    ensures var r := ServiceDataEntries(entries);
            |r| == |entries| && forall i :: 0 <= i < |r| ==> r[i] == (ToString(entries[i].0), entries[i].1.value)
    decreases |entries|
  {
    if entries != [] {
      var tail := entries[1..];
      forall i | 0 <= i < |tail| ensures tail[i].1.Some? {
        assert tail[i] == entries[i + 1];
      }
      ServiceDataWithoutNulls(tail);
      var r := ServiceDataEntries(entries);
      forall i | 0 < i < |r|
        ensures r[i] == (ToString(entries[i].0), entries[i].1.value)
      {
        assert r[i] == ServiceDataEntries(tail)[i - 1];
        assert tail[i - 1] == entries[i];
      }
    }
  }

  // ---------------------------------------------------------------------------
  // The two serialisers and updateData

  /** Whenever both serialisers complete, they agree on everything they
      both report: the default map's raw data is the Lollipop map's
      manufacturer data, and the connectable flag and record fields match. */
  lemma SerialisersAgree(h: Held, atLeastO: bool)
    requires DefaultMap(h, atLeastO).Described?
    ensures var d := DefaultMap(h, atLeastO).advertising;
            var l := LollipopMap(h, atLeastO);
            && l.Some?
            && d.rawData == l.value.manufacturerData
            && d.isConnectable == l.value.isConnectable
            && (d.record.Some? <==> l.value.record.Some?)
            && (d.record.Some? ==> d.record.value.0 == l.value.record.value)
  {
  }

  /** A peripheral built from a device alone has no bytes, so neither
      serialiser gets past the exception. */
  lemma DeviceOnlyFallsBack(device: Device, atLeastO: bool)
    ensures DefaultMap(FromDevice(device), atLeastO) == BaseOnly
    ensures LollipopMap(FromDevice(device), atLeastO).None?
  {
  }

  /** After `updateData` with a recorded result, the default map reports
      the new result's bytes, record and connectable flag together; the
      name is the device's, else the new record's. */
  lemma DefaultUpdateReplacesTogether(h: Held, result: PlatformResult, atLeastO: bool)
    requires result.record.Some?
    ensures var u := DefaultUpdate(h, result);
            var m := DefaultMap(u.held, atLeastO);
            && !u.thrown
            && m.Described?
            && m.name == (if h.device.name.Some? then h.device.name else result.record.value.deviceName)
            && m.advertising.rawData == result.record.value.bytes
            && m.advertising.record == Some((FieldsOf(result.record.value), ManufacturerOf(result.record.value.manufacturer)))
            && (atLeastO ==> m.advertising.isConnectable == Some(result.connectable))
  {
  }

  /** A result without a record makes the default `updateData` throw after
      storing it; the next map still reports the old bytes, with no record
      fields, and a nameless device then loses the whole advertising map. */
  lemma DefaultUpdateWithoutRecord(h: Held, result: PlatformResult, atLeastO: bool)
    requires result.record.None? && h.bytes.Some?
    ensures var u := DefaultUpdate(h, result);
            var m := DefaultMap(u.held, atLeastO);
            && u.thrown
            && (h.device.name.None? ==> m == BaseOnly)
            && (h.device.name.Some? ==> m.Described? && m.advertising.rawData == h.bytes.value && m.advertising.record.None?)
  {
  }

  /** The Lollipop map reports the whole advertising payload of the last
      recorded update as its manufacturer data, whatever the record says. */
  lemma LollipopReportsWholePayload(h: Held, result: PlatformResult, atLeastO: bool)
    requires result.record.Some?
    ensures var u := LollipopUpdate(h, result);
            var m := LollipopMap(u.held, atLeastO);
            && m.Some?
            && m.value.manufacturerData == result.record.value.bytes
            && m.value.record == Some(FieldsOf(result.record.value))
  {
  }
}

=== FILE: android_gatt.dfy ===
/** The GATT attribute tables as the Android stack reports them, and the
    lookups the per-peripheral object does on them
    (android/src/main/java/it/innove/Peripheral.java:535-559, 637-654,
    813-834).  Two characteristics of one service may share a UUID, so each
    carries the instance number that tells it apart. */
module AndroidGatt {
  import opened Common
  import opened Flags
  import opened UuidHelper
  import AndroidHelper

  datatype Characteristic = Characteristic(
    uuid: Uuid, instance: nat, properties: bv32, descriptors: seq<Uuid>)

  datatype Service = Service(uuid: Uuid, characteristics: seq<Characteristic>)

  /** `BluetoothGattCharacteristic.WRITE_TYPE_DEFAULT` (acknowledged) and
      `WRITE_TYPE_NO_RESPONSE`, the two write types the bridge passes. */
  datatype WriteType = Default | NoResponse

  /** `BluetoothGatt.getService`: the first service with that UUID. */
  function FindService(services: seq<Service>, uuid: Uuid): (r: Option<Service>)
    ensures r.Some? ==> r.value in services && r.value.uuid == uuid
    ensures r.None? <==> forall s :: s in services ==> s.uuid != uuid
  {
    match FindFirst(services, (s: Service) => s.uuid == uuid)
    case None => None
    case Some(i) => Some(services[i])
  }

  /** The first characteristic with that UUID and every bit of `need` set
      (`need == 0` accepts any properties, as `getCharacteristic` does). */
  function FirstWith(cs: seq<Characteristic>, uuid: Uuid, need: bv32): (r: Option<Characteristic>)
    ensures r.Some? ==> r.value in cs && r.value.uuid == uuid && Has(r.value.properties, need)
    ensures r.None? <==> forall c :: c in cs ==> !(c.uuid == uuid && Has(c.properties, need))
    ensures r.Some? ==> exists i :: 0 <= i < |cs| && cs[i] == r.value &&
                          forall j :: 0 <= j < i ==> !(cs[j].uuid == uuid && Has(cs[j].properties, need))
  {
    match FindFirst(cs, (c: Characteristic) => c.uuid == uuid && Has(c.properties, need))
    case None => None
    case Some(i) => Some(cs[i])
  }

  /** `findNotifyCharacteristic`: a notifying characteristic first, then an
      indicating one, then any with the UUID.  A missing service makes the
      lookup throw, which the method turns into null. */
  function FindNotify(service: Option<Service>, uuid: Uuid): (r: Option<Characteristic>)
    ensures service.None? ==> r.None?
    ensures service.Some? ==> (r.None? <==> forall c :: c in service.value.characteristics ==> c.uuid != uuid)
    ensures r.Some? ==> r.value in service.value.characteristics && r.value.uuid == uuid
    ensures service.Some? && FirstWith(service.value.characteristics, uuid, AndroidHelper.PropertyNotify).Some? ==>
              r == FirstWith(service.value.characteristics, uuid, AndroidHelper.PropertyNotify)
    ensures service.Some? && FirstWith(service.value.characteristics, uuid, AndroidHelper.PropertyNotify).None? &&
            FirstWith(service.value.characteristics, uuid, AndroidHelper.PropertyIndicate).Some? ==>
              r == FirstWith(service.value.characteristics, uuid, AndroidHelper.PropertyIndicate)
  {
    match service
    case None => None
    case Some(s) =>
      var cs := s.characteristics;
      var notify := FirstWith(cs, uuid, AndroidHelper.PropertyNotify);
      var indicate := FirstWith(cs, uuid, AndroidHelper.PropertyIndicate);
      var any := FirstWith(cs, uuid, 0);
      assert forall c :: c in cs ==> Has(c.properties, 0);
      if notify.Some? then notify else if indicate.Some? then indicate else any
  }

  /** `findReadableCharacteristic`: a readable characteristic first, then any
      with the UUID. */
  function FindReadable(service: Option<Service>, uuid: Uuid): (r: Option<Characteristic>)
    ensures service.None? ==> r.None?
    ensures service.Some? ==> (r.None? <==> forall c :: c in service.value.characteristics ==> c.uuid != uuid)
    ensures r.Some? ==> r.value in service.value.characteristics && r.value.uuid == uuid
    ensures service.Some? && FirstWith(service.value.characteristics, uuid, AndroidHelper.PropertyRead).Some? ==>
              r == FirstWith(service.value.characteristics, uuid, AndroidHelper.PropertyRead)
  {
    match service
    case None => None
    case Some(s) =>
      var cs := s.characteristics;
      var readable := FirstWith(cs, uuid, AndroidHelper.PropertyRead);
      assert forall c :: c in cs ==> Has(c.properties, 0);
      if readable.Some? then readable else FirstWith(cs, uuid, 0)
  }

  /** The property a write of the given type looks for. */
  function WriteProperty(writeType: WriteType): bv32 {
    match writeType
    case Default => AndroidHelper.PropertyWrite
    case NoResponse => AndroidHelper.PropertyWriteNoResponse
  }

  /** `findWritableCharacteristic`: one with the write property matching the
      write type first, then any with the UUID. */
  function FindWritable(service: Option<Service>, uuid: Uuid, writeType: WriteType): (r: Option<Characteristic>)
    ensures service.None? ==> r.None?
    ensures service.Some? ==> (r.None? <==> forall c :: c in service.value.characteristics ==> c.uuid != uuid)
    ensures r.Some? ==> r.value in service.value.characteristics && r.value.uuid == uuid
    ensures service.Some? && FirstWith(service.value.characteristics, uuid, WriteProperty(writeType)).Some? ==>
              r == FirstWith(service.value.characteristics, uuid, WriteProperty(writeType))
  {
    match service
    case None => None
    case Some(s) =>
      var cs := s.characteristics;
      var writable := FirstWith(cs, uuid, WriteProperty(writeType));
      assert forall c :: c in cs ==> Has(c.properties, 0);
      if writable.Some? then writable else FirstWith(cs, uuid, 0)
  }

  /** When no characteristic has the wanted property, each lookup falls back
      to the first characteristic with the UUID. */
  lemma LookupsFallBackToAnyWithUuid(s: Service, uuid: Uuid, writeType: WriteType)
    ensures FirstWith(s.characteristics, uuid, AndroidHelper.PropertyNotify).None? &&
            FirstWith(s.characteristics, uuid, AndroidHelper.PropertyIndicate).None? ==>
              FindNotify(Some(s), uuid) == FirstWith(s.characteristics, uuid, 0)
    ensures FirstWith(s.characteristics, uuid, AndroidHelper.PropertyRead).None? ==>
              FindReadable(Some(s), uuid) == FirstWith(s.characteristics, uuid, 0)
    ensures FirstWith(s.characteristics, uuid, WriteProperty(writeType)).None? ==>
              FindWritable(Some(s), uuid, writeType) == FirstWith(s.characteristics, uuid, 0)
  {
  }

  /** The Client Characteristic Configuration descriptor, 0x2902 (section
      3.3.3.3 of Bluetooth Core Specification Vol 3 Part G), as the text the
      source holds (Peripheral.java:44) and as a UUID. */
  const CccdText: string := "00002902-0000-1000-8000-00805f9b34fb"

  lemma CccdTextIsCanonical()
    ensures IsCanonicalShape(CccdText)
  {
  }

  function Cccd(): Uuid {
    CccdTextIsCanonical();
    Parse(CccdText).value
  }

  /** The constant text is the 16-bit UUID 2902 in the Bluetooth Base, and
      prints back in its short form. */
  lemma CccdIsShortUuid()
    ensures FromString(CccdText) == Some(Cccd())
    ensures FromString("2902") == Some(Cccd())
    ensures ToString(Cccd()) == "2902"
  {
    CccdParses();
    CccdFilled();
    ShortRoundTrip("2902");
    LowerIdentity("2902");
  }

  lemma CccdParses()
    ensures |CccdText| != 4 && Parse(CccdText) == Some(Cccd())
  {
    CccdTextIsCanonical();
  }

  lemma CccdFilled()
    ensures FillBase("2902") == CccdText
  {
    assert "0000" + "2902" == "00002902";
    assert CccdText == "00002902" + BaseTail;
  }

  // The descriptor values of `BluetoothGattDescriptor`: bit 0 of the
  // configuration enables notifications, bit 1 indications, little-endian.
  const EnableNotificationValue: Bytes := [0x01, 0x00]
  const EnableIndicationValue: Bytes := [0x02, 0x00]
  const DisableNotificationValue: Bytes := [0x00, 0x00]

  /** The configuration value `setNotify` puts into the descriptor:
      notifications are preferred over indications; turning either off writes
      the disable value; without either property no value is set. */
  function CccdValue(properties: bv32, enable: bool): (r: Option<Bytes>)
    ensures Has(properties, AndroidHelper.PropertyNotify) ==>
              r == Some(if enable then EnableNotificationValue else DisableNotificationValue)
    ensures !Has(properties, AndroidHelper.PropertyNotify) && Has(properties, AndroidHelper.PropertyIndicate) ==>
              r == Some(if enable then EnableIndicationValue else DisableNotificationValue)
    ensures r.None? <==> !Has(properties, AndroidHelper.PropertyNotify) && !Has(properties, AndroidHelper.PropertyIndicate)
  {
    if properties & AndroidHelper.PropertyNotify != 0 then
      Some(if enable then EnableNotificationValue else DisableNotificationValue)
    else if properties & AndroidHelper.PropertyIndicate != 0 then
      Some(if enable then EnableIndicationValue else DisableNotificationValue)
    else None
  }

  /** Read as a little-endian 16-bit configuration, an enabling value sets
      exactly one of the two bits, and the disable value sets neither. */
  lemma CccdValueBits(properties: bv32, enable: bool)
    requires CccdValue(properties, enable).Some?
    ensures var v := CccdValue(properties, enable).value;
            var config := v[0] as int + 256 * v[1] as int;
            && |v| == 2
            && (enable <==> config == 1 || config == 2)
            && (config == 1 <==> enable && Has(properties, AndroidHelper.PropertyNotify))
  {
  }
}

=== FILE: android_helper.dfy ===
/** The decoders of android/src/main/java/it/innove/Helper.java: the
    characteristic properties and the characteristic and descriptor
    permissions, each as a dictionary naming the flags that are set.  The
    property names are those the iOS decoder reports. */
module AndroidHelper {
  import opened Flags
  import IosHelper

  // `BluetoothGattCharacteristic.PROPERTY_*`, the property bits of section
  // 3.3.1.1 of Bluetooth Core Specification Vol 3 Part G.
  const PropertyBroadcast: bv32 := 0x01
  const PropertyRead: bv32 := 0x02
  const PropertyWriteNoResponse: bv32 := 0x04
  const PropertyWrite: bv32 := 0x08
  const PropertyNotify: bv32 := 0x10
  const PropertyIndicate: bv32 := 0x20
  const PropertySignedWrite: bv32 := 0x40
  const PropertyExtendedProps: bv32 := 0x80

  /** The names `decodeProperties` can report, in the order it tests them;
      the signed-write bit carries the iOS name. */
  const PropertyNames: seq<string> := [
    "Broadcast", "Read", "WriteWithoutResponse", "Write", "Notify", "Indicate",
    "AuthenticateSignedWrites", "ExtendedProperties"]

  const PropertyBits: seq<bv32> := [
    PropertyBroadcast, PropertyRead, PropertyWriteNoResponse, PropertyWrite,
    PropertyNotify, PropertyIndicate, PropertySignedWrite, PropertyExtendedProps]

  lemma IosOnlyNamesUnlisted()
    ensures "NotifyEncryptionRequired" !in PropertyNames && "IndicateEncryptionRequired" !in PropertyNames
  {
  }

  lemma PropertyNamesDistinct()
    ensures Distinct(PropertyNames)
  {
  }

  lemma PermissionNamesDistinct()
    ensures Distinct(PermissionNames)
  {
  }

  /** `decodeProperties`: one entry, valued by its name, per set property bit. */
  function DecodeProperties(properties: bv32): (r: map<string, string>)
    ensures forall k :: k in r ==> r[k] == k
    ensures forall i :: 0 <= i < |PropertyNames| ==> (PropertyNames[i] in r <==> Has(properties, PropertyBits[i]))
    ensures forall k :: k !in PropertyNames ==> k !in r
    ensures "NotifyEncryptionRequired" !in r && "IndicateEncryptionRequired" !in r
  {
    var r := Decode(PropertyNames, PropertyBits, properties);
    PropertyNamesDistinct();
    forall i | 0 <= i < |PropertyNames|
      ensures PropertyNames[i] in r <==> Has(properties, PropertyBits[i])
    {
      DecodeNamesEachSetFlag(PropertyNames, PropertyBits, properties, i);
    }
    forall k | k !in PropertyNames
      ensures k !in r
    {
      DecodeOnlyListedNames(PropertyNames, PropertyBits, properties, k);
    }
    IosOnlyNamesUnlisted();
    r
  }

  /** For any property mask without the two iOS-only encryption bits, the
      Android decoder reports exactly what the iOS decoder reports. */
  lemma PropertiesAgreeWithIos(properties: bv32)
    requires properties & (IosHelper.NotifyEncryptionRequired | IosHelper.IndicateEncryptionRequired) == 0
    ensures DecodeProperties(properties) == IosHelper.DecodeProperties(properties)
  {
    assert IosHelper.PropertyNames[..8] == PropertyNames && IosHelper.PropertyBits[..8] == PropertyBits;
    DecodeIgnoresClearTail(IosHelper.PropertyNames, IosHelper.PropertyBits, properties, 0, 8);
  }

  // `BluetoothGattCharacteristic.PERMISSION_*`.
  const CharacteristicRead: bv32 := 0x01
  const CharacteristicReadEncrypted: bv32 := 0x02
  const CharacteristicReadEncryptedMitm: bv32 := 0x04
  const CharacteristicWrite: bv32 := 0x10
  const CharacteristicWriteEncrypted: bv32 := 0x20
  const CharacteristicWriteEncryptedMitm: bv32 := 0x40
  const CharacteristicWriteSigned: bv32 := 0x80
  const CharacteristicWriteSignedMitm: bv32 := 0x100

  // `BluetoothGattDescriptor.PERMISSION_*`.
  const DescriptorRead: bv32 := 0x01
  const DescriptorReadEncrypted: bv32 := 0x02
  const DescriptorReadEncryptedMitm: bv32 := 0x04
  const DescriptorWrite: bv32 := 0x10
  const DescriptorWriteEncrypted: bv32 := 0x20
  const DescriptorWriteEncryptedMitm: bv32 := 0x40
  const DescriptorWriteSigned: bv32 := 0x80
  const DescriptorWriteSignedMitm: bv32 := 0x100

  /** The names both permission decoders report, in the order they test them. */
  const PermissionNames: seq<string> := [
    "Read", "Write", "ReadEncrypted", "WriteEncrypted", "ReadEncryptedMITM",
    "WriteEncryptedMITM", "WriteSigned", "WriteSignedMITM"]

  const CharacteristicPermissionBits: seq<bv32> := [
    CharacteristicRead, CharacteristicWrite, CharacteristicReadEncrypted,
    CharacteristicWriteEncrypted, CharacteristicReadEncryptedMitm,
    CharacteristicWriteEncryptedMitm, CharacteristicWriteSigned, CharacteristicWriteSignedMitm]

  const DescriptorPermissionBits: seq<bv32> := [
    DescriptorRead, DescriptorWrite, DescriptorReadEncrypted,
    DescriptorWriteEncrypted, DescriptorReadEncryptedMitm,
    DescriptorWriteEncryptedMitm, DescriptorWriteSigned, DescriptorWriteSignedMitm]

  /** `decodePermissions(BluetoothGattCharacteristic)`. */
  function DecodeCharacteristicPermissions(permissions: bv32): (r: map<string, string>)
    ensures forall k :: k in r ==> r[k] == k
    ensures forall i :: 0 <= i < |PermissionNames| ==>
              (PermissionNames[i] in r <==> Has(permissions, CharacteristicPermissionBits[i]))
    ensures forall k :: k !in PermissionNames ==> k !in r
  {
    var r := Decode(PermissionNames, CharacteristicPermissionBits, permissions);
    PermissionNamesDistinct();
    forall i | 0 <= i < |PermissionNames|
      ensures PermissionNames[i] in r <==> Has(permissions, CharacteristicPermissionBits[i])
    {
      DecodeNamesEachSetFlag(PermissionNames, CharacteristicPermissionBits, permissions, i);
    }
    forall k | k !in PermissionNames
      ensures k !in r
    {
      DecodeOnlyListedNames(PermissionNames, CharacteristicPermissionBits, permissions, k);
    }
    r
  }

  /** `decodePermissions(BluetoothGattDescriptor)`. */
  function DecodeDescriptorPermissions(permissions: bv32): (r: map<string, string>)
    ensures forall k :: k in r ==> r[k] == k
    ensures forall i :: 0 <= i < |PermissionNames| ==>
              (PermissionNames[i] in r <==> Has(permissions, DescriptorPermissionBits[i]))
    ensures forall k :: k !in PermissionNames ==> k !in r
  {
    var r := Decode(PermissionNames, DescriptorPermissionBits, permissions);
    PermissionNamesDistinct();
    forall i | 0 <= i < |PermissionNames|
      ensures PermissionNames[i] in r <==> Has(permissions, DescriptorPermissionBits[i])
    {
      DecodeNamesEachSetFlag(PermissionNames, DescriptorPermissionBits, permissions, i);
    }
    forall k | k !in PermissionNames
      ensures k !in r
    {
      DecodeOnlyListedNames(PermissionNames, DescriptorPermissionBits, permissions, k);
    }
    r
  }

  /** The two permission decoders give the same names for the same mask. */
  lemma PermissionDecodersAgree(permissions: bv32)
    ensures DecodeCharacteristicPermissions(permissions) == DecodeDescriptorPermissions(permissions)
  {
    assert CharacteristicPermissionBits == DescriptorPermissionBits;
  }
}

=== FILE: android_manager.dfy ===
/** The Android bridge module (android/src/main/java/it/innove/BleManager.java):
    the registry of known peripherals, keyed by address in insertion order
    like the `LinkedHashMap` it is, the scan entry points and their
    callbacks, the dispatch of commands to the peripheral objects, and the
    adapter state reports. */
module AndroidManager {
  import opened Common
  import opened Hex
  import opened UuidHelper
  import opened AndroidGatt
  import AndroidPeripheral

  type Peripheral = AndroidPeripheral.Peripheral

  /** One entry of the registry. */
  datatype Entry = Entry(key: string, peripheral: Peripheral)

  type Registry = seq<Entry>

  predicate UniqueKeys(reg: Registry) {
    forall i, j :: 0 <= i < j < |reg| ==> reg[i].key != reg[j].key
  }

  function Position(reg: Registry, key: string): (r: Option<nat>)
    ensures r.Some? ==> r.value < |reg| && reg[r.value].key == key
    ensures r.None? <==> forall i :: 0 <= i < |reg| ==> reg[i].key != key
  {
    FindFirst(reg, (e: Entry) => e.key == key)
  }

  /** `Map.get`. */
  function Get(reg: Registry, key: string): (r: Option<Peripheral>)
    ensures r.Some? ==> Entry(key, r.value) in reg
    ensures r.None? <==> forall i :: 0 <= i < |reg| ==> reg[i].key != key
  {
    match Position(reg, key)
    case Some(i) => Some(reg[i].peripheral)
    case None => None
  }

  /** Two registries that agree on which positions hold `key` (the longer
      one holding it nowhere past the shorter) find it at the same place. */
  lemma PositionAgrees(xs: Registry, ys: Registry, key: string)
    requires |xs| <= |ys|
    requires forall i :: 0 <= i < |xs| ==> (xs[i].key == key <==> ys[i].key == key)
    requires forall i :: |xs| <= i < |ys| ==> ys[i].key != key
    ensures Position(xs, key) == Position(ys, key)
  {
  }

  /** `Map.put`: a present key keeps its place and takes the new value; a
      new key goes to the end. */
  function Put(reg: Registry, key: string, p: Peripheral): (r: Registry)
    ensures Get(r, key) == Some(p)
    ensures forall k :: k != key ==> Get(r, k) == Get(reg, k)
    ensures Get(reg, key).Some? ==> |r| == |reg| && forall i :: 0 <= i < |reg| ==> r[i].key == reg[i].key
    ensures Get(reg, key).None? ==> r == reg + [Entry(key, p)]
    ensures UniqueKeys(reg) ==> UniqueKeys(r)
  {
    match Position(reg, key)
    case Some(i) =>
      var r := reg[i := Entry(key, p)];
      PositionAgrees(reg, r, key);
      forall k | k != key
        ensures Get(r, k) == Get(reg, k)
      {
        PositionAgrees(reg, r, k);
      }
      r
    case None =>
      var r := reg + [Entry(key, p)];
      forall k | k != key
        ensures Get(r, k) == Get(reg, k)
      {
        PositionAgrees(reg, r, k);
      }
      assert r[|reg|].key == key;
      r
  }

  /** The sweep at the start of `scan`: peripherals that are not connected
      leave the registry, connected ones stay, in their order. */
  function KeepConnected(reg: Registry): (r: Registry)
    ensures forall e :: e in r <==> e in reg && e.peripheral.connected
    ensures UniqueKeys(reg) ==> UniqueKeys(r)
    decreases |reg|
  {
    if reg == [] then []
    else
      var rest := KeepConnected(reg[1..]);
      assert forall e :: e in reg <==> e == reg[0] || e in reg[1..];
      if reg[0].peripheral.connected then [reg[0]] + rest else rest
  }

  // ---------------------------------------------------------------------------
  // Effects

  datatype Refusal =
    | NoBluetoothSupport
    | BluetoothNotEnabled
    | InvalidPeripheralUuid
    | PeripheralNotFound
    | ActivityNotAvailable
    | UserRefusedToEnable
  {
    function Text(): string {
      match this
      case NoBluetoothSupport => "No bluetooth support"
      case BluetoothNotEnabled => "Bluetooth not enabled"
      case InvalidPeripheralUuid => "Invalid peripheral uuid"
      case PeripheralNotFound => "Peripheral not found"
      case ActivityNotAvailable => "Current activity not available"
      case UserRefusedToEnable => "User refused to enable"
    }
  }

  datatype Reply = Done | Refused(refusal: Refusal) | Peripherals(keys: seq<string>)

  datatype Event = DiscoverPeripheral(address: string) | StopScanEvent | DidUpdateState(state: string)

  /** Which `ScanCallback` object a Lollipop stop request names: the one the
      scan registered, or one created on the spot. */
  datatype ScanCallbackRef = ScanOwnCallback | FreshCallback

  datatype ScannerRequest =
    | StartLeScanner(filters: seq<Uuid>)
    | StopLeScanner(callback: ScanCallbackRef)
    | StartLeScan
    | StopLeScan
    | ArmTimer(seconds: int)
    | RegisterStateReceiver
    | AskUserToEnable

  datatype Effect =
    | Invoke(cb: Cb, reply: Reply)
    | Emit(event: Event)
    | Scanner(request: ScannerRequest)
    | OnPeripheral(key: string, effect: AndroidPeripheral.Effect)
    | Thrown

  /** The module's state: the registry and the pending enable callback. */
  datatype Manager = Manager(registry: Registry, enableCallback: Option<Cb>)

  datatype Step = Step(next: Manager, effects: seq<Effect>)

  /** What the adapter looks like to the module. */
  datatype Adapter = Missing | Disabled | Enabled

  // ---------------------------------------------------------------------------
  // Adapter

  /** `start` (BleManager.java:78-89). */
  function Start(m: Manager, adapter: Adapter, cb: Cb): (r: Step)
    ensures r.next == m
    ensures adapter == Missing <==> r.effects == [Invoke(cb, Refused(NoBluetoothSupport))]
    ensures adapter != Missing ==> r.effects == [Scanner(RegisterStateReceiver), Invoke(cb, Done)]
  {
    if adapter == Missing then Step(m, [Invoke(cb, Refused(NoBluetoothSupport))])
    else Step(m, [Scanner(RegisterStateReceiver), Invoke(cb, Done)])
  }

  /** `ENABLE_REQUEST` and `Activity.RESULT_OK`. */
  const EnableRequest: int := 1
  const ResultOk: int := -1

  /** `enableBluetooth` (BleManager.java:92-107).  On a disabled adapter the
      callback is kept for the activity result, even when there is no
      activity to ask the user from. */
  function EnableBluetooth(m: Manager, adapter: Adapter, hasActivity: bool, cb: Cb): (r: Step)
    ensures adapter != Disabled ==> r.next == m
    ensures adapter == Missing ==> r.effects == [Invoke(cb, Refused(NoBluetoothSupport))]
    ensures adapter == Enabled ==> r.effects == [Invoke(cb, Done)]
    ensures adapter == Disabled ==> r.next == m.(enableCallback := Some(cb))
    ensures adapter == Disabled ==>
              r.effects == [if hasActivity then Scanner(AskUserToEnable) else Invoke(cb, Refused(ActivityNotAvailable))]
  {
    match adapter
    case Missing => Step(m, [Invoke(cb, Refused(NoBluetoothSupport))])
    case Enabled => Step(m, [Invoke(cb, Done)])
    case Disabled =>
      Step(m.(enableCallback := Some(cb)),
           [if hasActivity then Scanner(AskUserToEnable) else Invoke(cb, Refused(ActivityNotAvailable))])
  }

  /** `onActivityResult` (BleManager.java:552-562). */
  function ActivityResult(m: Manager, requestCode: int, resultCode: int): (r: Step)
    ensures requestCode != EnableRequest || m.enableCallback.None? ==> r == Step(m, [])
    ensures requestCode == EnableRequest && m.enableCallback.Some? ==>
              && r.next == m.(enableCallback := None)
              && r.effects == [Invoke(m.enableCallback.value, if resultCode == ResultOk then Done else Refused(UserRefusedToEnable))]
  {
    if requestCode == EnableRequest && m.enableCallback.Some? then
      Step(m.(enableCallback := None),
           [Invoke(m.enableCallback.value, if resultCode == ResultOk then Done else Refused(UserRefusedToEnable))])
    else Step(m, [])
  }

  // `BluetoothAdapter.STATE_*`.
  const StateOff: int := 10
  const StateTurningOn: int := 11
  const StateOn: int := 12
  const StateTurningOff: int := 13

  /** `checkState` (BleManager.java:434-453): "on" for `STATE_ON`, "off" for
      everything else, including a missing adapter. */
  function CheckState(adapterState: Option<int>): (r: string)
    ensures r == "on" <==> adapterState == Some(StateOn)
    ensures r != "on" ==> r == "off"
  {
    if adapterState == Some(StateOn) then "on" else "off"
  }

  /** The state receiver (BleManager.java:455-486): the four adapter states
      by name, and "" for anything else or another action. */
  function ReceiverState(stateChanged: bool, state: int): (r: string)
    ensures !stateChanged ==> r == ""
    ensures stateChanged && state == StateOff <==> r == "off"
    ensures stateChanged && state == StateTurningOff <==> r == "turning_off"
    ensures stateChanged && state == StateOn <==> r == "on"
    ensures stateChanged && state == StateTurningOn <==> r == "turning_on"
    ensures r == "" <==> !stateChanged || state !in {StateOff, StateTurningOff, StateOn, StateTurningOn}
  {
    if !stateChanged then ""
    else if state == StateOff then "off"
    else if state == StateTurningOff then "turning_off"
    else if state == StateOn then "on"
    else if state == StateTurningOn then "turning_on"
    else ""
  }

  // ---------------------------------------------------------------------------
  // Scanning

  /** Each text through `uuidFromString`; `None` when one of them throws. */
  function ParseAll(texts: seq<string>): (r: Option<seq<Uuid>>)
    ensures r.Some? <==> forall i :: 0 <= i < |texts| ==> FromString(texts[i]).Some?
    ensures r.Some? ==>
              (|r.value| == |texts| && forall i :: 0 <= i < |texts| ==> Some(r.value[i]) == FromString(texts[i]))
    decreases |texts|
  {
    if texts == [] then Some([])
    else
      var head := FromString(texts[0]);
      var rest := ParseAll(texts[1..]);
      if head.Some? && rest.Some? then Some([head.value] + rest.value) else None
  }

  /** `scan` (BleManager.java:110-132, 135-218, 220-248).  With the adapter
      disabled it returns without answering.  Otherwise it sweeps the
      registry, starts the scanner (one service filter per UUID on
      Lollipop and later, none before), arms the timer when asked, and
      answers.  A malformed UUID throws after the sweep. */
  function Scan(m: Manager, adapter: Adapter, lollipop: bool, serviceUuids: seq<string>,
                scanSeconds: int, cb: Cb): (r: Step)
    ensures adapter == Missing ==> r == Step(m, [Invoke(cb, Refused(NoBluetoothSupport))])
    ensures adapter == Disabled ==> r == Step(m, [])
    ensures adapter == Enabled ==> r.next == m.(registry := KeepConnected(m.registry))
    ensures adapter == Enabled && lollipop && ParseAll(serviceUuids).None? ==> r.effects == [Thrown]
    ensures adapter == Enabled && (!lollipop || ParseAll(serviceUuids).Some?) ==>
              && |r.effects| >= 2 && r.effects[|r.effects| - 1] == Invoke(cb, Done)
              && r.effects[0] == Scanner(if lollipop then StartLeScanner(ParseAll(serviceUuids).value) else StartLeScan)
              && (Scanner(ArmTimer(scanSeconds)) in r.effects <==> scanSeconds > 0)
  {
    match adapter
    case Missing => Step(m, [Invoke(cb, Refused(NoBluetoothSupport))])
    case Disabled => Step(m, [])
    case Enabled =>
      var swept := m.(registry := KeepConnected(m.registry));
      var timer := if scanSeconds > 0 then [Scanner(ArmTimer(scanSeconds))] else [];
      if !lollipop then Step(swept, [Scanner(StartLeScan)] + timer + [Invoke(cb, Done)])
      else match ParseAll(serviceUuids)
        case None => Step(swept, [Thrown])
        case Some(filters) => Step(swept, [Scanner(StartLeScanner(filters))] + timer + [Invoke(cb, Done)])
  }

  /** The timer of a timed scan (BleManager.java:193-215, 223-245): it stops
      the scan it belongs to and reports the stop, whatever has happened
      since. */
  function ScanTimerFired(m: Manager, lollipop: bool): (r: Step)
    ensures r.next == m
    ensures Emit(StopScanEvent) in r.effects
    ensures r.effects[0] == Scanner(if lollipop then StopLeScanner(ScanOwnCallback) else StopLeScan)
  {
    Step(m, [Scanner(if lollipop then StopLeScanner(ScanOwnCallback) else StopLeScan), Emit(StopScanEvent)])
  }

  /** `stopScan` (BleManager.java:252-288).  On Lollipop and later the stop
      request names a callback object made for the occasion, not the one
      the scan registered. */
  function StopScan(m: Manager, adapter: Adapter, lollipop: bool, cb: Cb): (r: Step)
    ensures r.next == m
    ensures adapter == Missing ==> r.effects == [Invoke(cb, Refused(NoBluetoothSupport))]
    ensures adapter == Disabled ==> r.effects == [Invoke(cb, Refused(BluetoothNotEnabled))]
    ensures adapter == Enabled ==>
              r.effects == [Scanner(if lollipop then StopLeScanner(FreshCallback) else StopLeScan), Invoke(cb, Done)]
  {
    match adapter
    case Missing => Step(m, [Invoke(cb, Refused(NoBluetoothSupport))])
    case Disabled => Step(m, [Invoke(cb, Refused(BluetoothNotEnabled))])
    case Enabled => Step(m, [Scanner(if lollipop then StopLeScanner(FreshCallback) else StopLeScan), Invoke(cb, Done)])
  }

  /** The scan callbacks (BleManager.java:150-180, 398-428): an unknown
      address is registered and reported; a known one only has its RSSI
      refreshed, silently. */
  function Discover(m: Manager, address: string, rssi: int, advertising: Bytes): (r: Step)
    ensures Get(m.registry, address).None? ==>
              && r.next.registry == m.registry + [Entry(address, AndroidPeripheral.Discovered(address, rssi, advertising))]
              && r.effects == [Emit(DiscoverPeripheral(address))]
    ensures Get(m.registry, address).Some? ==>
              && r.effects == []
              && Get(r.next.registry, address) == Some(Get(m.registry, address).value.(rssi := rssi))
              && |r.next.registry| == |m.registry|
    ensures forall k :: k != address ==> Get(r.next.registry, k) == Get(m.registry, k)
    ensures UniqueKeys(m.registry) ==> UniqueKeys(r.next.registry)
    ensures r.next.enableCallback == m.enableCallback
  {
    match Get(m.registry, address)
    case None =>
      Step(m.(registry := Put(m.registry, address, AndroidPeripheral.Discovered(address, rssi, advertising))),
           [Emit(DiscoverPeripheral(address))])
    case Some(p) => Step(m.(registry := Put(m.registry, address, p.(rssi := rssi))), [])
  }

  // ---------------------------------------------------------------------------
  // Connection and commands

  /** `BluetoothAdapter.checkBluetoothAddress`: six octets of two upper-case
      hexadecimal digits, separated by colons. */
  predicate ValidAddress(s: string) {
    && |s| == 17
    && forall i :: 0 <= i < 17 ==>
         if i % 3 == 2 then s[i] == ':' else '0' <= s[i] <= '9' || 'A' <= s[i] <= 'F'
  }

  /** The peripheral effects, as seen from the module. */
  function Lift(key: string, effects: seq<AndroidPeripheral.Effect>): (r: seq<Effect>)
    ensures |r| == |effects|
    ensures forall i :: 0 <= i < |effects| ==> r[i] == OnPeripheral(key, effects[i])
  {
    seq(|effects|, i requires 0 <= i < |effects| => OnPeripheral(key, effects[i]))
  }

  /** Runs a step of the peripheral under `key` and stores its result. */
  function Run(m: Manager, key: string, s: AndroidPeripheral.Step, before: seq<Effect>, after: seq<Effect>): (r: Step)
    ensures Get(r.next.registry, key) == Some(s.next)
    ensures forall k :: k != key ==> Get(r.next.registry, k) == Get(m.registry, k)
    ensures UniqueKeys(m.registry) ==> UniqueKeys(r.next.registry)
    ensures r.next.enableCallback == m.enableCallback
    ensures r.effects == before + Lift(key, s.effects) + after
  {
    Step(m.(registry := Put(m.registry, key, s.next)), before + Lift(key, s.effects) + after)
  }

  /** A peripheral as `connect` creates it for an address never scanned. */
  function Unscanned(address: string): Peripheral {
    AndroidPeripheral.Peripheral(address, 0, [], false, false, map[], [])
  }

  /** `connect` as written (BleManager.java:291-309): the id is looked up as
      given; when that fails it is upper-cased and, if it is a valid
      address, a new peripheral is put under it, replacing whatever was
      registered there. */
  function ConnectAsWritten(m: Manager, id: string, cb: Cb, hasClient: bool): (r: Step)
    ensures Get(m.registry, id).Some? ==>
              r == Run(m, id, AndroidPeripheral.Connect(Get(m.registry, id).value, cb, hasClient), [], [])
    ensures Get(m.registry, id).None? && ValidAddress(Upper(id)) ==>
              r == Run(m, Upper(id), AndroidPeripheral.Connect(Unscanned(Upper(id)), cb, hasClient), [], [])
    ensures Get(m.registry, id).None? && !ValidAddress(Upper(id)) ==>
              r == Step(m, [Invoke(cb, Refused(InvalidPeripheralUuid))])
  {
    match Get(m.registry, id)
    case Some(p) => Run(m, id, AndroidPeripheral.Connect(p, cb, hasClient), [], [])
    case None =>
      var key := Upper(id);
      if ValidAddress(key) then Run(m, key, AndroidPeripheral.Connect(Unscanned(key), cb, hasClient), [], [])
      else Step(m, [Invoke(cb, Refused(InvalidPeripheralUuid))])
  }

  /** `connect` with the upper-cased id looked up before a new peripheral is
      made, so that a registered peripheral is never replaced. */
  function Connect(m: Manager, id: string, cb: Cb, hasClient: bool): (r: Step)
    ensures Get(m.registry, id).Some? ==>
              r == Run(m, id, AndroidPeripheral.Connect(Get(m.registry, id).value, cb, hasClient), [], [])
    ensures Get(m.registry, id).None? && Get(m.registry, Upper(id)).Some? ==>
              r == Run(m, Upper(id), AndroidPeripheral.Connect(Get(m.registry, Upper(id)).value, cb, hasClient), [], [])
    ensures Get(m.registry, id).None? && Get(m.registry, Upper(id)).None? ==> r == ConnectAsWritten(m, id, cb, hasClient)
  {
    match Get(m.registry, id)
    case Some(p) => Run(m, id, AndroidPeripheral.Connect(p, cb, hasClient), [], [])
    case None =>
      var key := Upper(id);
      match Get(m.registry, key)
      case Some(p) => Run(m, key, AndroidPeripheral.Connect(p, cb, hasClient), [], [])
      case None => ConnectAsWritten(m, id, cb, hasClient)
  }

  /** The commands the module passes on to a registered peripheral. */
  datatype Command =
    | DisconnectCommand
    | NotifyCommand(service: string, characteristic: string, enable: bool)
    | WriteCommand(service: string, characteristic: string, data: Bytes, maxByteSize: int, writeType: WriteType)
    | ReadCommand(service: string, characteristic: string)
    | ReadRssiCommand

  /** What the platform answers while a command runs: the discovered
      services and the results of the `BluetoothGatt` calls. */
  datatype Platform = Platform(
    services: seq<Service>, accepted: bool, registered: bool, written: bool, refusedAt: Option<nat>)

  /** A command on one peripheral, as the shipped `Peripheral` carries it
      out; `None` when `uuidFromString` throws on one of its UUIDs. */
  function Perform(p: Peripheral, command: Command, platform: Platform, cb: Cb): (r: Option<AndroidPeripheral.Step>)
    ensures command.DisconnectCommand? ==>
              r == Some(AndroidPeripheral.Step(AndroidPeripheral.Disconnect(p).next,
                                               AndroidPeripheral.Disconnect(p).effects + [AndroidPeripheral.Invoke(cb, AndroidPeripheral.Ok)]))
    ensures command.ReadRssiCommand? ==> r == Some(AndroidPeripheral.ReadRssiAsWritten(p, cb, platform.accepted))
    ensures !command.DisconnectCommand? && !command.ReadRssiCommand? ==>
              (r.None? <==> FromString(command.service).None? || FromString(command.characteristic).None?)
    ensures command.WriteCommand? && r.Some? ==>
              r.value == AndroidPeripheral.WriteAsWritten(p, platform.services, FromString(command.service).value,
                           FromString(command.characteristic).value, command.data, command.maxByteSize, cb,
                           command.writeType, platform.refusedAt)
    ensures command.NotifyCommand? && r.Some? ==>
              r.value == AndroidPeripheral.SetNotify(p, platform.services, FromString(command.service).value,
                           FromString(command.characteristic).value, command.enable, cb,
                           platform.registered, platform.written)
    ensures command.ReadCommand? && r.Some? ==>
              r.value == AndroidPeripheral.Read(p, platform.services, FromString(command.service).value,
                           FromString(command.characteristic).value, cb, platform.accepted)
  {
    match command
    case ReadRssiCommand => Some(AndroidPeripheral.ReadRssiAsWritten(p, cb, platform.accepted))
    case WriteCommand(service, characteristic, data, maxByteSize, writeType) =>
      if FromString(service).None? || FromString(characteristic).None? then None
      else Some(AndroidPeripheral.WriteAsWritten(p, platform.services, FromString(service).value,
                  FromString(characteristic).value, data, maxByteSize, cb, writeType, platform.refusedAt))
    case _ => PerformShared(p, command, platform, cb)
  }

  /** A command on one peripheral with the corrected `readRSSI` (answered
      once) and `write` (refused once). */
  function PerformCorrected(p: Peripheral, command: Command, platform: Platform, cb: Cb): (r: Option<AndroidPeripheral.Step>)
    ensures command.ReadRssiCommand? ==> r == Some(AndroidPeripheral.ReadRssi(p, cb, platform.accepted))
    ensures command.WriteCommand? ==>
              (r.None? <==> FromString(command.service).None? || FromString(command.characteristic).None?)
    ensures command.WriteCommand? && r.Some? ==>
              r.value == AndroidPeripheral.Write(p, platform.services, FromString(command.service).value,
                           FromString(command.characteristic).value, command.data, command.maxByteSize, cb,
                           command.writeType, platform.refusedAt)
    ensures !command.ReadRssiCommand? && !command.WriteCommand? ==> r == Perform(p, command, platform, cb)
  {
    match command
    case ReadRssiCommand => Some(AndroidPeripheral.ReadRssi(p, cb, platform.accepted))
    case WriteCommand(service, characteristic, data, maxByteSize, writeType) =>
      if FromString(service).None? || FromString(characteristic).None? then None
      else Some(AndroidPeripheral.Write(p, platform.services, FromString(service).value,
                  FromString(characteristic).value, data, maxByteSize, cb, writeType, platform.refusedAt))
    case _ => PerformShared(p, command, platform, cb)
  }

  /** The commands both versions carry out alike: `disconnect`, the
      notification switches and `read`. */
  function PerformShared(p: Peripheral, command: Command, platform: Platform, cb: Cb): Option<AndroidPeripheral.Step>
    requires !command.ReadRssiCommand? && !command.WriteCommand?
  {
    match command
    case DisconnectCommand =>
      var d := AndroidPeripheral.Disconnect(p);
      Some(AndroidPeripheral.Step(d.next, d.effects + [AndroidPeripheral.Invoke(cb, AndroidPeripheral.Ok)]))
    case NotifyCommand(service, characteristic, enable) =>
      if FromString(service).None? || FromString(characteristic).None? then None
      else Some(AndroidPeripheral.SetNotify(p, platform.services, FromString(service).value,
                  FromString(characteristic).value, enable, cb, platform.registered, platform.written))
    case ReadCommand(service, characteristic) =>
      if FromString(service).None? || FromString(characteristic).None? then None
      else Some(AndroidPeripheral.Read(p, platform.services, FromString(service).value,
                  FromString(characteristic).value, cb, platform.accepted))
  }

  /** Runs a performed command: an unknown id is answered "Peripheral not
      found", a malformed UUID throws, and otherwise the peripheral the
      command leaves is stored and its effects are tagged with the id. */
  function Deliver(m: Manager, id: string, performed: Option<AndroidPeripheral.Step>, cb: Cb): Step
    requires Get(m.registry, id).Some?
  {
    match performed
    case None => Step(m, [Thrown])
    case Some(s) => Run(m, id, s, [], [])
  }

  /** `disconnect`, `startNotification`, `stopNotification`, `write`,
      `writeWithoutResponse`, `read` and `readRSSI` (BleManager.java:311-391):
      an unknown id is answered "Peripheral not found"; a known one runs
      the command on its peripheral and stores the peripheral it leaves. */
  function Dispatch(m: Manager, id: string, command: Command, platform: Platform, cb: Cb): (r: Step)
    ensures Get(m.registry, id).None? ==> r == Step(m, [Invoke(cb, Refused(PeripheralNotFound))])
    ensures Get(m.registry, id).Some? && Perform(Get(m.registry, id).value, command, platform, cb).None? ==>
              r == Step(m, [Thrown])
    ensures Get(m.registry, id).Some? && Perform(Get(m.registry, id).value, command, platform, cb).Some? ==>
              && Get(r.next.registry, id) == Some(Perform(Get(m.registry, id).value, command, platform, cb).value.next)
              && r.effects == Lift(id, Perform(Get(m.registry, id).value, command, platform, cb).value.effects)
    ensures forall k :: k != id ==> Get(r.next.registry, k) == Get(m.registry, k)
    ensures UniqueKeys(m.registry) ==> UniqueKeys(r.next.registry)
    ensures r.next.enableCallback == m.enableCallback
  {
    match Get(m.registry, id)
    case None => Step(m, [Invoke(cb, Refused(PeripheralNotFound))])
    case Some(p) => Deliver(m, id, Perform(p, command, platform, cb), cb)
  }

  /** The same dispatch over the corrected commands. */
  function DispatchCorrected(m: Manager, id: string, command: Command, platform: Platform, cb: Cb): (r: Step)
    ensures Get(m.registry, id).None? ==> r == Step(m, [Invoke(cb, Refused(PeripheralNotFound))])
    ensures Get(m.registry, id).Some? && PerformCorrected(Get(m.registry, id).value, command, platform, cb).None? ==>
              r == Step(m, [Thrown])
    ensures Get(m.registry, id).Some? && PerformCorrected(Get(m.registry, id).value, command, platform, cb).Some? ==>
              && Get(r.next.registry, id) == Some(PerformCorrected(Get(m.registry, id).value, command, platform, cb).value.next)
              && r.effects == Lift(id, PerformCorrected(Get(m.registry, id).value, command, platform, cb).value.effects)
    ensures forall k :: k != id ==> Get(r.next.registry, k) == Get(m.registry, k)
    ensures UniqueKeys(m.registry) ==> UniqueKeys(r.next.registry)
    ensures r.next.enableCallback == m.enableCallback
  {
    match Get(m.registry, id)
    case None => Step(m, [Invoke(cb, Refused(PeripheralNotFound))])
    case Some(p) => Deliver(m, id, PerformCorrected(p, command, platform, cb), cb)
  }

  // ---------------------------------------------------------------------------
  // Listing

  /** `getDiscoveredPeripherals` (BleManager.java:489-505): every registered
      peripheral, in registry order. */
  function DiscoveredPeripherals(m: Manager, cb: Cb): (r: Step)
    ensures r.next == m
    ensures |r.effects| == 1 && r.effects[0].Invoke? && r.effects[0].cb == cb && r.effects[0].reply.Peripherals?
    ensures var keys := r.effects[0].reply.keys;
            |keys| == |m.registry| && forall i :: 0 <= i < |keys| ==> keys[i] == m.registry[i].key
  {
    Step(m, [Invoke(cb, Peripherals(seq(|m.registry|, i requires 0 <= i < |m.registry| => m.registry[i].key)))])
  }

  /** `hasService`: null when the peripheral has no GATT client. */
  function HasService(p: Peripheral, services: seq<Service>, uuid: Uuid): (r: Option<bool>)
    ensures r.None? <==> !p.gatt
    ensures r == Some(true) <==> p.gatt && FindService(services, uuid).Some?
  {
    if !p.gatt then None else Some(FindService(services, uuid).Some?)
  }

  /** The filter of `getConnectedPeripherals` as written
      (BleManager.java:515-523): the flag is overwritten for each UUID, so the
      last one alone decides; no UUID accepts every peripheral. */
  function AcceptAsWritten(p: Peripheral, services: seq<Service>, uuids: seq<Uuid>): (r: Option<bool>)
    ensures uuids == [] ==> r == Some(true)
    ensures uuids != [] ==> r == HasService(p, services, uuids[|uuids| - 1])
  {
    if uuids == [] then Some(true) else HasService(p, services, uuids[|uuids| - 1])
  }

  /** The filter with each UUID able to accept the peripheral, as the iOS
      counterpart (`retrieveConnectedPeripherals(withServices:)`) does. */
  function Accept(p: Peripheral, services: seq<Service>, uuids: seq<Uuid>): (r: Option<bool>)
    ensures uuids == [] ==> r == Some(true)
    ensures uuids != [] ==> (r.None? <==> !p.gatt)
    ensures uuids != [] ==> (r == Some(true) <==> exists i :: 0 <= i < |uuids| && HasService(p, services, uuids[i]) == Some(true))
  {
    if uuids == [] then Some(true)
    else if !p.gatt then None
    else Some(exists i :: 0 <= i < |uuids| && FindService(services, uuids[i]).Some?)
  }

  /** Which of the two filters a listing applies. */
  datatype Filter = LastUuidOnly | AnyUuid

  function Accepts(filter: Filter, p: Peripheral, services: seq<Service>, uuids: seq<Uuid>): Option<bool> {
    match filter
    case LastUuidOnly => AcceptAsWritten(p, services, uuids)
    case AnyUuid => Accept(p, services, uuids)
  }

  /** The keys of the connected entries the filter accepts, in registry
      order; `None` when the filter is null for a connected peripheral,
      which makes `isConnected() && accept` throw. */
  function Collect(reg: Registry, discovered: string -> seq<Service>, uuids: seq<Uuid>, filter: Filter): (r: Option<seq<string>>)
    ensures r.None? <==> exists i :: (0 <= i < |reg| && reg[i].peripheral.connected &&
              Accepts(filter, reg[i].peripheral, discovered(reg[i].key), uuids).None?)
    ensures r.Some? ==> forall k :: k in r.value ==>
              exists i :: 0 <= i < |reg| && reg[i].key == k && reg[i].peripheral.connected &&
                Accepts(filter, reg[i].peripheral, discovered(reg[i].key), uuids) == Some(true)
    ensures r.Some? ==> forall i :: (0 <= i < |reg| && reg[i].peripheral.connected &&
              Accepts(filter, reg[i].peripheral, discovered(reg[i].key), uuids) == Some(true)) ==>
              reg[i].key in r.value
    decreases |reg|
  {
    if reg == [] then Some([])
    else
      var rest := Collect(reg[1..], discovered, uuids, filter);
      var e := reg[0];
      if !e.peripheral.connected then rest
      else match Accepts(filter, e.peripheral, discovered(e.key), uuids)
        case None => None
        case Some(false) => rest
        case Some(true) => if rest.None? then None else Some([e.key] + rest.value)
  }

  /** `getConnectedPeripherals` as written (BleManager.java:508-536).
      `discovered` gives the services each peripheral's GATT client knows.
      The UUID texts are parsed once per registered peripheral, so a
      malformed one throws only when the registry is not empty. */
  function ConnectedPeripheralsAsWritten(m: Manager, serviceUuids: seq<string>,
                                         discovered: string -> seq<Service>, cb: Cb): (r: Step)
    ensures r.next == m
    ensures m.registry != [] && ParseAll(serviceUuids).None? ==> r.effects == [Thrown]
    ensures m.registry == [] ==> r.effects == [Invoke(cb, Peripherals([]))]
    ensures r.effects != [Thrown] ==> |r.effects| == 1 && r.effects[0].Invoke? && r.effects[0].reply.Peripherals?
    ensures m.registry != [] && ParseAll(serviceUuids).Some? && r.effects != [Thrown] ==>
              var uuids := ParseAll(serviceUuids).value;
              && (forall k :: k in r.effects[0].reply.keys ==>
                    exists i :: 0 <= i < |m.registry| && m.registry[i].key == k && m.registry[i].peripheral.connected &&
                      AcceptAsWritten(m.registry[i].peripheral, discovered(k), uuids) == Some(true))
              && (forall i :: (0 <= i < |m.registry| && m.registry[i].peripheral.connected &&
                    AcceptAsWritten(m.registry[i].peripheral, discovered(m.registry[i].key), uuids) == Some(true)) ==>
                    m.registry[i].key in r.effects[0].reply.keys)
  {
    if m.registry == [] then Step(m, [Invoke(cb, Peripherals([]))])
    else match ParseAll(serviceUuids)
      case None => Step(m, [Thrown])
      case Some(uuids) =>
        match Collect(m.registry, discovered, uuids, LastUuidOnly)
        case None => Step(m, [Thrown])
        case Some(keys) => Step(m, [Invoke(cb, Peripherals(keys))])
  }

  /** `getConnectedPeripherals` with every UUID able to accept a peripheral. */
  function ConnectedPeripherals(m: Manager, serviceUuids: seq<string>,
                                discovered: string -> seq<Service>, cb: Cb): (r: Step)
    ensures r.next == m
    ensures m.registry != [] && ParseAll(serviceUuids).None? ==> r.effects == [Thrown]
    ensures m.registry == [] ==> r.effects == [Invoke(cb, Peripherals([]))]
    ensures r.effects != [Thrown] ==> |r.effects| == 1 && r.effects[0].Invoke? && r.effects[0].reply.Peripherals?
    ensures r.effects != [Thrown] ==> forall k :: k in r.effects[0].reply.keys ==>
              exists i :: 0 <= i < |m.registry| && m.registry[i].key == k && m.registry[i].peripheral.connected
    ensures m.registry != [] && ParseAll(serviceUuids).Some? && r.effects != [Thrown] ==>
              var uuids := ParseAll(serviceUuids).value;
              && (forall k :: k in r.effects[0].reply.keys ==>
                    exists i :: 0 <= i < |m.registry| && m.registry[i].key == k && m.registry[i].peripheral.connected &&
                      Accept(m.registry[i].peripheral, discovered(k), uuids) == Some(true))
              && (forall i :: (0 <= i < |m.registry| && m.registry[i].peripheral.connected &&
                    Accept(m.registry[i].peripheral, discovered(m.registry[i].key), uuids) == Some(true)) ==>
                    m.registry[i].key in r.effects[0].reply.keys)
  {
    if m.registry == [] then Step(m, [Invoke(cb, Peripherals([]))])
    else match ParseAll(serviceUuids)
      case None => Step(m, [Thrown])
      case Some(uuids) =>
        match Collect(m.registry, discovered, uuids, AnyUuid)
        case None => Step(m, [Thrown])
        case Some(keys) => Step(m, [Invoke(cb, Peripherals(keys))])
  }

  // ---------------------------------------------------------------------------
  // bytesToHex

  /** `bytesToHex` (BleManager.java:539-549): two upper-case digits per byte,
      high nibble first. */
  function BytesToHex(bytes: Bytes): (r: string)
    ensures |r| == 2 * |bytes|
    ensures forall j :: 0 <= j < |bytes| ==>
              r[2 * j] == UpperDigit(bytes[j] as int / 16) && r[2 * j + 1] == UpperDigit(bytes[j] as int % 16)
    decreases |bytes|
  {
    if bytes == [] then []
    else [UpperDigit(bytes[0] as int / 16), UpperDigit(bytes[0] as int % 16)] + BytesToHex(bytes[1..])
  }

  /** Reads pairs of hexadecimal digits back into bytes. */
  function HexToBytes(s: string): Option<Bytes>
    decreases |s|
  {
    if s == [] then Some([])
    else if |s| < 2 || !IsHexChar(s[0]) || !IsHexChar(s[1]) then None
    else match HexToBytes(s[2..])
      case None => None
      case Some(rest) => Some([(DigitValue(s[0]) * 16 + DigitValue(s[1])) as byte] + rest)
  }

  /** The hexadecimal text reads back as the bytes it was made from. */
  lemma {:induction false} BytesToHexRoundTrip(bytes: Bytes)
    ensures HexToBytes(BytesToHex(bytes)) == Some(bytes)
    decreases |bytes|
  {
    if bytes != [] {
      var b := bytes[0] as int;
      var s := BytesToHex(bytes);
      DigitRoundTrip(b / 16);
      DigitRoundTrip(b % 16);
      assert s[2..] == BytesToHex(bytes[1..]);
      BytesToHexRoundTrip(bytes[1..]);
      assert [bytes[0]] + bytes[1..] == bytes;
    }
  }

  /** The text has no lower-case letter. */
  lemma BytesToHexIsUpper(bytes: Bytes)
    ensures forall i :: 0 <= i < |BytesToHex(bytes)| ==> !('a' <= BytesToHex(bytes)[i] <= 'z')
  {
    var s := BytesToHex(bytes);
    forall i | 0 <= i < |s|
      ensures !('a' <= s[i] <= 'z')
    {
      var j := i / 2;
      assert 0 <= j < |bytes|;
      DigitRoundTrip(bytes[j] as int / 16);
      DigitRoundTrip(bytes[j] as int % 16);
      assert s[2 * j] == UpperDigit(bytes[j] as int / 16) && s[2 * j + 1] == UpperDigit(bytes[j] as int % 16);
      assert i == 2 * j || i == 2 * j + 1;
    }
  }
}

=== FILE: android_manager_properties.dfy ===
/** Properties of the Android module over several calls: the registry stays
    one entry per key, discovery reports a peripheral once, the enable
    callback is answered once, and the two places where the module departs
    from what it evidently means to do. */
module AndroidManagerProperties {
  import opened Common
  import opened UuidHelper
  import opened AndroidGatt
  import AndroidPeripheral
  import opened AndroidManager

  /** A peripheral seen twice by a scan is registered and reported once;
      the second sighting only refreshes its RSSI. */
  lemma DiscoverTwiceReportsOnce(m: Manager, address: string, rssi1: int, adv1: Bytes, rssi2: int, adv2: Bytes)
    requires UniqueKeys(m.registry) && Get(m.registry, address).None?
    ensures var d1 := Discover(m, address, rssi1, adv1);
            var d2 := Discover(d1.next, address, rssi2, adv2);
            && d1.effects + d2.effects == [Emit(DiscoverPeripheral(address))]
            && |d2.next.registry| == |m.registry| + 1
            && UniqueKeys(d2.next.registry)
            && Get(d2.next.registry, address) == Some(AndroidPeripheral.Discovered(address, rssi2, adv1))
  {
    var d1 := Discover(m, address, rssi1, adv1);
    assert Get(d1.next.registry, address) == Some(AndroidPeripheral.Discovered(address, rssi1, adv1)) by {
      assert d1.next.registry == Put(m.registry, address, AndroidPeripheral.Discovered(address, rssi1, adv1));
    }
  }

  /** A scan on an enabled adapter forgets exactly the peripherals that are
      not connected; a connected one keeps its state. */
  lemma ScanKeepsConnected(m: Manager, lollipop: bool, uuids: seq<string>, seconds: int, cb: Cb, key: string)
    requires UniqueKeys(m.registry)
    ensures var r := Scan(m, Enabled, lollipop, uuids, seconds, cb);
            && UniqueKeys(r.next.registry)
            && (Get(m.registry, key).Some? && Get(m.registry, key).value.connected ==>
                  Get(r.next.registry, key) == Get(m.registry, key))
            && (Get(m.registry, key).Some? && !Get(m.registry, key).value.connected ==>
                  Get(r.next.registry, key).None?)
  {
    var reg := m.registry;
    var kept := KeepConnected(reg);
    if Get(reg, key).Some? {
      var p := Get(reg, key).value;
      var e := Entry(key, p);
      assert e in reg;
      if p.connected {
        assert e in kept;
        var g := Get(kept, key);
        assert g.Some?;
        assert Entry(key, g.value) in reg;
        var i :| 0 <= i < |reg| && reg[i] == e;
        var j :| 0 <= j < |reg| && reg[j] == Entry(key, g.value);
        assert i == j;
      } else {
        forall i | 0 <= i < |kept|
          ensures kept[i].key != key
        {
          assert kept[i] in reg;
          var j :| 0 <= j < |reg| && reg[j] == kept[i];
          var k :| 0 <= k < |reg| && reg[k] == e;
        }
      }
    }
  }

  /** `connect` with an id nobody registered: a valid address, once
      upper-cased, gets a new connected peripheral under the upper-cased
      key and the callback answered with success; anything else is refused
      and the registry is left alone. */
  lemma ConnectUnknownId(m: Manager, id: string, cb: Cb, hasClient: bool)
    requires UniqueKeys(m.registry)
    requires Get(m.registry, id).None? && Get(m.registry, Upper(id)).None?
    ensures var r := Connect(m, id, cb, hasClient);
            && (ValidAddress(Upper(id)) ==>
                  && |r.next.registry| == |m.registry| + 1
                  && Get(r.next.registry, Upper(id)).Some?
                  && Get(r.next.registry, Upper(id)).value.connected
                  && OnPeripheral(Upper(id), AndroidPeripheral.Invoke(cb, AndroidPeripheral.Ok)) in r.effects)
            && (!ValidAddress(Upper(id)) ==> r == Step(m, [Invoke(cb, Refused(InvalidPeripheralUuid))]))
  {
    if ValidAddress(Upper(id)) {
      var key := Upper(id);
      var s := AndroidPeripheral.Connect(Unscanned(key), cb, hasClient);
      var r := Run(m, key, s, [], []);
      assert r.next.registry == Put(m.registry, key, s.next);
      assert r.effects == Lift(key, s.effects);
      assert r.effects[|s.effects| - 1] == OnPeripheral(key, s.effects[|s.effects| - 1]);
    }
  }

  // ---------------------------------------------------------------------------
  // connect replaces a registered peripheral (BleManager.java:294-302)

  /** As written: `connect` with the lower-case form of the address of a
      connected peripheral misses it, and puts a new peripheral under its
      key.  The connected one, with its waiting callbacks and write queue,
      is dropped from the registry while its link stays open, and a second
      GATT client is opened for the same device. */
  lemma ConnectReplacesRegistered(m: Manager, id: string, cb: Cb, hasClient: bool)
    requires Get(m.registry, id).None? && ValidAddress(Upper(id))
    requires Get(m.registry, Upper(id)).Some? && Get(m.registry, Upper(id)).value.connected
    ensures var r := ConnectAsWritten(m, id, cb, hasClient);
            && Get(r.next.registry, Upper(id)).Some?
            && Get(r.next.registry, Upper(id)).value.slots == map[]
            && Get(r.next.registry, Upper(id)).value.writeQueue == []
            && Get(r.next.registry, Upper(id)).value.rssi == 0
            && OnPeripheral(Upper(id), AndroidPeripheral.Radio(AndroidPeripheral.OpenGatt)) in r.effects
  {
    var key := Upper(id);
    var s := AndroidPeripheral.Connect(Unscanned(key), cb, hasClient);
    var r := Run(m, key, s, [], []);
    assert r.effects[0] == OnPeripheral(key, s.effects[0]);
  }

  /** Corrected: the same call finds the connected peripheral under the
      upper-cased key and answers from it, leaving the registry as it was. */
  lemma ConnectKeepsRegistered(m: Manager, id: string, cb: Cb, hasClient: bool)
    requires Get(m.registry, id).None? && ValidAddress(Upper(id))
    requires Get(m.registry, Upper(id)).Some? && Get(m.registry, Upper(id)).value.connected
    ensures var q := Get(m.registry, Upper(id)).value;
            var r := Connect(m, id, cb, hasClient);
            && (forall k :: Get(r.next.registry, k) == Get(m.registry, k))
            && r.effects == [OnPeripheral(Upper(id), AndroidPeripheral.Invoke(cb,
                              if q.gatt then AndroidPeripheral.Ok else AndroidPeripheral.Failed(AndroidPeripheral.GattNull)))]
  {
  }

  // ---------------------------------------------------------------------------
  // getConnectedPeripherals: only the last UUID counts (BleManager.java:517-520)

  lemma TwoTextsParse(u1: Uuid, u2: Uuid)
    ensures ParseAll([ToText(u1), ToText(u2)]) == Some([u1, u2])
  {
    ParsePrinted(u1);
    ParsePrinted(u2);
    assert FromString(ToText(u1)) == Some(u1) && FromString(ToText(u2)) == Some(u2);
    var one := [ToText(u2)];
    assert one[1..] == [];
    assert ParseAll(one[1..]) == Some([]);
    var u2s: seq<Uuid> := [u2];
    assert FromString(one[0]) == Some(u2);
    assert u2s == [u2] + [];
    assert ParseAll(one) == Some(u2s);
    assert [ToText(u1), ToText(u2)][1..] == one;
    assert [u1] + [u2] == [u1, u2];
  }

  /** As written: a connected peripheral offering the first of two requested
      services but not the second is left out of the answer. */
  lemma LastServiceDecides(m: Manager, key: string, p: AndroidPeripheral.Peripheral, discovered: string -> seq<Service>,
                           services: seq<Service>, u1: Uuid, u2: Uuid, cb: Cb)
    requires m.registry == [Entry(key, p)]
    requires p.connected && p.gatt && discovered(key) == services
    requires FindService(services, u1).Some? && FindService(services, u2).None?
    ensures ConnectedPeripheralsAsWritten(m, [ToText(u1), ToText(u2)], discovered, cb).effects ==
              [Invoke(cb, Peripherals([]))]
  {
    TwoTextsParse(u1, u2);
    var uuids: seq<Uuid> := [u1, u2];
    assert Accepts(LastUuidOnly, p, discovered(key), uuids) == Some(false);
    assert m.registry[1..] == [];
    assert Collect(m.registry, discovered, uuids, LastUuidOnly) == Some([]);
  }

  /** Corrected: the same peripheral is listed, because one of the requested
      services is enough. */
  lemma AnyServiceAccepts(m: Manager, key: string, p: AndroidPeripheral.Peripheral, discovered: string -> seq<Service>,
                          services: seq<Service>, u1: Uuid, u2: Uuid, cb: Cb)
    requires m.registry == [Entry(key, p)]
    requires p.connected && p.gatt && discovered(key) == services
    requires FindService(services, u1).Some? && FindService(services, u2).None?
    ensures ConnectedPeripherals(m, [ToText(u1), ToText(u2)], discovered, cb).effects ==
              [Invoke(cb, Peripherals([key]))]
  {
    var uuids := [u1, u2];
    TwoTextsParse(u1, u2);
    assert HasService(p, services, uuids[0]) == Some(true);
    assert Accepts(AnyUuid, p, discovered(key), uuids) == Some(true);
    assert m.registry[1..] == [];
    assert Collect(m.registry[1..], discovered, uuids, AnyUuid) == Some([]);
    assert m.registry[0] == Entry(key, p);
    assert [key] + [] == [key];
    assert Collect(m.registry, discovered, uuids, AnyUuid) == Some([key]);
  }

  // ---------------------------------------------------------------------------
  // Adapter

  /** Asking the user to enable the adapter answers the callback exactly
      once, with the user's verdict; a repeated result answers nobody. */
  lemma EnableAnsweredOnce(m: Manager, cb: Cb, resultCode: int)
    ensures var asked := EnableBluetooth(m, Disabled, true, cb);
            var first := ActivityResult(asked.next, EnableRequest, resultCode);
            var second := ActivityResult(first.next, EnableRequest, resultCode);
            && asked.effects + first.effects + second.effects ==
                 [Scanner(AskUserToEnable),
                  Invoke(cb, if resultCode == ResultOk then Done else Refused(UserRefusedToEnable))]
            && second.next.enableCallback.None?
  {
  }

  /** The receiver and `checkState` agree on the two settled states; for
      the two transitions `checkState` says "off". */
  lemma StateReportsAgree(state: int)
    ensures state == StateOn || state == StateOff ==> ReceiverState(true, state) == CheckState(Some(state))
    ensures state == StateTurningOn || state == StateTurningOff ==>
              CheckState(Some(state)) == "off" && ReceiverState(true, state) != "off"
  {
  }
}

=== FILE: android_peripheral.dfy ===
/** One Android peripheral (android/src/main/java/it/innove/Peripheral.java):
    the bridge's `BluetoothGattCallback` for one device.  Unlike the iOS
    manager it keeps a single callback per kind of request, a slot that a
    second request simply overwrites, and a queue of the pieces of a long
    acknowledged write.

    Every command and every GATT callback is a pure step from one
    `Peripheral` to the next, with the effects it caused in order.  What the
    platform answers synchronously (does `readCharacteristic` accept the
    request, which services has discovery found) comes in as parameters. */
module AndroidPeripheral {
  import opened Common
  import opened UuidHelper
  import opened AndroidGatt
  import Chunking

  /** `BluetoothGatt.GATT_SUCCESS`. */
  const GattSuccess: int := 0

  /** `BluetoothProfile.STATE_DISCONNECTED` and `STATE_CONNECTED`. */
  const StateDisconnected: int := 0
  const StateConnected: int := 2

  /** The callback slots, one per kind of request. */
  datatype Slot = ConnectSlot | ServicesSlot | ReadSlot | RssiSlot | WriteSlot | NotifySlot | MtuSlot

  /** The slots a disconnection answers with "Device disconnected", in the
      order it answers them; the connect slot is answered last, apart. */
  const DisconnectOrder: seq<Slot> := [WriteSlot, ServicesSlot, RssiSlot, ReadSlot, NotifySlot, MtuSlot]

  /** The state of one peripheral object.  A slot holding null is a slot
      missing from `slots`; `gatt` says whether the `BluetoothGatt` field is
      set. */
  datatype Peripheral = Peripheral(
    address: string,
    rssi: int,
    advertising: Bytes,
    connected: bool,
    gatt: bool,
    slots: map<Slot, Cb>,
    writeQueue: seq<Bytes>)

  /** A peripheral as a scan creates it (Peripheral.java:65-70). */
  function Discovered(address: string, rssi: int, advertising: Bytes): (r: Peripheral)
    ensures !r.connected && !r.gatt && r.slots == map[] && r.writeQueue == []
  {
    Peripheral(address, rssi, advertising, false, false, map[], [])
  }

  /** The error texts the callbacks receive. */
  datatype Message =
    | NotConnected
    | GattNull
    | CharacteristicNotFound(characteristic: Uuid)
    | NotifyCharacteristicNotFound(characteristic: Uuid)
    | RegisterNotificationFailed(characteristic: Uuid)
    | SetNotificationFailed(characteristic: Uuid)
    | DescriptorWriteRefused(characteristic: Uuid)
    | ReadFailed
    | ReadRssiFailed
    | WriteFailed
    | AlreadyQueued
    | AlreadyWriting
    | ErrorReading(characteristic: Uuid, status: int)
    | ErrorWriting(status: int)
    | ErrorWritingDescriptor(status: int)
    | ErrorReadingRssi(status: int)
    | ErrorRequestingMtu(status: int)
    | DeviceDisconnected
    | ConnectionError
  {
    /** The exact string handed to JavaScript. */
    function Text(): string {
      match this
      case NotConnected => "Device is not connected"
      case GattNull => "BluetoothGatt is null"
      case CharacteristicNotFound(c) => "Characteristic " + ToText(c) + " not found."
      case NotifyCharacteristicNotFound(c) => "Characteristic " + ToText(c) + " not found"
      case RegisterNotificationFailed(c) => "Failed to register notification for " + ToText(c)
      case SetNotificationFailed(c) => "Set notification failed for " + ToText(c)
      case DescriptorWriteRefused(c) => "Failed to set client characteristic notification for " + ToText(c)
      case ReadFailed => "Read failed"
      case ReadRssiFailed => "Read RSSI failed"
      case WriteFailed => "Write failed"
      case AlreadyQueued => "You have already an queued message"
      case AlreadyWriting => "You're already writing"
      case ErrorReading(c, status) => "Error reading " + ToText(c) + " status=" + Decimal(status)
      case ErrorWriting(status) => "Error writing status: " + Decimal(status)
      case ErrorWritingDescriptor(status) => "Error writing descriptor stats=" + Decimal(status)
      case ErrorReadingRssi(status) => "Error reading RSSI status=" + Decimal(status)
      case ErrorRequestingMtu(status) => "Error requesting MTU status = " + Decimal(status)
      case DeviceDisconnected => "Device disconnected"
      case ConnectionError => "Connection error"
    }
  }

  /** What a callback is invoked with. */
  datatype Answer =
    | Ok
    | ReadValue(value: Bytes)
    | RssiValue(rssi: int)
    | MtuValue(mtu: int)
    | ServicesInfo
    | Failed(message: Message)

  datatype Event =
    | ConnectEvent(peripheral: string)
    | DisconnectEvent(peripheral: string)
    | ValueEvent(peripheral: string, characteristic: Uuid, service: Uuid, value: Bytes)

  /** What the object asks of `BluetoothGatt`. */
  datatype Request =
    | OpenGatt
    | DiscoverServices
    | CloseGatt
    | ReadCharacteristic(characteristic: Characteristic)
    | ReadRemoteRssiRequest
    | WriteCharacteristic(characteristic: Characteristic, data: Bytes, writeType: WriteType)
    | WriteNullValue(characteristic: Characteristic, writeType: WriteType) // the value was set to null first
    | SetCharacteristicNotification(characteristic: Characteristic, enable: bool)
    | WriteDescriptor(characteristic: Characteristic, descriptor: Uuid, value: Option<Bytes>)
    | MtuRequest(mtu: int)

  datatype Effect =
    | Invoke(cb: Cb, answer: Answer)
    | Emit(event: Event)
    | Radio(request: Request)
    | Spin   // the command never returns: its splitting loop makes no progress
    | Thrown // an exception leaves the command: a byte range that ends before it starts

  datatype Step = Step(next: Peripheral, effects: seq<Effect>)

  predicate Answers(effects: seq<Effect>, cb: Cb) {
    exists e :: e in effects && e.Invoke? && e.cb == cb
  }

  // ---------------------------------------------------------------------------
  // Slots

  /** Completes the request waiting in `slot`: its callback is invoked once
      with `answer` and the slot is emptied.  An empty slot means the event
      is ignored. */
  function Complete(p: Peripheral, slot: Slot, answer: Answer): (r: Step)
    ensures slot !in p.slots ==> r == Step(p, [])
    ensures slot in p.slots ==> r.effects == [Invoke(p.slots[slot], answer)]
    ensures r.next.slots == p.slots - {slot}
    ensures r.next.(slots := p.slots) == p
  {
    if slot in p.slots then Step(p.(slots := p.slots - {slot}), [Invoke(p.slots[slot], answer)])
    else Step(p, [])
  }

  /** The invocations that answer every occupied slot of `order` with `answer`. */
  function Flush(slots: map<Slot, Cb>, order: seq<Slot>, answer: Answer): (r: seq<Effect>)
    ensures |r| <= |order|
    ensures forall s :: s in order && s in slots ==> Invoke(slots[s], answer) in r
    ensures forall e :: e in r ==>
              (e.Invoke? && e.answer == answer && exists s :: s in order && s in slots && slots[s] == e.cb)
    decreases |order|
  {
    if order == [] then []
    else
      var rest := Flush(slots, order[1..], answer);
      assert forall s :: s in order ==> s == order[0] || s in order[1..];
      (if order[0] in slots then [Invoke(slots[order[0]], answer)] else []) + rest
  }

  // ---------------------------------------------------------------------------
  // Connection

  /** `onConnectionStateChange` for `STATE_CONNECTED` (Peripheral.java:297-321):
      marks the link up, posts service discovery, tells JavaScript and
      answers a waiting connect callback with success. */
  function LinkUp(p: Peripheral, gatt: bool): (r: Step)
    ensures r.next.connected && r.next.gatt == gatt
    ensures r.next.slots == p.slots - {ConnectSlot}
    ensures r.next.(connected := p.connected, gatt := p.gatt, slots := p.slots) == p
    ensures ConnectSlot in p.slots ==> |r.effects| > 0 && r.effects[|r.effects| - 1] == Invoke(p.slots[ConnectSlot], Ok)
    ensures Emit(ConnectEvent(p.address)) in r.effects
    ensures forall e :: e in r.effects && e.Invoke? ==> ConnectSlot in p.slots && e == Invoke(p.slots[ConnectSlot], Ok)
  {
    var up := p.(gatt := gatt, connected := true);
    var discover := if gatt then [Radio(DiscoverServices)] else [];
    var c := Complete(up, ConnectSlot, Ok);
    Step(c.next, discover + [Emit(ConnectEvent(p.address))] + c.effects)
  }

  /** The answers a disconnection gives: "Device disconnected" to every
      waiting request in `DisconnectOrder`, then "Connection error" to a
      waiting connect. */
  function Orphaned(slots: map<Slot, Cb>): (r: seq<Effect>)
    ensures forall s :: s in DisconnectOrder && s in slots ==> Invoke(slots[s], Failed(DeviceDisconnected)) in r
    ensures ConnectSlot in slots ==> |r| > 0 && r[|r| - 1] == Invoke(slots[ConnectSlot], Failed(ConnectionError))
    ensures forall e :: e in r ==> (e.Invoke? && exists s :: s in slots && slots[s] == e.cb)
    ensures |r| <= 7
  {
    var flushed := Flush(slots, DisconnectOrder, Failed(DeviceDisconnected));
    var connect := if ConnectSlot in slots then [Invoke(slots[ConnectSlot], Failed(ConnectionError))] else [];
    flushed + connect
  }

  /** `onConnectionStateChange` for `STATE_DISCONNECTED` as written
      (Peripheral.java:323-352): closes the link if it was up, tells
      JavaScript, answers every waiting callback and empties every slot.  The
      write queue is left as it is. */
  function LinkDownAsWritten(p: Peripheral, gatt: bool): (r: Step)
    ensures !r.next.connected && r.next.slots == map[]
    ensures r.next.writeQueue == p.writeQueue
    ensures r.next.gatt == (gatt && !p.connected)
    ensures r.next.(connected := p.connected, gatt := p.gatt, slots := p.slots) == p
    ensures r.effects == (if p.connected && gatt then [Radio(CloseGatt)] else []) +
                         [Emit(DisconnectEvent(p.address))] + Orphaned(p.slots)
  {
    var close := p.connected && gatt;
    var down := p.(gatt := gatt && !p.connected, connected := false);
    Step(down.(slots := map[]),
         (if close then [Radio(CloseGatt)] else []) + [Emit(DisconnectEvent(p.address))] + Orphaned(p.slots))
  }

  /** The disconnection with the write queue emptied as well, so that a
      write cut short by the link going down does not block every later
      write. */
  function LinkDown(p: Peripheral, gatt: bool): (r: Step)
    ensures !r.next.connected && r.next.slots == map[] && r.next.writeQueue == []
    ensures r.next.(writeQueue := p.writeQueue) == LinkDownAsWritten(p, gatt).next
    ensures r.effects == LinkDownAsWritten(p, gatt).effects
  {
    var s := LinkDownAsWritten(p, gatt);
    Step(s.next.(writeQueue := []), s.effects)
  }

  /** `onConnectionStateChange` as written (Peripheral.java:292-354): the
      object records the `BluetoothGatt` it is handed, then reacts to the two
      states it knows; a disconnection keeps the write queue. */
  function ConnectionStateChange(p: Peripheral, gatt: bool, newState: int): (r: Step)
    ensures newState != StateConnected && newState != StateDisconnected ==> r == Step(p.(gatt := gatt), [])
    ensures newState == StateConnected ==> r == LinkUp(p, gatt)
    ensures newState == StateDisconnected ==> r == LinkDownAsWritten(p, gatt)
  {
    if newState == StateConnected then LinkUp(p, gatt)
    else if newState == StateDisconnected then LinkDownAsWritten(p, gatt)
    else Step(p.(gatt := gatt), [])
  }

  /** `onConnectionStateChange` with the corrected disconnection, which also
      empties the write queue; every other state is handled alike. */
  function ConnectionStateChangeCorrected(p: Peripheral, gatt: bool, newState: int): (r: Step)
    ensures newState != StateDisconnected ==> r == ConnectionStateChange(p, gatt, newState)
    ensures newState == StateDisconnected ==> r == LinkDown(p, gatt)
  {
    if newState == StateDisconnected then LinkDown(p, gatt)
    else ConnectionStateChange(p, gatt, newState)
  }

  /** `connect` (Peripheral.java:99-130).  On a peripheral that is not
      connected it opens the GATT client (`hasClient` says whether the platform
      returned one) and then calls its own `onConnectionStateChange` with
      `STATE_CONNECTED` at once, so the callback is answered with success
      before the radio has done anything.  On a connected one it answers at
      once from the state of the GATT field. */
  function Connect(p: Peripheral, cb: Cb, hasClient: bool): (r: Step)
    ensures !p.connected ==> r.next.connected && r.next.gatt == hasClient
    ensures !p.connected ==> |r.effects| > 1 && r.effects[0] == Radio(OpenGatt) && r.effects[|r.effects| - 1] == Invoke(cb, Ok)
    ensures !p.connected ==> r.next.slots == p.slots - {ConnectSlot}
    ensures !p.connected ==> r.next.writeQueue == p.writeQueue
    ensures p.connected ==> r == Step(p, [Invoke(cb, if p.gatt then Ok else Failed(GattNull))])
  {
    if !p.connected then
      var waiting := p.(slots := p.slots[ConnectSlot := cb], gatt := hasClient);
      var s := ConnectionStateChange(waiting, hasClient, StateConnected);
      Step(s.next, [Radio(OpenGatt)] + s.effects)
    else Step(p, [Invoke(cb, if p.gatt then Ok else Failed(GattNull))])
  }

  /** `disconnect` (Peripheral.java:132-148): drops the connect callback
      without answering it and closes the link.  The other slots are left
      as they are. */
  function Disconnect(p: Peripheral): (r: Step)
    ensures !r.next.connected && !r.next.gatt
    ensures r.next.slots == p.slots - {ConnectSlot}
    ensures r.next.writeQueue == p.writeQueue
    ensures p.gatt ==> r.effects == [Radio(CloseGatt), Emit(DisconnectEvent(p.address))]
    ensures !p.gatt ==> r.effects == []
  {
    var down := p.(slots := p.slots - {ConnectSlot}, connected := false, gatt := false);
    if p.gatt then Step(down, [Radio(CloseGatt), Emit(DisconnectEvent(p.address))])
    else Step(down, [])
  }

  // ---------------------------------------------------------------------------
  // Completions

  /** `onServicesDiscovered` (Peripheral.java:283-290); the status is not looked at. */
  function ServicesDiscovered(p: Peripheral): (r: Step)
    ensures r == Complete(p, ServicesSlot, ServicesInfo)
  {
    Complete(p, ServicesSlot, ServicesInfo)
  }

  /** `onCharacteristicRead` (Peripheral.java:388-407). */
  function CharacteristicRead(p: Peripheral, characteristic: Uuid, status: int, value: Bytes): (r: Step)
    ensures r == Complete(p, ReadSlot,
                  if status == GattSuccess then ReadValue(value) else Failed(ErrorReading(characteristic, status)))
  {
    Complete(p, ReadSlot, if status == GattSuccess then ReadValue(value) else Failed(ErrorReading(characteristic, status)))
  }

  /** `onDescriptorWrite` (Peripheral.java:436-447). */
  function DescriptorWrite(p: Peripheral, status: int): (r: Step)
    ensures r == Complete(p, NotifySlot, if status == GattSuccess then Ok else Failed(ErrorWritingDescriptor(status)))
  {
    Complete(p, NotifySlot, if status == GattSuccess then Ok else Failed(ErrorWritingDescriptor(status)))
  }

  /** `onReadRemoteRssi` (Peripheral.java:450-462): a successful reading is
      also kept as the peripheral's RSSI. */
  function ReadRemoteRssi(p: Peripheral, rssi: int, status: int): (r: Step)
    ensures RssiSlot !in p.slots ==> r == Step(p, [])
    ensures RssiSlot in p.slots && status == GattSuccess ==>
              r == Complete(p.(rssi := rssi), RssiSlot, RssiValue(rssi))
    ensures RssiSlot in p.slots && status != GattSuccess ==>
              r == Complete(p, RssiSlot, Failed(ErrorReadingRssi(status)))
  {
    if RssiSlot !in p.slots then Step(p, [])
    else if status == GattSuccess then Complete(p.(rssi := rssi), RssiSlot, RssiValue(rssi))
    else Complete(p, RssiSlot, Failed(ErrorReadingRssi(status)))
  }

  /** `onMtuChanged` (Peripheral.java:798-809). */
  function MtuChanged(p: Peripheral, mtu: int, status: int): (r: Step)
    ensures r == Complete(p, MtuSlot, if status == GattSuccess then MtuValue(mtu) else Failed(ErrorRequestingMtu(status)))
  {
    Complete(p, MtuSlot, if status == GattSuccess then MtuValue(mtu) else Failed(ErrorRequestingMtu(status)))
  }

  /** `onCharacteristicChanged` (Peripheral.java:373-385): a notification is
      passed on as an event; nothing else changes. */
  function CharacteristicChanged(p: Peripheral, characteristic: Uuid, service: Uuid, value: Bytes): (r: Step)
    ensures r.next == p
    ensures r.effects == [Emit(ValueEvent(p.address, characteristic, service, value))]
  {
    Step(p, [Emit(ValueEvent(p.address, characteristic, service, value))])
  }

  /** `onCharacteristicWrite` (Peripheral.java:410-433).  While pieces are
      queued each acknowledgement sends the next one, whatever its status;
      the acknowledgement that finds the queue empty answers the write. */
  function CharacteristicWrite(p: Peripheral, characteristic: Characteristic, status: int): (r: Step)
    ensures WriteSlot !in p.slots ==> r == Step(p, [])
    ensures WriteSlot in p.slots && p.writeQueue != [] ==>
              && r.next == p.(writeQueue := p.writeQueue[1..])
              && r.effects == [Radio(WriteCharacteristic(characteristic, p.writeQueue[0], Default))]
    ensures WriteSlot in p.slots && p.writeQueue == [] ==>
              r == Complete(p, WriteSlot, if status == GattSuccess then Ok else Failed(ErrorWriting(status)))
  {
    if WriteSlot !in p.slots then Step(p, [])
    else if p.writeQueue != [] then
      Step(p.(writeQueue := p.writeQueue[1..]), [Radio(WriteCharacteristic(characteristic, p.writeQueue[0], Default))])
    else Complete(p, WriteSlot, if status == GattSuccess then Ok else Failed(ErrorWriting(status)))
  }

  // ---------------------------------------------------------------------------
  // Commands

  /** The two checks every command starts with (Peripheral.java:563-570 and
      the same lines in the other commands); `None` when both pass. */
  function Refuse(p: Peripheral, cb: Cb): (r: Option<Step>)
    ensures r.None? <==> p.connected && p.gatt
    ensures !p.connected ==> r == Some(Step(p, [Invoke(cb, Failed(NotConnected))]))
    ensures p.connected && !p.gatt ==> r == Some(Step(p, [Invoke(cb, Failed(GattNull))]))
  {
    if !p.connected then Some(Step(p, [Invoke(cb, Failed(NotConnected))]))
    else if !p.gatt then Some(Step(p, [Invoke(cb, Failed(GattNull))]))
    else None
  }

  /** `read` (Peripheral.java:561-584).  `services` are the services the
      platform has discovered; `accepted` is what `readCharacteristic`
      returns.  A new read overwrites a read still waiting. */
  function Read(p: Peripheral, services: seq<Service>, service: Uuid, characteristic: Uuid,
                cb: Cb, accepted: bool): (r: Step)
    ensures Refuse(p, cb).Some? ==> r == Refuse(p, cb).value
    ensures r.next.(slots := p.slots) == p
    ensures r.next.slots - {ReadSlot} == p.slots - {ReadSlot}
    ensures ReadSlot in r.next.slots ==> r.next.slots[ReadSlot] == cb || r.next.slots == p.slots
    ensures Refuse(p, cb).None? ==> match FindReadable(FindService(services, service), characteristic)
      case None => r == Step(p, [Invoke(cb, Failed(CharacteristicNotFound(characteristic)))])
      case Some(c) =>
        if accepted then r == Step(p.(slots := p.slots[ReadSlot := cb]), [Radio(ReadCharacteristic(c))])
        else r == Step(p.(slots := p.slots - {ReadSlot}), [Radio(ReadCharacteristic(c)), Invoke(cb, Failed(ReadFailed))])
  {
    if Refuse(p, cb).Some? then Refuse(p, cb).value
    else match FindReadable(FindService(services, service), characteristic)
      case None => Step(p, [Invoke(cb, Failed(CharacteristicNotFound(characteristic)))])
      case Some(c) =>
        if accepted then Step(p.(slots := p.slots[ReadSlot := cb]), [Radio(ReadCharacteristic(c))])
        else Step(p.(slots := p.slots - {ReadSlot}), [Radio(ReadCharacteristic(c)), Invoke(cb, Failed(ReadFailed))])
  }

  /** `readRSSI` as written (Peripheral.java:586-602): when the platform
      refuses the request it empties the READ slot and leaves the RSSI
      callback it has just answered in its slot. */
  function ReadRssiAsWritten(p: Peripheral, cb: Cb, accepted: bool): (r: Step)
    ensures Refuse(p, cb).Some? ==> r == Refuse(p, cb).value
    ensures Refuse(p, cb).None? && accepted ==>
              r == Step(p.(slots := p.slots[RssiSlot := cb]), [Radio(ReadRemoteRssiRequest)])
    ensures Refuse(p, cb).None? && !accepted ==>
              r == Step(p.(slots := p.slots[RssiSlot := cb] - {ReadSlot}), [Radio(ReadRemoteRssiRequest), Invoke(cb, Failed(ReadRssiFailed))])
  {
    if Refuse(p, cb).Some? then Refuse(p, cb).value
    else if accepted then Step(p.(slots := p.slots[RssiSlot := cb]), [Radio(ReadRemoteRssiRequest)])
    else Step(p.(slots := p.slots[RssiSlot := cb] - {ReadSlot}), [Radio(ReadRemoteRssiRequest), Invoke(cb, Failed(ReadRssiFailed))])
  }

  /** `readRSSI` with the refused request clearing its own slot. */
  function ReadRssi(p: Peripheral, cb: Cb, accepted: bool): (r: Step)
    ensures Refuse(p, cb).Some? ==> r == Refuse(p, cb).value
    ensures r.next.(slots := p.slots) == p
    ensures r.next.slots - {RssiSlot} == p.slots - {RssiSlot}
    ensures Refuse(p, cb).None? && accepted ==>
              r.next.slots == p.slots[RssiSlot := cb] && r.effects == [Radio(ReadRemoteRssiRequest)]
    ensures Refuse(p, cb).None? && !accepted ==>
              RssiSlot !in r.next.slots && r.effects == [Radio(ReadRemoteRssiRequest), Invoke(cb, Failed(ReadRssiFailed))]
  {
    if Refuse(p, cb).Some? then Refuse(p, cb).value
    else if accepted then Step(p.(slots := p.slots[RssiSlot := cb]), [Radio(ReadRemoteRssiRequest)])
    else Step(p.(slots := p.slots - {RssiSlot}), [Radio(ReadRemoteRssiRequest), Invoke(cb, Failed(ReadRssiFailed))])
  }

  /** `retrieveServices` (Peripheral.java:621-632). */
  function RetrieveServices(p: Peripheral, cb: Cb): (r: Step)
    ensures Refuse(p, cb).Some? ==> r == Refuse(p, cb).value
    ensures Refuse(p, cb).None? ==>
              r == Step(p.(slots := p.slots[ServicesSlot := cb]), [Radio(DiscoverServices)])
  {
    if Refuse(p, cb).Some? then Refuse(p, cb).value
    else Step(p.(slots := p.slots[ServicesSlot := cb]), [Radio(DiscoverServices)])
  }

  /** `requestMTU` (Peripheral.java:778-795), on a platform that has it. */
  function RequestMtu(p: Peripheral, mtu: int, cb: Cb): (r: Step)
    ensures Refuse(p, cb).Some? ==> r == Refuse(p, cb).value
    ensures Refuse(p, cb).None? ==>
              r == Step(p.(slots := p.slots[MtuSlot := cb]), [Radio(MtuRequest(mtu))])
  {
    if Refuse(p, cb).Some? then Refuse(p, cb).value
    else Step(p.(slots := p.slots[MtuSlot := cb]), [Radio(MtuRequest(mtu))])
  }

  /** `setNotify` (Peripheral.java:464-520), behind `registerNotify` and
      `removeNotify`.  `registered` is what `setCharacteristicNotification`
      returns and `written` what `writeDescriptor` returns.  The callback is
      kept only when the descriptor write went out. */
  function SetNotify(p: Peripheral, services: seq<Service>, service: Uuid, characteristic: Uuid,
                     enable: bool, cb: Cb, registered: bool, written: bool): (r: Step)
    ensures Refuse(p, cb).Some? ==> r == Refuse(p, cb).value
    ensures r.next.(slots := p.slots) == p
    ensures r.next.slots - {NotifySlot} == p.slots - {NotifySlot}
    ensures r.next.slots != p.slots ==> r.next.slots == p.slots[NotifySlot := cb]
    ensures r.next.slots != p.slots ==>
              && Refuse(p, cb).None? && registered && written
              && var c := FindNotify(FindService(services, service), characteristic);
              && c.Some? && Cccd() in c.value.descriptors
              && r.effects == [Radio(SetCharacteristicNotification(c.value, enable)),
                               Radio(WriteDescriptor(c.value, Cccd(), CccdValue(c.value.properties, enable)))]
    ensures Refuse(p, cb).None? && FindNotify(FindService(services, service), characteristic).None? ==>
              r == Step(p, [Invoke(cb, Failed(NotifyCharacteristicNotFound(characteristic)))])
    ensures Refuse(p, cb).None? && FindNotify(FindService(services, service), characteristic).Some? ==>
              var c := FindNotify(FindService(services, service), characteristic).value;
              var register := Radio(SetCharacteristicNotification(c, enable));
              var configure := Radio(WriteDescriptor(c, Cccd(), CccdValue(c.properties, enable)));
              && (registered && Cccd() in c.descriptors && written ==>
                    r == Step(p.(slots := p.slots[NotifySlot := cb]), [register, configure]))
              && (!registered ==>
                    r == Step(p, [register, Invoke(cb, Failed(RegisterNotificationFailed(characteristic)))]))
              && (registered && Cccd() !in c.descriptors ==>
                    r == Step(p, [register, Invoke(cb, Failed(SetNotificationFailed(characteristic)))]))
              && (registered && Cccd() in c.descriptors && !written ==>
                    r == Step(p, [register, configure, Invoke(cb, Failed(DescriptorWriteRefused(characteristic)))]))
  {
    if Refuse(p, cb).Some? then Refuse(p, cb).value
    else match FindNotify(FindService(services, service), characteristic)
      case None => Step(p, [Invoke(cb, Failed(NotifyCharacteristicNotFound(characteristic)))])
      case Some(c) =>
        var register := [Radio(SetCharacteristicNotification(c, enable))];
        if !registered then Step(p, register + [Invoke(cb, Failed(RegisterNotificationFailed(characteristic)))])
        else if Cccd() !in c.descriptors then
          Step(p, register + [Invoke(cb, Failed(SetNotificationFailed(characteristic)))])
        else
          var configure := register + [Radio(WriteDescriptor(c, Cccd(), CccdValue(c.properties, enable)))];
          if written then Step(p.(slots := p.slots[NotifySlot := cb]), configure)
          else Step(p, configure + [Invoke(cb, Failed(DescriptorWriteRefused(characteristic)))])
  }

  /** How many of `pieces` an unacknowledged write hands to the radio when
      the radio refuses the piece at `refusedAt`: up to and including it. */
  function Attempted(pieces: seq<Bytes>, refusedAt: Option<nat>): (n: nat)
    ensures n <= |pieces|
    ensures refusedAt.Some? && refusedAt.value < |pieces| ==> n == refusedAt.value + 1
    ensures !(refusedAt.Some? && refusedAt.value < |pieces|) ==> n == |pieces|
  {
    if refusedAt.Some? && refusedAt.value < |pieces| then refusedAt.value + 1 else |pieces|
  }

  /** The radio requests for the first `n` pieces, in order. */
  function Send(characteristic: Characteristic, pieces: seq<Bytes>, n: nat, writeType: WriteType): (r: seq<Effect>)
    requires n <= |pieces|
    ensures |r| == n
    ensures forall i :: 0 <= i < n ==> r[i] == Radio(WriteCharacteristic(characteristic, pieces[i], writeType))
  {
    seq(n, i requires 0 <= i < n => Radio(WriteCharacteristic(characteristic, pieces[i], writeType)))
  }

  /** A write handed to the radio in one request: an acknowledged one takes
      the write slot, an unacknowledged one is answered at once, and a
      refusal answers "Write failed" and leaves the slot free
      (Peripheral.java:750-758). */
  function Single(p: Peripheral, request: Request, cb: Cb, writeType: WriteType, refused: bool): (r: Step)
    ensures refused ==> r == Step(p, [Radio(request), Invoke(cb, Failed(WriteFailed))])
    ensures !refused && writeType == Default ==> r == Step(p.(slots := p.slots[WriteSlot := cb]), [Radio(request)])
    ensures !refused && writeType == NoResponse ==> r == Step(p, [Radio(request), Invoke(cb, Ok)])
  {
    if refused then Step(p, [Radio(request), Invoke(cb, Failed(WriteFailed))])
    else if writeType == Default then Step(p.(slots := p.slots[WriteSlot := cb]), [Radio(request)])
    else Step(p, [Radio(request), Invoke(cb, Ok)])
  }

  /** The part of `write` after the busy checks (Peripheral.java:691-758).
      `refusedAt` is the position, among the `writeCharacteristic` calls
      this command makes, of the first one the platform refuses.
      An acknowledged write takes the write slot; a long one sends its first
      piece and queues the others.  An unacknowledged long write sends the
      pieces one after the other, stops at the first refusal and answers
      once.  The size is not checked and the slot is taken before the value
      is split: with a size of 0 a non-empty value keeps the splitting loop
      from advancing; with a negative size a non-empty value makes the first
      copy throw, and an empty one leaves no first piece, so a null value is
      written in its place. */
  function Issue(p: Peripheral, c: Characteristic, data: Bytes, maxByteSize: int, cb: Cb,
                 writeType: WriteType, refusedAt: Option<nat>): (r: Step)
    requires WriteSlot !in p.slots && p.writeQueue == []
    ensures r.next.(slots := p.slots, writeQueue := p.writeQueue) == p
    ensures r.next.slots - {WriteSlot} == p.slots
    ensures writeType == NoResponse ==> r.next == p
    ensures writeType == Default && |data| > maxByteSize > 0 && refusedAt != Some(0) ==>
              && r.next.slots == p.slots[WriteSlot := cb]
              && r.next.writeQueue == Chunking.Chunks(data, maxByteSize)[1..]
              && r.effects == [Radio(WriteCharacteristic(c, Chunking.Chunks(data, maxByteSize)[0], Default))]
    ensures writeType == Default && |data| <= maxByteSize && refusedAt != Some(0) ==>
              && r.next.slots == p.slots[WriteSlot := cb]
              && r.effects == [Radio(WriteCharacteristic(c, data, Default))]
    ensures writeType == Default && refusedAt == Some(0) && (|data| <= maxByteSize || maxByteSize > 0) ==>
              r.next == p && |r.effects| > 0 && r.effects[|r.effects| - 1] == Invoke(cb, Failed(WriteFailed))
    ensures writeType == NoResponse && |data| > maxByteSize > 0 ==>
              var pieces := Chunking.Chunks(data, maxByteSize);
              var n := Attempted(pieces, refusedAt);
              r.effects == Send(c, pieces, n, NoResponse) +
                           [Invoke(cb, if n < |pieces| || refusedAt == Some(|pieces| - 1) then Failed(WriteFailed) else Ok)]
    ensures writeType == NoResponse && |data| <= maxByteSize ==>
              r.effects == [Radio(WriteCharacteristic(c, data, NoResponse)),
                            Invoke(cb, if refusedAt == Some(0) then Failed(WriteFailed) else Ok)]
    ensures data != [] && maxByteSize <= 0 ==>
              && r.next.slots == (if writeType == Default then p.slots[WriteSlot := cb] else p.slots)
              && r.effects == [if maxByteSize == 0 then Spin else Thrown]
    ensures data == [] && maxByteSize < 0 ==>
              r == Single(p, WriteNullValue(c, writeType), cb, writeType, refusedAt == Some(0))
  {
    var taken := if writeType == Default then p.(slots := p.slots[WriteSlot := cb]) else p;
    if |data| <= maxByteSize then
      Single(p, WriteCharacteristic(c, data, writeType), cb, writeType, refusedAt == Some(0))
    else if maxByteSize < 0 && data == [] then
      Single(p, WriteNullValue(c, writeType), cb, writeType, refusedAt == Some(0))
    else if maxByteSize <= 0 then
      Step(taken, [if maxByteSize == 0 then Spin else Thrown])
    else
      var pieces := Chunking.Chunks(data, maxByteSize);
      assert pieces != [] by { Chunking.ChunksCount(data, maxByteSize); }
      if writeType == Default then
        var first := [Radio(WriteCharacteristic(c, pieces[0], Default))];
        if refusedAt == Some(0) then Step(p, first + [Invoke(cb, Failed(WriteFailed))])
        else Step(p.(slots := p.slots[WriteSlot := cb], writeQueue := pieces[1..]), first)
      else
        var n := Attempted(pieces, refusedAt);
        var failed := n < |pieces| || refusedAt == Some(|pieces| - 1);
        Step(p, Send(c, pieces, n, NoResponse) + [Invoke(cb, if failed then Failed(WriteFailed) else Ok)])
  }

  /** `write` as written (Peripheral.java:667-762): the two busy checks are
      separate `if`s, so a write arriving while a long write is both queued
      and waiting for its acknowledgement is refused twice, its callback
      invoked once for each. */
  function WriteAsWritten(p: Peripheral, services: seq<Service>, service: Uuid, characteristic: Uuid,
                          data: Bytes, maxByteSize: int, cb: Cb, writeType: WriteType,
                          refusedAt: Option<nat>): (r: Step)
    ensures Refuse(p, cb).Some? ==> r == Refuse(p, cb).value
    ensures Refuse(p, cb).None? && FindWritable(FindService(services, service), characteristic, writeType).Some? &&
            p.writeQueue != [] && WriteSlot in p.slots ==>
              r == Step(p, [Invoke(cb, Failed(AlreadyQueued)), Invoke(cb, Failed(AlreadyWriting))])
    ensures r.next.(slots := p.slots, writeQueue := p.writeQueue) == p
    ensures Refuse(p, cb).None? && FindWritable(FindService(services, service), characteristic, writeType).None? ==>
              r == Step(p, [Invoke(cb, Failed(CharacteristicNotFound(characteristic)))])
    ensures Refuse(p, cb).None? && FindWritable(FindService(services, service), characteristic, writeType).Some? &&
            (p.writeQueue != [] <==> WriteSlot !in p.slots) ==>
              r == Step(p, [Invoke(cb, Failed(if p.writeQueue != [] then AlreadyQueued else AlreadyWriting))])
    ensures p.writeQueue == [] && WriteSlot !in p.slots && Refuse(p, cb).None? &&
            FindWritable(FindService(services, service), characteristic, writeType).Some? ==>
              r == Issue(p, FindWritable(FindService(services, service), characteristic, writeType).value,
                         data, maxByteSize, cb, writeType, refusedAt)
    ensures !(p.writeQueue != [] && WriteSlot in p.slots) ==>
              r == Write(p, services, service, characteristic, data, maxByteSize, cb, writeType, refusedAt)
  {
    if Refuse(p, cb).Some? then Refuse(p, cb).value
    else match FindWritable(FindService(services, service), characteristic, writeType)
      case None => Step(p, [Invoke(cb, Failed(CharacteristicNotFound(characteristic)))])
      case Some(c) =>
        var queued := if p.writeQueue != [] then [Invoke(cb, Failed(AlreadyQueued))] else [];
        var writing := if WriteSlot in p.slots then [Invoke(cb, Failed(AlreadyWriting))] else [];
        if queued + writing != [] then Step(p, queued + writing)
        else Issue(p, c, data, maxByteSize, cb, writeType, refusedAt)
  }

  /** `write` with the busy checks chained, so that a refused write is
      answered exactly once. */
  function Write(p: Peripheral, services: seq<Service>, service: Uuid, characteristic: Uuid,
                 data: Bytes, maxByteSize: int, cb: Cb, writeType: WriteType,
                 refusedAt: Option<nat>): (r: Step)
    ensures Refuse(p, cb).Some? ==> r == Refuse(p, cb).value
    ensures r.next.(slots := p.slots, writeQueue := p.writeQueue) == p
    ensures Refuse(p, cb).None? && FindWritable(FindService(services, service), characteristic, writeType).None? ==>
              r == Step(p, [Invoke(cb, Failed(CharacteristicNotFound(characteristic)))])
    ensures (p.writeQueue != [] || WriteSlot in p.slots) && Refuse(p, cb).None? &&
            FindWritable(FindService(services, service), characteristic, writeType).Some? ==>
              r == Step(p, [Invoke(cb, Failed(if p.writeQueue != [] then AlreadyQueued else AlreadyWriting))])
    ensures p.writeQueue == [] && WriteSlot !in p.slots && Refuse(p, cb).None? &&
            FindWritable(FindService(services, service), characteristic, writeType).Some? ==>
              r == Issue(p, FindWritable(FindService(services, service), characteristic, writeType).value,
                         data, maxByteSize, cb, writeType, refusedAt)
  {
    if Refuse(p, cb).Some? then Refuse(p, cb).value
    else match FindWritable(FindService(services, service), characteristic, writeType)
      case None => Step(p, [Invoke(cb, Failed(CharacteristicNotFound(characteristic)))])
      case Some(c) =>
        if p.writeQueue != [] then Step(p, [Invoke(cb, Failed(AlreadyQueued))])
        else if WriteSlot in p.slots then Step(p, [Invoke(cb, Failed(AlreadyWriting))])
        else Issue(p, c, data, maxByteSize, cb, writeType, refusedAt)
  }
}

=== FILE: android_peripheral_properties.dfy ===
/** Properties of the Android peripheral over several steps: the pieces of a
    long acknowledged write, what a failed connection tells the connect
    callback, and the three places where the source departs from what it
    evidently means to do, each shown on the code as written and proved
    about the corrected step. */
module AndroidPeripheralProperties {
  import opened Common
  import opened UuidHelper
  import opened AndroidGatt
  import opened AndroidPeripheral
  import Chunking

  /** A run of `onCharacteristicWrite` acknowledgements, one per status. */
  function Acknowledge(p: Peripheral, c: Characteristic, statuses: seq<int>): Step
    decreases |statuses|
  {
    if statuses == [] then Step(p, [])
    else
      var s := CharacteristicWrite(p, c, statuses[0]);
      var t := Acknowledge(s.next, c, statuses[1..]);
      Step(t.next, s.effects + t.effects)
  }

  /** While a write waits, each acknowledgement sends the next queued piece,
      whatever its status, until the queue is empty. */
  lemma {:induction false} AcknowledgementsSendQueue(p: Peripheral, c: Characteristic, statuses: seq<int>)
    requires WriteSlot in p.slots && |statuses| == |p.writeQueue|
    ensures Acknowledge(p, c, statuses).next == p.(writeQueue := [])
    ensures Acknowledge(p, c, statuses).effects == Send(c, p.writeQueue, |p.writeQueue|, Default)
    decreases |statuses|
  {
    var q := p.writeQueue;
    if statuses != [] {
      var s := CharacteristicWrite(p, c, statuses[0]);
      assert s.next == p.(writeQueue := q[1..]);
      AcknowledgementsSendQueue(s.next, c, statuses[1..]);
      var all := Send(c, q, |q|, Default);
      var tail := Send(c, q[1..], |q| - 1, Default);
      assert s.effects + tail == all by {
        forall i | 0 <= i < |q|
          ensures (s.effects + tail)[i] == all[i]
        {
          if i > 0 { assert tail[i - 1] == all[i]; }
        }
      }
    }
  }

  /** The peripheral can carry out a write to `characteristic`. */
  predicate Writable(p: Peripheral, services: seq<Service>, service: Uuid, characteristic: Uuid, writeType: WriteType) {
    p.connected && p.gatt && FindWritable(FindService(services, service), characteristic, writeType).Some?
  }

  /** An acknowledged write longer than the limit, on an idle peripheral,
      sends every piece in order, one per acknowledgement; the
      acknowledgement of the last piece answers the callback with the status
      of that piece alone and leaves the peripheral as it found it. */
  lemma LongWriteDelivered(p: Peripheral, services: seq<Service>, service: Uuid, characteristic: Uuid,
                           data: Bytes, max: int, cb: Cb, statuses: seq<int>, final: int)
    requires max > 0 && |data| > max
    requires Writable(p, services, service, characteristic, Default)
    requires WriteSlot !in p.slots && p.writeQueue == []
    requires |statuses| == |Chunking.Chunks(data, max)| - 1
    ensures var c := FindWritable(FindService(services, service), characteristic, Default).value;
            var pieces := Chunking.Chunks(data, max);
            var w := Write(p, services, service, characteristic, data, max, cb, Default, None);
            var acks := Acknowledge(w.next, c, statuses);
            var last := CharacteristicWrite(acks.next, c, final);
            && w.effects + acks.effects == Send(c, pieces, |pieces|, Default)
            && Flatten(pieces) == data
            && last.effects == [Invoke(cb, if final == GattSuccess then Ok else Failed(ErrorWriting(final)))]
            && last.next == p
  {
    var c := FindWritable(FindService(services, service), characteristic, Default).value;
    var pieces := Chunking.Chunks(data, max);
    Chunking.ChunksIsChunking(data, max);
    LongIssue(p, c, data, max, cb);
    var w := Write(p, services, service, characteristic, data, max, cb, Default, None);
    assert w == Issue(p, c, data, max, cb, Default, None);
    AcknowledgementsSendQueue(w.next, c, statuses);
    SendFirstThenRest(c, pieces);
    var acks := Acknowledge(w.next, c, statuses);
    assert acks.next.slots == p.slots[WriteSlot := cb];
    assert acks.next.slots - {WriteSlot} == p.slots;
  }

  /** On an idle peripheral, a long acknowledged write sends its first piece,
      queues the others and waits in the write slot. */
  lemma LongIssue(p: Peripheral, c: Characteristic, data: Bytes, max: int, cb: Cb)
    requires max > 0 && |data| > max
    requires WriteSlot !in p.slots && p.writeQueue == []
    ensures |Chunking.Chunks(data, max)| > 1
    ensures Issue(p, c, data, max, cb, Default, None) ==
              Step(p.(slots := p.slots[WriteSlot := cb], writeQueue := Chunking.Chunks(data, max)[1..]),
                   [Radio(WriteCharacteristic(c, Chunking.Chunks(data, max)[0], Default))])
  {
    Chunking.ChunksCount(data, max);
  }

  /** Sending the first piece and then the rest is sending them all. */
  lemma SendFirstThenRest(c: Characteristic, pieces: seq<Bytes>)
    requires |pieces| > 0
    ensures [Radio(WriteCharacteristic(c, pieces[0], Default))] + Send(c, pieces[1..], |pieces| - 1, Default)
            == Send(c, pieces, |pieces|, Default)
  {
    var all := Send(c, pieces, |pieces|, Default);
    var joined := [Radio(WriteCharacteristic(c, pieces[0], Default))] + Send(c, pieces[1..], |pieces| - 1, Default);
    forall i | 0 <= i < |pieces|
      ensures joined[i] == all[i]
    {
    }
  }

  /** `connect` answers its callback with success before the radio has done
      anything, and leaves no callback behind: when the link then fails, the
      disconnection answers every other waiting request but never the
      connect callback. */
  lemma ConnectFailureNeverReported(p: Peripheral, cb: Cb, hasClient: bool, gatt: bool)
    requires !p.connected
    requires forall s :: s in p.slots ==> p.slots[s] != cb
    ensures var c := Connect(p, cb, hasClient);
            var d := ConnectionStateChange(c.next, gatt, StateDisconnected);
            && Answers(c.effects, cb)
            && !Answers(d.effects, cb)
            && Emit(DisconnectEvent(p.address)) in d.effects
  {
    var c := Connect(p, cb, hasClient);
    assert c.effects[|c.effects| - 1] in c.effects;
    var d := ConnectionStateChange(c.next, gatt, StateDisconnected);
    var orphaned := Orphaned(c.next.slots);
    var head := if c.next.connected && gatt then [Radio(CloseGatt)] else [];
    assert d.effects == head + [Emit(DisconnectEvent(p.address))] + orphaned;
    forall e | e in d.effects && e.Invoke?
      ensures e.cb != cb
    {
      assert e in orphaned;
    }
  }

  // ---------------------------------------------------------------------------
  // readRSSI clears the wrong slot (Peripheral.java:596-601)

  /** As written: when the platform refuses an RSSI request while a
      characteristic read is waiting, the read loses its callback, so its
      completion is dropped, and the refused RSSI callback stays in its slot. */
  lemma ReadRssiRefusalLosesRead(p: Peripheral, cb: Cb, characteristic: Uuid, value: Bytes)
    requires p.connected && p.gatt && ReadSlot in p.slots
    ensures var s := ReadRssiAsWritten(p, cb, false);
            && Invoke(cb, Failed(ReadRssiFailed)) in s.effects
            && CharacteristicRead(s.next, characteristic, GattSuccess, value).effects == []
            && s.next.slots[RssiSlot] == cb
  {
    var s := ReadRssiAsWritten(p, cb, false);
    assert s.effects[1] == Invoke(cb, Failed(ReadRssiFailed));
  }

  /** Corrected: the refused RSSI request leaves a waiting read alone, which
      is still answered with its value, and frees its own slot. */
  lemma ReadRssiRefusalKeepsRead(p: Peripheral, cb: Cb, characteristic: Uuid, value: Bytes)
    requires p.connected && p.gatt && ReadSlot in p.slots
    ensures var s := ReadRssi(p, cb, false);
            && Invoke(cb, Failed(ReadRssiFailed)) in s.effects
            && CharacteristicRead(s.next, characteristic, GattSuccess, value).effects ==
                 [Invoke(p.slots[ReadSlot], ReadValue(value))]
            && RssiSlot !in s.next.slots
  {
    var s := ReadRssi(p, cb, false);
    assert s.effects[1] == Invoke(cb, Failed(ReadRssiFailed));
    assert ReadSlot in s.next.slots - {RssiSlot};
  }

  // ---------------------------------------------------------------------------
  // Requests answered by their GATT callback

  /** A service discovery that went out waits in its slot and is answered
      once, by `onServicesDiscovered` (Peripheral.java:283-290, 621-632). */
  lemma DiscoveryAnsweredByEvent(p: Peripheral, cb: Cb)
    requires p.connected && p.gatt
    ensures var s := RetrieveServices(p, cb);
            var d := ServicesDiscovered(s.next);
            && !Answers(s.effects, cb)
            && d.effects == [Invoke(cb, ServicesInfo)]
            && d.next == p.(slots := p.slots - {ServicesSlot})
            && ServicesDiscovered(d.next).effects == []
  {
  }

  /** An MTU request that went out is answered once, by `onMtuChanged`, with
      the MTU granted or the error status (Peripheral.java:778-795, 798-809). */
  lemma MtuAnsweredByEvent(p: Peripheral, mtu: int, cb: Cb, granted: int, status: int)
    requires p.connected && p.gatt
    ensures var s := RequestMtu(p, mtu, cb);
            var d := MtuChanged(s.next, granted, status);
            && !Answers(s.effects, cb)
            && d.effects == [Invoke(cb, if status == GattSuccess then MtuValue(granted) else Failed(ErrorRequestingMtu(status)))]
            && d.next == p.(slots := p.slots - {MtuSlot})
  {
  }

  /** A characteristic read the platform accepted is answered once, by
      `onCharacteristicRead`, with the value or the error status; a refused
      one is answered at once and the event then finds nobody waiting
      (Peripheral.java:388-407, 561-584). */
  lemma ReadAnsweredByEvent(p: Peripheral, services: seq<Service>, service: Uuid, characteristic: Uuid,
                            cb: Cb, accepted: bool, status: int, value: Bytes)
    requires p.connected && p.gatt
    requires FindReadable(FindService(services, service), characteristic).Some?
    ensures var s := Read(p, services, service, characteristic, cb, accepted);
            var d := CharacteristicRead(s.next, characteristic, status, value);
            && (accepted <==> !Answers(s.effects, cb))
            && (accepted ==> d.effects == [Invoke(cb, if status == GattSuccess then ReadValue(value)
                                                      else Failed(ErrorReading(characteristic, status)))])
            && (!accepted ==> d.effects == [])
            && d.next == p.(slots := p.slots - {ReadSlot})
  {
  }

  /** A notification switch whose descriptor write went out is answered
      once, by `onDescriptorWrite` (Peripheral.java:436-447, 464-520). */
  lemma NotifyAnsweredByDescriptorWrite(p: Peripheral, services: seq<Service>, service: Uuid, characteristic: Uuid,
                                        enable: bool, cb: Cb, status: int)
    requires p.connected && p.gatt
    requires FindNotify(FindService(services, service), characteristic).Some?
    requires Cccd() in FindNotify(FindService(services, service), characteristic).value.descriptors
    ensures var s := SetNotify(p, services, service, characteristic, enable, cb, true, true);
            var d := DescriptorWrite(s.next, status);
            && !Answers(s.effects, cb)
            && d.effects == [Invoke(cb, if status == GattSuccess then Ok else Failed(ErrorWritingDescriptor(status)))]
            && d.next == p.(slots := p.slots - {NotifySlot})
  {
  }

  /** Whatever the platform answers, a notification switch is either
      answered at once or left waiting for `onDescriptorWrite`, never both
      (Peripheral.java:464-520). */
  lemma NotifyAnsweredNowOrLater(p: Peripheral, services: seq<Service>, service: Uuid, characteristic: Uuid,
                                 enable: bool, cb: Cb, registered: bool, written: bool)
    requires NotifySlot !in p.slots
    ensures var s := SetNotify(p, services, service, characteristic, enable, cb, registered, written);
            Answers(s.effects, cb) <==> NotifySlot !in s.next.slots
  {
    var s := SetNotify(p, services, service, characteristic, enable, cb, registered, written);
    if NotifySlot in s.next.slots {
      assert s.next.slots != p.slots;
      forall e | e in s.effects ensures !e.Invoke? {
      }
    } else {
      assert s.next.slots == p.slots;
      assert s.effects[|s.effects| - 1].Invoke? && s.effects[|s.effects| - 1].cb == cb;
      assert s.effects[|s.effects| - 1] in s.effects;
    }
  }

  // ---------------------------------------------------------------------------
  // A write refused while a long write is under way (Peripheral.java:683-689)

  /** A long acknowledged write under way: pieces queued, callback waiting. */
  lemma LongWriteOccupies(p: Peripheral, services: seq<Service>, service: Uuid, characteristic: Uuid,
                          data: Bytes, max: int, cb: Cb)
    requires max > 0 && |data| > max
    requires Writable(p, services, service, characteristic, Default)
    requires WriteSlot !in p.slots && p.writeQueue == []
    ensures var w := Write(p, services, service, characteristic, data, max, cb, Default, None);
            && w.next.writeQueue != [] && w.next.slots[WriteSlot] == cb
            && w.next.connected && w.next.gatt
  {
    Chunking.ChunksCount(data, max);
    var c := FindWritable(FindService(services, service), characteristic, Default).value;
    assert Write(p, services, service, characteristic, data, max, cb, Default, None) ==
           Issue(p, c, data, max, cb, Default, None);
  }

  /** As written: a second write arriving then is refused twice, and its
      callback, which the bridge promises to invoke once, is invoked twice. */
  lemma SecondWriteAnsweredTwice(p: Peripheral, services: seq<Service>, service: Uuid, characteristic: Uuid,
                                 data: Bytes, max: int, cb: Cb,
                                 other: Uuid, more: Bytes, cb2: Cb, writeType: WriteType)
    requires max > 0 && |data| > max
    requires Writable(p, services, service, characteristic, Default)
    requires Writable(p, services, service, other, writeType)
    requires WriteSlot !in p.slots && p.writeQueue == []
    ensures var w := Write(p, services, service, characteristic, data, max, cb, Default, None);
            WriteAsWritten(w.next, services, service, other, more, max, cb2, writeType, None).effects ==
              [Invoke(cb2, Failed(AlreadyQueued)), Invoke(cb2, Failed(AlreadyWriting))]
  {
    LongWriteOccupies(p, services, service, characteristic, data, max, cb);
  }

  /** Corrected: the same second write is refused with one answer, and the
      write under way is left as it was. */
  lemma SecondWriteAnsweredOnce(p: Peripheral, services: seq<Service>, service: Uuid, characteristic: Uuid,
                                data: Bytes, max: int, cb: Cb,
                                other: Uuid, more: Bytes, cb2: Cb, writeType: WriteType)
    requires max > 0 && |data| > max
    requires Writable(p, services, service, characteristic, Default)
    requires Writable(p, services, service, other, writeType)
    requires WriteSlot !in p.slots && p.writeQueue == []
    ensures var w := Write(p, services, service, characteristic, data, max, cb, Default, None);
            Write(w.next, services, service, other, more, max, cb2, writeType, None) ==
              Step(w.next, [Invoke(cb2, Failed(AlreadyQueued))])
  {
    LongWriteOccupies(p, services, service, characteristic, data, max, cb);
  }

  // ---------------------------------------------------------------------------
  // The write queue outlives a disconnection (Peripheral.java:323-352)

  /** As written: a link lost in the middle of a long write keeps the
      remaining pieces queued.  After reconnecting, every write is refused
      with "already queued", and no acknowledgement can drain the queue,
      since the write slot it needs was emptied. */
  lemma QueueOutlivesDisconnect(p: Peripheral, services: seq<Service>, service: Uuid, characteristic: Uuid,
                                data: Bytes, max: int, cb: Cb, gatt: bool, cbConnect: Cb,
                                more: Bytes, cb2: Cb, writeType: WriteType, status: int)
    requires max > 0 && |data| > max
    requires Writable(p, services, service, characteristic, Default)
    requires FindWritable(FindService(services, service), characteristic, writeType).Some?
    requires WriteSlot !in p.slots && p.writeQueue == []
    ensures var w := Write(p, services, service, characteristic, data, max, cb, Default, None);
            var down := ConnectionStateChange(w.next, gatt, StateDisconnected);
            var up := Connect(down.next, cbConnect, true);
            var c := FindWritable(FindService(services, service), characteristic, Default).value;
            && Write(up.next, services, service, characteristic, more, max, cb2, writeType, None).effects ==
                 [Invoke(cb2, Failed(AlreadyQueued))]
            && CharacteristicWrite(up.next, c, status) == Step(up.next, [])
  {
    LongWriteOccupies(p, services, service, characteristic, data, max, cb);
  }

  /** Corrected: with the queue emptied on disconnection, the first write
      after reconnecting is carried out. */
  lemma WriteAfterReconnect(p: Peripheral, services: seq<Service>, service: Uuid, characteristic: Uuid,
                            data: Bytes, max: int, cb: Cb, gatt: bool, cbConnect: Cb,
                            more: Bytes, cb2: Cb, writeType: WriteType)
    requires max > 0 && |data| > max
    requires Writable(p, services, service, characteristic, Default)
    requires FindWritable(FindService(services, service), characteristic, writeType).Some?
    requires WriteSlot !in p.slots && p.writeQueue == []
    ensures var w := Write(p, services, service, characteristic, data, max, cb, Default, None);
            var down := ConnectionStateChangeCorrected(w.next, gatt, StateDisconnected);
            var up := Connect(down.next, cbConnect, true);
            var c := FindWritable(FindService(services, service), characteristic, writeType).value;
            Write(up.next, services, service, characteristic, more, max, cb2, writeType, None) ==
              Issue(up.next, c, more, max, cb2, writeType, None)
  {
    LongWriteOccupies(p, services, service, characteristic, data, max, cb);
  }
}

=== FILE: ble_error.dfy ===
/** The JavaScript error wrapper of src/BleError.ts: whatever the native
    side rejects with is classified into one of four shapes and turned into
    a `BleError` with a fixed set of optional fields. */
module BleErrors {
  import opened Common

  /** A JavaScript value, as far as `typeof`, `==`, `Array.isArray` and
      property reads can tell.  An object lists its own properties; a key
      is read from its first listing. */
  datatype Js =
    | Undefined
    | Null
    | JsBool(b: bool)
    | JsNumber(n: real)
    | JsString(s: string)
    | JsArray(items: seq<Js>)
    | JsObject(properties: seq<(string, Js)>)
    | JsFunction

  /** `o[key]`: `undefined` when the object has no such property. */
  function Get(properties: seq<(string, Js)>, key: string): (r: Js)
    ensures (forall i :: 0 <= i < |properties| ==> properties[i].0 != key) ==> r == Undefined
    ensures r != Undefined ==> (key, r) in properties
  {
    if properties == [] then Undefined
    else if properties[0].0 == key then properties[0].1
    else Get(properties[1..], key)
  }

  /** `isObject`: `typeof o === "object"`, not null and not an array. */
  predicate IsObject(v: Js) {
    match v
    case Null => false
    case JsArray(_) => false
    case JsObject(_) => true
    case _ => false
  }

  /** `x == null`: loose equality holds for null and undefined alike. */
  predicate IsNullish(v: Js) {
    v == Null || v == Undefined
  }

  /** The optional number fields and the optional string fields. */
  const NumberKeys: seq<string> := ["iosCode", "attErrorCode", "minAdkVersion", "customCode"]
  const StringKeys: seq<string> := ["iosDomain", "peripheralUUID", "serviceUUID", "characteristicUUID", "descriptorUUID"]

  /** `isValidError`: a string message, and every optional field absent,
      null, or of its declared type. */
  predicate IsValidError(properties: seq<(string, Js)>) {
    && Get(properties, "message").JsString?
    && (forall k :: k in NumberKeys ==> IsNullish(Get(properties, k)) || Get(properties, k).JsNumber?)
    && (forall k :: k in StringKeys ==> IsNullish(Get(properties, k)) || Get(properties, k).JsString?)
  }

  /** Which branch of the constructor runs. */
  datatype Shape = RawString | NonObject | InvalidObject | ValidObject

  function ShapeOf(err: Js): (r: Shape)
    ensures r == RawString <==> err.JsString?
    ensures r == NonObject <==> !err.JsString? && !IsObject(err)
    ensures r == InvalidObject <==> IsObject(err) && !IsValidError(err.properties)
    ensures r == ValidObject <==> IsObject(err) && IsValidError(err.properties)
  {
    if err.JsString? then RawString
    else if !IsObject(err) then NonObject
    else if !IsValidError(err.properties) then InvalidObject
    else ValidObject
  }

  /** The nine optional fields of a `BleError`; `None` is null. */
  datatype Fields = Fields(
    iosCode: Option<real>, iosDomain: Option<string>, attErrorCode: Option<real>,
    minAdkVersion: Option<real>, customCode: Option<real>, peripheralUUID: Option<string>,
    serviceUUID: Option<string>, characteristicUUID: Option<string>, descriptorUUID: Option<string>)

  const NoFields: Fields := Fields(None, None, None, None, None, None, None, None, None)

  /** A `BleError`.  `message` is `None` where `super()` ran without one
      (the message then reads as the empty string). */
  datatype BleError = BleError(name: string, message: Option<string>, raw: Js, fields: Fields)

  /** `BleError.prototype.name`. */
  const BaseName: string := "BleError"

  /** `x ?? null` for a number field of a valid error. */
  function NumberOrNull(v: Js): (r: Option<real>)
    ensures r.Some? <==> v.JsNumber?
    ensures r.Some? ==> r.value == v.n
  {
    if v.JsNumber? then Some(v.n) else None
  }

  /** `x ?? null` for a string field of a valid error. */
  function StringOrNull(v: Js): (r: Option<string>)
    ensures r.Some? <==> v.JsString?
    ensures r.Some? ==> r.value == v.s
  {
    if v.JsString? then Some(v.s) else None
  }

  /** A copied number field is null exactly when the property is absent
      or null, and otherwise holds the property's number. */
  predicate Carries(f: Option<real>, properties: seq<(string, Js)>, key: string) {
    && (f.None? <==> IsNullish(Get(properties, key)))
    && (f.Some? ==> Get(properties, key) == JsNumber(f.value))
  }

  /** The same for a string field. */
  predicate CarriesText(f: Option<string>, properties: seq<(string, Js)>, key: string) {
    && (f.None? <==> IsNullish(Get(properties, key)))
    && (f.Some? ==> Get(properties, key) == JsString(f.value))
  }

  function Copied(p: seq<(string, Js)>): Fields {
    Fields(NumberOrNull(Get(p, "iosCode")), StringOrNull(Get(p, "iosDomain")), NumberOrNull(Get(p, "attErrorCode")),
           NumberOrNull(Get(p, "minAdkVersion")), NumberOrNull(Get(p, "customCode")), StringOrNull(Get(p, "peripheralUUID")),
           StringOrNull(Get(p, "serviceUUID")), StringOrNull(Get(p, "characteristicUUID")), StringOrNull(Get(p, "descriptorUUID")))
  }

  /** The `BleError` constructor.  A string is the message; anything that
      is not an object carries nothing; an object failing `isValidError`
      keeps only a string message; a valid object has its fields copied
      and its name suffixed with a non-empty (truthy) `iosDomain`. */
  function Construct(err: Js): (r: BleError)
    ensures r.raw == err
    ensures ShapeOf(err) != ValidObject ==> r.fields == NoFields
    ensures ShapeOf(err) == RawString ==> r.name == BaseName + "(RAW_STRING_ERROR)" && r.message == Some(err.s)
    ensures ShapeOf(err) == NonObject ==> r.name == BaseName + "(NON_OBJECT_ERROR)" && r.message.None?
    ensures ShapeOf(err) == InvalidObject ==>
              && r.name == BaseName + "(INVALID_OBJECT_ERROR)"
              && (r.message.Some? <==> Get(err.properties, "message").JsString?)
              && (r.message.Some? ==> r.message.value == Get(err.properties, "message").s)
    ensures ShapeOf(err) == ValidObject ==>
              && r.message == Some(Get(err.properties, "message").s)
              && (r.fields.iosDomain.Some? && r.fields.iosDomain.value != "" <==> r.name != BaseName)
              && (r.name != BaseName ==> r.name == BaseName + "(" + r.fields.iosDomain.value + ")")
    ensures ShapeOf(err) == ValidObject ==>
              && Carries(r.fields.iosCode, err.properties, "iosCode")
              && Carries(r.fields.attErrorCode, err.properties, "attErrorCode")
              && Carries(r.fields.minAdkVersion, err.properties, "minAdkVersion")
              && Carries(r.fields.customCode, err.properties, "customCode")
    ensures ShapeOf(err) == ValidObject ==>
              && CarriesText(r.fields.iosDomain, err.properties, "iosDomain")
              && CarriesText(r.fields.peripheralUUID, err.properties, "peripheralUUID")
              && CarriesText(r.fields.serviceUUID, err.properties, "serviceUUID")
              && CarriesText(r.fields.characteristicUUID, err.properties, "characteristicUUID")
              && CarriesText(r.fields.descriptorUUID, err.properties, "descriptorUUID")
  {
    match ShapeOf(err)
    case RawString => BleError(BaseName + "(RAW_STRING_ERROR)", Some(err.s), err, NoFields)
    case NonObject => BleError(BaseName + "(NON_OBJECT_ERROR)", None, err, NoFields)
    case InvalidObject =>
      var m := Get(err.properties, "message");
      BleError(BaseName + "(INVALID_OBJECT_ERROR)", if m.JsString? then Some(m.s) else None, err, NoFields)
    case ValidObject =>
      var fields := Copied(err.properties);
      var truthy := fields.iosDomain.Some? && fields.iosDomain.value != "";
      BleError(if truthy then BaseName + "(" + fields.iosDomain.value + ")" else BaseName,
               Some(Get(err.properties, "message").s), err, fields)
  }

  // ---------------------------------------------------------------------------
  // Properties

  /** Exactly one of the four branches applies to any value. */
  lemma ExactlyOneBranch(err: Js)
    ensures var shapes := [err.JsString?, !err.JsString? && !IsObject(err),
                           IsObject(err) && !IsValidError(err.properties), IsObject(err) && IsValidError(err.properties)];
            |set i | 0 <= i < 4 && shapes[i]| == 1
  {
    var shapes := [err.JsString?, !err.JsString? && !IsObject(err),
                   IsObject(err) && !IsValidError(err.properties), IsObject(err) && IsValidError(err.properties)];
    var k := if shapes[0] then 0 else if shapes[1] then 1 else if shapes[2] then 2 else 3;
    assert (set i | 0 <= i < 4 && shapes[i]) == {k};
  }

  /** The number fields and the string fields, each under its key. */
  function NumberFields(f: Fields): seq<(string, Option<real>)> {
    [("iosCode", f.iosCode), ("attErrorCode", f.attErrorCode), ("minAdkVersion", f.minAdkVersion), ("customCode", f.customCode)]
  }

  function StringFields(f: Fields): seq<(string, Option<string>)> {
    [("iosDomain", f.iosDomain), ("peripheralUUID", f.peripheralUUID), ("serviceUUID", f.serviceUUID),
     ("characteristicUUID", f.characteristicUUID), ("descriptorUUID", f.descriptorUUID)]
  }

  /** The first non-null field listed under `key`. */
  function Lookup<T>(fs: seq<(string, Option<T>)>, key: string): (r: Option<T>)
    ensures r.Some? ==> (key, r) in fs
  {
    if fs == [] then None
    else if fs[0].0 == key && fs[0].1.Some? then fs[0].1
    else Lookup(fs[1..], key)
  }

  /** The properties for the non-null fields, in order. */
  function NumberProperties(fs: seq<(string, Option<real>)>): (r: seq<(string, Js)>)
    ensures forall i :: 0 <= i < |r| ==> r[i].1.JsNumber?
  {
    if fs == [] then []
    else (if fs[0].1.Some? then [(fs[0].0, JsNumber(fs[0].1.value))] else []) + NumberProperties(fs[1..])
  }

  function StringProperties(fs: seq<(string, Option<string>)>): (r: seq<(string, Js)>)
    ensures forall i :: 0 <= i < |r| ==> r[i].1.JsString?
  {
    if fs == [] then []
    else (if fs[0].1.Some? then [(fs[0].0, JsString(fs[0].1.value))] else []) + StringProperties(fs[1..])
  }

  /** What a well-behaved native side rejects with: an object holding the
      message and the fields that are not null. */
  function Encode(message: string, f: Fields): (r: Js)
    ensures IsObject(r)
  {
    JsObject([("message", JsString(message))] + NumberProperties(NumberFields(f)) + StringProperties(StringFields(f)))
  }

  lemma GetSkips(x: (string, Js), rest: seq<(string, Js)>, key: string)
    requires x.0 != key
    ensures Get([x] + rest, key) == Get(rest, key)
  {
    assert ([x] + rest)[1..] == rest;
  }

  lemma {:induction false} GetAppend(a: seq<(string, Js)>, b: seq<(string, Js)>, key: string)
    requires forall i :: 0 <= i < |a| ==> a[i].1 != Undefined
    ensures Get(a + b, key) == if Get(a, key) != Undefined then Get(a, key) else Get(b, key)
    decreases |a|
  {
    if a == [] {
      assert a + b == b;
    } else {
      assert (a + b)[1..] == a[1..] + b;
      GetAppend(a[1..], b, key);
    }
  }

  lemma {:induction false} GetNumbers(fs: seq<(string, Option<real>)>, key: string)
    ensures Get(NumberProperties(fs), key) == if Lookup(fs, key).Some? then JsNumber(Lookup(fs, key).value) else Undefined
    decreases |fs|
  {
    if fs != [] {
      GetNumbers(fs[1..], key);
      if fs[0].1.Some? && fs[0].0 != key {
        GetSkips((fs[0].0, JsNumber(fs[0].1.value)), NumberProperties(fs[1..]), key);
      } else if fs[0].1.None? {
        assert NumberProperties(fs) == NumberProperties(fs[1..]);
      }
    }
  }

  lemma {:induction false} GetStrings(fs: seq<(string, Option<string>)>, key: string)
    ensures Get(StringProperties(fs), key) == if Lookup(fs, key).Some? then JsString(Lookup(fs, key).value) else Undefined
    decreases |fs|
  {
    if fs != [] {
      GetStrings(fs[1..], key);
      if fs[0].1.Some? && fs[0].0 != key {
        GetSkips((fs[0].0, JsString(fs[0].1.value)), StringProperties(fs[1..]), key);
      } else if fs[0].1.None? {
        assert StringProperties(fs) == StringProperties(fs[1..]);
      }
    }
  }

  /** Reading a key of an encoded error: the message, a non-null field, or
      `undefined`. */
  lemma EncodedGet(message: string, f: Fields, key: string)
    ensures var n := Lookup(NumberFields(f), key);
            var t := Lookup(StringFields(f), key);
            Get(Encode(message, f).properties, key) ==
              if key == "message" then JsString(message)
              else if n.Some? then JsNumber(n.value)
              else if t.Some? then JsString(t.value)
              else Undefined
  {
    var head := [("message", JsString(message))];
    var numbers := NumberProperties(NumberFields(f));
    GetAppend(head, numbers, key);
    GetAppend(head + numbers, StringProperties(StringFields(f)), key);
    GetNumbers(NumberFields(f), key);
    GetStrings(StringFields(f), key);
    if key != "message" {
      GetSkips(head[0], [], key);
    }
  }

  /** Each number key finds its own field, and no other key finds any. */
  lemma NumberLookups(f: Fields, key: string)
    ensures Lookup(NumberFields(f), key) ==
              if key == "iosCode" then f.iosCode
              else if key == "attErrorCode" then f.attErrorCode
              else if key == "minAdkVersion" then f.minAdkVersion
              else if key == "customCode" then f.customCode
              else None
  {
    var fs := NumberFields(f);
    assert fs[3..][1..] == [];
    assert fs[2..][1..] == fs[3..];
    assert fs[1..][1..] == fs[2..];
    assert Lookup(fs[3..], key) == if key == "customCode" then f.customCode else None;
    assert Lookup(fs[2..], key) == if key == "minAdkVersion" then f.minAdkVersion else Lookup(fs[3..], key);
    assert Lookup(fs[1..], key) == if key == "attErrorCode" then f.attErrorCode else Lookup(fs[2..], key);
  }

  /** Each string key finds its own field, and no other key finds any. */
  lemma StringLookups(f: Fields, key: string)
    ensures Lookup(StringFields(f), key) ==
              if key == "iosDomain" then f.iosDomain
              else if key == "peripheralUUID" then f.peripheralUUID
              else if key == "serviceUUID" then f.serviceUUID
              else if key == "characteristicUUID" then f.characteristicUUID
              else if key == "descriptorUUID" then f.descriptorUUID
              else None
  {
    var fs := StringFields(f);
    assert fs[4..][1..] == [];
    assert fs[3..][1..] == fs[4..];
    assert fs[2..][1..] == fs[3..];
    assert fs[1..][1..] == fs[2..];
    assert Lookup(fs[4..], key) == if key == "descriptorUUID" then f.descriptorUUID else None;
    assert Lookup(fs[3..], key) == if key == "characteristicUUID" then f.characteristicUUID else Lookup(fs[4..], key);
    assert Lookup(fs[2..], key) == if key == "serviceUUID" then f.serviceUUID else Lookup(fs[3..], key);
    assert Lookup(fs[1..], key) == if key == "peripheralUUID" then f.peripheralUUID else Lookup(fs[2..], key);
  }

  /** A number key of an encoded error reads as its field. */
  lemma EncodedNumber(message: string, f: Fields, key: string)
    requires key in NumberKeys
    ensures var v := Get(Encode(message, f).properties, key);
            (IsNullish(v) || v.JsNumber?) && NumberOrNull(v) == Lookup(NumberFields(f), key)
  {
    EncodedGet(message, f, key);
    NumberLookups(f, key);
    StringLookups(f, key);
  }

  /** A string key of an encoded error reads as its field. */
  lemma EncodedString(message: string, f: Fields, key: string)
    requires key in StringKeys
    ensures var v := Get(Encode(message, f).properties, key);
            (IsNullish(v) || v.JsString?) && StringOrNull(v) == Lookup(StringFields(f), key)
  {
    EncodedGet(message, f, key);
    NumberLookups(f, key);
    StringLookups(f, key);
  }

  /** An error encoded from a message and fields is a valid error, and the
      constructor gives back exactly that message and those fields; the
      name carries the domain when it is non-empty. */
  lemma EncodeRoundTrip(message: string, f: Fields)
    ensures var e := Construct(Encode(message, f));
            && ShapeOf(Encode(message, f)) == ValidObject
            && e.message == Some(message)
            && e.fields == f
            && e.name == if f.iosDomain.Some? && f.iosDomain.value != "" then BaseName + "(" + f.iosDomain.value + ")" else BaseName
  {
    var p := Encode(message, f).properties;
    EncodedGet(message, f, "message");
    forall k | k in NumberKeys
      ensures IsNullish(Get(p, k)) || Get(p, k).JsNumber?
    {
      EncodedNumber(message, f, k);
    }
    forall k | k in StringKeys
      ensures IsNullish(Get(p, k)) || Get(p, k).JsString?
    {
      EncodedString(message, f, k);
    }
    assert IsValidError(p);
    NumberLookups(f, "iosCode");
    NumberLookups(f, "attErrorCode");
    NumberLookups(f, "minAdkVersion");
    NumberLookups(f, "customCode");
    StringLookups(f, "iosDomain");
    StringLookups(f, "peripheralUUID");
    StringLookups(f, "serviceUUID");
    StringLookups(f, "characteristicUUID");
    StringLookups(f, "descriptorUUID");
    EncodedNumber(message, f, "iosCode");
    EncodedNumber(message, f, "attErrorCode");
    EncodedNumber(message, f, "minAdkVersion");
    EncodedNumber(message, f, "customCode");
    EncodedString(message, f, "iosDomain");
    EncodedString(message, f, "peripheralUUID");
    EncodedString(message, f, "serviceUUID");
    EncodedString(message, f, "characteristicUUID");
    EncodedString(message, f, "descriptorUUID");
    assert Copied(p) == f;
  }
}

=== FILE: callback_table.dfy ===
/** The iOS manager keeps one dictionary per kind of pending request, mapping a
    request key to the callbacks still waiting for its answer
    (ios/SwiftBleManager.swift:17-25).  This module models such a dictionary
    and the three ways the manager touches it. */
module CallbackTable {
  import opened Common

  type Table = map<string, seq<Cb>>

  /** The callbacks already waiting under `key`, none if the key is absent. */
  function Waiting(t: Table, key: string): seq<Cb> {
    if key in t then t[key] else []
  }

  /** Registers `cb` behind every callback already waiting under `key`. */
  function Insert(t: Table, key: string, cb: Cb): (r: Table)
    ensures key in r && r[key] == Waiting(t, key) + [cb]
    ensures r.Keys == t.Keys + {key}
    ensures forall k :: k in t && k != key ==> r[k] == t[k]
  {
    t[key := Waiting(t, key) + [cb]]
  }

  /** What invoking a key does: the callbacks called, in order, and the table left behind. */
  datatype Invocation = Invocation(called: seq<Cb>, rest: Table)

  /** Calls every callback waiting under `key` and forgets the key; an absent
      key calls nothing and changes nothing. */
  function Invoke(t: Table, key: string): (r: Invocation)
    ensures r.called == Waiting(t, key)
    ensures key !in r.rest
    ensures r.rest.Keys == t.Keys - {key}
    ensures forall k :: k in r.rest ==> r.rest[k] == t[k]
    ensures key !in t ==> r.rest == t
  {
    if key in t then Invocation(t[key], t - {key}) else Invocation([], t)
  }

  /** Registers each of `cbs` under `key`, one request after the other. */
  function InsertAll(t: Table, key: string, cbs: seq<Cb>): Table
    decreases |cbs|
  {
    if cbs == [] then t else InsertAll(Insert(t, key, cbs[0]), key, cbs[1..])
  }

  lemma {:induction false} InsertAllWaiting(t: Table, key: string, cbs: seq<Cb>)
    ensures Waiting(InsertAll(t, key, cbs), key) == Waiting(t, key) + cbs
    ensures forall k :: k != key ==> Waiting(InsertAll(t, key, cbs), k) == Waiting(t, k)
    decreases |cbs|
  {
    if cbs != [] {
      InsertAllWaiting(Insert(t, key, cbs[0]), key, cbs[1..]);
      assert Waiting(t, key) + [cbs[0]] + cbs[1..] == Waiting(t, key) + cbs;
    }
  }

  /** Requests registered one after another under the same key are answered
      together, each exactly once, in the order they were registered; the
      other keys keep their callbacks. */
  lemma InvokeAnswersInRegistrationOrder(t: Table, key: string, cbs: seq<Cb>)
    requires key !in t
    ensures Invoke(InsertAll(t, key, cbs), key).called == cbs
    ensures forall k :: k != key ==> Waiting(Invoke(InsertAll(t, key, cbs), key).rest, k) == Waiting(t, k)
  {
    InsertAllWaiting(t, key, cbs);
  }

  /** Split of a table into the entries whose key starts with `p` and the rest. */
  datatype Split = Split(flushed: Table, kept: Table)

  function FlushPrefix(t: Table, p: string): (r: Split)
    ensures r.flushed.Keys !! r.kept.Keys
    ensures r.flushed.Keys + r.kept.Keys == t.Keys
    ensures forall k :: k in r.flushed <==> k in t && IsPrefix(p, k)
    ensures forall k :: k in r.flushed ==> r.flushed[k] == t[k]
    ensures forall k :: k in r.kept ==> r.kept[k] == t[k]
  {
    Split(map k | k in t && IsPrefix(p, k) :: t[k],
          map k | k in t && !IsPrefix(p, k) :: t[k])
  }
}

=== FILE: chunking.dfy ===
/** Splitting of an outgoing value into pieces no longer than the caller's
    `maxByteSize`.  Three loops in the source do this, each in its own way:
    the iOS acknowledged write (ios/SwiftBleManager.swift:812-833), the iOS
    unacknowledged write (ios/SwiftBleManager.swift:897-914) and the Android
    write (android/src/main/java/it/innove/Peripheral.java:696-717).  All three
    are shown here to produce the pieces of one reference definition, `Chunks`.

    Every loop needs `maxByteSize > 0`: with a zero limit the source loops
    forever and with a negative one it asks for an invalid range. */
module Chunking {
  import opened Common

  /** The reference split: full pieces of `max` bytes from the front, then
      whatever is left if anything is. */
  function Chunks(data: Bytes, max: int): seq<Bytes>
    requires max > 0
    decreases |data|
  {
    if |data| <= max then (if data == [] then [] else [data])
    else [data[..max]] + Chunks(data[max..], max)
  }

  /** Every piece is non-empty and at most `max` long, every piece but the last
      is exactly `max` long, and the pieces put back together give the data. */
  predicate IsChunking(pieces: seq<Bytes>, data: Bytes, max: int) {
    && Flatten(pieces) == data
    && (forall i :: 0 <= i < |pieces| ==> 0 < |pieces[i]| <= max)
    && (forall i :: 0 <= i < |pieces| - 1 ==> |pieces[i]| == max)
  }

  lemma {:induction false} ChunksIsChunking(data: Bytes, max: int)
    requires max > 0
    ensures IsChunking(Chunks(data, max), data, max)
    decreases |data|
  {
    var c := Chunks(data, max);
    if |data| <= max {
      if data != [] { FlattenSingle(data); }
    } else {
      var tail := Chunks(data[max..], max);
      ChunksIsChunking(data[max..], max);
      assert c == [data[..max]] + tail;
      FlattenAppend([data[..max]], tail);
      FlattenSingle(data[..max]);
      assert data[..max] + data[max..] == data;
    }
  }

  /** There are as many pieces as `max`-byte blocks needed to hold the data. */
  lemma {:induction false} ChunksCount(data: Bytes, max: int)
    requires max > 0
    ensures (|Chunks(data, max)| - 1) * max < |data| <= |Chunks(data, max)| * max
    decreases |data|
  {
    if |data| > max {
      var n := |Chunks(data[max..], max)|;
      ChunksCount(data[max..], max);
      assert |Chunks(data, max)| == n + 1;
      assert (n + 1) * max == n * max + max;
    }
  }

  /** A chunking is unique: any split with the properties above is `Chunks`. */
  lemma {:induction false} ChunkingIsUnique(pieces: seq<Bytes>, data: Bytes, max: int)
    requires max > 0
    requires IsChunking(pieces, data, max)
    ensures pieces == Chunks(data, max)
    decreases |pieces|
  {
    if pieces == [] {
    } else if |pieces| == 1 {
      assert pieces == [pieces[0]];
      FlattenSingle(pieces[0]);
      assert 0 < |data| <= max;
    } else {
      var rest := pieces[1..];
      assert pieces == [pieces[0]] + rest;
      FlattenAppend([pieces[0]], rest);
      FlattenSingle(pieces[0]);
      assert data == pieces[0] + Flatten(rest);
      assert |pieces[0]| == max;
      assert data[..max] == pieces[0];
      assert data[max..] == Flatten(rest);
      assert |Flatten(rest)| > 0 by {
        assert |rest[0]| > 0;
        FlattenAppend([rest[0]], rest[1..]);
        assert rest == [rest[0]] + rest[1..];
      }
      assert forall i :: 0 <= i < |rest| ==> rest[i] == pieces[i + 1];
      ChunkingIsUnique(rest, data[max..], max);
    }
  }

  lemma ChunksStep(data: Bytes, count: int, max: int)
    requires max > 0 && 0 <= count && count + max < |data|
    ensures Chunks(data[count..], max) == [data[count..count + max]] + Chunks(data[count + max..], max)
  {
    assert data[count..][..max] == data[count..count + max];
    assert data[count..][max..] == data[count + max..];
  }

  /** The acknowledged-write split of the iOS manager: whole pieces while more
      than `max` bytes remain, then the remainder. */
  method SplitForQueue(data: Bytes, max: int) returns (pieces: seq<Bytes>)
    requires max > 0
    ensures pieces == Chunks(data, max)
    ensures IsChunking(pieces, data, max)
  {
    var count := 0;
    pieces := [];
    while count < |data| && |data| - count > max
      invariant 0 <= count <= |data|
      invariant pieces + Chunks(data[count..], max) == Chunks(data, max)
      decreases |data| - count
    {
      ChunksStep(data, count, max);
      pieces := pieces + [data[count..count + max]];
      count := count + max;
    }
    if count < |data| {
      pieces := pieces + [data[count..]];
    } else {
      assert data[count..] == [];
    }
    ChunksIsChunking(data, max);
  }

  /** The unacknowledged-write loop of the iOS manager: it always sends at least
      one piece of `min(max, remaining)` bytes and continues while bytes remain.
      It is only entered for data longer than `max`. */
  method SplitWithoutResponse(data: Bytes, max: int) returns (pieces: seq<Bytes>)
    requires max > 0 && |data| > max
    ensures pieces == Chunks(data, max)
    ensures IsChunking(pieces, data, max)
  {
    var offset := 0;
    pieces := [];
    var size := if max < |data| - offset then max else |data| - offset;
    ChunksStep(data, 0, max);
    pieces := pieces + [data[offset..offset + size]];
    offset := offset + size;
    while offset < |data|
      invariant 0 < offset <= |data|
      invariant pieces + Chunks(data[offset..], max) == Chunks(data, max)
      decreases |data| - offset
    {
      size := if max < |data| - offset then max else |data| - offset;
      if offset + max < |data| {
        ChunksStep(data, offset, max);
      } else {
        assert data[offset..offset + size] == data[offset..];
        assert Chunks(data[offset..], max) == [data[offset..offset + size]];
      }
      pieces := pieces + [data[offset..offset + size]];
      offset := offset + size;
    }
    assert data[offset..] == [];
    ChunksIsChunking(data, max);
  }

  /** The Android split: the first piece is kept apart for immediate sending and
      the others are collected for the write queue. */
  method SplitFirstAndRest(data: Bytes, max: int) returns (first: Bytes, rest: seq<Bytes>)
    requires max > 0 && |data| > max
    ensures [first] + rest == Chunks(data, max)
    ensures |first| == max && Flatten([first] + rest) == data
  {
    var count := 0;
    first := [];
    rest := [];
    while count < |data| && |data| - count > max
      invariant 0 <= count <= |data|
      invariant count == 0 ==> first == [] && rest == []
      invariant count > 0 ==> [first] + rest + Chunks(data[count..], max) == Chunks(data, max)
      decreases |data| - count
    {
      ChunksStep(data, count, max);
      if count == 0 {
        first := data[count..count + max];
      } else {
        rest := rest + [data[count..count + max]];
      }
      count := count + max;
    }
    if count < |data| {
      rest := rest + [data[count..]];
    } else {
      assert data[count..] == [];
    }
    ChunksIsChunking(data, max);
  }
}

=== FILE: common.dfy ===
/** Vocabulary shared by every part of the model: bytes, optional values and
    the small string operations both platforms rely on. */
module Common {

  /** One octet as the radio delivers it. */
  newtype byte = x: int | 0 <= x < 256

  type Bytes = seq<byte>

  /** Java's `int`. */
  const IntMin: int := -0x8000_0000
  const IntMax: int := 0x7fff_ffff

  type Int32 = x: int | IntMin <= x <= IntMax

  /** A value that may be missing (a Swift optional, a Java null, a JS undefined). */
  datatype Option<+T> = None | Some(value: T) {
    function GetOr(default: T): T {
      match this
      case Some(v) => v
      case None => default
    }
  }

  /** Identity of a callback handed over by the JavaScript side.  Callbacks are
      never inspected, only stored and later invoked, so an opaque number is
      enough to tell them apart. */
  type Cb = nat

  predicate IsPrefix(p: string, s: string) {
    |p| <= |s| && s[..|p|] == p
  }

  /** ASCII lower-casing, the only case mapping identifiers ever need. */
  function LowerChar(c: char): (r: char)
    ensures 'A' <= c <= 'Z' ==> r == c - 'A' + 'a'
    ensures !('A' <= c <= 'Z') ==> r == c
  {
    if 'A' <= c <= 'Z' then (c as int - 'A' as int + 'a' as int) as char else c
  }

  function Lower(s: string): (r: string)
    ensures |r| == |s|
    ensures forall i :: 0 <= i < |s| ==> r[i] == LowerChar(s[i])
  {
    seq(|s|, i requires 0 <= i < |s| => LowerChar(s[i]))
  }

  /** ASCII upper-casing, as `String.toUpperCase` treats identifiers. */
  function UpperChar(c: char): (r: char)
    ensures 'a' <= c <= 'z' ==> r == c - 'a' + 'A'
    ensures !('a' <= c <= 'z') ==> r == c
  {
    if 'a' <= c <= 'z' then (c as int - 'a' as int + 'A' as int) as char else c
  }

  function Upper(s: string): (r: string)
    ensures |r| == |s|
    ensures forall i :: 0 <= i < |s| ==> r[i] == UpperChar(s[i])
  {
    seq(|s|, i requires 0 <= i < |s| => UpperChar(s[i]))
  }

  /** All the pieces of `parts`, one after the other. */
  function Flatten(parts: seq<Bytes>): (r: Bytes)
    decreases |parts|
  {
    if parts == [] then [] else parts[0] + Flatten(parts[1..])
  }

  lemma {:induction false} FlattenAppend(a: seq<Bytes>, b: seq<Bytes>)
    ensures Flatten(a + b) == Flatten(a) + Flatten(b)
    decreases |a|
  {
    if a == [] {
      assert a + b == b;
    } else {
      assert (a + b)[1..] == a[1..] + b;
      FlattenAppend(a[1..], b);
    }
  }

  lemma FlattenSingle(x: Bytes)
    ensures Flatten([x]) == x
  {
    assert [x][1..] == [];
  }

  /** The position of the first element of `xs` that `wanted` accepts. */
  function FindFirst<T>(xs: seq<T>, wanted: T -> bool): (r: Option<nat>)
    ensures r.Some? ==> r.value < |xs| && wanted(xs[r.value])
    ensures r.Some? ==> forall i :: 0 <= i < r.value ==> !wanted(xs[i])
    ensures r.None? ==> forall i :: 0 <= i < |xs| ==> !wanted(xs[i])
    decreases |xs|
  {
    if xs == [] then None
    else if wanted(xs[0]) then Some(0)
    else match FindFirst(xs[1..], wanted)
      case None => None
      case Some(i) => Some(i + 1)
  }

  lemma {:induction false} FindFirstSameVerdicts<T>(xs: seq<T>, f: T -> bool, g: T -> bool)
    requires forall i :: 0 <= i < |xs| ==> f(xs[i]) == g(xs[i])
    ensures FindFirst(xs, f) == FindFirst(xs, g)
    decreases |xs|
  {
    if xs != [] {
      FindFirstSameVerdicts(xs[1..], f, g);
    }
  }

  /** The decimal digits of `n`, most significant first, as Java prints an
      `int` in string concatenation. */
  function Decimal(n: int): (r: string)
    ensures |r| > 0
    ensures n < 0 <==> r[0] == '-'
  {
    if n < 0 then "-" + Digits(-n) else Digits(n)
  }

  function Digits(n: nat): (r: string)
    ensures |r| > 0 && '0' <= r[0] <= '9'
    decreases n
  {
    var last := ['0' + (n % 10) as char];
    if n < 10 then last else Digits(n / 10) + last
  }
}

=== FILE: example_plugins.dfy ===
/** The example app's compiled copies of the config plugins
    (example/plugins/withBLEAndroidManifest.js and
    example/plugins/withBluetoothPermissions.js). The scan, connect,
    companion and hardware adders are the same code as the published
    plugin's and are shared with `ManifestPlugins`; the location adder and
    the top-level plugin differ, and the Info.plist plugin exists only here. */
module ExamplePlugins {
  import opened Common
  import opened ManifestPlugins

  /** The example's `addLocationPermissionToManifest`: it always makes
      `uses-permission-sdk-23` an array, and looks only there for each of the
      coarse and fine permissions before appending it. */
  function AddLocation(m: Manifest, neverForLocationSinceSdk31: bool): (r: Manifest)
    ensures r.usesPermission == m.usesPermission && r.usesFeature == m.usesFeature
    ensures r.usesPermissionSdk23.Some? && Extends(m.usesPermissionSdk23, r.usesPermissionSdk23)
    ensures Has(r.usesPermissionSdk23, CoarseLocation) && Has(r.usesPermissionSdk23, FineLocation)
  {
    var coarse := AddOnce(m.usesPermissionSdk23, LocationEntry(CoarseLocation, neverForLocationSinceSdk31), CoarseLocation);
    var fine := AddOnce(Some(coarse), LocationEntry(FineLocation, neverForLocationSinceSdk31), FineLocation);
    HasExtends(Some(coarse), Some(fine), CoarseLocation);
    m.(usesPermissionSdk23 := Some(fine))
  }

  /** The example's `withBLEAndroidManifest`: the companion feature always,
      the hardware feature only for background use. */
  function WithBle(m: Manifest, isBackgroundEnabled: bool, neverForLocation: bool): Manifest {
    var base := AddCompanion(AddConnect(AddScan(AddLocation(m, neverForLocation), neverForLocation)));
    if isBackgroundEnabled then AddHardware(base) else base
  }

  // ---------------------------------------------------------------------------
  // The Info.plist plugin

  const BluetoothAlways := "Allow $(PRODUCT_NAME) to connect to bluetooth devices"

  /** The `bluetoothAlwaysPermission` option: left out, `false`, or a
      string (possibly empty, which JavaScript treats as false). */
  datatype Setting = Unset | Disabled | Given(text: string)

  /** `NSBluetoothAlwaysUsageDescription`, absent or a string. */
  datatype InfoPlist = InfoPlist(bluetoothAlways: Option<string>)

  /** A value JavaScript's `||` would pick. */
  predicate Truthy(s: Option<string>) {
    s.Some? && s.value != ""
  }

  /** `withBluetoothPermissions`: unless the option is `false`, the
      description becomes the given text, else the one already there, else
      the default; each only when it is a non-empty string. */
  function WithBluetoothPermissions(p: InfoPlist, setting: Setting): (r: InfoPlist)
    ensures setting.Disabled? ==> r == p
    ensures !setting.Disabled? ==> Truthy(r.bluetoothAlways)
    ensures setting.Given? && setting.text != "" ==> r.bluetoothAlways == Some(setting.text)
    ensures (setting.Unset? || setting == Given("")) ==>
              r.bluetoothAlways == if Truthy(p.bluetoothAlways) then p.bluetoothAlways else Some(BluetoothAlways)
  {
    if setting.Disabled? then p
    else if setting.Given? && setting.text != "" then InfoPlist(Some(setting.text))
    else if Truthy(p.bluetoothAlways) then p
    else InfoPlist(Some(BluetoothAlways))
  }
}

=== FILE: flags.dfy ===
/** Decoding of a bit mask into a dictionary of names, as both platforms do
    for characteristic properties and permissions: one entry, valued by its
    own name, for every listed flag that is set. */
module Flags {

  predicate Has(p: bv32, bit: bv32) {
    p & bit == bit
  }

  /** True when `name` names a flag, from position `from` on, that is set in `p`. */
  predicate NamesSetFlag(names: seq<string>, bits: seq<bv32>, p: bv32, name: string, from: nat)
    requires |names| == |bits|
  {
    exists i :: from <= i < |names| && names[i] == name && Has(p, bits[i])
  }

  /** The entries the decoder adds for the flags from position `from` on. */
  function DecodeFrom(names: seq<string>, bits: seq<bv32>, p: bv32, from: nat): (r: map<string, string>)
    requires |names| == |bits| && from <= |names|
    ensures forall k :: k in r ==> r[k] == k
    ensures forall k :: k in r <==> NamesSetFlag(names, bits, p, k, from)
    decreases |names| - from
  {
    if from == |names| then map[]
    else
      var rest := DecodeFrom(names, bits, p, from + 1);
      var name := names[from];
      assert forall k :: NamesSetFlag(names, bits, p, k, from) <==>
        (k == name && Has(p, bits[from])) || NamesSetFlag(names, bits, p, k, from + 1);
      if Has(p, bits[from]) then rest[name := name] else rest
  }

  function Decode(names: seq<string>, bits: seq<bv32>, p: bv32): (r: map<string, string>)
    requires |names| == |bits|
    ensures forall k :: k in r ==> r[k] == k
    ensures forall k :: k in r <==> NamesSetFlag(names, bits, p, k, 0)
  {
    DecodeFrom(names, bits, p, 0)
  }

  predicate Distinct(names: seq<string>) {
    forall i, j :: 0 <= i < j < |names| ==> names[i] != names[j]
  }

  /** With distinct names, each name is reported exactly when its own bit is set. */
  lemma DecodeNamesEachSetFlag(names: seq<string>, bits: seq<bv32>, p: bv32, i: int)
    requires |names| == |bits| && Distinct(names) && 0 <= i < |names|
    ensures names[i] in Decode(names, bits, p) <==> Has(p, bits[i])
  {
    if NamesSetFlag(names, bits, p, names[i], 0) {
      var j :| 0 <= j < |names| && names[j] == names[i] && Has(p, bits[j]);
      assert j == i;
    }
  }

  /** A name outside the list is never reported. */
  lemma DecodeOnlyListedNames(names: seq<string>, bits: seq<bv32>, p: bv32, name: string)
    requires |names| == |bits| && name !in names
    ensures name !in Decode(names, bits, p)
  {
  }

  /** Flags whose bits are all clear add nothing. */
  lemma DecodeFromAllClear(names: seq<string>, bits: seq<bv32>, p: bv32, from: nat)
    requires |names| == |bits| && from <= |names|
    requires forall i :: from <= i < |names| ==> !Has(p, bits[i])
    ensures DecodeFrom(names, bits, p, from) == map[]
  {
    var r := DecodeFrom(names, bits, p, from);
    assert forall k :: k !in r;
    assert r.Keys == {};
  }

  /** Listing more flags, none of them set, does not change the result. */
  lemma {:induction false} DecodeIgnoresClearTail(names: seq<string>, bits: seq<bv32>, p: bv32, from: nat, n: nat)
    requires |names| == |bits| && from <= n <= |names|
    requires forall i :: n <= i < |names| ==> !Has(p, bits[i])
    ensures DecodeFrom(names, bits, p, from) == DecodeFrom(names[..n], bits[..n], p, from)
    decreases n - from
  {
    if from == n {
      DecodeFromAllClear(names, bits, p, n);
    } else {
      DecodeIgnoresClearTail(names, bits, p, from + 1, n);
      assert names[..n][from] == names[from] && bits[..n][from] == bits[from];
    }
  }
}

=== FILE: hex.dfy ===
/** Hexadecimal digits as the two platforms print them: lower case on iOS
    (`%02hhx`, `%04x`), upper case in the Android `bytesToHex` table. */
module Hex {

  const LowerDigits: string := "0123456789abcdef"
  const UpperDigits: string := "0123456789ABCDEF"

  function LowerDigit(n: int): (c: char)
    requires 0 <= n < 16
  {
    LowerDigits[n]
  }

  function UpperDigit(n: int): (c: char)
    requires 0 <= n < 16
  {
    UpperDigits[n]
  }

  predicate IsHexChar(c: char) {
    '0' <= c <= '9' || 'a' <= c <= 'f' || 'A' <= c <= 'F'
  }

  /** The value of a hexadecimal digit of either case. */
  function DigitValue(c: char): (n: int)
    requires IsHexChar(c)
    ensures 0 <= n < 16
  {
    if '0' <= c <= '9' then c as int - '0' as int
    else if 'a' <= c <= 'f' then c as int - 'a' as int + 10
    else c as int - 'A' as int + 10
  }

  /** Reading a printed digit back gives the number printed, in both cases. */
  lemma DigitRoundTrip(n: int)
    requires 0 <= n < 16
    ensures IsHexChar(LowerDigit(n)) && DigitValue(LowerDigit(n)) == n
    ensures IsHexChar(UpperDigit(n)) && DigitValue(UpperDigit(n)) == n
    ensures 'A' <= UpperDigit(n) <= 'Z' <==> n >= 10
    ensures !('A' <= LowerDigit(n) <= 'Z')
    ensures !('a' <= UpperDigit(n) <= 'z')
  {
  }
}

=== FILE: ios_commands.dfy ===
/** The commands JavaScript sends to the iOS manager
    (ios/SwiftBleManager.swift:187-928), each a step of the manager.  A
    command either answers its callback at once (an error, or an operation
    that needs no reply from the radio) or registers the callback in the table
    that the matching delegate callback will later answer. */
module IosCommands {
  import opened Common
  import opened CallbackTable
  import opened Chunking
  import opened IosHelper
  import opened IosState
  import IosNotifyBuffer

  // ---------------------------------------------------------------------------
  // Locating the target of a command

  datatype Context = Context(peripheral: Peripheral, service: Service, characteristic: Characteristic)

  datatype Lookup = Found(context: Context) | NotFound(message: string)

  /** The characteristic a command addresses: the first with the UUID and the
      wanted property; for notifications the first with indicate if none can
      notify; and as a last resort the first with the UUID at all
      (ios/SwiftBleManager.swift:224-245). */
  function CharacteristicFor(service: Service, uuid: string, prop: bv32): (r: Option<Characteristic>)
    ensures r.None? <==> forall c :: c in service.characteristics ==> !SameUuid(c.uuid, uuid)
    ensures r.Some? ==> r.value in service.characteristics && SameUuid(r.value.uuid, uuid)
    ensures FindCharacteristicWith(service, uuid, prop).Some? ==> r == FindCharacteristicWith(service, uuid, prop)
    ensures prop == Notify && FindCharacteristicWith(service, uuid, Notify).None?
              && FindCharacteristicWith(service, uuid, Indicate).Some?
            ==> r == FindCharacteristicWith(service, uuid, Indicate)
    ensures FindCharacteristicWith(service, uuid, prop).None?
              && (prop != Notify || FindCharacteristicWith(service, uuid, Indicate).None?)
            ==> r == FindCharacteristic(service, uuid)
  {
    var withProp := FindCharacteristicWith(service, uuid, prop);
    var preferred :=
      if prop == Notify && withProp.None? then FindCharacteristicWith(service, uuid, Indicate)
      else withProp;
    if preferred.Some? then preferred else FindCharacteristic(service, uuid)
  }

  /** `getContext` (ios/SwiftBleManager.swift:187-265).  The peripheral is
      looked up under the string exactly as JavaScript passed it; the
      service and the characteristic by the UUID their strings name. */
  function GetContext(m: Manager, peripheralUuid: string, serviceUuid: string,
                      characteristicUuid: string, prop: bv32): (r: Lookup)
    ensures r.Found? <==>
              && peripheralUuid in m.peripherals
              && FindService(m.peripherals[peripheralUuid].services, serviceUuid).Some?
              && exists c :: c in FindService(m.peripherals[peripheralUuid].services, serviceUuid).value.characteristics
                             && SameUuid(c.uuid, characteristicUuid)
    ensures r.Found? ==>
              && r.context.peripheral == m.peripherals[peripheralUuid]
              && r.context.service == FindService(m.peripherals[peripheralUuid].services, serviceUuid).value
              && r.context.characteristic == CharacteristicFor(r.context.service, characteristicUuid, prop).value
    ensures peripheralUuid !in m.peripherals ==>
              r == NotFound("Could not find peripheral with UUID " + peripheralUuid)
  {
    if peripheralUuid !in m.peripherals then
      NotFound("Could not find peripheral with UUID " + peripheralUuid)
    else
      var p := m.peripherals[peripheralUuid];
      match FindService(p.services, serviceUuid)
      case None =>
        NotFound("Could not find service with UUID " + serviceUuid
                 + " on peripheral with UUID " + p.Id())
      case Some(s) =>
        match CharacteristicFor(s, characteristicUuid, prop)
        case None =>
          NotFound("Could not find characteristic with UUID " + characteristicUuid
                   + " on service with UUID " + serviceUuid
                   + " on peripheral with UUID " + p.Id())
        case Some(c) => Found(Context(p, s, c))
  }

  /** The request key of a located characteristic. */
  function ContextKey(c: Context): string {
    Key(c.peripheral.Id(), c.characteristic.uuid)
  }

  // ---------------------------------------------------------------------------
  // Scanning

  predicate KeptByScan(p: Peripheral) {
    p.state == Connected || p.state == Connecting
  }

  /** `scan` (ios/SwiftBleManager.swift:338-404): forgets every peripheral that
      is neither connected nor connecting, replaces the advertised-name
      filter, starts scanning, arms the timeout when one is asked for, and
      answers at once.  The timeout is read as a number of seconds with a
      fractional part. */
  function Scan(m: Manager, services: seq<string>, allowDuplicates: bool,
                names: seq<string>, seconds: real, cb: Cb): (r: Step)
    ensures Valid(m) ==> Valid(r.next)
    ensures forall k :: k in r.next.peripherals <==> k in m.peripherals && KeptByScan(m.peripherals[k])
    ensures forall k :: k in r.next.peripherals ==> r.next.peripherals[k] == m.peripherals[k]
    ensures r.next.nameFilter == names
    ensures r.next.scanTimerArmed == (seconds > 0.0 || m.scanTimerArmed)
    ensures r.next.(peripherals := m.peripherals, nameFilter := m.nameFilter,
                    scanTimerArmed := m.scanTimerArmed) == m
    ensures |r.effects| >= 2
    ensures r.effects[0] == Radio(ScanForPeripherals(services, allowDuplicates))
    ensures r.effects[|r.effects| - 1] == Reply(cb, Done)
    ensures Radio(ArmScanTimer(seconds)) in r.effects <==> seconds > 0.0
  {
    var kept := map k | k in m.peripherals && KeptByScan(m.peripherals[k]) :: m.peripherals[k];
    var timer := if seconds > 0.0 then [Radio(ArmScanTimer(seconds))] else [];
    Step(m.(peripherals := kept, nameFilter := names, scanTimerArmed := m.scanTimerArmed || seconds > 0.0),
         [Radio(ScanForPeripherals(services, allowDuplicates))] + timer + [Reply(cb, Done)])
  }

  /** `stopScan` (ios/SwiftBleManager.swift:413-424): cancels the timeout,
      stops scanning and reports status 0. */
  function StopScan(m: Manager, cb: Cb): (r: Step)
    ensures !r.next.scanTimerArmed
    ensures r.next.(scanTimerArmed := m.scanTimerArmed) == m
    ensures r.effects == [Radio(StopScanning), Emit(StopScanEvent(0)), Reply(cb, Done)]
  {
    Step(m.(scanTimerArmed := false), [Radio(StopScanning), Emit(StopScanEvent(0)), Reply(cb, Done)])
  }

  // ---------------------------------------------------------------------------
  // Connecting

  /** `connect` (ios/SwiftBleManager.swift:426-475).  `isUuid` says whether
      the string parses as a UUID and `retrieved` is what the platform returns
      for it when the registry does not know it.  Connecting twice just queues
      a second callback under the same id. */
  function Connect(m: Manager, peripheralUuid: string, cb: Cb,
                   isUuid: bool, retrieved: Option<Peripheral>): (r: Step)
    ensures peripheralUuid in m.peripherals ==>
              var id := m.peripherals[peripheralUuid].Id();
              && Waiting(r.next.connect, id) == Waiting(m.connect, id) + [cb]
              && (forall k :: k != id ==> Waiting(r.next.connect, k) == Waiting(m.connect, k))
              && r.next.(connect := m.connect) == m
              && r.effects == [Radio(ConnectLink(id))]
    ensures peripheralUuid !in m.peripherals && isUuid && retrieved.Some? ==>
              var id := retrieved.value.Id();
              && id in r.next.peripherals
              && r.next.peripherals[id] == retrieved.value.(rssi := None, advertisement := None)
              && Waiting(r.next.connect, id) == Waiting(m.connect, id) + [cb]
              && (forall k :: k != id ==> Waiting(r.next.connect, k) == Waiting(m.connect, k))
              && r.effects == [Radio(ConnectLink(id))]
    ensures peripheralUuid !in m.peripherals && isUuid && retrieved.None? ==>
              r == Step(m, [Reply(cb, Failed("Could not find peripheral " + peripheralUuid + "."))])
    ensures peripheralUuid !in m.peripherals && !isUuid ==>
              r == Step(m, [Reply(cb, Failed("Wrong UUID format " + peripheralUuid))])
  {
    if peripheralUuid in m.peripherals then
      var id := m.peripherals[peripheralUuid].Id();
      Step(m.(connect := Insert(m.connect, id, cb)), [Radio(ConnectLink(id))])
    else if !isUuid then
      Step(m, [Reply(cb, Failed("Wrong UUID format " + peripheralUuid))])
    else match retrieved
      case None => Step(m, [Reply(cb, Failed("Could not find peripheral " + peripheralUuid + "."))])
      case Some(p) =>
        var id := p.Id();
        Step(m.(peripherals := m.peripherals[id := p.(rssi := None, advertisement := None)],
                connect := Insert(m.connect, id, cb)),
             [Radio(ConnectLink(id))])
  }

  /** The characteristics, service by service, that are notifying. */
  function Notifying(services: seq<Service>): (r: seq<Characteristic>)
    ensures forall c :: c in r <==> c.isNotifying && exists s :: s in services && c in s.characteristics
    decreases |services|
  {
    if services == [] then []
    else NotifyingIn(services[0].characteristics) + Notifying(services[1..])
  }

  function NotifyingIn(cs: seq<Characteristic>): (r: seq<Characteristic>)
    ensures forall c :: c in r <==> c in cs && c.isNotifying
    decreases |cs|
  {
    if cs == [] then []
    else (if cs[0].isNotifying then [cs[0]] else []) + NotifyingIn(cs[1..])
  }

  function SwitchOff(id: string, cs: seq<Characteristic>): (r: seq<Effect>)
    ensures |r| == |cs|
    ensures forall i :: 0 <= i < |cs| ==> r[i] == Radio(SetNotify(id, cs[i].uuid, false))
    decreases |cs|
  {
    if cs == [] then [] else [Radio(SetNotify(id, cs[0].uuid, false))] + SwitchOff(id, cs[1..])
  }

  /** `disconnect` (ios/SwiftBleManager.swift:477-511): switches off every
      notifying characteristic, asks for the link to be cancelled and answers
      at once.  It forgets nothing: the cleanup waits for the radio's
      `didDisconnectPeripheral`. */
  function Disconnect(m: Manager, peripheralUuid: string, cb: Cb): (r: Step)
    ensures r.next == m
    ensures peripheralUuid !in m.peripherals ==>
              r.effects == [Reply(cb, Failed("Could not find peripheral " + peripheralUuid + "."))]
    ensures peripheralUuid in m.peripherals ==>
              var p := m.peripherals[peripheralUuid];
              var off := Notifying(p.services);
              && |r.effects| == |off| + 2
              && (forall i :: 0 <= i < |off| ==> r.effects[i] == Radio(SetNotify(p.Id(), off[i].uuid, false)))
              && r.effects[|off|..] == [Radio(CancelLink(p.Id())), Reply(cb, Done)]
  {
    if peripheralUuid !in m.peripherals then
      Step(m, [Reply(cb, Failed("Could not find peripheral " + peripheralUuid + "."))])
    else
      var p := m.peripherals[peripheralUuid];
      var off := SwitchOff(p.Id(), Notifying(p.services));
      assert (off + [Radio(CancelLink(p.Id())), Reply(cb, Done)])[|off|..] == [Radio(CancelLink(p.Id())), Reply(cb, Done)];
      Step(m, off + [Radio(CancelLink(p.Id())), Reply(cb, Done)])
  }

  // ---------------------------------------------------------------------------
  // Requests answered by a later delegate callback

  predicate Reachable(m: Manager, peripheralUuid: string) {
    peripheralUuid in m.peripherals && m.peripherals[peripheralUuid].state == Connected
  }

  const NotConnected := "Peripheral not found or not connected"

  /** `retrieveServices` (ios/SwiftBleManager.swift:513-544): only a known,
      connected peripheral is asked; otherwise the callback fails at once and
      nothing is registered. */
  function RetrieveServices(m: Manager, peripheralUuid: string, services: seq<string>, cb: Cb): (r: Step)
    ensures !Reachable(m, peripheralUuid) ==> r == Step(m, [Reply(cb, Failed(NotConnected))])
    ensures Reachable(m, peripheralUuid) ==>
              var id := m.peripherals[peripheralUuid].Id();
              && Waiting(r.next.retrieveServices, id) == Waiting(m.retrieveServices, id) + [cb]
              && r.next.(retrieveServices := m.retrieveServices) == m
              && r.effects == [Radio(DiscoverServices(id, services))]
  {
    if !Reachable(m, peripheralUuid) then Step(m, [Reply(cb, Failed(NotConnected))])
    else
      var id := m.peripherals[peripheralUuid].Id();
      Step(m.(retrieveServices := Insert(m.retrieveServices, id, cb)), [Radio(DiscoverServices(id, services))])
  }

  /** `readRSSI` (ios/SwiftBleManager.swift:546-564), guarded like `retrieveServices`. */
  function ReadRssiCommand(m: Manager, peripheralUuid: string, cb: Cb): (r: Step)
    ensures !Reachable(m, peripheralUuid) ==> r == Step(m, [Reply(cb, Failed(NotConnected))])
    ensures Reachable(m, peripheralUuid) ==>
              var id := m.peripherals[peripheralUuid].Id();
              && Waiting(r.next.readRssi, id) == Waiting(m.readRssi, id) + [cb]
              && r.next.(readRssi := m.readRssi) == m
              && r.effects == [Radio(ReadRssi(id))]
  {
    if !Reachable(m, peripheralUuid) then Step(m, [Reply(cb, Failed(NotConnected))])
    else
      var id := m.peripherals[peripheralUuid].Id();
      Step(m.(readRssi := Insert(m.readRssi, id, cb)), [Radio(ReadRssi(id))])
  }

  /** `read` (ios/SwiftBleManager.swift:930-959). */
  function ReadCommand(m: Manager, peripheralUuid: string, serviceUuid: string, characteristicUuid: string, cb: Cb): (r: Step)
    ensures GetContext(m, peripheralUuid, serviceUuid, characteristicUuid, IosHelper.Read).NotFound? ==>
              r == Step(m, [Reply(cb, Failed(GetContext(m, peripheralUuid, serviceUuid, characteristicUuid, IosHelper.Read).message))])
    ensures GetContext(m, peripheralUuid, serviceUuid, characteristicUuid, IosHelper.Read).Found? ==>
              var c := GetContext(m, peripheralUuid, serviceUuid, characteristicUuid, IosHelper.Read).context;
              && Waiting(r.next.read, ContextKey(c)) == Waiting(m.read, ContextKey(c)) + [cb]
              && r.next.(read := m.read) == m
              && r.effects == [Radio(ReadValue(c.peripheral.Id(), c.characteristic.uuid))]
  {
    match GetContext(m, peripheralUuid, serviceUuid, characteristicUuid, IosHelper.Read)
    case NotFound(msg) => Step(m, [Reply(cb, Failed(msg))])
    case Found(c) =>
      Step(m.(read := Insert(m.read, ContextKey(c), cb)),
           [Radio(ReadValue(c.peripheral.Id(), c.characteristic.uuid))])
  }

  /** The error of a descriptor command whose descriptor is missing
      (ios/SwiftBleManager.swift:596-597, 647-648); the characteristic UUID
      is printed as a Swift optional. */
  function NoDescriptor(descriptorUuid: string, c: Context, peripheralUuid: string): string {
    "Could not find descriptor with UUID " + descriptorUuid
    + " on characteristic with UUID Optional(\"" + c.characteristic.uuid
    + "\") on peripheral with UUID " + peripheralUuid
  }

  /** `readDescriptor` (ios/SwiftBleManager.swift:566-616). */
  function ReadDescriptor(m: Manager, peripheralUuid: string, serviceUuid: string,
                          characteristicUuid: string, descriptorUuid: string, cb: Cb): (r: Step)
    ensures GetContext(m, peripheralUuid, serviceUuid, characteristicUuid, IosHelper.Read).NotFound? ==>
              r == Step(m, [Reply(cb, Failed(GetContext(m, peripheralUuid, serviceUuid, characteristicUuid, IosHelper.Read).message))])
    ensures GetContext(m, peripheralUuid, serviceUuid, characteristicUuid, IosHelper.Read).Found? ==>
              var c := GetContext(m, peripheralUuid, serviceUuid, characteristicUuid, IosHelper.Read).context;
              && (FindDescriptor(c.characteristic, descriptorUuid).None? ==>
                    r == Step(m, [Reply(cb, Failed(NoDescriptor(descriptorUuid, c, peripheralUuid)))]))
              && (FindDescriptor(c.characteristic, descriptorUuid).Some? ==>
                    var d := FindDescriptor(c.characteristic, descriptorUuid).value;
                    var key := DescriptorKey(c.peripheral.Id(), c.characteristic.uuid, d.uuid);
                    && Waiting(r.next.readDescriptor, key) == Waiting(m.readDescriptor, key) + [cb]
                    && r.next.(readDescriptor := m.readDescriptor) == m
                    && r.effects == [Radio(ReadDescriptorValue(c.peripheral.Id(), c.characteristic.uuid, d.uuid))])
  {
    match GetContext(m, peripheralUuid, serviceUuid, characteristicUuid, IosHelper.Read)
    case NotFound(msg) => Step(m, [Reply(cb, Failed(msg))])
    case Found(c) =>
      match FindDescriptor(c.characteristic, descriptorUuid)
      case None => Step(m, [Reply(cb, Failed(NoDescriptor(descriptorUuid, c, peripheralUuid)))])
      case Some(d) =>
        var id := c.peripheral.Id();
        Step(m.(readDescriptor := Insert(m.readDescriptor, DescriptorKey(id, c.characteristic.uuid, d.uuid), cb)),
             [Radio(ReadDescriptorValue(id, c.characteristic.uuid, d.uuid))])
  }

  /** `writeDescriptor` (ios/SwiftBleManager.swift:618-674); it locates the
      characteristic with the read property, like `readDescriptor`. */
  function WriteDescriptor(m: Manager, peripheralUuid: string, serviceUuid: string,
                           characteristicUuid: string, descriptorUuid: string, message: Bytes, cb: Cb): (r: Step)
    ensures GetContext(m, peripheralUuid, serviceUuid, characteristicUuid, IosHelper.Read).NotFound? ==>
              r == Step(m, [Reply(cb, Failed(GetContext(m, peripheralUuid, serviceUuid, characteristicUuid, IosHelper.Read).message))])
    ensures GetContext(m, peripheralUuid, serviceUuid, characteristicUuid, IosHelper.Read).Found? ==>
              var c := GetContext(m, peripheralUuid, serviceUuid, characteristicUuid, IosHelper.Read).context;
              && (FindDescriptor(c.characteristic, descriptorUuid).None? ==>
                    r == Step(m, [Reply(cb, Failed(NoDescriptor(descriptorUuid, c, peripheralUuid)))]))
              && (FindDescriptor(c.characteristic, descriptorUuid).Some? ==>
                    var d := FindDescriptor(c.characteristic, descriptorUuid).value;
                    var key := DescriptorKey(c.peripheral.Id(), c.characteristic.uuid, d.uuid);
                    && Waiting(r.next.writeDescriptor, key) == Waiting(m.writeDescriptor, key) + [cb]
                    && r.next.(writeDescriptor := m.writeDescriptor) == m
                    && r.effects == [Radio(WriteDescriptorValue(c.peripheral.Id(), c.characteristic.uuid, d.uuid, message))])
  {
    match GetContext(m, peripheralUuid, serviceUuid, characteristicUuid, IosHelper.Read)
    case NotFound(msg) => Step(m, [Reply(cb, Failed(msg))])
    case Found(c) =>
      match FindDescriptor(c.characteristic, descriptorUuid)
      case None => Step(m, [Reply(cb, Failed(NoDescriptor(descriptorUuid, c, peripheralUuid)))])
      case Some(d) =>
        var id := c.peripheral.Id();
        Step(m.(writeDescriptor := Insert(m.writeDescriptor, DescriptorKey(id, c.characteristic.uuid, d.uuid), cb)),
             [Radio(WriteDescriptorValue(id, c.characteristic.uuid, d.uuid, message))])
  }

  // ---------------------------------------------------------------------------
  // Writing

  /** The chunks still queued under `key`. */
  function Queue(queues: map<string, seq<Bytes>>, key: string): seq<Bytes> {
    if key in queues then queues[key] else []
  }

  datatype Enqueued = Enqueued(queues: map<string, seq<Bytes>>, first: Option<Bytes>)

  /** `enqueueSplitMessages` (ios/SwiftBleManager.swift:136-156): appends the
      chunks behind any already queued and takes the head of the whole queue
      out to be sent now. */
  function Enqueue(queues: map<string, seq<Bytes>>, key: string, chunks: seq<Bytes>): (r: Enqueued)
    ensures key in r.queues
    ensures r.first.None? <==> Queue(queues, key) + chunks == []
    ensures r.first.Some? ==> [r.first.value] + r.queues[key] == Queue(queues, key) + chunks
    ensures r.first.None? ==> r.queues[key] == []
    ensures forall k :: k != key ==> Queue(r.queues, k) == Queue(queues, k)
  {
    var q := Queue(queues, key) + chunks;
    if q == [] then Enqueued(queues[key := []], None)
    else
      assert [q[0]] + q[1..] == q;
      Enqueued(queues[key := q[1..]], Some(q[0]))
  }

  datatype Dequeued = Dequeued(queues: map<string, seq<Bytes>>, next: Option<Bytes>)

  /** `dequeueNextSplitMessage` (ios/SwiftBleManager.swift:158-171): takes the
      next chunk out, or forgets the key once nothing is queued. */
  function Dequeue(queues: map<string, seq<Bytes>>, key: string): (r: Dequeued)
    ensures Queue(queues, key) != [] ==>
              && r.next == Some(Queue(queues, key)[0])
              && key in r.queues && r.queues[key] == Queue(queues, key)[1..]
    ensures Queue(queues, key) == [] ==> r.next.None? && key !in r.queues
    ensures forall k :: k != key ==> Queue(r.queues, k) == Queue(queues, k)
  {
    if key in queues && queues[key] != [] then
      Dequeued(queues[key := queues[key][1..]], Some(queues[key][0]))
    else Dequeued(queues - {key}, None)
  }

  /** `write` (ios/SwiftBleManager.swift:769-861).  The callback waits under
      `peripheral|characteristic`.  A value longer than `maxByteSize` is cut
      into chunks that join the key's queue; the queue's head goes out now and
      each acknowledgement sends the next.  A shorter value goes out whole.
      The size is not checked: with 0 the splitting loop never advances, with
      a negative size an empty value splits into no chunks (the queue's head,
      if any, still goes out) and a non-empty one asks for a byte range that
      ends before it starts. */
  function WriteCommand(m: Manager, peripheralUuid: string, serviceUuid: string, characteristicUuid: string,
                 message: Bytes, maxByteSize: int, cb: Cb): (r: Step)
    ensures GetContext(m, peripheralUuid, serviceUuid, characteristicUuid, IosHelper.Write).NotFound? ==>
              r == Step(m, [Reply(cb, Failed(GetContext(m, peripheralUuid, serviceUuid, characteristicUuid, IosHelper.Write).message))])
    ensures GetContext(m, peripheralUuid, serviceUuid, characteristicUuid, IosHelper.Write).Found? ==>
              var c := GetContext(m, peripheralUuid, serviceUuid, characteristicUuid, IosHelper.Write).context;
              var key := ContextKey(c);
              var id := c.peripheral.Id();
              && Waiting(r.next.write, key) == Waiting(m.write, key) + [cb]
              && r.next.(write := m.write, writeQueues := m.writeQueues) == m
              && (forall k :: k != key ==> Queue(r.next.writeQueues, k) == Queue(m.writeQueues, k))
              && (|message| <= maxByteSize ==>
                    && r.next.writeQueues == m.writeQueues
                    && r.effects == [Radio(WriteWithResponse(id, c.characteristic.uuid, message))])
              && (|message| > maxByteSize > 0 ==>
                    && |r.effects| == 1 && r.effects[0].Radio? && r.effects[0].request.WriteWithResponse?
                    && [r.effects[0].request.data] + Queue(r.next.writeQueues, key)
                         == Queue(m.writeQueues, key) + Chunks(message, maxByteSize))
              && (maxByteSize == 0 && message != [] ==>
                    r.next.writeQueues == m.writeQueues && r.effects == [Spin([])])
              && (maxByteSize < 0 && message != [] ==>
                    r.next.writeQueues == m.writeQueues && r.effects == [Trap])
              && (maxByteSize < 0 && message == [] && Queue(m.writeQueues, key) == [] ==>
                    Queue(r.next.writeQueues, key) == [] && r.effects == [])
              && (maxByteSize < 0 && message == [] && Queue(m.writeQueues, key) != [] ==>
                    && Queue(r.next.writeQueues, key) == Queue(m.writeQueues, key)[1..]
                    && r.effects == [Radio(WriteWithResponse(id, c.characteristic.uuid, Queue(m.writeQueues, key)[0]))])
  {
    match GetContext(m, peripheralUuid, serviceUuid, characteristicUuid, IosHelper.Write)
    case NotFound(msg) => Step(m, [Reply(cb, Failed(msg))])
    case Found(c) =>
      var key := ContextKey(c);
      var id := c.peripheral.Id();
      var m1 := m.(write := Insert(m.write, key, cb));
      if |message| <= maxByteSize then
        Step(m1, [Radio(WriteWithResponse(id, c.characteristic.uuid, message))])
      else if maxByteSize == 0 then
        Step(m1, [Spin([])])
      else if maxByteSize < 0 && message != [] then
        Step(m1, [Trap])
      else
        var chunks := if maxByteSize > 0 then Chunks(message, maxByteSize) else [];
        var e := Enqueue(m.writeQueues, key, chunks);
        var first := if e.first.Some? then [Radio(WriteWithResponse(id, c.characteristic.uuid, e.first.value))] else [];
        if maxByteSize > 0 then
          ChunksIsChunking(message, maxByteSize);
          ChunksCount(message, maxByteSize);
          assert e.first.Some?;
          Step(m1.(writeQueues := e.queues), first)
        else
          assert chunks == [] && Queue(m.writeQueues, key) + chunks == Queue(m.writeQueues, key);
          Step(m1.(writeQueues := e.queues), first)
  }

  function SendEach(id: string, characteristic: string, chunks: seq<Bytes>): (r: seq<Effect>)
    ensures |r| == |chunks|
    ensures forall i :: 0 <= i < |chunks| ==> r[i] == Radio(WriteWithoutResponse(id, characteristic, chunks[i]))
    decreases |chunks|
  {
    if chunks == [] then []
    else [Radio(WriteWithoutResponse(id, characteristic, chunks[0]))] + SendEach(id, characteristic, chunks[1..])
  }

  /** `writeWithoutResponse` (ios/SwiftBleManager.swift:863-928): the chunks
      go out back to back, in order, and the callback is answered at once;
      nothing is registered.  With a size of 0 a non-empty value makes the
      sending loop write empty chunks without end; a negative size asks for a
      byte range that ends before it starts, before anything is written. */
  function WriteWithoutResponseCommand(m: Manager, peripheralUuid: string, serviceUuid: string,
                                       characteristicUuid: string, message: Bytes, maxByteSize: int, cb: Cb): (r: Step)
    ensures r.next == m
    ensures GetContext(m, peripheralUuid, serviceUuid, characteristicUuid, IosHelper.WriteWithoutResponse).NotFound? ==>
              r.effects == [Reply(cb, Failed(GetContext(m, peripheralUuid, serviceUuid, characteristicUuid, IosHelper.WriteWithoutResponse).message))]
    ensures GetContext(m, peripheralUuid, serviceUuid, characteristicUuid, IosHelper.WriteWithoutResponse).Found? &&
            (|message| <= maxByteSize || maxByteSize > 0) ==>
              var c := GetContext(m, peripheralUuid, serviceUuid, characteristicUuid, IosHelper.WriteWithoutResponse).context;
              var sent := if |message| > maxByteSize then Chunks(message, maxByteSize) else [message];
              && |r.effects| == |sent| + 1
              && r.effects[|sent|] == Reply(cb, Done)
              && forall i :: 0 <= i < |sent| ==>
                   r.effects[i] == Radio(WriteWithoutResponse(c.peripheral.Id(), c.characteristic.uuid, sent[i]))
    ensures GetContext(m, peripheralUuid, serviceUuid, characteristicUuid, IosHelper.WriteWithoutResponse).Found? &&
            maxByteSize == 0 && message != [] ==>
              var c := GetContext(m, peripheralUuid, serviceUuid, characteristicUuid, IosHelper.WriteWithoutResponse).context;
              r.effects == [Spin([Radio(WriteWithoutResponse(c.peripheral.Id(), c.characteristic.uuid, []))])]
    ensures GetContext(m, peripheralUuid, serviceUuid, characteristicUuid, IosHelper.WriteWithoutResponse).Found? &&
            maxByteSize < 0 ==>
              r.effects == [Trap]
  {
    match GetContext(m, peripheralUuid, serviceUuid, characteristicUuid, IosHelper.WriteWithoutResponse)
    case NotFound(msg) => Step(m, [Reply(cb, Failed(msg))])
    case Found(c) =>
      if |message| <= maxByteSize || maxByteSize > 0 then
        var sent := if |message| > maxByteSize then Chunks(message, maxByteSize) else [message];
        Step(m, SendEach(c.peripheral.Id(), c.characteristic.uuid, sent) + [Reply(cb, Done)])
      else if maxByteSize == 0 then
        Step(m, [Spin([Radio(WriteWithoutResponse(c.peripheral.Id(), c.characteristic.uuid, []))])])
      else
        Step(m, [Trap])
  }

  // ---------------------------------------------------------------------------
  // Notifications

  /** `startNotification` and `startNotificationWithBuffer`
      (ios/SwiftBleManager.swift:961-1033).  With a buffer length the key gets
      a fresh, empty buffer, replacing any earlier one.  The length is not
      checked: 0 or less gives a buffer with no room at all. */
  function StartNotification(m: Manager, peripheralUuid: string, serviceUuid: string,
                             characteristicUuid: string, bufferLength: Option<int>, cb: Cb): (r: Step)
    ensures Valid(m) ==> Valid(r.next)
    ensures GetContext(m, peripheralUuid, serviceUuid, characteristicUuid, Notify).NotFound? ==>
              r == Step(m, [Reply(cb, Failed(GetContext(m, peripheralUuid, serviceUuid, characteristicUuid, Notify).message))])
    ensures GetContext(m, peripheralUuid, serviceUuid, characteristicUuid, Notify).Found? ==>
              var c := GetContext(m, peripheralUuid, serviceUuid, characteristicUuid, Notify).context;
              var key := ContextKey(c);
              && Waiting(r.next.notification, key) == Waiting(m.notification, key) + [cb]
              && r.next.(notification := m.notification, buffered := m.buffered) == m
              && (bufferLength.None? ==> r.next.buffered == m.buffered)
              && (bufferLength.Some? ==>
                    r.next.buffered == m.buffered[key := IosNotifyBuffer.New(bufferLength.value)])
              && r.effects == [Radio(SetNotify(c.peripheral.Id(), c.characteristic.uuid, true))]
  {
    match GetContext(m, peripheralUuid, serviceUuid, characteristicUuid, Notify)
    case NotFound(msg) => Step(m, [Reply(cb, Failed(msg))])
    case Found(c) =>
      var key := ContextKey(c);
      var buffers := match bufferLength
        case None => m.buffered
        case Some(n) => m.buffered[key := IosNotifyBuffer.New(n)];
      Step(m.(notification := Insert(m.notification, key, cb), buffered := buffers),
           [Radio(SetNotify(c.peripheral.Id(), c.characteristic.uuid, true))])
  }

  /** `stopNotification` (ios/SwiftBleManager.swift:1035-1077): a notifying
      characteristic has its callback registered, its buffer dropped and is
      switched off; otherwise the callback is answered at once. */
  function StopNotification(m: Manager, peripheralUuid: string, serviceUuid: string,
                            characteristicUuid: string, cb: Cb): (r: Step)
    ensures Valid(m) ==> Valid(r.next)
    ensures GetContext(m, peripheralUuid, serviceUuid, characteristicUuid, Notify).NotFound? ==>
              r == Step(m, [Reply(cb, Failed(GetContext(m, peripheralUuid, serviceUuid, characteristicUuid, Notify).message))])
    ensures GetContext(m, peripheralUuid, serviceUuid, characteristicUuid, Notify).Found? ==>
              var c := GetContext(m, peripheralUuid, serviceUuid, characteristicUuid, Notify).context;
              var key := ContextKey(c);
              && (!c.characteristic.isNotifying ==> r == Step(m, [Reply(cb, Done)]))
              && (c.characteristic.isNotifying ==>
                    && Waiting(r.next.stopNotification, key) == Waiting(m.stopNotification, key) + [cb]
                    && key !in r.next.buffered
                    && (forall k :: k != key ==> (k in r.next.buffered <==> k in m.buffered))
                    && r.next.(stopNotification := m.stopNotification, buffered := m.buffered) == m
                    && r.effects == [Radio(SetNotify(c.peripheral.Id(), c.characteristic.uuid, false))])
  {
    match GetContext(m, peripheralUuid, serviceUuid, characteristicUuid, Notify)
    case NotFound(msg) => Step(m, [Reply(cb, Failed(msg))])
    case Found(c) =>
      if !c.characteristic.isNotifying then Step(m, [Reply(cb, Done)])
      else
        var key := ContextKey(c);
        Step(m.(stopNotification := Insert(m.stopNotification, key, cb), buffered := m.buffered - {key}),
             [Radio(SetNotify(c.peripheral.Id(), c.characteristic.uuid, false))])
  }
}

=== FILE: ios_events.dfy ===
/** The CoreBluetooth delegate callbacks of the iOS manager
    (ios/SwiftBleManager.swift:1127-1849) and the two timers it arms, each a
    step of the manager.  Peripheral ids in events are the lower-cased form
    the manager itself uses (`uuidAsString`, ios/Helper.swift:416-418). */
module IosEvents {
  import opened Common
  import opened CallbackTable
  import opened IosHelper
  import opened IosState
  import IosNotifyBuffer
  import opened IosCommands

  // ---------------------------------------------------------------------------
  // Timers

  /** The scan timeout (`stopTimer`, ios/SwiftBleManager.swift:406-411):
      stops scanning and reports status 10.  A cancelled timer never fires. */
  function ScanTimerFired(m: Manager): (r: Step)
    ensures !m.scanTimerArmed ==> r == Step(m, [])
    ensures m.scanTimerArmed ==>
              && r.next == m.(scanTimerArmed := false)
              && r.effects == [Radio(StopScanning), Emit(StopScanEvent(10))]
  {
    if !m.scanTimerArmed then Step(m, [])
    else Step(m.(scanTimerArmed := false), [Radio(StopScanning), Emit(StopScanEvent(10))])
  }

  /** `didConnect` (ios/SwiftBleManager.swift:1149-1177) does nothing but arm
      a 2 ms timer; success is reported when that timer fires. */
  function DidConnect(m: Manager, id: string): (r: Step)
    ensures r.next.connectTimers == m.connectTimers + multiset{id}
    ensures r.next.(connectTimers := m.connectTimers) == m
    ensures r.effects == [Radio(ArmConnectTimer(id))]
  {
    Step(m.(connectTimers := m.connectTimers + multiset{id}), [Radio(ArmConnectTimer(id))])
  }

  /** The timer armed by `didConnect` (ios/SwiftBleManager.swift:1161-1176):
      answers every connect callback of the peripheral with success, records
      it as connected and tells JavaScript.  It checks nothing, so it reports
      success even when `didFailToConnect` came in between. */
  function ConnectTimerFired(m: Manager, id: string): (r: Step)
    ensures id !in m.connectTimers ==> r == Step(m, [])
    ensures id in m.connectTimers ==>
              && r.next.connectTimers == m.connectTimers - multiset{id}
              && r.next.connected == m.connected + {id}
              && Waiting(r.next.connect, id) == []
              && (forall k :: k != id ==> Waiting(r.next.connect, k) == Waiting(m.connect, k))
              && r.next.(connect := m.connect, connected := m.connected, connectTimers := m.connectTimers) == m
              && (id in m.connect ==> r.effects == [Resolve(map[id := m.connect[id]], Done), Emit(ConnectEvent(id))])
              && (id !in m.connect ==> r.effects == [Emit(ConnectEvent(id))])
  {
    if id !in m.connectTimers then Step(m, [])
    else
      var a := AnswerKey(m.connect, id, Done);
      Step(m.(connect := a.rest, connected := m.connected + {id},
              connectTimers := m.connectTimers - multiset{id}),
           a.effects + [Emit(ConnectEvent(id))])
  }

  /** `didFailToConnect` (ios/SwiftBleManager.swift:1179-1193).  The message
      is written as in the source, whose parenthesis is never closed. */
  function DidFailToConnect(m: Manager, id: string, error: Option<string>): (r: Step)
    ensures Waiting(r.next.connect, id) == []
    ensures forall k :: k != id ==> Waiting(r.next.connect, k) == Waiting(m.connect, k)
    ensures r.next.(connect := m.connect) == m
    ensures id in m.connect ==>
              r.effects == [Resolve(map[id := m.connect[id]],
                                    Failed("Peripheral connection failure: " + id + " (" + error.GetOr("")))]
    ensures id !in m.connect ==> r == Step(m, [])
  {
    var a := AnswerKey(m.connect, id, Failed("Peripheral connection failure: " + id + " (" + error.GetOr("")));
    Step(m.(connect := a.rest), a.effects)
  }

  // ---------------------------------------------------------------------------
  // Disconnection

  function DisconnectMessage(id: string): string {
    "Peripheral did disconnect: " + id
  }

  /** Answers and forgets the callbacks kept under the peripheral's own id:
      connect, RSSI and services (ios/SwiftBleManager.swift:1209-1223). */
  function ForgetKeyed(m: Manager, id: string, outcome: Outcome): (r: Step)
    ensures Waiting(r.next.connect, id) == [] && Waiting(r.next.readRssi, id) == []
    ensures Waiting(r.next.retrieveServices, id) == []
    ensures forall k :: k != id ==>
              && Waiting(r.next.connect, k) == Waiting(m.connect, k)
              && Waiting(r.next.readRssi, k) == Waiting(m.readRssi, k)
              && Waiting(r.next.retrieveServices, k) == Waiting(m.retrieveServices, k)
    ensures r.next.(connect := m.connect, readRssi := m.readRssi, retrieveServices := m.retrieveServices) == m
    ensures forall w :: Calls(r.next, w) == Calls(m, w)
    ensures id in m.connect ==> Resolve(map[id := m.connect[id]], outcome) in r.effects
    ensures id in m.readRssi ==> Resolve(map[id := m.readRssi[id]], outcome) in r.effects
    ensures id in m.retrieveServices ==> Resolve(map[id := m.retrieveServices[id]], outcome) in r.effects
    ensures forall e :: e in r.effects ==> e.Resolve? && e.outcome == outcome
  {
    var c := AnswerKey(m.connect, id, outcome);
    var s := AnswerKey(m.readRssi, id, outcome);
    var v := AnswerKey(m.retrieveServices, id, outcome);
    Step(m.(connect := c.rest, readRssi := s.rest, retrieveServices := v.rest),
         c.effects + s.effects + v.effects)
  }

  /** The callback tables keyed by `peripheral|characteristic[|descriptor]`
      that a disconnect flushes by prefix. */
  datatype Flushable = ReadCalls | WriteCalls | NotificationCalls | ReadDescriptorCalls | StopNotificationCalls

  /** The five, in the order the source walks them (ios/SwiftBleManager.swift:1225-1283). */
  const PrefixKeyed: seq<Flushable> :=
    [ReadCalls, WriteCalls, NotificationCalls, ReadDescriptorCalls, StopNotificationCalls]

  function Calls(m: Manager, w: Flushable): Table {
    match w
    case ReadCalls => m.read
    case WriteCalls => m.write
    case NotificationCalls => m.notification
    case ReadDescriptorCalls => m.readDescriptor
    case StopNotificationCalls => m.stopNotification
  }

  /** `a` and `b` differ at most in the five tables flushed by prefix. */
  predicate SameBesidesCalls(a: Manager, b: Manager) {
    && a.peripherals == b.peripherals && a.connect == b.connect && a.readRssi == b.readRssi
    && a.writeDescriptor == b.writeDescriptor && a.retrieveServices == b.retrieveServices
    && a.writeQueues == b.writeQueues && a.buffered == b.buffered && a.connected == b.connected
    && a.serviceLatches == b.serviceLatches && a.characteristicLatches == b.characteristicLatches
    && a.nameFilter == b.nameFilter && a.scanTimerArmed == b.scanTimerArmed
    && a.connectTimers == b.connectTimers
  }

  function WithCalls(m: Manager, w: Flushable, t: Table): (r: Manager)
    ensures Calls(r, w) == t
    ensures forall v :: v != w ==> Calls(r, v) == Calls(m, v)
    ensures SameBesidesCalls(r, m)
  {
    match w
    case ReadCalls => m.(read := t)
    case WriteCalls => m.(write := t)
    case NotificationCalls => m.(notification := t)
    case ReadDescriptorCalls => m.(readDescriptor := t)
    case StopNotificationCalls => m.(stopNotification := t)
  }

  /** Answers and forgets, table by table in the order of `kinds`, every
      callback whose key starts with the peripheral's id. */
  function ForgetPrefixed(m: Manager, id: string, outcome: Outcome, kinds: seq<Flushable>): (r: Step)
    ensures forall w, k :: w in kinds ==>
              Waiting(Calls(r.next, w), k) == if IsPrefix(id, k) then [] else Waiting(Calls(m, w), k)
    ensures forall w :: w !in kinds ==> Calls(r.next, w) == Calls(m, w)
    ensures SameBesidesCalls(r.next, m)
    ensures forall w :: w in kinds && Flushed(Calls(m, w), id) != map[] ==>
              Resolve(Flushed(Calls(m, w), id), outcome) in r.effects
    ensures forall e :: e in r.effects ==> e.Resolve? && e.outcome == outcome
    decreases |kinds|
  {
    if kinds == [] then Step(m, [])
    else
      var first := AnswerPrefix(Calls(m, kinds[0]), id, outcome);
      var m1 := WithCalls(m, kinds[0], first.rest);
      var rest := ForgetPrefixed(m1, id, outcome, kinds[1..]);
      assert forall w :: w in kinds ==> w == kinds[0] || w in kinds[1..];
      Step(rest.next, first.effects + rest.effects)
  }

  /** `didDisconnectPeripheral` (ios/SwiftBleManager.swift:1195-1308).
      Callbacks keyed by the peripheral's id and every callback whose key
      starts with it are answered with the disconnect error and forgotten,
      its notification buffers are dropped and it stops counting as
      connected; JavaScript hears of it last.  The write queues, the
      descriptor-write callbacks, the latches and the registry are left as
      they are. */
  function DidDisconnect(m: Manager, id: string, error: Option<string>): (r: Step)
    ensures r.next.connected == m.connected - {id}
    ensures forall k :: k in r.next.buffered <==> k in m.buffered && !IsPrefix(id, k)
    ensures forall k :: k in r.next.buffered ==> r.next.buffered[k] == m.buffered[k]
    ensures r.next.peripherals == m.peripherals && r.next.writeQueues == m.writeQueues
    ensures r.next.writeDescriptor == m.writeDescriptor && r.next.nameFilter == m.nameFilter
    ensures r.next.serviceLatches == m.serviceLatches
    ensures r.next.characteristicLatches == m.characteristicLatches
    ensures r.next.connectTimers == m.connectTimers && r.next.scanTimerArmed == m.scanTimerArmed
    ensures |r.effects| > 0 && r.effects[|r.effects| - 1] == Emit(DisconnectEvent(id, error))
    ensures forall e :: e in r.effects[..|r.effects| - 1] ==> e.Resolve? && e.outcome == Failed(DisconnectMessage(id))
    ensures Valid(m) ==> Valid(r.next)
  {
    var failed := Failed(DisconnectMessage(id));
    var a := ForgetKeyed(m, id, failed);
    var b := ForgetPrefixed(DropLink(a.next, id), id, failed, PrefixKeyed);
    var effects := a.effects + b.effects + [Emit(DisconnectEvent(id, error))];
    assert effects[..|effects| - 1] == a.effects + b.effects;
    Step(b.next, effects)
  }

  /** The notification buffers of the keys that do not start with `id`. */
  function KeepBuffers(buffered: map<string, IosNotifyBuffer.Container>, id: string)
    : (r: map<string, IosNotifyBuffer.Container>)
    ensures forall k :: k in r <==> k in buffered && !IsPrefix(id, k)
    ensures forall k :: k in r ==> r[k] == buffered[k]
  {
    map k | k in buffered && !IsPrefix(id, k) :: buffered[k]
  }

  /** The peripheral's notification buffers are dropped and it no longer
      counts as connected (ios/SwiftBleManager.swift:1285-1297). */
  function DropLink(m: Manager, id: string): (r: Manager)
    ensures r.connected == m.connected - {id} && r.buffered == KeepBuffers(m.buffered, id)
    ensures r.(buffered := m.buffered, connected := m.connected) == m
    ensures r.connect == m.connect && r.readRssi == m.readRssi && r.retrieveServices == m.retrieveServices
    ensures forall w :: Calls(r, w) == Calls(m, w)
  {
    m.(buffered := KeepBuffers(m.buffered, id), connected := m.connected - {id})
  }

  /** Whether a power-off treats `id` as disconnected: registered, and
      disconnected according to the platform. */
  predicate Stranded(peripherals: map<string, Peripheral>, id: string) {
    id in peripherals && peripherals[id].state == Disconnected
  }

  /** The stranded ids among `order`. */
  function StrandedIn(peripherals: map<string, Peripheral>, order: seq<string>): (r: set<string>)
    ensures forall id :: id in r <==> id in order && Stranded(peripherals, id)
    decreases |order|
  {
    if order == [] then {}
    else (if Stranded(peripherals, order[0]) then {order[0]} else {}) + StrandedIn(peripherals, order[1..])
  }

  /** One turn of the power-off loop: the disconnect cleanup, for a stranded id only. */
  function DisconnectIfStranded(m: Manager, id: string): (r: Step)
    ensures r.next.peripherals == m.peripherals
    ensures r.next.connected == if Stranded(m.peripherals, id) then m.connected - {id} else m.connected
    ensures Valid(m) ==> Valid(r.next)
  {
    if Stranded(m.peripherals, id) then DidDisconnect(m, id, None) else Step(m, [])
  }

  /** The loop of `centralManagerDidUpdateState` over the connected ids
      (ios/SwiftBleManager.swift:1314-1324). */
  function DisconnectStranded(m: Manager, order: seq<string>): (r: Step)
    ensures r.next.peripherals == m.peripherals
    ensures r.next.connected == m.connected - StrandedIn(m.peripherals, order)
    ensures Valid(m) ==> Valid(r.next)
    decreases |order|
  {
    if order == [] then Step(m, [])
    else
      var first := DisconnectIfStranded(m, order[0]);
      var rest := DisconnectStranded(first.next, order[1..]);
      Step(rest.next, first.effects + rest.effects)
  }

  /** `centralManagerDidUpdateState` (ios/SwiftBleManager.swift:1310-1326):
      reports the state's name and, when the radio is off, runs the
      disconnect cleanup for each connected id that the registry knows as
      disconnected.  `order` is the order in which the set of connected ids
      is enumerated. */
  function DidUpdateState(m: Manager, raw: int, order: seq<string>): (r: Step)
    requires forall id :: id in order <==> id in m.connected
    requires forall i, j :: 0 <= i < j < |order| ==> order[i] != order[j]
    ensures |r.effects| > 0 && r.effects[0] == Emit(UpdateStateEvent(StateName(raw)))
    ensures StateName(raw) != "off" ==> r.next == m
    ensures StateName(raw) == "off" ==>
              r.next.connected == m.connected - StrandedIn(m.peripherals, order)
    ensures StateName(raw) == "off" ==>
              forall id :: id in r.next.connected <==> id in m.connected && !Stranded(m.peripherals, id)
    ensures r.next.peripherals == m.peripherals
    ensures Valid(m) ==> Valid(r.next)
  {
    var announce := [Emit(UpdateStateEvent(StateName(raw)))];
    if StateName(raw) == "off" then
      var s := DisconnectStranded(m, order);
      Step(s.next, announce + s.effects)
    else Step(m, announce)
  }

  // ---------------------------------------------------------------------------
  // Discovery

  /** The advertised-name filter of `didDiscover`
      (ios/SwiftBleManager.swift:1362-1390): with a filter, a peripheral passes
      when it has a name and either that name or the advertised local name is
      listed; a peripheral without a name never passes. */
  predicate PassesFilter(filter: seq<string>, p: Peripheral, adv: AdvData) {
    || filter == []
    || (&& p.name.Some?
        && (|| p.name.value in filter
            || (LocalNameKey in adv && adv[LocalNameKey].Text? && adv[LocalNameKey].s in filter)))
  }

  /** `handleDiscoveredPeripheral` (ios/SwiftBleManager.swift:1328-1354): a
      known peripheral gets the new RSSI and advertisement in place, an
      unknown one is registered; either way JavaScript hears of it. */
  function HandleDiscovered(m: Manager, p: Peripheral, adv: AdvData, rssi: int): (r: Step)
    ensures r.next.peripherals == m.peripherals[p.Id() := Sighted(Registered(m.peripherals, p), adv, rssi)]
    ensures r.next == m.(peripherals := r.next.peripherals)
    ensures r.effects == [Emit(DiscoverEvent(r.next.peripherals[p.Id()]))]
  {
    var q := Sighted(Registered(m.peripherals, p), adv, rssi);
    Step(m.(peripherals := m.peripherals[p.Id() := q]), [Emit(DiscoverEvent(q))])
  }

  /** The registered object for `p`'s id, or `p` itself when there is none. */
  function Registered(peripherals: map<string, Peripheral>, p: Peripheral): (q: Peripheral)
    ensures OwnKeys(peripherals) ==> q.Id() == p.Id()
  {
    if p.Id() in peripherals then peripherals[p.Id()] else p
  }

  /** A peripheral with the RSSI and advertisement of its latest sighting. */
  function Sighted(p: Peripheral, adv: AdvData, rssi: int): (q: Peripheral)
    ensures q.rssi == Some(rssi) && q.advertisement == Some(adv)
    ensures q.identifier == p.identifier && q.name == p.name && q.state == p.state && q.services == p.services
  {
    p.(rssi := Some(rssi), advertisement := Some(adv))
  }

  /** `a` and `b` differ at most in their registries. */
  predicate SameBesidesRegistry(a: Manager, b: Manager) {
    && a.connect == b.connect && a.read == b.read && a.readRssi == b.readRssi
    && a.readDescriptor == b.readDescriptor && a.writeDescriptor == b.writeDescriptor
    && a.retrieveServices == b.retrieveServices && a.write == b.write
    && a.notification == b.notification && a.stopNotification == b.stopNotification
    && a.writeQueues == b.writeQueues && a.buffered == b.buffered && a.connected == b.connected
    && a.serviceLatches == b.serviceLatches && a.characteristicLatches == b.characteristicLatches
    && a.nameFilter == b.nameFilter && a.scanTimerArmed == b.scanTimerArmed
    && a.connectTimers == b.connectTimers
  }

  /** `didDiscover` (ios/SwiftBleManager.swift:1356-1392). */
  function DidDiscover(m: Manager, p: Peripheral, adv: AdvData, rssi: int): (r: Step)
    ensures !PassesFilter(m.nameFilter, p, adv) ==> r == Step(m, [])
    ensures PassesFilter(m.nameFilter, p, adv) ==> r == HandleDiscovered(m, p, adv, rssi)
  {
    if PassesFilter(m.nameFilter, p, adv) then HandleDiscovered(m, p, adv, rssi) else Step(m, [])
  }

  // ---------------------------------------------------------------------------
  // Services, characteristics and descriptors (the two latches)

  function Handles(services: seq<Service>): (r: set<nat>)
    ensures forall h :: h in r <==> exists s :: s in services && s.handle == h
  {
    set s | s in services :: s.handle
  }

  function CharacteristicHandles(cs: seq<Characteristic>): (r: set<nat>)
    ensures forall h :: h in r <==> exists c :: c in cs && c.handle == h
  {
    set c | c in cs :: c.handle
  }

  /** For each service in order: included services first, then
      characteristics. */
  function ExploreEach(id: string, services: seq<Service>): (r: seq<Effect>)
    ensures |r| == 2 * |services|
    ensures forall i :: 0 <= i < |services| ==>
              && r[2 * i] == Radio(DiscoverIncludedServices(id, services[i].handle))
              && r[2 * i + 1] == Radio(DiscoverCharacteristics(id, services[i].handle))
    decreases |services|
  {
    if services == [] then []
    else [Radio(DiscoverIncludedServices(id, services[0].handle)),
          Radio(DiscoverCharacteristics(id, services[0].handle))] + ExploreEach(id, services[1..])
  }

  /** `didDiscoverServices` (ios/SwiftBleManager.swift:1394-1422): latches the
      set of the peripheral's services and explores each. */
  function DidDiscoverServices(m: Manager, id: string, error: Option<string>, services: seq<Service>): (r: Step)
    ensures error.Some? ==> r == Step(m, [])
    ensures error.None? ==>
              && r.next.serviceLatches == m.serviceLatches[id := Handles(services)]
              && r.next.(serviceLatches := m.serviceLatches) == m
              && |r.effects| == 2 * |services|
              && (forall i :: 0 <= i < |services| ==>
                    && r.effects[2 * i] == Radio(DiscoverIncludedServices(id, services[i].handle))
                    && r.effects[2 * i + 1] == Radio(DiscoverCharacteristics(id, services[i].handle)))
  {
    if error.Some? then Step(m, [])
    else Step(m.(serviceLatches := m.serviceLatches[id := Handles(services)]), ExploreEach(id, services))
  }

  /** `didDiscoverIncludedServicesFor` (ios/SwiftBleManager.swift:1424-1434). */
  function DidDiscoverIncludedServices(m: Manager, id: string, serviceHandle: nat, error: Option<string>): (r: Step)
    ensures r.next == m
    ensures error.Some? <==> r.effects == []
    ensures error.None? ==> r.effects == [Radio(DiscoverCharacteristics(id, serviceHandle))]
  {
    if error.Some? then Step(m, []) else Step(m, [Radio(DiscoverCharacteristics(id, serviceHandle))])
  }

  function DescribeEach(id: string, cs: seq<Characteristic>): (r: seq<Effect>)
    ensures |r| == |cs|
    ensures forall i :: 0 <= i < |cs| ==> r[i] == Radio(DiscoverDescriptors(id, cs[i].handle))
    decreases |cs|
  {
    if cs == [] then [] else [Radio(DiscoverDescriptors(id, cs[0].handle))] + DescribeEach(id, cs[1..])
  }

  /** `didDiscoverCharacteristicsFor` (ios/SwiftBleManager.swift:1436-1459):
      latches the service's characteristics under the service's UUID, a key
      shared by every peripheral offering that service. */
  function DidDiscoverCharacteristics(m: Manager, id: string, service: Service, error: Option<string>): (r: Step)
    ensures error.Some? ==> r == Step(m, [])
    ensures error.None? ==>
              && r.next.characteristicLatches
                   == m.characteristicLatches[service.uuid := CharacteristicHandles(service.characteristics)]
              && r.next.(characteristicLatches := m.characteristicLatches) == m
              && r.effects == DescribeEach(id, service.characteristics)
  {
    if error.Some? then Step(m, [])
    else Step(m.(characteristicLatches :=
                   m.characteristicLatches[service.uuid := CharacteristicHandles(service.characteristics)]),
              DescribeEach(id, service.characteristics))
  }

  /** `didDiscoverDescriptorsFor` (ios/SwiftBleManager.swift:1461-1513): the
      characteristic leaves its service's latch; a service whose latch empties
      leaves the peripheral's latch; when that empties too, the services
      callbacks are answered and both latches are forgotten. */
  function DidDiscoverDescriptors(m: Manager, id: string, serviceUuid: string, serviceHandle: nat,
                                  characteristicHandle: nat, error: Option<string>): (r: Step)
    ensures error.Some? || id !in m.serviceLatches || serviceUuid !in m.characteristicLatches ==> r == Step(m, [])
    ensures r.next.(serviceLatches := m.serviceLatches, characteristicLatches := m.characteristicLatches,
                    retrieveServices := m.retrieveServices) == m
    ensures error.None? && id in m.serviceLatches && serviceUuid in m.characteristicLatches ==>
              var left := m.characteristicLatches[serviceUuid] - {characteristicHandle};
              var services := m.serviceLatches[id] - {serviceHandle};
              && (left != {} ==>
                    r == Step(m.(characteristicLatches := m.characteristicLatches[serviceUuid := left]), []))
              && (left == {} && services != {} ==>
                    r == Step(m.(characteristicLatches := m.characteristicLatches[serviceUuid := left],
                                 serviceLatches := m.serviceLatches[id := services]), []))
              && (left == {} && services == {} ==>
                    && id !in r.next.serviceLatches && serviceUuid !in r.next.characteristicLatches
                    && (id in m.peripherals ==>
                          && Waiting(r.next.retrieveServices, id) == []
                          && (id in m.retrieveServices ==>
                                r.effects == [Resolve(map[id := m.retrieveServices[id]],
                                                      ServicesOf(m.peripherals[id]))]))
                    && (id !in m.peripherals ==> r.effects == [] && r.next.retrieveServices == m.retrieveServices))
    ensures forall k :: k != id ==> Waiting(r.next.retrieveServices, k) == Waiting(m.retrieveServices, k)
  {
    if error.Some? || id !in m.serviceLatches || serviceUuid !in m.characteristicLatches then Step(m, [])
    else
      var left := m.characteristicLatches[serviceUuid] - {characteristicHandle};
      var m1 := m.(characteristicLatches := m.characteristicLatches[serviceUuid := left]);
      if left != {} then Step(m1, [])
      else
        var services := m.serviceLatches[id] - {serviceHandle};
        var m2 := m1.(serviceLatches := m.serviceLatches[id := services]);
        if services != {} then Step(m2, [])
        else
          var a := if id in m.peripherals then AnswerKey(m.retrieveServices, id, ServicesOf(m.peripherals[id]))
                   else Answered(m.retrieveServices, []);
          Step(m2.(retrieveServices := a.rest,
                   characteristicLatches := m2.characteristicLatches - {serviceUuid},
                   serviceLatches := m2.serviceLatches - {id}),
               a.effects)
  }

  // ---------------------------------------------------------------------------
  // Values

  /** `didReadRSSI` (ios/SwiftBleManager.swift:1515-1537): the RSSI callbacks
      get the reading, with the error when there is one. */
  function DidReadRssi(m: Manager, id: string, rssi: int, error: Option<string>): (r: Step)
    ensures Waiting(r.next.readRssi, id) == []
    ensures forall k :: k != id ==> Waiting(r.next.readRssi, k) == Waiting(m.readRssi, k)
    ensures r.next.(readRssi := m.readRssi) == m
    ensures id in m.readRssi ==> r.effects == [Resolve(map[id := m.readRssi[id]], RssiRead(error, rssi))]
    ensures id !in m.readRssi ==> r == Step(m, [])
  {
    var a := AnswerKey(m.readRssi, id, RssiRead(error, rssi));
    Step(m.(readRssi := a.rest), a.effects)
  }

  /** `didUpdateValueFor descriptor` (ios/SwiftBleManager.swift:1539-1622).
      `value` is the descriptor's value as bytes when it has a byte form
      (data, a number's memory image or a UTF-8 string); without one the
      waiting callbacks stay waiting. */
  function DidUpdateDescriptorValue(m: Manager, id: string, characteristic: string, descriptor: string,
                                    error: Option<string>, value: Option<Bytes>): (r: Step)
    ensures r.next.(readDescriptor := m.readDescriptor) == m
    ensures var key := DescriptorKey(id, characteristic, descriptor);
            && (forall k :: k != key ==> Waiting(r.next.readDescriptor, k) == Waiting(m.readDescriptor, k))
            && (key !in m.readDescriptor ==> r == Step(m, []))
            && (error.None? && value.None? ==> r == Step(m, []))
            && (key in m.readDescriptor && error.Some? ==>
                  r.effects == [Resolve(map[key := m.readDescriptor[key]], Failed(error.value))]
                  && key !in r.next.readDescriptor)
            && (key in m.readDescriptor && error.None? && value.Some? ==>
                  r.effects == [Resolve(map[key := m.readDescriptor[key]], Value(value.value))]
                  && key !in r.next.readDescriptor)
  {
    var key := DescriptorKey(id, characteristic, descriptor);
    if error.Some? then
      var a := AnswerKey(m.readDescriptor, key, Failed(error.value));
      Step(m.(readDescriptor := a.rest), a.effects)
    else if key in m.readDescriptor && value.Some? then
      var a := AnswerKey(m.readDescriptor, key, Value(value.value));
      Step(m.(readDescriptor := a.rest), a.effects)
    else Step(m, [])
  }

  function EmitFull(id: string, characteristic: string, service: string, pieces: seq<Bytes>): (r: seq<Effect>)
    ensures |r| == |pieces|
    ensures forall i :: 0 <= i < |pieces| ==>
              r[i] == Emit(UpdateValueEvent(id, Lower(characteristic), Lower(service), pieces[i]))
    decreases |pieces|
  {
    if pieces == [] then []
    else [Emit(UpdateValueEvent(id, Lower(characteristic), Lower(service), pieces[0]))]
         + EmitFull(id, characteristic, service, pieces[1..])
  }

  /** `didUpdateValueFor characteristic` (ios/SwiftBleManager.swift:1624-1695).
      In order of precedence: an error answers the waiting reads; a waiting
      read takes the value and nothing is emitted; a key without a buffer
      emits the value; a buffered key emits only full buffers of exactly the
      buffer's capacity and keeps the remainder for later.  A buffer created
      with no room is full before and after every `put`, so a non-empty value
      makes the feeding loop emit empty buffers without end. */
  function DidUpdateValue(m: Manager, id: string, characteristic: string, service: string,
                          error: Option<string>, value: Bytes): (r: Step)
    requires Valid(m)
    ensures Valid(r.next)
    ensures var key := Key(id, characteristic);
            && r.next.(read := m.read, buffered := m.buffered) == m
            && (forall k :: k != key ==> Waiting(r.next.read, k) == Waiting(m.read, k))
            && (forall k :: k != key ==> (k in r.next.buffered <==> k in m.buffered)
                                         && (k in m.buffered ==> r.next.buffered[k] == m.buffered[k]))
            && (error.Some? ==>
                  && key !in r.next.read && r.next.buffered == m.buffered
                  && r.effects == (if key in m.read then [Resolve(map[key := m.read[key]], Failed(error.value))] else []))
            && (error.None? && key in m.read ==>
                  && key !in r.next.read && r.next.buffered == m.buffered
                  && r.effects == [Resolve(map[key := m.read[key]], Value(value))])
            && (error.None? && key !in m.read && key !in m.buffered ==>
                  r == Step(m, [Emit(UpdateValueEvent(id, Lower(characteristic), Lower(service), value))]))
            && (error.None? && key !in m.read && key in m.buffered && m.buffered[key].capacity <= 0 ==>
                  && r.next == m
                  && r.effects == (if value == [] then []
                                   else [Spin([Emit(UpdateValueEvent(id, Lower(characteristic), Lower(service), []))])]))
            && (error.None? && key !in m.read && key in m.buffered && m.buffered[key].capacity > 0 ==>
                  var before := m.buffered[key];
                  && r.next.read == m.read
                  && key in r.next.buffered
                  && var after := r.next.buffered[key];
                  && after.capacity == before.capacity
                  && (forall e :: e in r.effects ==>
                        e.Emit? && e.event.UpdateValueEvent? && |e.event.value| == before.capacity)
                  && Flatten(Values(r.effects)) + after.items == before.items + value)
  {
    var key := Key(id, characteristic);
    if error.Some? then
      var a := AnswerKey(m.read, key, Failed(error.value));
      Step(m.(read := a.rest), a.effects)
    else if key in m.read then
      var a := AnswerKey(m.read, key, Value(value));
      Step(m.(read := a.rest), a.effects)
    else if key !in m.buffered then
      Step(m, [Emit(UpdateValueEvent(id, Lower(characteristic), Lower(service), value))])
    else if m.buffered[key].capacity <= 0 then
      if value == [] then Step(m, [])
      else Step(m, [Spin([Emit(UpdateValueEvent(id, Lower(characteristic), Lower(service), []))])])
    else
      var d := IosNotifyBuffer.Drain(m.buffered[key], value);
      var effects := EmitFull(id, characteristic, service, d.emitted);
      ValuesOfEmitFull(id, characteristic, service, d.emitted);
      Step(m.(buffered := m.buffered[key := d.after]), effects)
  }

  /** The values carried by the value events among `effects`, in order. */
  function Values(effects: seq<Effect>): seq<Bytes>
    decreases |effects|
  {
    if effects == [] then []
    else (if effects[0].Emit? && effects[0].event.UpdateValueEvent? then [effects[0].event.value] else [])
         + Values(effects[1..])
  }

  lemma {:induction false} ValuesOfEmitFull(id: string, characteristic: string, service: string, pieces: seq<Bytes>)
    ensures Values(EmitFull(id, characteristic, service, pieces)) == pieces
    decreases |pieces|
  {
    if pieces != [] {
      var e := EmitFull(id, characteristic, service, pieces);
      assert e[1..] == EmitFull(id, characteristic, service, pieces[1..]);
      ValuesOfEmitFull(id, characteristic, service, pieces[1..]);
    }
  }

  /** `didUpdateNotificationStateFor` (ios/SwiftBleManager.swift:1697-1775):
      JavaScript hears the new state first; then an error drops the key's
      buffer and answers both the start and the stop callbacks with it, while
      success answers the start callbacks if notifying and the stop callbacks
      if not. */
  function DidUpdateNotificationState(m: Manager, id: string, characteristic: string,
                                      isNotifying: bool, error: Option<string>): (r: Step)
    ensures Valid(m) ==> Valid(r.next)
    ensures var key := Key(id, characteristic);
            && r.next.(notification := m.notification, stopNotification := m.stopNotification,
                        buffered := m.buffered) == m
            && |r.effects| > 0
            && r.effects[0] == Emit(NotificationStateEvent(id, Lower(characteristic),
                                                           isNotifying && error.None?, error))
            && (forall k :: k != key ==>
                  Waiting(r.next.notification, k) == Waiting(m.notification, k)
                  && Waiting(r.next.stopNotification, k) == Waiting(m.stopNotification, k))
            && (error.Some? ==>
                  && key !in r.next.notification && key !in r.next.stopNotification
                  && r.next.buffered == m.buffered - {key}
                  && forall e :: e in r.effects[1..] ==> e.Resolve? && e.outcome == Failed(error.value))
            && (error.None? && isNotifying ==>
                  && key !in r.next.notification && r.next.stopNotification == m.stopNotification
                  && r.next.buffered == m.buffered
                  && (key in m.notification ==> r.effects[1..] == [Resolve(map[key := m.notification[key]], Done)])
                  && (key !in m.notification ==> |r.effects| == 1))
            && (error.None? && !isNotifying ==>
                  && key !in r.next.stopNotification && r.next.notification == m.notification
                  && r.next.buffered == m.buffered
                  && (key in m.stopNotification ==> r.effects[1..] == [Resolve(map[key := m.stopNotification[key]], Done)])
                  && (key !in m.stopNotification ==> |r.effects| == 1))
  {
    var key := Key(id, characteristic);
    var announce := Emit(NotificationStateEvent(id, Lower(characteristic), isNotifying && error.None?, error));
    match error
    case Some(e) =>
      var a := AnswerKey(m.notification, key, Failed(e));
      var b := AnswerKey(m.stopNotification, key, Failed(e));
      var effects := [announce] + a.effects + b.effects;
      assert effects[1..] == a.effects + b.effects;
      Step(m.(buffered := m.buffered - {key}, notification := a.rest, stopNotification := b.rest), effects)
    case None =>
      if isNotifying then
        var a := AnswerKey(m.notification, key, Done);
        assert ([announce] + a.effects)[1..] == a.effects;
        Step(m.(notification := a.rest), [announce] + a.effects)
      else
        var b := AnswerKey(m.stopNotification, key, Done);
        assert ([announce] + b.effects)[1..] == b.effects;
        Step(m.(stopNotification := b.rest), [announce] + b.effects)
  }

  /** `didWriteValueFor descriptor` (ios/SwiftBleManager.swift:1777-1806). */
  function DidWriteDescriptor(m: Manager, id: string, characteristic: string, descriptor: string,
                              error: Option<string>): (r: Step)
    ensures var key := DescriptorKey(id, characteristic, descriptor);
            && key !in r.next.writeDescriptor
            && (forall k :: k != key ==> Waiting(r.next.writeDescriptor, k) == Waiting(m.writeDescriptor, k))
            && r.next.(writeDescriptor := m.writeDescriptor) == m
            && (key !in m.writeDescriptor ==> r == Step(m, []))
            && (key in m.writeDescriptor ==>
                  r.effects == [Resolve(map[key := m.writeDescriptor[key]],
                                        if error.Some? then Failed(error.value) else Done)])
  {
    var key := DescriptorKey(id, characteristic, descriptor);
    var a := AnswerKey(m.writeDescriptor, key, if error.Some? then Failed(error.value) else Done);
    Step(m.(writeDescriptor := a.rest), a.effects)
  }

  /** `didWriteValueFor characteristic` (ios/SwiftBleManager.swift:1808-1849).
      Without waiting write callbacks nothing happens.  An error answers them
      and drops the key's queue.  Otherwise the next queued chunk goes out, and
      only when none is left are the callbacks answered with success. */
  function DidWriteValue(m: Manager, id: string, characteristic: string, error: Option<string>): (r: Step)
    ensures r.next.(write := m.write, writeQueues := m.writeQueues) == m
    ensures forall k :: k != Key(id, characteristic) ==>
              Waiting(r.next.write, k) == Waiting(m.write, k)
              && Queue(r.next.writeQueues, k) == Queue(m.writeQueues, k)
    ensures Key(id, characteristic) !in m.write ==> r == Step(m, [])
  {
    var key := Key(id, characteristic);
    if key !in m.write then Step(m, [])
    else if error.Some? then
      var a := AnswerKey(m.write, key, Failed(error.value));
      Step(m.(write := a.rest, writeQueues := m.writeQueues - {key}), a.effects)
    else WriteAcknowledged(m, id, characteristic)
  }

  /** The success branch of `didWriteValueFor characteristic`: the next
      queued chunk, or the answer once the queue is empty. */
  function WriteAcknowledged(m: Manager, id: string, characteristic: string): (r: Step)
    ensures r.next.(write := m.write, writeQueues := m.writeQueues) == m
    ensures forall k :: k != Key(id, characteristic) ==>
              Waiting(r.next.write, k) == Waiting(m.write, k)
              && Queue(r.next.writeQueues, k) == Queue(m.writeQueues, k)
  {
    var key := Key(id, characteristic);
    var d := Dequeue(m.writeQueues, key);
    match d.next
    case Some(chunk) =>
      Step(m.(writeQueues := d.queues), [Radio(WriteWithResponse(id, characteristic, chunk))])
    case None =>
      var a := AnswerKey(m.write, key, Done);
      Step(m.(write := a.rest, writeQueues := d.queues), a.effects)
  }

  /** An error answers the write callbacks with it and drops the queue. */
  lemma WriteAckFailure(m: Manager, id: string, characteristic: string, error: string)
    requires Key(id, characteristic) in m.write
    ensures var key := Key(id, characteristic);
            var r := DidWriteValue(m, id, characteristic, Some(error));
            && key !in r.next.write && Queue(r.next.writeQueues, key) == []
            && r.effects == [Resolve(map[key := m.write[key]], Failed(error))]
  {
  }

  /** A successful acknowledgement with chunks queued sends the next one and
      keeps the callbacks waiting. */
  lemma WriteAckSendsNext(m: Manager, id: string, characteristic: string)
    requires Key(id, characteristic) in m.write && Queue(m.writeQueues, Key(id, characteristic)) != []
    ensures var key := Key(id, characteristic);
            var r := DidWriteValue(m, id, characteristic, None);
            && r.next.write == m.write
            && Queue(r.next.writeQueues, key) == Queue(m.writeQueues, key)[1..]
            && r.effects == [Radio(WriteWithResponse(id, characteristic, Queue(m.writeQueues, key)[0]))]
  {
  }

  /** A successful acknowledgement with nothing left queued answers the
      write callbacks with success and forgets the queue. */
  lemma WriteAckCompletes(m: Manager, id: string, characteristic: string)
    requires Key(id, characteristic) in m.write && Queue(m.writeQueues, Key(id, characteristic)) == []
    ensures var key := Key(id, characteristic);
            var r := DidWriteValue(m, id, characteristic, None);
            && key !in r.next.write && key !in r.next.writeQueues
            && r.effects == [Resolve(map[key := m.write[key]], Done)]
  {
  }

  // ---------------------------------------------------------------------------
  // State restoration and the platform's own changes

  /** The ids of some peripherals. */
  function Ids(ps: seq<Peripheral>): set<string> {
    set p | p in ps :: p.Id()
  }

  /** Every peripheral in the registry sits under its own id. */
  predicate OwnKeys(peripherals: map<string, Peripheral>) {
    forall k :: k in peripherals ==> peripherals[k].Id() == k
  }

  /** Registers the restored peripherals one by one, each afresh. */
  function Restore(peripherals: map<string, Peripheral>, restored: seq<Peripheral>): (r: map<string, Peripheral>)
    ensures forall k :: k in r <==> k in peripherals || k in Ids(restored)
    ensures forall k :: k in peripherals && k !in Ids(restored) ==> r[k] == peripherals[k]
    ensures OwnKeys(peripherals) ==> OwnKeys(r)
    decreases |restored|
  {
    if restored == [] then peripherals
    else
      var p := restored[0];
      assert Ids(restored) == {p.Id()} + Ids(restored[1..]);
      Restore(peripherals[p.Id() := p.(rssi := None, advertisement := None)], restored[1..])
  }

  /** The restored peripherals as registered: no RSSI or advertisement yet. */
  function Fresh(restored: seq<Peripheral>): (r: seq<Peripheral>)
    ensures |r| == |restored|
    ensures forall i :: 0 <= i < |restored| ==>
              r[i] == restored[i].(rssi := None, advertisement := None) && r[i].Id() == restored[i].Id()
    decreases |restored|
  {
    if restored == [] then []
    else [restored[0].(rssi := None, advertisement := None)] + Fresh(restored[1..])
  }

  /** `willRestoreState` (ios/SwiftBleManager.swift:1127-1147): the restored
      peripherals are registered afresh and reported together; an empty list
      changes nothing. */
  function WillRestoreState(m: Manager, restored: seq<Peripheral>): (r: Step)
    ensures restored == [] ==> r == Step(m, [])
    ensures restored != [] ==> forall k :: k in r.next.peripherals <==> k in m.peripherals || k in Ids(restored)
    ensures restored != [] ==> SameBesidesRegistry(r.next, m)
    ensures restored != [] ==> r.effects == [Emit(RestoreStateEvent(Fresh(restored)))]
    ensures Valid(m) ==> Valid(r.next)
  {
    if restored == [] then Step(m, [])
    else Step(m.(peripherals := Restore(m.peripherals, restored)),
              [Emit(RestoreStateEvent(Fresh(restored)))])
  }

  /** CoreBluetooth changing a peripheral object behind the manager's back:
      its link state and its attribute table (including which characteristics
      notify).  Only registered peripherals are tracked. */
  function PeripheralChanged(m: Manager, id: string, state: LinkState, services: seq<Service>): (r: Step)
    ensures Valid(m) ==> Valid(r.next)
    ensures id in m.peripherals ==>
              r.next.peripherals == m.peripherals[id := m.peripherals[id].(state := state, services := services)]
    ensures id !in m.peripherals ==> r.next == m
    ensures r.next.(peripherals := m.peripherals) == m && r.effects == []
  {
    if id in m.peripherals then
      Step(m.(peripherals := m.peripherals[id := m.peripherals[id].(state := state, services := services)]), [])
    else Step(m, [])
  }
}

=== FILE: ios_helper.dfy ===
/** The pure helpers of the iOS side (ios/Helper.swift): manager-state names,
    request keys, the characteristic-property decoder, attribute lookup,
    advertisement-data reformatting and the peripheral record. */
module IosHelper {
  import opened Common
  import opened Flags
  import Hex
  import UuidHelper

  // ---------------------------------------------------------------------------
  // Manager state

  /** The name reported for a raw `CBManagerState` value: 0 unknown,
      1 resetting, 2 unsupported, 3 unauthorized, 4 powered off, 5 powered on;
      values the platform may add later fall back to "unknown". */
  function StateName(raw: int): (r: string)
    ensures r in {"unknown", "resetting", "unsupported", "unauthorized", "off", "on"}
  {
    if raw == 1 then "resetting"
    else if raw == 2 then "unsupported"
    else if raw == 3 then "unauthorized"
    else if raw == 4 then "off"
    else if raw == 5 then "on"
    else "unknown"
  }

  /** The state a name stands for, for every name but "unknown" which several
      raw values share. */
  function StateOfName(name: string): Option<int> {
    if name == "resetting" then Some(1)
    else if name == "unsupported" then Some(2)
    else if name == "unauthorized" then Some(3)
    else if name == "off" then Some(4)
    else if name == "on" then Some(5)
    else None
  }

  /** The five definite states have distinct names that lead back to them; every
      other raw value, and only those, is reported as "unknown". */
  lemma StateNameRoundTrip(raw: int)
    ensures 1 <= raw <= 5 ==> StateOfName(StateName(raw)) == Some(raw)
    ensures StateName(raw) == "unknown" <==> !(1 <= raw <= 5)
  {
  }

  // ---------------------------------------------------------------------------
  // Identifiers and request keys

  /** `uuidAsString`: the lower-cased identifier a peripheral is known by. */
  function PeripheralId(identifier: string): (r: string)
    ensures |r| == |identifier|
    ensures forall i :: 0 <= i < |r| ==> !('A' <= r[i] <= 'Z')
  {
    Lower(identifier)
  }

  /** The key of a characteristic request, "peripheral|characteristic". */
  function Key(peripheral: string, characteristic: string): string {
    peripheral + "|" + characteristic
  }

  /** The key of a descriptor request, "peripheral|characteristic|descriptor". */
  function DescriptorKey(peripheral: string, characteristic: string, descriptor: string): string {
    peripheral + "|" + characteristic + "|" + descriptor
  }

  /** Every key of a peripheral starts with its id, and with no other id of the
      same length (identifiers are fixed-length UUID strings). */
  lemma KeysStartWithTheirPeripheral(p: string, q: string, c: string, d: string)
    ensures IsPrefix(p, Key(p, c)) && IsPrefix(p, DescriptorKey(p, c, d))
    ensures |q| == |p| && q != p ==> !IsPrefix(p, Key(q, c)) && !IsPrefix(p, DescriptorKey(q, c, d))
  {
    assert Key(p, c)[..|p|] == p;
    assert DescriptorKey(p, c, d)[..|p|] == p;
    if |q| == |p| {
      assert Key(q, c)[..|p|] == q;
      assert DescriptorKey(q, c, d)[..|p|] == q;
    }
  }

  /** A key names its characteristic unambiguously once the peripheral is known. */
  lemma KeyDeterminesCharacteristic(p: string, c1: string, c2: string)
    ensures Key(p, c1) == Key(p, c2) <==> c1 == c2
  {
    if Key(p, c1) == Key(p, c2) {
      assert c1 == Key(p, c1)[|p| + 1..];
      assert c2 == Key(p, c2)[|p| + 1..];
    }
  }

  // ---------------------------------------------------------------------------
  // Characteristic properties (section 3.3.1.1 of Bluetooth Core Specification
  // Vol 3 Part G for the low eight bits, CoreBluetooth for the two above)

  const Broadcast: bv32 := 0x01
  const Read: bv32 := 0x02
  const WriteWithoutResponse: bv32 := 0x04
  const Write: bv32 := 0x08
  const Notify: bv32 := 0x10
  const Indicate: bv32 := 0x20
  const AuthenticatedSignedWrites: bv32 := 0x40
  const ExtendedProperties: bv32 := 0x80
  const NotifyEncryptionRequired: bv32 := 0x100
  const IndicateEncryptionRequired: bv32 := 0x200

  /** The property names the decoder can report, in the order it tests them. */
  const PropertyNames: seq<string> := [
    "Broadcast", "Read", "WriteWithoutResponse", "Write", "Notify", "Indicate",
    "AuthenticateSignedWrites", "ExtendedProperties",
    "NotifyEncryptionRequired", "IndicateEncryptionRequired"]

  /** The bit behind each name, position by position. */
  const PropertyBits: seq<bv32> := [
    Broadcast, Read, WriteWithoutResponse, Write, Notify, Indicate,
    AuthenticatedSignedWrites, ExtendedProperties,
    NotifyEncryptionRequired, IndicateEncryptionRequired]

  /** `decodeCharacteristicProperties`: one entry, valued by its own name, for
      each of the ten flags set in `p`. */
  function DecodeProperties(p: bv32): (r: map<string, string>)
    ensures forall k :: k in r ==> r[k] == k
    ensures forall i :: 0 <= i < |PropertyNames| ==> (PropertyNames[i] in r <==> Has(p, PropertyBits[i]))
    ensures forall k :: k !in PropertyNames ==> k !in r
  {
    var r := Decode(PropertyNames, PropertyBits, p);
    forall i | 0 <= i < |PropertyNames|
      ensures PropertyNames[i] in r <==> Has(p, PropertyBits[i])
    {
      DecodeNamesEachSetFlag(PropertyNames, PropertyBits, p, i);
    }
    r
  }

  // ---------------------------------------------------------------------------
  // Attribute tables as the platform reports them.  Services, characteristics
  // and descriptors are objects: two of them may share a UUID, so each carries
  // the handle that tells it apart.

  datatype Descriptor = Descriptor(uuid: string, handle: nat)

  datatype Characteristic = Characteristic(
    uuid: string, handle: nat, properties: bv32, isNotifying: bool,
    descriptors: seq<Descriptor>)

  datatype Service = Service(uuid: string, handle: nat, characteristics: seq<Characteristic>)

  /** The 128-bit value `CBUUID(string:)` reads from a UUID string: four
      hexadecimal digits are a 16-bit and eight a 32-bit UUID placed in the
      Bluetooth Base UUID, 36 characters are the full 8-4-4-4-12 form, and
      digits may be of either case.  `None` for any other string. */
  function Expand(text: string): Option<UuidHelper.Uuid> {
    if |text| == 4 then UuidHelper.Parse(UuidHelper.FillBase(text))
    else if |text| == 8 then UuidHelper.Parse(text + UuidHelper.BaseTail)
    else UuidHelper.Parse(text)
  }

  /** `CBUUID.isEqual`: two UUID strings name the same 128-bit UUID. */
  predicate SameUuid(a: string, b: string) {
    Expand(a).Some? && Expand(a) == Expand(b)
  }

  /** Parsing does not see the case of the digits. */
  lemma ParseIgnoresCase(text: string)
    requires UuidHelper.Parse(text).Some?
    ensures UuidHelper.Parse(Lower(text)) == UuidHelper.Parse(text)
  {
    var u := UuidHelper.Parse(text).value;
    UuidHelper.PrintParsed(text);
    UuidHelper.ParsePrinted(u);
  }

  /** A UUID string and its lower-case spelling name the same UUID. */
  lemma SameUuidIgnoresCase(text: string)
    requires Expand(text).Some?
    ensures SameUuid(text, Lower(text)) && SameUuid(Lower(text), text)
  {
    if |text| == 4 {
      UuidHelper.FillBaseLowered(text);
      ParseIgnoresCase(UuidHelper.FillBase(text));
    } else if |text| == 8 {
      UuidHelper.LowerAppend(text, UuidHelper.BaseTail);
      UuidHelper.TailIsLower();
      ParseIgnoresCase(text + UuidHelper.BaseTail);
    } else {
      ParseIgnoresCase(text);
    }
  }

  /** A 16-bit UUID string names the same UUID as its full form in the base. */
  lemma ShortFormIsBaseForm(short: string)
    requires |short| == 4 && UuidHelper.AllHex(short)
    ensures SameUuid(short, "0000" + short + UuidHelper.BaseTail)
  {
    UuidHelper.FilledShape(short);
  }

  /** A 32-bit UUID string names the same UUID as its full form in the base. */
  lemma MediumFormIsBaseForm(medium: string)
    requires |medium| == 8 && Expand(medium).Some?
    ensures SameUuid(medium, medium + UuidHelper.BaseTail)
  {
  }

  /** `findService(fromUUID:peripheral:)`: the first service whose UUID is the one asked for. */
  function FindService(services: seq<Service>, uuid: string): (r: Option<Service>)
    ensures r.Some? ==> r.value in services && SameUuid(r.value.uuid, uuid)
    ensures r.None? <==> forall s :: s in services ==> !SameUuid(s.uuid, uuid)
    ensures r.Some? ==> exists i :: 0 <= i < |services| && services[i] == r.value &&
                          forall j :: 0 <= j < i ==> !SameUuid(services[j].uuid, uuid)
  {
    match FindFirst(services, (s: Service) => SameUuid(s.uuid, uuid))
    case None => None
    case Some(i) => Some(services[i])
  }

  /** `findCharacteristic(fromUUID:service:prop:)`: the first characteristic with
      that UUID whose properties include all of `prop`. */
  function FindCharacteristicWith(service: Service, uuid: string, prop: bv32): (r: Option<Characteristic>)
    ensures r.Some? ==> r.value in service.characteristics && SameUuid(r.value.uuid, uuid) && Has(r.value.properties, prop)
    ensures r.None? <==> forall c :: c in service.characteristics ==> !(SameUuid(c.uuid, uuid) && Has(c.properties, prop))
    ensures r.Some? ==> exists i :: 0 <= i < |service.characteristics| && service.characteristics[i] == r.value &&
                          forall j :: 0 <= j < i ==> !(SameUuid(service.characteristics[j].uuid, uuid) && Has(service.characteristics[j].properties, prop))
  {
    var cs := service.characteristics;
    match FindFirst(cs, (c: Characteristic) => SameUuid(c.uuid, uuid) && Has(c.properties, prop))
    case None => None
    case Some(i) => Some(cs[i])
  }

  /** `findCharacteristic(fromUUID:service:)`: the first characteristic with that UUID. */
  function FindCharacteristic(service: Service, uuid: string): (r: Option<Characteristic>)
    ensures r.Some? ==> r.value in service.characteristics && SameUuid(r.value.uuid, uuid)
    ensures r.None? <==> forall c :: c in service.characteristics ==> !SameUuid(c.uuid, uuid)
    ensures r.Some? ==> exists i :: 0 <= i < |service.characteristics| && service.characteristics[i] == r.value &&
                          forall j :: 0 <= j < i ==> !SameUuid(service.characteristics[j].uuid, uuid)
  {
    var cs := service.characteristics;
    match FindFirst(cs, (c: Characteristic) => SameUuid(c.uuid, uuid))
    case None => None
    case Some(i) => Some(cs[i])
  }

  /** `findDescriptor(fromUUID:characteristic:)`: the first descriptor with that UUID. */
  function FindDescriptor(characteristic: Characteristic, uuid: string): (r: Option<Descriptor>)
    ensures r.Some? ==> r.value in characteristic.descriptors && SameUuid(r.value.uuid, uuid)
    ensures r.None? <==> forall d :: d in characteristic.descriptors ==> !SameUuid(d.uuid, uuid)
    ensures r.Some? ==> exists i :: 0 <= i < |characteristic.descriptors| && characteristic.descriptors[i] == r.value &&
                          forall j :: 0 <= j < i ==> !SameUuid(characteristic.descriptors[j].uuid, uuid)
  {
    var ds := characteristic.descriptors;
    match FindFirst(ds, (d: Descriptor) => SameUuid(d.uuid, uuid))
    case None => None
    case Some(i) => Some(ds[i])
  }

  /** Asking for no property at all finds the same characteristic as the plain lookup. */
  lemma EmptyPropertyIsPlainLookup(service: Service, uuid: string)
    ensures FindCharacteristicWith(service, uuid, 0) == FindCharacteristic(service, uuid)
  {
    var cs := service.characteristics;
    var a := FindFirst(cs, (c: Characteristic) => SameUuid(c.uuid, uuid) && Has(c.properties, 0));
    var b := FindFirst(cs, (c: Characteristic) => SameUuid(c.uuid, uuid));
    FindFirstSameVerdicts(cs, (c: Characteristic) => SameUuid(c.uuid, uuid) && Has(c.properties, 0),
                          (c: Characteristic) => SameUuid(c.uuid, uuid));
  }

  // ---------------------------------------------------------------------------
  // Advertisement data

  /** The values found in an advertisement dictionary. */
  datatype AdvValue =
    | Text(s: string)
    | Number(n: int)
    | Flag(b: bool)
    | Raw(bytes: Bytes)                        // Data
    | BleUuid(uuidString: string)              // CBUUID
    | List(items: seq<AdvValue>)               // NSArray
    | Pairs(entries: seq<(AdvValue, AdvValue)>) // NSDictionary, in enumeration order
    | Strings(strings: seq<string>)            // [String]
    | Object(fields: map<string, AdvValue>)    // [String: Any]
    | Buffer(data: Bytes)                      // `dataToArrayBuffer`, whose Base64 text is not modelled

  /** Keys of an advertisement dictionary: CoreBluetooth's own advertisement
      keys (`CBAdvertisementDataLocalNameKey` and the others), the names
      reformatting writes its results under, and any other text. */
  datatype AdvKey =
    | LocalNameKey | IsConnectableKey | TxPowerLevelKey | ServiceDataKey | ServiceUuidsKey
    | SolicitedServiceUuidsKey | OverflowServiceUuidsKey | ManufacturerDataKey
    | LocalName | IsConnectable | TxPowerLevel | ServiceData | ServiceUuids
    | SolicitedServiceUuids | OverflowServiceUuids | ManufacturerData | ManufacturerRawData
    | Other(text: string)
  {
    /** The dictionary key this stands for.  `Other` never spells one of the
        seventeen reserved keys (`Reserved`). */
    function Text(): string {
      match this
      case LocalNameKey => "kCBAdvDataLocalName"
      case IsConnectableKey => "kCBAdvDataIsConnectable"
      case TxPowerLevelKey => "kCBAdvDataTxPowerLevel"
      case ServiceDataKey => "kCBAdvDataServiceData"
      case ServiceUuidsKey => "kCBAdvDataServiceUUIDs"
      case SolicitedServiceUuidsKey => "kCBAdvDataSolicitedServiceUUIDs"
      case OverflowServiceUuidsKey => "kCBAdvDataOverflowServiceUUIDs"
      case ManufacturerDataKey => "kCBAdvDataManufacturerData"
      case LocalName => "localName"
      case IsConnectable => "isConnectable"
      case TxPowerLevel => "txPowerLevel"
      case ServiceData => "serviceData"
      case ServiceUuids => "serviceUUIDs"
      case SolicitedServiceUuids => "solicitedServiceUUIDs"
      case OverflowServiceUuids => "overflowServiceUUIDs"
      case ManufacturerData => "manufacturerData"
      case ManufacturerRawData => "manufacturerRawData"
      case Other(t) => t
    }
  }

  type AdvData = map<AdvKey, AdvValue>

  /** Moves the value under `from`, if any, to `to`. */
  function Rename(adv: AdvData, from: AdvKey, to: AdvKey): (r: AdvData)
    requires from != to
    ensures from in adv ==> from !in r && to in r && r[to] == adv[from]
    ensures from !in adv ==> r == adv
  {
    if from in adv then (adv - {from})[to := adv[from]] else adv
  }

  /** The CBUUIDs of a list as lower-cased strings, other elements dropped. */
  function UuidStrings(items: seq<AdvValue>): (r: seq<string>)
    ensures |r| <= |items|
    decreases |items|
  {
    if items == [] then []
    else (if items[0].BleUuid? then [Lower(items[0].uuidString)] else []) + UuidStrings(items[1..])
  }

  /** A list of UUIDs is replaced by its string form under the name `to`; a
      value of another shape is left under its original key. */
  function ConvertUuidList(adv: AdvData, from: AdvKey, to: AdvKey): (r: AdvData)
    requires from != to
    ensures from in adv && adv[from].List? ==>
              from !in r && to in r && r[to] == Strings(UuidStrings(adv[from].items))
    ensures !(from in adv && adv[from].List?) ==> r == adv
  {
    if from in adv && adv[from].List? then
      (adv - {from})[to := Strings(UuidStrings(adv[from].items))]
    else adv
  }

  /** Service data: every (CBUUID, Data) entry becomes (lower-cased UUID string,
      array buffer); entries of other shapes stay as they were. */
  function ConvertServiceDataEntry(e: (AdvValue, AdvValue)): (AdvValue, AdvValue) {
    if e.0.BleUuid? && e.1.Raw? then (Text(Lower(e.0.uuidString)), Buffer(e.1.bytes)) else e
  }

  function ConvertServiceData(entries: seq<(AdvValue, AdvValue)>): (r: seq<(AdvValue, AdvValue)>)
    ensures |r| == |entries|
    ensures forall i :: 0 <= i < |entries| ==> r[i] == ConvertServiceDataEntry(entries[i])
  {
    seq(|entries|, i requires 0 <= i < |entries| => ConvertServiceDataEntry(entries[i]))
  }

  /** The company identifier opening manufacturer data: little-endian, as in
      section 1.4 of Part A of the Bluetooth Core Specification Supplement. */
  function ManufacturerId(data: Bytes): (id: int)
    requires |data| >= 2
    ensures 0 <= id < 0x10000
    ensures id % 256 == data[0] as int && id / 256 == data[1] as int
  {
    data[0] as int + data[1] as int * 256
  }

  /** `String(format: "%04x", n)` for a 16-bit value. */
  function Hex4(n: int): (s: string)
    requires 0 <= n < 0x10000
    ensures |s| == 4
  {
    var m1 := n / 16;
    var m2 := m1 / 16;
    [Hex.LowerDigit(m2 / 16), Hex.LowerDigit(m2 % 16), Hex.LowerDigit(m1 % 16), Hex.LowerDigit(n % 16)]
  }

  /** Reads four hexadecimal digits back. */
  function ParseHex4(s: string): Option<int> {
    if |s| == 4 && forall i :: 0 <= i < 4 ==> Hex.IsHexChar(s[i]) then
      Some(((Hex.DigitValue(s[0]) * 16 + Hex.DigitValue(s[1])) * 16 + Hex.DigitValue(s[2])) * 16 + Hex.DigitValue(s[3]))
    else None
  }

  /** The printed company identifier reads back as the identifier. */
  lemma Hex4RoundTrip(n: int)
    requires 0 <= n < 0x10000
    ensures ParseHex4(Hex4(n)) == Some(n)
  {
    var m1 := n / 16;
    var m2 := m1 / 16;
    Hex.DigitRoundTrip(m2 / 16);
    Hex.DigitRoundTrip(m2 % 16);
    Hex.DigitRoundTrip(m1 % 16);
    Hex.DigitRoundTrip(n % 16);
    assert n == m1 * 16 + n % 16;
    assert m1 == m2 * 16 + m1 % 16;
    assert m2 == (m2 / 16) * 16 + m2 % 16;
  }

  /** Service data: a dictionary has its entries converted and moves to "serviceData". */
  function ConvertServiceDataKey(adv: AdvData): (r: AdvData)
    ensures ServiceDataKey in adv && adv[ServiceDataKey].Pairs? ==>
              ServiceDataKey !in r && ServiceData in r &&
              r[ServiceData] == Pairs(ConvertServiceData(adv[ServiceDataKey].entries))
    ensures !(ServiceDataKey in adv && adv[ServiceDataKey].Pairs?) ==> r == adv
  {
    if ServiceDataKey in adv && adv[ServiceDataKey].Pairs? then
      (adv - {ServiceDataKey})[ServiceData := Pairs(ConvertServiceData(adv[ServiceDataKey].entries))]
    else adv
  }

  /** Manufacturer data: with at least two bytes, an object mapping the printed
      company identifier to the bytes after it; always the full bytes as raw
      data; the original key goes away.  A value that is not `Data` is kept. */
  function ConvertManufacturerData(adv: AdvData): AdvData {
    if ManufacturerDataKey in adv && adv[ManufacturerDataKey].Raw? then
      var data := adv[ManufacturerDataKey].bytes;
      var withInfo :=
        if |data| > 1 then adv[ManufacturerData := Object(map[Hex4(ManufacturerId(data)) := Buffer(data[2..])])]
        else adv;
      (withInfo - {ManufacturerDataKey})[ManufacturerRawData := Buffer(data)]
    else adv
  }

  /** Stage `i` (1 to 7) of `reformatAdvertisementData`, before manufacturer data. */
  function Stage(i: nat, adv: AdvData): AdvData {
    if i == 1 then Rename(adv, LocalNameKey, LocalName)
    else if i == 2 then Rename(adv, IsConnectableKey, IsConnectable)
    else if i == 3 then Rename(adv, TxPowerLevelKey, TxPowerLevel)
    else if i == 4 then ConvertServiceDataKey(adv)
    else if i == 5 then ConvertUuidList(adv, ServiceUuidsKey, ServiceUuids)
    else if i == 6 then ConvertUuidList(adv, SolicitedServiceUuidsKey, SolicitedServiceUuids)
    else if i == 7 then ConvertUuidList(adv, OverflowServiceUuidsKey, OverflowServiceUuids)
    else adv
  }

  /** The number of stages before the manufacturer data. */
  const StageCount: nat := 7

  /** The first `n` stages, in order. */
  function Stages(n: nat, adv: AdvData): AdvData {
    if n == 0 then adv else Stage(n, Stages(n - 1, adv))
  }

  /** `reformatAdvertisementData`. */
  function Reformat(adv: AdvData): AdvData {
    ConvertManufacturerData(Stages(StageCount, adv))
  }

  /** The stage that reads from or writes to `k`; 0 for none. */
  function Owner(k: AdvKey): nat {
    match k
    case LocalNameKey | LocalName => 1
    case IsConnectableKey | IsConnectable => 2
    case TxPowerLevelKey | TxPowerLevel => 3
    case ServiceDataKey | ServiceData => 4
    case ServiceUuidsKey | ServiceUuids => 5
    case SolicitedServiceUuidsKey | SolicitedServiceUuids => 6
    case OverflowServiceUuidsKey | OverflowServiceUuids => 7
    case _ => 0
  }

  /** `x` and `y` hold the same value, or none, under `k`. */
  predicate Agree(x: AdvData, y: AdvData, k: AdvKey) {
    (k in x <==> k in y) && (k in x ==> x[k] == y[k])
  }

  lemma AgreeTrans(x: AdvData, y: AdvData, z: AdvData, k: AdvKey)
    requires Agree(x, y, k) && Agree(y, z, k)
    ensures Agree(x, z, k)
  {
  }

  lemma StageFrame(i: nat, adv: AdvData, k: AdvKey)
    requires Owner(k) != i
    ensures Agree(adv, Stage(i, adv), k)
  {
    if i == 1 {
      assert k != LocalNameKey && k != LocalName;
    } else if i == 2 {
      assert k != IsConnectableKey && k != IsConnectable;
    } else if i == 3 {
      assert k != TxPowerLevelKey && k != TxPowerLevel;
    } else if i == 4 {
      assert k != ServiceDataKey && k != ServiceData;
    } else if i == 5 {
      assert k != ServiceUuidsKey && k != ServiceUuids;
    } else if i == 6 {
      assert k != SolicitedServiceUuidsKey && k != SolicitedServiceUuids;
    } else if i == 7 {
      assert k != OverflowServiceUuidsKey && k != OverflowServiceUuids;
    }
  }

  /** A key that no stage from `first` to `last` owns keeps its value through them. */
  lemma {:induction false} StagesKeep(adv: AdvData, k: AdvKey, first: nat, last: nat)
    requires 1 <= first <= last + 1
    requires !(first <= Owner(k) <= last)
    ensures Agree(Stages(first - 1, adv), Stages(last, adv), k)
    decreases last
  {
    if last >= first {
      var before := Stages(last - 1, adv);
      StagesKeep(adv, k, first, last - 1);
      StageFrame(last, before, k);
      AgreeTrans(Stages(first - 1, adv), before, Stages(last, adv), k);
    }
  }

  /** A key that no stage after the first `done` owns, and that the
      manufacturer conversion does not touch, keeps its value to the end. */
  lemma KeptToTheEnd(adv: AdvData, k: AdvKey, done: nat)
    requires done <= StageCount && Owner(k) <= done
    requires k != ManufacturerDataKey && k != ManufacturerData && k != ManufacturerRawData
    ensures Agree(Stages(done, adv), Reformat(adv), k)
  {
    var last := Stages(StageCount, adv);
    StagesKeep(adv, k, done + 1, StageCount);
    ManufacturerFrame(last, k);
    AgreeTrans(Stages(done, adv), last, Reformat(adv), k);
  }

  /** The manufacturer conversion touches its three keys only. */
  lemma ManufacturerFrame(adv: AdvData, k: AdvKey)
    requires k != ManufacturerDataKey && k != ManufacturerData && k != ManufacturerRawData
    ensures Agree(adv, ConvertManufacturerData(adv), k)
  {
  }

  /** The spellings of the reserved keys, which `Other` never carries. */
  predicate Reserved(text: string) {
    text in {"kCBAdvDataLocalName", "kCBAdvDataIsConnectable", "kCBAdvDataTxPowerLevel",
             "kCBAdvDataServiceData", "kCBAdvDataServiceUUIDs", "kCBAdvDataSolicitedServiceUUIDs",
             "kCBAdvDataOverflowServiceUUIDs", "kCBAdvDataManufacturerData", "localName",
             "isConnectable", "txPowerLevel", "serviceData", "serviceUUIDs", "solicitedServiceUUIDs",
             "overflowServiceUUIDs", "manufacturerData", "manufacturerRawData"}
  }

  /** Keys reformatting does not know keep their value. */
  lemma ReformatKeepsUnknownKeys(adv: AdvData, text: string)
    requires !Reserved(text)
    ensures Other(text) in Reformat(adv) <==> Other(text) in adv
    ensures Other(text) in adv ==> Reformat(adv)[Other(text)] == adv[Other(text)]
  {
    StagesKeep(adv, Other(text), 1, StageCount);
  }

  /** The three stages that only move a value to a new key. */
  predicate RenameStage(i: nat, from: AdvKey, to: AdvKey) {
    || (i == 1 && from == LocalNameKey && to == LocalName)
    || (i == 2 && from == IsConnectableKey && to == IsConnectable)
    || (i == 3 && from == TxPowerLevelKey && to == TxPowerLevel)
  }

  /** After a rename stage the value sits under its new key only. */
  lemma RenamedAfterStage(adv: AdvData, i: nat, from: AdvKey, to: AdvKey)
    requires RenameStage(i, from, to) && from in adv
    ensures var s := Stages(i, adv);
            from !in s && to in s && s[to] == adv[from]
  {
    StagesKeep(adv, from, 1, i - 1);
    assert Stages(0, adv) == adv;
    assert Stages(i, adv) == Rename(Stages(i - 1, adv), from, to);
  }

  /** Each of the three plain renames carries its value over unchanged. */
  lemma ReformatRenamesLocalName(adv: AdvData)
    requires LocalNameKey in adv
    ensures LocalNameKey !in Reformat(adv) && LocalName in Reformat(adv)
    ensures Reformat(adv)[LocalName] == adv[LocalNameKey]
  {
    RenamedAfterStage(adv, 1, LocalNameKey, LocalName);
    KeptToTheEnd(adv, LocalNameKey, 1);
    KeptToTheEnd(adv, LocalName, 1);
  }

  lemma ReformatRenamesIsConnectable(adv: AdvData)
    requires IsConnectableKey in adv
    ensures IsConnectableKey !in Reformat(adv) && IsConnectable in Reformat(adv)
    ensures Reformat(adv)[IsConnectable] == adv[IsConnectableKey]
  {
    RenamedAfterStage(adv, 2, IsConnectableKey, IsConnectable);
    KeptToTheEnd(adv, IsConnectableKey, 2);
    KeptToTheEnd(adv, IsConnectable, 2);
  }

  lemma ReformatRenamesTxPowerLevel(adv: AdvData)
    requires TxPowerLevelKey in adv
    ensures TxPowerLevelKey !in Reformat(adv) && TxPowerLevel in Reformat(adv)
    ensures Reformat(adv)[TxPowerLevel] == adv[TxPowerLevelKey]
  {
    RenamedAfterStage(adv, 3, TxPowerLevelKey, TxPowerLevel);
    KeptToTheEnd(adv, TxPowerLevelKey, 3);
    KeptToTheEnd(adv, TxPowerLevel, 3);
  }

  /** After the fifth stage the service UUIDs sit, as strings, under their
      new name. */
  lemma ServiceUuidsAfterStage(adv: AdvData)
    requires ServiceUuidsKey in adv && adv[ServiceUuidsKey].List?
    ensures var s5 := Stages(5, adv);
            && ServiceUuidsKey !in s5 && ServiceUuids in s5
            && s5[ServiceUuids] == Strings(UuidStrings(adv[ServiceUuidsKey].items))
  {
    var s4 := Stages(4, adv);
    StagesKeep(adv, ServiceUuidsKey, 1, 4);
    assert Stages(0, adv) == adv;
    assert Stages(5, adv) == Stage(5, s4);
  }

  /** Service UUIDs become their lower-cased strings, other list elements dropped. */
  lemma ReformatServiceUuids(adv: AdvData)
    requires ServiceUuidsKey in adv && adv[ServiceUuidsKey].List?
    ensures ServiceUuidsKey !in Reformat(adv)
    ensures ServiceUuids in Reformat(adv)
    ensures Reformat(adv)[ServiceUuids] == Strings(UuidStrings(adv[ServiceUuidsKey].items))
  {
    ServiceUuidsAfterStage(adv);
    KeptToTheEnd(adv, ServiceUuidsKey, 5);
    KeptToTheEnd(adv, ServiceUuids, 5);
  }

  /** Manufacturer data is split into company identifier, payload and raw bytes. */
  lemma ReformatManufacturerData(adv: AdvData, data: Bytes)
    requires ManufacturerDataKey in adv && adv[ManufacturerDataKey] == Raw(data)
    ensures ManufacturerDataKey !in Reformat(adv)
    ensures ManufacturerRawData in Reformat(adv) && Reformat(adv)[ManufacturerRawData] == Buffer(data)
    ensures |data| >= 2 ==>
              && ManufacturerData in Reformat(adv)
              && Reformat(adv)[ManufacturerData] == Object(map[Hex4(ManufacturerId(data)) := Buffer(data[2..])])
  {
    StagesKeep(adv, ManufacturerDataKey, 1, StageCount);
    var x := Stages(StageCount, adv);
    assert Reformat(adv) == ConvertManufacturerData(x);
    ConvertManufacturerDataSplits(x, data);
  }

  /** The key manufacturer data is filed under reads back as the little-endian
      company identifier. */
  lemma ManufacturerKeyReadsBack(data: Bytes)
    requires |data| >= 2
    ensures var key := ParseHex4(Hex4(ManufacturerId(data)));
            key.Some? && key.value % 256 == data[0] as int && key.value / 256 == data[1] as int
  {
    Hex4RoundTrip(ManufacturerId(data));
  }

  lemma ConvertManufacturerDataSplits(adv: AdvData, data: Bytes)
    requires ManufacturerDataKey in adv && adv[ManufacturerDataKey] == Raw(data)
    ensures ManufacturerDataKey !in ConvertManufacturerData(adv)
    ensures ManufacturerRawData in ConvertManufacturerData(adv)
    ensures ConvertManufacturerData(adv)[ManufacturerRawData] == Buffer(data)
    ensures |data| >= 2 ==>
              (ManufacturerData in ConvertManufacturerData(adv) &&
               ConvertManufacturerData(adv)[ManufacturerData] == Object(map[Hex4(ManufacturerId(data)) := Buffer(data[2..])]))
  {
  }

  // ---------------------------------------------------------------------------
  // Byte formatting

  /** One byte as "0x" and two lower-case digits. */
  function ByteText(b: byte): (s: string)
    ensures |s| == 4
  {
    "0x" + [Hex.LowerDigit(b as int / 16), Hex.LowerDigit(b as int % 16)]
  }

  /** `hexadecimalString`: "0x" and two lower-case digits per byte, separated by
      single spaces; empty for empty data. */
  function HexadecimalString(data: Bytes): (s: string)
    ensures data == [] <==> s == []
    ensures data != [] ==> |s| == 5 * |data| - 1
    decreases |data|
  {
    if data == [] then ""
    else if |data| == 1 then ByteText(data[0])
    else ByteText(data[0]) + " " + HexadecimalString(data[1..])
  }

  /** Reads a `hexadecimalString` rendering back into bytes. */
  function ParseHexadecimalString(s: string): Option<Bytes>
    decreases |s|
  {
    if s == [] then Some([])
    else if |s| < 4 || s[0] != '0' || s[1] != 'x' || !Hex.IsHexChar(s[2]) || !Hex.IsHexChar(s[3]) then None
    else
      var b := (Hex.DigitValue(s[2]) * 16 + Hex.DigitValue(s[3])) as byte;
      if |s| == 4 then Some([b])
      else if s[4] != ' ' || |s| == 5 then None
      else match ParseHexadecimalString(s[5..])
        case None => None
        case Some(rest) => Some([b] + rest)
  }

  /** The text of one byte reads back as the byte. */
  lemma ByteTextReads(b: byte)
    ensures var t := ByteText(b);
            && t[0] == '0' && t[1] == 'x' && Hex.IsHexChar(t[2]) && Hex.IsHexChar(t[3])
            && (Hex.DigitValue(t[2]) * 16 + Hex.DigitValue(t[3])) as byte == b
  {
    Hex.DigitRoundTrip(b as int / 16);
    Hex.DigitRoundTrip(b as int % 16);
  }

  /** A byte's text followed by a space and more text reads as the byte
      followed by whatever the rest reads as. */
  lemma ParseFirstByte(b: byte, rest: string)
    requires rest != []
    ensures ParseHexadecimalString(ByteText(b) + " " + rest)
            == match ParseHexadecimalString(rest)
               case None => None
               case Some(r) => Some([b] + r)
  {
    ByteTextReads(b);
    var s := ByteText(b) + " " + rest;
    assert s[..4] == ByteText(b) && s[4] == ' ' && s[5..] == rest;
  }

  /** The rendering loses nothing: it reads back as the bytes, in order. */
  lemma {:induction false} HexadecimalStringRoundTrip(data: Bytes)
    ensures ParseHexadecimalString(HexadecimalString(data)) == Some(data)
    decreases |data|
  {
    if |data| == 1 {
      ByteTextReads(data[0]);
      assert data == [data[0]];
    } else if data != [] {
      HexadecimalStringRoundTrip(data[1..]);
      ParseFirstByte(data[0], HexadecimalString(data[1..]));
      assert data == [data[0]] + data[1..];
    }
  }

  // ---------------------------------------------------------------------------
  // The peripheral record

  /** The platform's connection state of a peripheral (`CBPeripheralState`). */
  datatype LinkState = Disconnected | Connecting | Connected | Disconnecting

  /** A known peripheral: the platform object's identity, name, state and
      attribute table, with the RSSI and advertisement data last seen. */
  datatype Peripheral = Peripheral(
    identifier: string, name: Option<string>, state: LinkState,
    services: seq<Service>, rssi: Option<int>, advertisement: Option<AdvData>)
  {
    function Id(): string { PeripheralId(identifier) }
  }

  /** Peripheral equality: the same lower-cased identifier. */
  predicate SamePeripheral(a: Peripheral, b: Peripheral) {
    a.Id() == b.Id()
  }

  /** Equality ignores everything but the identifier, and ignores its case. */
  lemma SamePeripheralIgnoresCaseAndData(a: Peripheral, b: Peripheral)
    requires Lower(a.identifier) == Lower(b.identifier)
    ensures SamePeripheral(a, b)
    ensures forall c: Peripheral :: SamePeripheral(a, c) <==> SamePeripheral(b, c)
  {
  }

  datatype AdvertisingInfo = AdvertisingInfo(
    name: Option<string>, id: string, rssi: Option<int>, advertising: Option<AdvData>)

  function Info(p: Peripheral): (r: AdvertisingInfo)
    ensures r.id == p.Id() && r.name == p.name && r.rssi == p.rssi
    ensures r.advertising.Some? <==> p.advertisement.Some?
    ensures p.advertisement.Some? ==> r.advertising.value == Reformat(p.advertisement.value)
  {
    AdvertisingInfo(p.name, p.Id(), p.rssi,
      match p.advertisement case None => None case Some(adv) => Some(Reformat(adv)))
  }
}

=== FILE: ios_properties.dfy ===
/** Properties of the iOS manager that span several steps: the acknowledged
    chunked write from the command to its answer, what a disconnect forgets
    and what it spares, the power-off cleanup, the connect timer that checks
    nothing, and callbacks on one key answered together. */
module IosProperties {
  import opened Common
  import opened CallbackTable
  import opened Chunking
  import opened IosHelper
  import opened IosState
  import opened IosCommands
  import opened IosEvents

  // ---------------------------------------------------------------------------
  // Acknowledged chunked writes

  /** `n` successful acknowledgements of writes on one characteristic, in a row. */
  function Acks(m: Manager, id: string, characteristic: string, n: nat): (r: Step)
    decreases n
  {
    if n == 0 then Step(m, [])
    else
      var first := DidWriteValue(m, id, characteristic, None);
      var rest := Acks(first.next, id, characteristic, n - 1);
      Step(rest.next, first.effects + rest.effects)
  }

  /** The radio requests writing `chunks`, in order, with response. */
  function Sends(id: string, characteristic: string, chunks: seq<Bytes>): (r: seq<Effect>)
    ensures |r| == |chunks|
    ensures forall i :: 0 <= i < |chunks| ==> r[i] == Radio(WriteWithResponse(id, characteristic, chunks[i]))
    decreases |chunks|
  {
    if chunks == [] then [] else [Radio(WriteWithResponse(id, characteristic, chunks[0]))] + Sends(id, characteristic, chunks[1..])
  }

  /** While write callbacks wait, each acknowledgement sends exactly the next
      queued chunk and keeps the callbacks waiting, until the queue is empty
      (ios/SwiftBleManager.swift:158-171, 1808-1849). */
  lemma {:induction false} AcksSendQueuedChunks(m: Manager, id: string, characteristic: string)
    requires Key(id, characteristic) in m.write
    ensures var key := Key(id, characteristic);
            var r := Acks(m, id, characteristic, |Queue(m.writeQueues, key)|);
            && r.effects == Sends(id, characteristic, Queue(m.writeQueues, key))
            && r.next.write == m.write
            && Queue(r.next.writeQueues, key) == []
    decreases |Queue(m.writeQueues, Key(id, characteristic))|
  {
    var key := Key(id, characteristic);
    var q := Queue(m.writeQueues, key);
    if q != [] {
      var first := DidWriteValue(m, id, characteristic, None);
      WriteAckSendsNext(m, id, characteristic);
      assert Queue(first.next.writeQueues, key) == q[1..];
      AcksSendQueuedChunks(first.next, id, characteristic);
      var rest := Acks(first.next, id, characteristic, |q| - 1);
      assert Acks(m, id, characteristic, |q|).effects == first.effects + rest.effects;
      assert Sends(id, characteristic, q) == [Radio(WriteWithResponse(id, characteristic, q[0]))] + Sends(id, characteristic, q[1..]);
    }
  }

  /** One acknowledgement more than there are queued chunks: the chunks go
      out in order and only then are the waiting callbacks answered, once,
      with success; the key's queue is forgotten. */
  lemma {:induction false} ChunkedWriteCompletes(m: Manager, id: string, characteristic: string)
    requires Key(id, characteristic) in m.write
    ensures var key := Key(id, characteristic);
            var r := Acks(m, id, characteristic, |Queue(m.writeQueues, key)| + 1);
            && r.effects == Sends(id, characteristic, Queue(m.writeQueues, key)) + [Resolve(map[key := m.write[key]], Done)]
            && key !in r.next.write && key !in r.next.writeQueues
  {
    var key := Key(id, characteristic);
    var n := |Queue(m.writeQueues, key)|;
    AcksSendQueuedChunks(m, id, characteristic);
    var drained := Acks(m, id, characteristic, n);
    WriteAckCompletes(drained.next, id, characteristic);
    AcksSplit(m, id, characteristic, n);
  }

  /** `n + 1` acknowledgements are `n` of them followed by one more. */
  lemma {:induction false} AcksSplit(m: Manager, id: string, characteristic: string, n: nat)
    ensures var before := Acks(m, id, characteristic, n);
            var last := DidWriteValue(before.next, id, characteristic, None);
            Acks(m, id, characteristic, n + 1) == Step(last.next, before.effects + last.effects)
    decreases n
  {
    if n == 0 {
      assert Acks(m, id, characteristic, 0) == Step(m, []);
    } else {
      var first := DidWriteValue(m, id, characteristic, None);
      var middle := Acks(first.next, id, characteristic, n - 1);
      var rest := Acks(first.next, id, characteristic, n);
      AcksSplit(first.next, id, characteristic, n - 1);
      var last := DidWriteValue(middle.next, id, characteristic, None);
      assert rest == Step(last.next, middle.effects + last.effects);
      assert Acks(m, id, characteristic, n) == Step(middle.next, first.effects + middle.effects);
      assert Acks(m, id, characteristic, n + 1) == Step(rest.next, first.effects + rest.effects);
      assert first.effects + (middle.effects + last.effects) == (first.effects + middle.effects) + last.effects;
    }
  }

  /** The whole acknowledged write of a long value on a characteristic with
      nothing queued: the command sends the first chunk, each acknowledgement
      the next, and the acknowledgement after the last chunk answers every
      callback waiting on the key, the new one last, with success.  The chunks
      sent are exactly the value cut into `maxByteSize` pieces
      (ios/SwiftBleManager.swift:812-858, 1808-1849). */
  lemma WriteThenAcknowledge(m: Manager, peripheralUuid: string, serviceUuid: string, characteristicUuid: string,
                             message: Bytes, maxByteSize: int, cb: Cb)
    requires maxByteSize > 0 && |message| > maxByteSize
    requires GetContext(m, peripheralUuid, serviceUuid, characteristicUuid, IosHelper.Write).Found?
    requires var c := GetContext(m, peripheralUuid, serviceUuid, characteristicUuid, IosHelper.Write).context;
             Queue(m.writeQueues, ContextKey(c)) == []
    ensures var c := GetContext(m, peripheralUuid, serviceUuid, characteristicUuid, IosHelper.Write).context;
            var id := c.peripheral.Id();
            var key := ContextKey(c);
            var w := WriteCommand(m, peripheralUuid, serviceUuid, characteristicUuid, message, maxByteSize, cb);
            var acks := Acks(w.next, id, c.characteristic.uuid, |Chunks(message, maxByteSize)|);
            && w.effects + acks.effects
                 == Sends(id, c.characteristic.uuid, Chunks(message, maxByteSize))
                    + [Resolve(map[key := Waiting(m.write, key) + [cb]], Done)]
            && key !in acks.next.write && key !in acks.next.writeQueues
  {
    var c := GetContext(m, peripheralUuid, serviceUuid, characteristicUuid, IosHelper.Write).context;
    var key := ContextKey(c);
    var chunks := Chunks(message, maxByteSize);
    var w := WriteCommand(m, peripheralUuid, serviceUuid, characteristicUuid, message, maxByteSize, cb);
    var first := w.effects[0].request.data;
    assert [first] + Queue(w.next.writeQueues, key) == chunks;
    assert chunks[0] == first && Queue(w.next.writeQueues, key) == chunks[1..];
    assert key in w.next.write by {
      assert Waiting(w.next.write, key) != [];
    }
    AckedWriteFrom(w, c.peripheral.Id(), c.characteristic.uuid, chunks, Waiting(m.write, key) + [cb]);
  }

  /** A step that sent the first chunk and queued the rest, followed by one
      acknowledgement per chunk. */
  lemma AckedWriteFrom(w: Step, id: string, characteristic: string, chunks: seq<Bytes>, waiting: seq<Cb>)
    requires chunks != []
    requires Key(id, characteristic) in w.next.write && w.next.write[Key(id, characteristic)] == waiting
    requires w.effects == [Radio(WriteWithResponse(id, characteristic, chunks[0]))]
    requires Queue(w.next.writeQueues, Key(id, characteristic)) == chunks[1..]
    ensures var key := Key(id, characteristic);
            var acks := Acks(w.next, id, characteristic, |chunks|);
            && w.effects + acks.effects == Sends(id, characteristic, chunks) + [Resolve(map[key := waiting], Done)]
            && key !in acks.next.write && key !in acks.next.writeQueues
  {
    ChunkedWriteCompletes(w.next, id, characteristic);
    assert Sends(id, characteristic, chunks)
           == [Radio(WriteWithResponse(id, characteristic, chunks[0]))] + Sends(id, characteristic, chunks[1..]);
  }

  // ---------------------------------------------------------------------------
  // Requests answered by their delegate callback

  /** A reachable peripheral's `readRSSI` waits for `didReadRSSI`, which
      answers it, with every earlier request on the id, by the reading
      (ios/SwiftBleManager.swift:546-564, 1515-1537). */
  lemma ReadRssiThenReading(m: Manager, peripheralUuid: string, cb: Cb, rssi: int, error: Option<string>)
    requires Reachable(m, peripheralUuid)
    ensures var id := m.peripherals[peripheralUuid].Id();
            var s := ReadRssiCommand(m, peripheralUuid, cb);
            var d := DidReadRssi(s.next, id, rssi, error);
            && s.effects == [Radio(ReadRssi(id))]
            && d.effects == [Resolve(map[id := Waiting(m.readRssi, id) + [cb]], RssiRead(error, rssi))]
            && d.next.(readRssi := m.readRssi) == m
            && Waiting(d.next.readRssi, id) == []
            && forall k :: k != id ==> Waiting(d.next.readRssi, k) == Waiting(m.readRssi, k)
  {
    var id := m.peripherals[peripheralUuid].Id();
    var s := ReadRssiCommand(m, peripheralUuid, cb);
    assert Waiting(s.next.readRssi, id) != [];
  }

  /** `retrieveServices` on a peripheral whose one service has one
      characteristic: the callback waits through the service and the
      characteristic discovery and is answered with the peripheral's services
      when that characteristic's descriptors are found
      (ios/SwiftBleManager.swift:513-544, 1394-1513). */
  lemma RetrieveServicesAnsweredAfterDiscovery(m: Manager, peripheralUuid: string, uuids: seq<string>, cb: Cb,
                                               service: Service, characteristic: Characteristic)
    requires Valid(m) && Reachable(m, peripheralUuid)
    requires service.characteristics == [characteristic]
    ensures var s := RetrieveServices(m, peripheralUuid, uuids, cb);
            var d1 := DidDiscoverServices(s.next, peripheralUuid, None, [service]);
            var d2 := DidDiscoverCharacteristics(d1.next, peripheralUuid, service, None);
            var d3 := DidDiscoverDescriptors(d2.next, peripheralUuid, service.uuid, service.handle, characteristic.handle, None);
            && s.effects == [Radio(DiscoverServices(peripheralUuid, uuids))]
            && !(exists e :: e in s.effects + d1.effects + d2.effects && e.Resolve?)
            && d3.effects == [Resolve(map[peripheralUuid := Waiting(m.retrieveServices, peripheralUuid) + [cb]],
                                      ServicesOf(m.peripherals[peripheralUuid]))]
            && Waiting(d3.next.retrieveServices, peripheralUuid) == []
  {
    var id := peripheralUuid;
    assert m.peripherals[id].Id() == id;
    var s := RetrieveServices(m, id, uuids, cb);
    var d1 := DidDiscoverServices(s.next, id, None, [service]);
    assert ExploreEach(id, [service]) == [Radio(DiscoverIncludedServices(id, service.handle)),
                                          Radio(DiscoverCharacteristics(id, service.handle))];
    var d2 := DidDiscoverCharacteristics(d1.next, id, service, None);
    assert DescribeEach(id, [characteristic]) == [Radio(DiscoverDescriptors(id, characteristic.handle))];
    assert Handles([service]) == {service.handle};
    assert CharacteristicHandles([characteristic]) == {characteristic.handle};
    assert Waiting(d2.next.retrieveServices, id) != [];
  }

  /** `readDescriptor` waits for `didUpdateValueFor descriptor`, which
      answers it with the value or the error (ios/SwiftBleManager.swift:566-616,
      1539-1622). */
  lemma ReadDescriptorThenValue(m: Manager, peripheralUuid: string, serviceUuid: string, characteristicUuid: string,
                                descriptorUuid: string, cb: Cb, error: Option<string>, value: Option<Bytes>)
    requires GetContext(m, peripheralUuid, serviceUuid, characteristicUuid, IosHelper.Read).Found?
    requires FindDescriptor(GetContext(m, peripheralUuid, serviceUuid, characteristicUuid, IosHelper.Read).context.characteristic,
                            descriptorUuid).Some?
    requires error.Some? || value.Some?
    ensures var c := GetContext(m, peripheralUuid, serviceUuid, characteristicUuid, IosHelper.Read).context;
            var d := FindDescriptor(c.characteristic, descriptorUuid).value;
            var key := DescriptorKey(c.peripheral.Id(), c.characteristic.uuid, d.uuid);
            var s := ReadDescriptor(m, peripheralUuid, serviceUuid, characteristicUuid, descriptorUuid, cb);
            var u := DidUpdateDescriptorValue(s.next, c.peripheral.Id(), c.characteristic.uuid, d.uuid, error, value);
            && s.effects == [Radio(ReadDescriptorValue(c.peripheral.Id(), c.characteristic.uuid, d.uuid))]
            && u.effects == [Resolve(map[key := Waiting(m.readDescriptor, key) + [cb]],
                                     if error.Some? then Failed(error.value) else Value(value.value))]
            && key !in u.next.readDescriptor
  {
    var c := GetContext(m, peripheralUuid, serviceUuid, characteristicUuid, IosHelper.Read).context;
    var d := FindDescriptor(c.characteristic, descriptorUuid).value;
    var key := DescriptorKey(c.peripheral.Id(), c.characteristic.uuid, d.uuid);
    var s := ReadDescriptor(m, peripheralUuid, serviceUuid, characteristicUuid, descriptorUuid, cb);
    assert Waiting(s.next.readDescriptor, key) != [];
  }

  /** `writeDescriptor` waits for `didWriteValueFor descriptor`, which
      answers it with success or the error (ios/SwiftBleManager.swift:618-674,
      1777-1806). */
  lemma WriteDescriptorThenAcknowledge(m: Manager, peripheralUuid: string, serviceUuid: string,
                                       characteristicUuid: string, descriptorUuid: string, message: Bytes,
                                       cb: Cb, error: Option<string>)
    requires GetContext(m, peripheralUuid, serviceUuid, characteristicUuid, IosHelper.Read).Found?
    requires FindDescriptor(GetContext(m, peripheralUuid, serviceUuid, characteristicUuid, IosHelper.Read).context.characteristic,
                            descriptorUuid).Some?
    ensures var c := GetContext(m, peripheralUuid, serviceUuid, characteristicUuid, IosHelper.Read).context;
            var d := FindDescriptor(c.characteristic, descriptorUuid).value;
            var key := DescriptorKey(c.peripheral.Id(), c.characteristic.uuid, d.uuid);
            var s := WriteDescriptor(m, peripheralUuid, serviceUuid, characteristicUuid, descriptorUuid, message, cb);
            var a := DidWriteDescriptor(s.next, c.peripheral.Id(), c.characteristic.uuid, d.uuid, error);
            && s.effects == [Radio(WriteDescriptorValue(c.peripheral.Id(), c.characteristic.uuid, d.uuid, message))]
            && a.effects == [Resolve(map[key := Waiting(m.writeDescriptor, key) + [cb]],
                                     if error.Some? then Failed(error.value) else Done)]
            && a.next.(writeDescriptor := m.writeDescriptor) == m
            && key !in a.next.writeDescriptor
            && forall k :: k != key ==> Waiting(a.next.writeDescriptor, k) == Waiting(m.writeDescriptor, k)
  {
    var c := GetContext(m, peripheralUuid, serviceUuid, characteristicUuid, IosHelper.Read).context;
    var d := FindDescriptor(c.characteristic, descriptorUuid).value;
    var key := DescriptorKey(c.peripheral.Id(), c.characteristic.uuid, d.uuid);
    var s := WriteDescriptor(m, peripheralUuid, serviceUuid, characteristicUuid, descriptorUuid, message, cb);
    assert Waiting(s.next.writeDescriptor, key) != [];
  }

  // ---------------------------------------------------------------------------
  // Disconnection

  /** A disconnect of `id` answers and forgets the connect, RSSI and
      services callbacks kept under the id (ios/SwiftBleManager.swift:1209-1223). */
  lemma DisconnectForgetsKeyed(m: Manager, id: string, error: Option<string>)
    ensures var r := DidDisconnect(m, id, error);
            && (forall k :: Waiting(r.next.connect, k) == if k == id then [] else Waiting(m.connect, k))
            && (forall k :: Waiting(r.next.readRssi, k) == if k == id then [] else Waiting(m.readRssi, k))
            && (forall k :: Waiting(r.next.retrieveServices, k) == if k == id then [] else Waiting(m.retrieveServices, k))
  {
  }

  /** A disconnect of `id` forgets every read, write, notification,
      descriptor-read and stop-notification callback whose key starts with
      the id, and keeps every other (ios/SwiftBleManager.swift:1225-1283). */
  lemma DisconnectForgetsPrefixed(m: Manager, id: string, error: Option<string>)
    ensures var r := DidDisconnect(m, id, error);
            forall w, k :: w in PrefixKeyed ==>
              Waiting(Calls(r.next, w), k) == if IsPrefix(id, k) then [] else Waiting(Calls(m, w), k)
  {
  }

  /** The disconnect answers with its failure the callbacks it forgets
      under the id. */
  lemma DisconnectAnswersKeyed(m: Manager, id: string, error: Option<string>)
    ensures var r := DidDisconnect(m, id, error);
            var failed := Failed(DisconnectMessage(id));
            && (id in m.connect ==> Resolve(map[id := m.connect[id]], failed) in r.effects)
            && (id in m.readRssi ==> Resolve(map[id := m.readRssi[id]], failed) in r.effects)
            && (id in m.retrieveServices ==> Resolve(map[id := m.retrieveServices[id]], failed) in r.effects)
  {
    var failed := Failed(DisconnectMessage(id));
    var a := ForgetKeyed(m, id, failed);
    var r := DidDisconnect(m, id, error);
    assert forall e :: e in a.effects ==> e in r.effects;
  }

  /** The disconnect answers with its failure the callbacks it forgets by
      prefix: one answer per non-empty table, covering exactly that table's
      entries for the peripheral. */
  lemma DisconnectAnswersPrefixed(m: Manager, id: string, error: Option<string>)
    ensures var r := DidDisconnect(m, id, error);
            forall w :: w in PrefixKeyed && Flushed(Calls(m, w), id) != map[] ==>
              Resolve(Flushed(Calls(m, w), id), Failed(DisconnectMessage(id))) in r.effects
  {
    var failed := Failed(DisconnectMessage(id));
    var a := ForgetKeyed(m, id, failed);
    var b := ForgetPrefixed(DropLink(a.next, id), id, failed, PrefixKeyed);
    assert forall e :: e in b.effects ==> e in DidDisconnect(m, id, error).effects;
  }

  /** A request key that does not start with the id is untouched by the
      disconnect, in each of the tables flushed by prefix. */
  lemma DisconnectKeepsUnprefixed(m: Manager, id: string, error: Option<string>, w: Flushable, key: string)
    requires !IsPrefix(id, key)
    ensures Waiting(Calls(DidDisconnect(m, id, error).next, w), key) == Waiting(Calls(m, w), key)
  {
    var failed := Failed(DisconnectMessage(id));
    var a := ForgetKeyed(m, id, failed);
    var b := ForgetPrefixed(DropLink(a.next, id), id, failed, PrefixKeyed);
    assert w in PrefixKeyed;
  }

  /** Ids are UUID strings of one length, so a disconnect leaves every
      characteristic request of another peripheral waiting. */
  lemma DisconnectSparesOtherRequests(m: Manager, id: string, other: string, characteristic: string, error: Option<string>)
    requires |other| == |id| && other != id
    ensures var r := DidDisconnect(m, id, error);
            forall w :: Waiting(Calls(r.next, w), Key(other, characteristic)) == Waiting(Calls(m, w), Key(other, characteristic))
  {
    KeysStartWithTheirPeripheral(id, other, characteristic, "");
    forall w
      ensures Waiting(Calls(DidDisconnect(m, id, error).next, w), Key(other, characteristic))
              == Waiting(Calls(m, w), Key(other, characteristic))
    {
      DisconnectKeepsUnprefixed(m, id, error, w, Key(other, characteristic));
    }
  }

  /** ... and its notification buffers. */
  lemma DisconnectSparesOtherBuffers(m: Manager, id: string, other: string, characteristic: string, error: Option<string>)
    requires |other| == |id| && other != id
    ensures var r := DidDisconnect(m, id, error);
            var key := Key(other, characteristic);
            key in m.buffered ==> key in r.next.buffered && r.next.buffered[key] == m.buffered[key]
  {
    KeysStartWithTheirPeripheral(id, other, characteristic, "");
  }

  // ---------------------------------------------------------------------------
  // Connecting

  /** There is no connect latch: a failure reported between `didConnect` and
      its timer does not stop the timer from reporting success and recording
      the peripheral as connected (ios/SwiftBleManager.swift:1149-1193). */
  lemma TimerReportsSuccessAfterFailure(m: Manager, id: string, cb: Cb, error: Option<string>)
    requires Valid(m) && id in m.peripherals
    ensures var c := Connect(m, id, cb, true, None);
            var d := DidConnect(c.next, id);
            var f := DidFailToConnect(d.next, id, error);
            var t := ConnectTimerFired(f.next, id);
            && f.effects == [Resolve(map[id := Waiting(m.connect, id) + [cb]],
                                     Failed("Peripheral connection failure: " + id + " (" + error.GetOr("")))]
            && id in t.next.connected
            && t.effects == [Emit(ConnectEvent(id))]
  {
    var c := Connect(m, id, cb, true, None);
    assert m.peripherals[id].Id() == id;
    assert Waiting(c.next.connect, id) == Waiting(m.connect, id) + [cb];
    assert id in c.next.connect;
    var d := DidConnect(c.next, id);
    assert id in d.next.connectTimers;
  }

  /** Callbacks registered on one key are answered together: two reads of
      the same characteristic before the value arrives both receive it, in
      the order they were made (ios/SwiftBleManager.swift:108-134, 1634-1655). */
  lemma ReadsOnOneKeyAnsweredTogether(m: Manager, peripheralUuid: string, serviceUuid: string,
                                      characteristicUuid: string, cb1: Cb, cb2: Cb, value: Bytes)
    requires Valid(m)
    requires GetContext(m, peripheralUuid, serviceUuid, characteristicUuid, IosHelper.Read).Found?
    requires ContextKey(GetContext(m, peripheralUuid, serviceUuid, characteristicUuid, IosHelper.Read).context) !in m.read
    ensures var c := GetContext(m, peripheralUuid, serviceUuid, characteristicUuid, IosHelper.Read).context;
            var first := ReadCommand(m, peripheralUuid, serviceUuid, characteristicUuid, cb1);
            var second := ReadCommand(first.next, peripheralUuid, serviceUuid, characteristicUuid, cb2);
            var update := DidUpdateValue(second.next, c.peripheral.Id(), c.characteristic.uuid, c.service.uuid, None, value);
            && update.effects == [Resolve(map[ContextKey(c) := [cb1, cb2]], Value(value))]
            && ContextKey(c) !in update.next.read
  {
    var c := GetContext(m, peripheralUuid, serviceUuid, characteristicUuid, IosHelper.Read).context;
    var first := ReadCommand(m, peripheralUuid, serviceUuid, characteristicUuid, cb1);
    assert first.next.peripherals == m.peripherals;
    assert GetContext(first.next, peripheralUuid, serviceUuid, characteristicUuid, IosHelper.Read)
           == GetContext(m, peripheralUuid, serviceUuid, characteristicUuid, IosHelper.Read);
    var second := ReadCommand(first.next, peripheralUuid, serviceUuid, characteristicUuid, cb2);
    assert Waiting(second.next.read, ContextKey(c)) == [cb1, cb2];
    assert second.next.(read := m.read) == m;
    assert Valid(second.next);
  }

  // ---------------------------------------------------------------------------
  // Registry

  /** Discovery keeps the registry keyed by each peripheral's own id, so there
      is at most one entry per peripheral (ios/SwiftBleManager.swift:1328-1354). */
  lemma DiscoveryKeepsOneEntryPerId(m: Manager, p: Peripheral, adv: AdvData, rssi: int)
    requires Valid(m)
    ensures Valid(DidDiscover(m, p, adv, rssi).next)
    ensures var r := DidDiscover(m, p, adv, rssi);
            PassesFilter(m.nameFilter, p, adv) ==> r.next.peripherals[p.Id()].Id() == p.Id()
  {
    if PassesFilter(m.nameFilter, p, adv) {
      var r := HandleDiscovered(m, p, adv, rssi);
      if p.Id() in m.peripherals {
        assert m.peripherals[p.Id()].Id() == p.Id();
      }
      assert r.next.peripherals[p.Id()].Id() == p.Id();
    }
  }

  /** A sighting of a known peripheral updates the registered object in
      place: it keeps its name, link state and services and takes the new
      RSSI and advertisement (ios/SwiftBleManager.swift:1328-1342). */
  lemma SightingUpdatesKnown(m: Manager, p: Peripheral, adv: AdvData, rssi: int)
    requires p.Id() in m.peripherals
    ensures var known := m.peripherals[p.Id()];
            var q := HandleDiscovered(m, p, adv, rssi).next.peripherals[p.Id()];
            && q.identifier == known.identifier && q.name == known.name && q.state == known.state
            && q.services == known.services
            && q.rssi == Some(rssi) && q.advertisement == Some(adv)
  {
  }

  /** A sighting of an unknown peripheral registers it with the new RSSI and
      advertisement, and leaves every other entry as it was
      (ios/SwiftBleManager.swift:1343-1354). */
  lemma SightingRegistersUnknown(m: Manager, p: Peripheral, adv: AdvData, rssi: int)
    requires p.Id() !in m.peripherals
    ensures var r := HandleDiscovered(m, p, adv, rssi).next.peripherals;
            && r.Keys == m.peripherals.Keys + {p.Id()}
            && r[p.Id()] == p.(rssi := Some(rssi), advertisement := Some(adv))
            && forall k :: k in m.peripherals ==> r[k] == m.peripherals[k]
  {
  }

  /** Either way, JavaScript hears of the object as now registered. */
  lemma SightingAnnounced(m: Manager, p: Peripheral, adv: AdvData, rssi: int)
    ensures var r := HandleDiscovered(m, p, adv, rssi);
            && p.Id() in r.next.peripherals
            && r.effects == [Emit(DiscoverEvent(r.next.peripherals[p.Id()]))]
            && forall k :: k != p.Id() && k in m.peripherals ==> k in r.next.peripherals && r.next.peripherals[k] == m.peripherals[k]
  {
  }
}

=== FILE: ios_state.dfy ===
/** The state of the iOS manager (ios/SwiftBleManager.swift:15-35) and the
    effects its steps produce.  Every command from JavaScript and every
    delegate callback of CoreBluetooth is a pure step from one `Manager` value
    to the next, together with the list of effects it caused, in order:
    callbacks answered, events emitted to JavaScript and requests sent to the
    radio. */
module IosState {
  import opened Common
  import opened CallbackTable
  import opened IosHelper
  import IosNotifyBuffer

  /** How a waiting JavaScript callback is answered. */
  datatype Outcome =
    | Done                                   // `callback([])` or `callback([NSNull()])`
    | Value(bytes: Bytes)                    // `callback([NSNull(), bytes])`
    | RssiRead(error: Option<string>, rssi: int)
    | ServicesOf(peripheral: Peripheral)     // `callback([NSNull(), servicesInfo()])`
    | Failed(message: string)                // `callback([message])`

  /** What JavaScript hears through the event emitter. */
  datatype JsEvent =
    | StopScanEvent(status: int)
    | ConnectEvent(peripheral: string)
    | DisconnectEvent(peripheral: string, error: Option<string>)
    | UpdateStateEvent(state: string)
    | DiscoverEvent(discovered: Peripheral)          // sent as its `advertisingInfo()`
    | UpdateValueEvent(peripheral: string, characteristic: string, service: string, value: Bytes)
    | NotificationStateEvent(peripheral: string, characteristic: string, isNotifying: bool, error: Option<string>)
    | RestoreStateEvent(restored: seq<Peripheral>)   // each sent as its `advertisingInfo()`

  /** What the manager asks of CoreBluetooth. */
  datatype Request =
    | ScanForPeripherals(services: seq<string>, allowDuplicates: bool)
    | StopScanning
    | ArmScanTimer(seconds: real)
    | ArmConnectTimer(peripheral: string)
    | ConnectLink(peripheral: string)
    | CancelLink(peripheral: string)
    | DiscoverServices(peripheral: string, services: seq<string>)
    | DiscoverIncludedServices(peripheral: string, serviceHandle: nat)
    | DiscoverCharacteristics(peripheral: string, serviceHandle: nat)
    | DiscoverDescriptors(peripheral: string, characteristicHandle: nat)
    | ReadRssi(peripheral: string)
    | ReadValue(peripheral: string, characteristic: string)
    | ReadDescriptorValue(peripheral: string, characteristic: string, descriptor: string)
    | WriteDescriptorValue(peripheral: string, characteristic: string, descriptor: string, data: Bytes)
    | WriteWithResponse(peripheral: string, characteristic: string, data: Bytes)
    | WriteWithoutResponse(peripheral: string, characteristic: string, data: Bytes)
    | SetNotify(peripheral: string, characteristic: string, enabled: bool)

  datatype Effect =
    | Reply(cb: Cb, outcome: Outcome)        // a command answering its own callback at once
    | Resolve(calls: Table, outcome: Outcome) // waiting callbacks, per key, all answered alike
    | Emit(event: JsEvent)
    | Radio(request: Request)
    | Spin(repeated: seq<Effect>)            // the handler never returns, repeating these effects without end
    | Trap                                   // the Swift runtime stops the app (a byte range out of bounds)

  /** The manager's fields.  The callback tables are keyed by peripheral id
      (connect, RSSI, services), by `peripheral|characteristic` (read, write,
      notifications) or by `peripheral|characteristic|descriptor`.  The two
      latches hold service and characteristic handles.  `connectTimers` are
      the 2 ms timers armed by `didConnect` that have not fired yet. */
  datatype Manager = Manager(
    peripherals: map<string, Peripheral>,
    connect: Table,
    read: Table,
    readRssi: Table,
    readDescriptor: Table,
    writeDescriptor: Table,
    retrieveServices: Table,
    write: Table,
    notification: Table,
    stopNotification: Table,
    writeQueues: map<string, seq<Bytes>>,
    buffered: map<string, IosNotifyBuffer.Container>,
    connected: set<string>,
    serviceLatches: map<string, set<nat>>,
    characteristicLatches: map<string, set<nat>>,
    nameFilter: seq<string>,
    scanTimerArmed: bool,
    connectTimers: multiset<string>)

  /** The state of a freshly created manager (ios/SwiftBleManager.swift:38-56). */
  const Initial: Manager :=
    Manager(map[], map[], map[], map[], map[], map[], map[], map[], map[], map[],
            map[], map[], {}, map[], map[], [], false, multiset{})

  /** What every notification buffer looks like between two events: short
      of its capacity, or empty when it was created with no room at all. */
  predicate BufferShape(c: IosNotifyBuffer.Container) {
    |c.items| < c.capacity || c.items == []
  }

  /** The registry is keyed by each peripheral's own id, and every
      notification buffer has that shape. */
  predicate Valid(m: Manager) {
    && (forall k :: k in m.peripherals ==> m.peripherals[k].Id() == k)
    && (forall k :: k in m.buffered ==> BufferShape(m.buffered[k]))
  }

  lemma InitialIsValid()
    ensures Valid(Initial)
    ensures Initial.connected == {} && Initial.peripherals == map[]
  {
  }

  /** One step's result: the next state and what happened on the way. */
  datatype Step = Step(next: Manager, effects: seq<Effect>)

  /** The effect of answering every callback in `t` with `outcome`; nothing
      at all when no callback waits. */
  function Answer(t: Table, outcome: Outcome): (r: seq<Effect>)
    ensures t == map[] <==> r == []
    ensures t != map[] ==> r == [Resolve(t, outcome)]
  {
    if t == map[] then [] else [Resolve(t, outcome)]
  }

  /** The table left after answering one key, and the effect of answering it. */
  datatype Answered = Answered(rest: Table, effects: seq<Effect>)

  /** `invokeAndClearDictionary` (ios/SwiftBleManager.swift:122-134, 173-185):
      answers every callback waiting under `key` and forgets the key. */
  function AnswerKey(t: Table, key: string, outcome: Outcome): (r: Answered)
    ensures key !in r.rest
    ensures forall k :: k != key ==> Waiting(r.rest, k) == Waiting(t, k)
    ensures key !in t ==> r == Answered(t, [])
    ensures key in t ==> r.effects == [Resolve(map[key := t[key]], outcome)]
  {
    var inv := Invoke(t, key);
    if key in t then Answered(inv.rest, [Resolve(map[key := inv.called], outcome)])
    else Answered(t, [])
  }

  /** The entries of `t` whose key starts with `prefix`. */
  function Flushed(t: Table, prefix: string): Table {
    map k | k in t && IsPrefix(prefix, k) :: t[k]
  }

  /** Answers every callback whose key starts with `prefix` and forgets them. */
  function AnswerPrefix(t: Table, prefix: string, outcome: Outcome): (r: Answered)
    ensures forall k :: Waiting(r.rest, k) == if IsPrefix(prefix, k) then [] else Waiting(t, k)
    ensures r.effects == Answer(Flushed(t, prefix), outcome)
  {
    var s := FlushPrefix(t, prefix);
    assert s.flushed == Flushed(t, prefix);
    Answered(s.kept, Answer(s.flushed, outcome))
  }
}

=== FILE: manifest_plugins.dfy ===
/** The Expo config plugin's Android manifest edits
    (plugin/src/withBLEAndroidManifest.ts): each adder appends one
    permission or feature entry when no entry of that name is there yet.
    A list that is missing or not an array is `None`; the other parts of the
    manifest are not touched and are not part of the model. */
module ManifestPlugins {
  import opened Common

  /** One `<uses-permission>` or `<uses-feature>` entry: the attributes of
      its `$` object, in insertion order. */
  datatype Item = Item(attributes: seq<(string, string)>)

  datatype Manifest = Manifest(
    usesPermission: Option<seq<Item>>,
    usesPermissionSdk23: Option<seq<Item>>,
    usesFeature: Option<seq<Item>>)

  const NameKey := "android:name"
  const CoarseLocation := "android.permission.ACCESS_COARSE_LOCATION"
  const FineLocation := "android.permission.ACCESS_FINE_LOCATION"
  const BluetoothScan := "android.permission.BLUETOOTH_SCAN"
  const BluetoothConnect := "android.permission.BLUETOOTH_CONNECT"
  const CompanionFeature := "android.software.companion_device_setup"
  const BleFeature := "android.hardware.bluetooth_le"

  /** `item.$['android:name']`: the first attribute of that key. */
  function Name(item: Item): (r: Option<string>)
    ensures r.Some? ==> (NameKey, r.value) in item.attributes
    ensures r.None? ==> forall i :: 0 <= i < |item.attributes| ==> item.attributes[i].0 != NameKey
  {
    NameIn(item.attributes)
  }

  function NameIn(attributes: seq<(string, string)>): (r: Option<string>)
    ensures r.Some? ==> (NameKey, r.value) in attributes
    ensures r.None? ==> forall i :: 0 <= i < |attributes| ==> attributes[i].0 != NameKey
  {
    if attributes == [] then None
    else if attributes[0].0 == NameKey then Some(attributes[0].1)
    else NameIn(attributes[1..])
  }

  /** A list as the adders treat it: a missing one is empty. */
  function Items(list: Option<seq<Item>>): seq<Item> {
    if list.None? then [] else list.value
  }

  /** `list.find(item => item.$['android:name'] === name)` found something. */
  predicate Has(list: Option<seq<Item>>, name: string) {
    exists i :: 0 <= i < |Items(list)| && Name(Items(list)[i]) == Some(name)
  }

  /** The number of entries of that name. */
  function Count(items: seq<Item>, name: string): (r: nat)
    ensures r <= |items|
    ensures r == 0 <==> forall i :: 0 <= i < |items| ==> Name(items[i]) != Some(name)
  {
    if items == [] then 0
    else (if Name(items[0]) == Some(name) then 1 else 0) + Count(items[1..], name)
  }

  /** `list` is `list0` with entries appended. */
  predicate Extends(list0: Option<seq<Item>>, list: Option<seq<Item>>) {
    |Items(list0)| <= |Items(list)| && Items(list)[..|Items(list0)|] == Items(list0)
  }

  /** The shared shape of the scan, connect, companion and hardware adders:
      make the list an array, then append `entry` unless an entry of its
      name is there. */
  function AddOnce(list: Option<seq<Item>>, entry: Item, name: string): (r: seq<Item>)
    requires Name(entry) == Some(name)
    ensures Has(list, name) ==> r == Items(list)
    ensures !Has(list, name) ==> r == Items(list) + [entry]
    ensures Has(Some(r), name)
  {
    if Has(list, name) then
      assert Some(Items(list)) == list || list.None?;
      Items(list)
    else
      var r := Items(list) + [entry];
      assert Name(Items(Some(r))[|r| - 1]) == Some(name);
      r
  }

  /** An entry once found stays found in any extension of its list. */
  lemma HasExtends(list0: Option<seq<Item>>, list: Option<seq<Item>>, name: string)
    requires Extends(list0, list) && Has(list0, name)
    ensures Has(list, name)
  {
    var i :| 0 <= i < |Items(list0)| && Name(Items(list0)[i]) == Some(name);
    assert Items(list)[i] == Items(list0)[i];
  }

  lemma {:induction false} CountAppend(a: seq<Item>, b: seq<Item>, name: string)
    ensures Count(a + b, name) == Count(a, name) + Count(b, name)
    decreases |a|
  {
    if a == [] {
      assert a + b == b;
    } else {
      assert (a + b)[1..] == a[1..] + b;
      CountAppend(a[1..], b, name);
    }
  }

  // ---------------------------------------------------------------------------
  // The five adders

  /** The attributes of a location permission: the name, and
      `android:maxSdkVersion="30"` when location is never derived from
      scans from SDK 31 on. */
  function LocationEntry(name: string, neverForLocationSinceSdk31: bool): (r: Item)
    ensures Name(r) == Some(name)
  {
    Item([(NameKey, name)] + if neverForLocationSinceSdk31 then [("android:maxSdkVersion", "30")] else [])
  }

  /** `existingPermissionNames.has(name)`: the `Set` of truthy names
      collected from both permission lists holds `name`. Dropping the falsy
      names changes nothing here, since the names looked up are not empty. */
  predicate Listed(m: Manifest, name: string) {
    Has(m.usesPermission, name) || Has(m.usesPermissionSdk23, name)
  }

  /** `addLocationPermissionToManifest`: the coarse and fine permissions
      go into `uses-permission-sdk-23`, each only when neither list names it;
      with nothing to add the manifest is returned as it came. */
  function AddLocation(m: Manifest, neverForLocationSinceSdk31: bool): (r: Manifest)
    ensures r.usesPermission == m.usesPermission && r.usesFeature == m.usesFeature
    ensures Extends(m.usesPermissionSdk23, r.usesPermissionSdk23)
  {
    var toAdd := Missing(m, neverForLocationSinceSdk31);
    if toAdd == [] then m
    else m.(usesPermissionSdk23 := Some(Items(m.usesPermissionSdk23) + toAdd))
  }

  /** The `permissionsToAdd` list: the coarse, then the fine location entry,
      each when no permission list names it. */
  function Missing(m: Manifest, neverForLocationSinceSdk31: bool): seq<Item> {
    (if !Listed(m, CoarseLocation) then [LocationEntry(CoarseLocation, neverForLocationSinceSdk31)] else [])
    + (if !Listed(m, FineLocation) then [LocationEntry(FineLocation, neverForLocationSinceSdk31)] else [])
  }

  /** The `BLUETOOTH_SCAN` entry: the name, the `neverForLocation` flag
      when asked for, and `tools:targetApi="31"`. */
  function ScanEntry(neverForLocation: bool): (r: Item)
    ensures Name(r) == Some(BluetoothScan)
  {
    Item([(NameKey, BluetoothScan)]
         + (if neverForLocation then [("android:usesPermissionFlags", "neverForLocation")] else [])
         + [("tools:targetApi", "31")])
  }

  /** `addScanPermissionToManifest`. */
  function AddScan(m: Manifest, neverForLocation: bool): (r: Manifest)
    ensures r.usesPermissionSdk23 == m.usesPermissionSdk23 && r.usesFeature == m.usesFeature
    ensures Extends(m.usesPermission, r.usesPermission)
    ensures r.usesPermission.Some? && Has(r.usesPermission, BluetoothScan)
    ensures !Has(m.usesPermission, BluetoothScan) ==> r.usesPermission == Some(Items(m.usesPermission) + [ScanEntry(neverForLocation)])
  {
    m.(usesPermission := Some(AddOnce(m.usesPermission, ScanEntry(neverForLocation), BluetoothScan)))
  }

  function ConnectEntry(): (r: Item)
    ensures Name(r) == Some(BluetoothConnect)
  {
    Item([(NameKey, BluetoothConnect)])
  }

  /** `addConnectPermissionToManifest`; its `neverForLocation` argument is
      not used. */
  function AddConnect(m: Manifest): (r: Manifest)
    ensures r.usesPermissionSdk23 == m.usesPermissionSdk23 && r.usesFeature == m.usesFeature
    ensures Extends(m.usesPermission, r.usesPermission)
    ensures r.usesPermission.Some? && Has(r.usesPermission, BluetoothConnect)
  {
    m.(usesPermission := Some(AddOnce(m.usesPermission, ConnectEntry(), BluetoothConnect)))
  }

  /** A required feature entry. */
  function FeatureEntry(name: string): (r: Item)
    ensures Name(r) == Some(name)
  {
    Item([(NameKey, name), ("android:required", "true")])
  }

  /** `addCompanionPermissionToManifest`. */
  function AddCompanion(m: Manifest): (r: Manifest)
    ensures r.usesPermission == m.usesPermission && r.usesPermissionSdk23 == m.usesPermissionSdk23
    ensures Extends(m.usesFeature, r.usesFeature)
    ensures r.usesFeature.Some? && Has(r.usesFeature, CompanionFeature)
  {
    m.(usesFeature := Some(AddOnce(m.usesFeature, FeatureEntry(CompanionFeature), CompanionFeature)))
  }

  /** `addBLEHardwareFeatureToManifest`. */
  function AddHardware(m: Manifest): (r: Manifest)
    ensures r.usesPermission == m.usesPermission && r.usesPermissionSdk23 == m.usesPermissionSdk23
    ensures Extends(m.usesFeature, r.usesFeature)
    ensures r.usesFeature.Some? && Has(r.usesFeature, BleFeature)
  {
    m.(usesFeature := Some(AddOnce(m.usesFeature, FeatureEntry(BleFeature), BleFeature)))
  }

  /** `withBLEAndroidManifest`: location, scan and connect always; the
      companion feature and the hardware feature on request. */
  function WithBle(m: Manifest, isBleRequired: bool, neverForLocation: bool, companionDeviceEnabled: bool): Manifest {
    var base := AddConnect(AddScan(AddLocation(m, neverForLocation), neverForLocation));
    var companion := if companionDeviceEnabled then AddCompanion(base) else base;
    if isBleRequired then AddHardware(companion) else companion
  }
}

=== FILE: manifest_plugins_properties.dfy ===
/** Properties of the config plugins: each entry is added at most once, the
    plugins are append-only and idempotent (running a prebuild twice changes
    nothing the second time), and the example app's copy differs from the
    published plugin only in where it looks for the location permissions. */
module ManifestPluginsProperties {
  import opened Common
  import opened ManifestPlugins
  import ExamplePlugins

  // ---------------------------------------------------------------------------
  // At most once

  /** An adder leaves the number of entries of its name as it was when one
      is there, and makes it exactly one otherwise. */
  lemma AddOnceAtMostOnce(list: Option<seq<Item>>, entry: Item, name: string)
    requires Name(entry) == Some(name)
    ensures Count(AddOnce(list, entry, name), name) == if Has(list, name) then Count(Items(list), name) else 1
  {
    if !Has(list, name) {
      CountAppend(Items(list), [entry], name);
      assert [entry][1..] == [];
    }
  }

  /** An adder leaves the number of entries of any other name as it was. */
  lemma AddOnceSparesOthers(list: Option<seq<Item>>, entry: Item, name: string, other: string)
    requires Name(entry) == Some(name) && name != other
    ensures Count(AddOnce(list, entry, name), other) == Count(Items(list), other)
  {
    if !Has(list, name) {
      CountAppend(Items(list), [entry], other);
      assert [entry][1..] == [];
    }
  }

  lemma FeatureNamesDiffer()
    ensures CompanionFeature != BleFeature
  {
    assert CompanionFeature[8] != BleFeature[8];
  }

  /** The two location entries are told apart by their names. */
  lemma LocationNamesDiffer(never: bool)
    ensures Name(LocationEntry(CoarseLocation, never)) != Some(FineLocation)
    ensures Name(LocationEntry(FineLocation, never)) != Some(CoarseLocation)
  {
    assert CoarseLocation[26] != FineLocation[26];
  }

  /** After the published location adder both location permissions are
      listed, and a manifest that already lists both comes back untouched. */
  lemma LocationListsBoth(m: Manifest, never: bool)
    ensures var r := AddLocation(m, never);
            && Listed(r, CoarseLocation) && Listed(r, FineLocation)
            && (Listed(m, CoarseLocation) && Listed(m, FineLocation) ==> r == m)
  {
    var old23 := Items(m.usesPermissionSdk23);
    var toAdd := Missing(m, never);
    var r := AddLocation(m, never);
    if toAdd != [] {
      assert r.usesPermissionSdk23 == Some(old23 + toAdd);
      if Listed(m, CoarseLocation) {
        ListedAfterAppend(m, toAdd, CoarseLocation);
      } else {
        assert toAdd[0] == LocationEntry(CoarseLocation, never);
        assert Items(r.usesPermissionSdk23)[|old23|] == toAdd[0];
      }
      if Listed(m, FineLocation) {
        ListedAfterAppend(m, toAdd, FineLocation);
      } else {
        assert toAdd[|toAdd| - 1] == LocationEntry(FineLocation, never);
        assert Items(r.usesPermissionSdk23)[|old23| + |toAdd| - 1] == toAdd[|toAdd| - 1];
      }
    }
  }

  /** The list of entries to add holds each location permission once when
      it is not listed, and not at all when it is. */
  lemma MissingCounts(m: Manifest, never: bool)
    ensures Count(Missing(m, never), CoarseLocation) == if Listed(m, CoarseLocation) then 0 else 1
    ensures Count(Missing(m, never), FineLocation) == if Listed(m, FineLocation) then 0 else 1
  {
    var coarse := LocationEntry(CoarseLocation, never);
    var fine := LocationEntry(FineLocation, never);
    LocationNamesDiffer(never);
    assert [coarse][1..] == [] && [fine][1..] == [];
    assert ([coarse] + [fine])[1..] == [fine];
  }

  /** The published location adder appends each location permission to
      `uses-permission-sdk-23` exactly when neither permission list names it. */
  lemma LocationAddsMissing(m: Manifest, never: bool)
    ensures var r := AddLocation(m, never);
            && Count(Items(r.usesPermissionSdk23), CoarseLocation)
               == Count(Items(m.usesPermissionSdk23), CoarseLocation) + (if Listed(m, CoarseLocation) then 0 else 1)
            && Count(Items(r.usesPermissionSdk23), FineLocation)
               == Count(Items(m.usesPermissionSdk23), FineLocation) + (if Listed(m, FineLocation) then 0 else 1)
  {
    var old23 := Items(m.usesPermissionSdk23);
    var toAdd := Missing(m, never);
    MissingCounts(m, never);
    if toAdd != [] {
      assert Items(AddLocation(m, never).usesPermissionSdk23) == old23 + toAdd;
      CountAppend(old23, toAdd, CoarseLocation);
      CountAppend(old23, toAdd, FineLocation);
    }
  }

  /** What was listed before appending stays listed. */
  lemma ListedAfterAppend(m: Manifest, extra: seq<Item>, name: string)
    requires Listed(m, name)
    ensures Listed(m.(usesPermissionSdk23 := Some(Items(m.usesPermissionSdk23) + extra)), name)
  {
    var m' := m.(usesPermissionSdk23 := Some(Items(m.usesPermissionSdk23) + extra));
    if Has(m.usesPermissionSdk23, name) {
      assert Items(m'.usesPermissionSdk23)[..|Items(m.usesPermissionSdk23)|] == Items(m.usesPermissionSdk23);
      HasExtends(m.usesPermissionSdk23, m'.usesPermissionSdk23, name);
    }
  }

  /** The optional attributes appear exactly when their flag asks for them:
      `maxSdkVersion` 30 on the location entries, `neverForLocation` on the
      scan entry, which always targets API 31. */
  lemma EntryAttributes(never: bool)
    ensures ("android:maxSdkVersion", "30") in LocationEntry(CoarseLocation, never).attributes <==> never
    ensures ("android:maxSdkVersion", "30") in LocationEntry(FineLocation, never).attributes <==> never
    ensures ("android:usesPermissionFlags", "neverForLocation") in ScanEntry(never).attributes <==> never
    ensures ("tools:targetApi", "31") in ScanEntry(never).attributes
  {
    var scan := ScanEntry(never).attributes;
    if !never {
      assert scan == [(NameKey, BluetoothScan), ("tools:targetApi", "31")];
      assert scan[0].0 != "android:usesPermissionFlags";
      assert scan[1].0 != "android:usesPermissionFlags";
      assert LocationEntry(CoarseLocation, never).attributes == [(NameKey, CoarseLocation)];
      assert LocationEntry(FineLocation, never).attributes == [(NameKey, FineLocation)];
    } else {
      assert scan[1] == ("android:usesPermissionFlags", "neverForLocation");
      assert LocationEntry(CoarseLocation, never).attributes[1] == ("android:maxSdkVersion", "30");
      assert LocationEntry(FineLocation, never).attributes[1] == ("android:maxSdkVersion", "30");
    }
    assert scan[|scan| - 1] == ("tools:targetApi", "31");
  }

  /** The features the published plugin is not asked for are left as they
      were: without `companionDeviceEnabled` no companion entry appears, and
      without `isBleRequired` no hardware entry. */
  lemma FeaturesOnRequest(m: Manifest, isBleRequired: bool, never: bool, companionDeviceEnabled: bool)
    ensures var r := WithBle(m, isBleRequired, never, companionDeviceEnabled);
            && (!companionDeviceEnabled ==> Count(Items(r.usesFeature), CompanionFeature) == Count(Items(m.usesFeature), CompanionFeature))
            && (!isBleRequired ==> Count(Items(r.usesFeature), BleFeature) == Count(Items(m.usesFeature), BleFeature))
  {
    WithBleFeatures(m, isBleRequired, never, companionDeviceEnabled);
    FeatureNamesDiffer();
    if !companionDeviceEnabled && isBleRequired {
      AddOnceSparesOthers(m.usesFeature, FeatureEntry(BleFeature), BleFeature, CompanionFeature);
    } else if companionDeviceEnabled && !isBleRequired {
      AddOnceSparesOthers(m.usesFeature, FeatureEntry(CompanionFeature), CompanionFeature, BleFeature);
    }
  }

  /** The published plugin's feature list: the companion adder, then the
      hardware adder, each when asked for. */
  lemma WithBleFeatures(m: Manifest, isBleRequired: bool, never: bool, companionDeviceEnabled: bool)
    ensures var f := m.usesFeature;
            var c := if companionDeviceEnabled then Some(AddOnce(f, FeatureEntry(CompanionFeature), CompanionFeature)) else f;
            WithBle(m, isBleRequired, never, companionDeviceEnabled).usesFeature
              == if isBleRequired then Some(AddOnce(c, FeatureEntry(BleFeature), BleFeature)) else c
  {
    BaseKeepsFeatures(m, never);
  }

  /** The permission steps do not touch the features. */
  lemma BaseKeepsFeatures(m: Manifest, never: bool)
    ensures AddConnect(AddScan(AddLocation(m, never), never)).usesFeature == m.usesFeature
  {
  }

  // ---------------------------------------------------------------------------
  // Idempotence

  /** What an adder settles on is a fixed point for that adder. */
  lemma Settled(list: Option<seq<Item>>, entry: Item, name: string)
    requires Name(entry) == Some(name) && list.Some? && Has(list, name)
    ensures Some(AddOnce(list, entry, name)) == list
  {
  }

  /** A manifest on which every step of the published plugin is already
      done. */
  predicate Done(m: Manifest, isBleRequired: bool, companionDeviceEnabled: bool) {
    && Listed(m, CoarseLocation) && Listed(m, FineLocation)
    && m.usesPermission.Some? && Has(m.usesPermission, BluetoothScan) && Has(m.usesPermission, BluetoothConnect)
    && (companionDeviceEnabled ==> m.usesFeature.Some? && Has(m.usesFeature, CompanionFeature))
    && (isBleRequired ==> m.usesFeature.Some? && Has(m.usesFeature, BleFeature))
  }

  /** The published plugin leaves a manifest it has already processed
      alone. */
  lemma DoneIsFixed(m: Manifest, isBleRequired: bool, never: bool, companionDeviceEnabled: bool)
    requires Done(m, isBleRequired, companionDeviceEnabled)
    ensures WithBle(m, isBleRequired, never, companionDeviceEnabled) == m
  {
    LocationAddsMissing(m, never);
    Settled(m.usesPermission, ScanEntry(never), BluetoothScan);
    Settled(m.usesPermission, ConnectEntry(), BluetoothConnect);
    if companionDeviceEnabled {
      Settled(m.usesFeature, FeatureEntry(CompanionFeature), CompanionFeature);
    }
    if isBleRequired {
      Settled(m.usesFeature, FeatureEntry(BleFeature), BleFeature);
    }
  }

  /** After the location, scan and connect steps all five permissions are
      listed. */
  lemma PermissionStepsDone(m: Manifest, never: bool)
    ensures var c := AddConnect(AddScan(AddLocation(m, never), never));
            && Listed(c, CoarseLocation) && Listed(c, FineLocation)
            && c.usesPermission.Some? && Has(c.usesPermission, BluetoothScan) && Has(c.usesPermission, BluetoothConnect)
  {
    var l := AddLocation(m, never);
    LocationAddsMissing(m, never);
    var s := AddScan(l, never);
    var c := AddConnect(s);
    ExtendsTrans(l.usesPermission, s.usesPermission, c.usesPermission);
    HasExtends(s.usesPermission, c.usesPermission, BluetoothScan);
    ListedAlongPermissions(l, c, CoarseLocation);
    ListedAlongPermissions(l, c, FineLocation);
  }

  /** The published plugin finishes its work in one run. */
  lemma WithBleIsDone(m: Manifest, isBleRequired: bool, never: bool, companionDeviceEnabled: bool)
    ensures Done(WithBle(m, isBleRequired, never, companionDeviceEnabled), isBleRequired, companionDeviceEnabled)
  {
    var c := AddConnect(AddScan(AddLocation(m, never), never));
    PermissionStepsDone(m, never);
    var p := if companionDeviceEnabled then AddCompanion(c) else c;
    var h := if isBleRequired then AddHardware(p) else p;
    assert h == WithBle(m, isBleRequired, never, companionDeviceEnabled);
    if companionDeviceEnabled && isBleRequired {
      HasExtends(p.usesFeature, h.usesFeature, CompanionFeature);
    }
  }

  /** Appending to `uses-permission` keeps what was listed. */
  lemma ListedAlongPermissions(a: Manifest, b: Manifest, name: string)
    requires Listed(a, name)
    requires b.usesPermissionSdk23 == a.usesPermissionSdk23 && Extends(a.usesPermission, b.usesPermission)
    ensures Listed(b, name)
  {
    if Has(a.usesPermission, name) {
      HasExtends(a.usesPermission, b.usesPermission, name);
    }
  }

  /** Running the published plugin twice is running it once. */
  lemma WithBleIdempotent(m: Manifest, isBleRequired: bool, never: bool, companionDeviceEnabled: bool)
    ensures var once := WithBle(m, isBleRequired, never, companionDeviceEnabled);
            WithBle(once, isBleRequired, never, companionDeviceEnabled) == once
  {
    WithBleIsDone(m, isBleRequired, never, companionDeviceEnabled);
    DoneIsFixed(WithBle(m, isBleRequired, never, companionDeviceEnabled), isBleRequired, never, companionDeviceEnabled);
  }

  /** Every list the published plugin edits keeps its old entries as a
      prefix. */
  lemma WithBleAppendsOnly(m: Manifest, isBleRequired: bool, never: bool, companionDeviceEnabled: bool)
    ensures var r := WithBle(m, isBleRequired, never, companionDeviceEnabled);
            && Extends(m.usesPermission, r.usesPermission)
            && Extends(m.usesPermissionSdk23, r.usesPermissionSdk23)
            && Extends(m.usesFeature, r.usesFeature)
  {
    var l := AddLocation(m, never);
    var s := AddScan(l, never);
    var c := AddConnect(s);
    ExtendsTrans(m.usesPermission, s.usesPermission, c.usesPermission);
    var p := if companionDeviceEnabled then AddCompanion(c) else c;
    var h := if isBleRequired then AddHardware(p) else p;
    assert c.usesFeature == m.usesFeature;
    if !companionDeviceEnabled {
      ExtendsRefl(m.usesFeature);
    }
    if isBleRequired {
      ExtendsTrans(m.usesFeature, p.usesFeature, h.usesFeature);
    }
  }

  lemma ExtendsRefl(a: Option<seq<Item>>)
    ensures Extends(a, a)
  {
    assert Items(a)[..|Items(a)|] == Items(a);
  }

  lemma ExtendsTrans(a: Option<seq<Item>>, b: Option<seq<Item>>, c: Option<seq<Item>>)
    requires Extends(a, b) && Extends(b, c)
    ensures Extends(a, c)
  {
    assert Items(c)[..|Items(a)|] == Items(c)[..|Items(b)|][..|Items(a)|];
  }

  // ---------------------------------------------------------------------------
  // The example app's copy

  /** Appending the coarse entry does not make the fine one present. */
  lemma CoarseLeavesFineMissing(list: Option<seq<Item>>, never: bool)
    requires !Has(list, FineLocation)
    ensures !Has(Some(Items(list) + [LocationEntry(CoarseLocation, never)]), FineLocation)
  {
    var withCoarse := Items(list) + [LocationEntry(CoarseLocation, never)];
    LocationNamesDiffer(never);
    forall i | 0 <= i < |withCoarse|
      ensures Name(withCoarse[i]) != Some(FineLocation)
    {
      if i < |Items(list)| {
        assert withCoarse[i] == Items(list)[i];
      }
    }
  }

  /** The example's location adder on a list holding neither permission
      appends both, coarse first. */
  lemma ExampleAddsBoth(m: Manifest, never: bool)
    requires !Has(m.usesPermissionSdk23, CoarseLocation) && !Has(m.usesPermissionSdk23, FineLocation)
    ensures ExamplePlugins.AddLocation(m, never).usesPermissionSdk23
            == Some(Items(m.usesPermissionSdk23) + [LocationEntry(CoarseLocation, never), LocationEntry(FineLocation, never)])
  {
    var old23 := Items(m.usesPermissionSdk23);
    CoarseLeavesFineMissing(m.usesPermissionSdk23, never);
    assert old23 + [LocationEntry(CoarseLocation, never)] + [LocationEntry(FineLocation, never)]
           == old23 + [LocationEntry(CoarseLocation, never), LocationEntry(FineLocation, never)];
  }

  /** Where a location permission is already in `uses-permission` but not in
      `uses-permission-sdk-23`, the published plugin adds nothing while the
      example's copy declares it a second time. */
  lemma LocationVariantsDiffer(m: Manifest, never: bool)
    requires Has(m.usesPermission, CoarseLocation) && Has(m.usesPermission, FineLocation)
    requires !Has(m.usesPermissionSdk23, CoarseLocation) && !Has(m.usesPermissionSdk23, FineLocation)
    ensures AddLocation(m, never) == m
    ensures ExamplePlugins.AddLocation(m, never).usesPermissionSdk23
            == Some(Items(m.usesPermissionSdk23) + [LocationEntry(CoarseLocation, never), LocationEntry(FineLocation, never)])
  {
    ExampleAddsBoth(m, never);
  }

  /** Where `uses-permission` names neither location permission, the two
      location adders agree. */
  lemma LocationVariantsAgree(m: Manifest, never: bool)
    requires !Has(m.usesPermission, CoarseLocation) && !Has(m.usesPermission, FineLocation)
    ensures AddLocation(m, never) == ExamplePlugins.AddLocation(m, never)
  {
    if !Has(m.usesPermissionSdk23, CoarseLocation) && !Has(m.usesPermissionSdk23, FineLocation) {
      ExampleAddsBoth(m, never);
      assert [LocationEntry(CoarseLocation, never)] + [LocationEntry(FineLocation, never)]
             == [LocationEntry(CoarseLocation, never), LocationEntry(FineLocation, never)];
    } else if !Has(m.usesPermissionSdk23, CoarseLocation) {
      AgreeOnCoarseOnly(m, never);
    } else {
      AgreeWithCoarsePresent(m, never);
    }
  }

  lemma AgreeOnCoarseOnly(m: Manifest, never: bool)
    requires !Has(m.usesPermission, CoarseLocation)
    requires !Has(m.usesPermissionSdk23, CoarseLocation) && Has(m.usesPermissionSdk23, FineLocation)
    ensures AddLocation(m, never) == ExamplePlugins.AddLocation(m, never)
  {
    var old23 := Items(m.usesPermissionSdk23);
    var coarse := LocationEntry(CoarseLocation, never);
    var withCoarse := old23 + [coarse];
    assert withCoarse[..|old23|] == old23;
    HasExtends(m.usesPermissionSdk23, Some(withCoarse), FineLocation);
    assert AddOnce(m.usesPermissionSdk23, coarse, CoarseLocation) == withCoarse;
    assert AddOnce(Some(withCoarse), LocationEntry(FineLocation, never), FineLocation) == withCoarse;
    assert !Listed(m, CoarseLocation) && Listed(m, FineLocation);
    assert [coarse] + [] == [coarse];
    assert AddLocation(m, never) == m.(usesPermissionSdk23 := Some(withCoarse));
  }

  lemma AgreeWithCoarsePresent(m: Manifest, never: bool)
    requires !Has(m.usesPermission, FineLocation)
    requires Has(m.usesPermissionSdk23, CoarseLocation)
    ensures AddLocation(m, never) == ExamplePlugins.AddLocation(m, never)
  {
    var old23 := Items(m.usesPermissionSdk23);
    var fine := LocationEntry(FineLocation, never);
    assert m.usesPermissionSdk23 == Some(old23);
    assert AddOnce(m.usesPermissionSdk23, LocationEntry(CoarseLocation, never), CoarseLocation) == old23;
    assert Listed(m, CoarseLocation);
    assert Listed(m, FineLocation) == Has(m.usesPermissionSdk23, FineLocation);
    if Has(m.usesPermissionSdk23, FineLocation) {
      assert AddOnce(Some(old23), fine, FineLocation) == old23;
      assert AddLocation(m, never) == m;
    } else {
      assert AddOnce(Some(old23), fine, FineLocation) == old23 + [fine];
      assert [] + [fine] == [fine];
      assert AddLocation(m, never) == m.(usesPermissionSdk23 := Some(old23 + [fine]));
    }
  }

  /** Apart from `uses-permission-sdk-23`, the example's plugin produces
      what the published one does with the companion feature switched on
      and `isBleRequired` read as background use. */
  lemma ExampleSharesTheRest(m: Manifest, isBackgroundEnabled: bool, never: bool)
    ensures var e := ExamplePlugins.WithBle(m, isBackgroundEnabled, never);
            var p := WithBle(m, isBackgroundEnabled, never, true);
            e.usesPermission == p.usesPermission && e.usesFeature == p.usesFeature
  {
  }

  /** Running the example's plugin twice is running it once. */
  lemma ExampleWithBleIdempotent(m: Manifest, isBackgroundEnabled: bool, never: bool)
    ensures var once := ExamplePlugins.WithBle(m, isBackgroundEnabled, never);
            ExamplePlugins.WithBle(once, isBackgroundEnabled, never) == once
  {
    var once := ExamplePlugins.WithBle(m, isBackgroundEnabled, never);
    var l := ExamplePlugins.AddLocation(m, never);
    var s := AddScan(l, never);
    var c := AddConnect(s);
    HasExtends(s.usesPermission, c.usesPermission, BluetoothScan);
    var p := AddCompanion(c);
    if isBackgroundEnabled {
      HasExtends(p.usesFeature, once.usesFeature, CompanionFeature);
    }
    Settled(once.usesPermissionSdk23, LocationEntry(CoarseLocation, never), CoarseLocation);
    Settled(once.usesPermissionSdk23, LocationEntry(FineLocation, never), FineLocation);
    Settled(once.usesPermission, ScanEntry(never), BluetoothScan);
    Settled(once.usesPermission, ConnectEntry(), BluetoothConnect);
    Settled(once.usesFeature, FeatureEntry(CompanionFeature), CompanionFeature);
    if isBackgroundEnabled {
      Settled(once.usesFeature, FeatureEntry(BleFeature), BleFeature);
    }
  }

  // ---------------------------------------------------------------------------
  // The Info.plist plugin

  /** Running the Info.plist plugin twice with the same option is running
      it once, and after a run that was not disabled, a run without the option
      keeps the description that run set. */
  lemma BluetoothPermissionsIdempotent(p: ExamplePlugins.InfoPlist, setting: ExamplePlugins.Setting)
    ensures var once := ExamplePlugins.WithBluetoothPermissions(p, setting);
            && ExamplePlugins.WithBluetoothPermissions(once, setting) == once
            && (!setting.Disabled? ==> ExamplePlugins.WithBluetoothPermissions(once, ExamplePlugins.Unset) == once)
  {
  }
}

=== FILE: notify_buffers.dfy ===
/** The iOS fill-and-overflow buffer used for buffered notifications
    (ios/NotifyBufferContainer.swift), and the loop of the iOS manager that
    feeds a notification into it (ios/SwiftBleManager.swift:1674-1691). */
module IosNotifyBuffer {
  import opened Common

  datatype Container = Container(items: Bytes, capacity: int)

  /** A fresh container: nothing buffered yet. */
  function New(size: int): (r: Container)
    ensures r.items == [] && r.capacity == size
    ensures !IsFull(r) <==> size > 0
  {
    Container([], size)
  }

  function Remaining(c: Container): int {
    c.capacity - |c.items|
  }

  predicate IsFull(c: Container) {
    |c.items| >= c.capacity
  }

  /** A container is full exactly when it has no room left. */
  lemma FullMeansNoRoom(c: Container)
    ensures IsFull(c) <==> Remaining(c) <= 0
  {
  }

  function Reset(c: Container): (r: Container)
    ensures r.items == [] && r.capacity == c.capacity
  {
    c.(items := [])
  }

  /** The container after a `put`, and the part of the value that did not fit. */
  datatype PutResult = PutResult(after: Container, rest: Bytes)

  function Put(c: Container, value: Bytes): (r: PutResult)
    ensures r.after.capacity == c.capacity
    // a full container takes nothing and hands the value back
    ensures Remaining(c) <= 0 ==> r == PutResult(c, value)
    // otherwise what was appended, followed by the rest, is the value
    ensures Remaining(c) > 0 ==>
              && |c.items| <= |r.after.items|
              && r.after.items[..|c.items|] == c.items
              && r.after.items[|c.items|..] + r.rest == value
    ensures Remaining(c) > 0 ==> (r.rest == [] <==> |value| <= Remaining(c))
    ensures Remaining(c) > 0 && r.rest != [] ==> |r.after.items| == c.capacity
    ensures |r.after.items| <= if |c.items| > c.capacity then |c.items| else c.capacity
  {
    var room := Remaining(c);
    if room <= 0 then PutResult(c, value)
    else
      var restLength := |value| - room;
      if restLength > 0 then
        PutResult(c.(items := c.items + value[..room]), value[room..])
      else
        PutResult(c.(items := c.items + value), [])
  }

  /** A fresh container of capacity zero or less is full: it hands every
      value back untouched and resetting it changes nothing, so the feeding
      loop makes no progress. */
  lemma ZeroCapacityMakesNoProgress(size: int, value: Bytes)
    requires size <= 0
    ensures var c := New(size);
            Put(c, value) == PutResult(c, value) && IsFull(c) && Reset(c) == c
  {
  }

  /** The buffer after a notification has been fed in, and the full buffers
      emitted on the way. */
  datatype Drained = Drained(after: Container, emitted: seq<Bytes>)

  /** Feeds `value` into the container the way the iOS manager does: put,
      emit and reset whenever the container is full, repeat with the rest. */
  function Drain(c: Container, value: Bytes): (r: Drained)
    requires 0 <= |c.items| < c.capacity
    ensures r.after.capacity == c.capacity
    ensures |r.after.items| < c.capacity
    ensures forall i :: 0 <= i < |r.emitted| ==> |r.emitted[i]| == c.capacity
    ensures Flatten(r.emitted) + r.after.items == c.items + value
    decreases |value|
  {
    if value == [] then Drained(c, [])
    else
      var p := Put(c, value);
      if IsFull(p.after) then
        var d := Drain(Reset(p.after), p.rest);
        EmitThenContinue(c.items, p.after.items, p.rest, value, d.emitted, d.after.items);
        Drained(d.after, [p.after.items] + d.emitted)
      else
        assert p.rest == [];
        assert p.after.items == c.items + value;
        Drained(p.after, [])
  }

  lemma EmitThenContinue(before: Bytes, full: Bytes, rest: Bytes, value: Bytes, emitted: seq<Bytes>, left: Bytes)
    requires |before| <= |full| && full[..|before|] == before && full[|before|..] + rest == value
    requires Flatten(emitted) + left == [] + rest
    ensures Flatten([full] + emitted) + left == before + value
  {
    FlattenAppend([full], emitted);
    FlattenSingle(full);
    assert Flatten(emitted) + left == rest;
    assert full == before + full[|before|..];
    calc {
      Flatten([full] + emitted) + left;
      full + Flatten(emitted) + left;
      full + (Flatten(emitted) + left);
      full + rest;
      before + full[|before|..] + rest;
      before + (full[|before|..] + rest);
      before + value;
    }
  }
}

/** The Android counterpart (android/src/main/java/it/innove/NotifyBufferContainer.java),
    a `ByteBuffer` of fixed size whose position advances with every `put`.
    `items` are the bytes between the start and the position. */
module AndroidNotifyBuffer {
  import opened Common

  datatype Container = Container(items: Bytes, capacity: nat) {
    /** A `ByteBuffer` never has its position beyond its limit. */
    predicate Valid() {
      |items| <= capacity
    }
  }

  /** The constructor: `ByteBuffer.allocate(size)`, which throws
      `IllegalArgumentException` (here `None`) for a negative size. */
  function Allocate(size: int): (r: Option<Container>)
    ensures r.None? <==> size < 0
    ensures r.Some? ==> r.value.Valid() && r.value.items == [] && Size(r.value) == size
  {
    if size < 0 then None else Some(Container([], size))
  }

  function Remaining(c: Container): int {
    c.capacity - |c.items|
  }

  predicate IsFull(c: Container) {
    Remaining(c) == 0
  }

  /** `size()` reports the allocated size, whatever has been put. */
  function Size(c: Container): nat {
    c.capacity
  }

  function Reset(c: Container): (r: Container)
    ensures r.Valid() && r.items == [] && Size(r) == Size(c)
  {
    c.(items := [])
  }

  /** The buffer after a `put`, and the overflow (`null` when all of it fitted). */
  datatype PutResult = PutResult(after: Container, rest: Option<Bytes>)

  function Put(c: Container, value: Bytes): (r: PutResult)
    requires c.Valid()
    ensures r.after.Valid() && Size(r.after) == Size(c)
    ensures |value| <= Remaining(c) ==> r.after.items == c.items + value && r.rest == None
    ensures |value| > Remaining(c) ==>
              && r.rest.Some?
              && IsFull(r.after)
              && r.after.items == c.items + value[..Remaining(c)]
              && value[..Remaining(c)] + r.rest.value == value
  {
    var room := Remaining(c);
    if |value| > room then
      PutResult(c.(items := c.items + value[..room]), Some(value[room..]))
    else
      PutResult(c.(items := c.items + value), None)
  }

  /** Putting never moves the position past the limit, so a `put` that
      overflows leaves the buffer full and one that fits fills it only when the
      value was exactly the remaining room. */
  lemma PutFillsExactly(c: Container, value: Bytes)
    requires c.Valid()
    ensures IsFull(Put(c, value).after) <==> |value| >= Remaining(c)
  {
  }
}

=== FILE: scan_managers.dfy ===
/** The three Android scan managers (DefaultScanManager.java,
    LollipopScanManager.java, LegacyScanManager.java under
    android/src/main/java/it/innove/).  They share the session counter of
    their abstract base: stopping a scan and arming a timed scan advance it,
    and a scan timer acts only while the session it captured is current.
    Each scan result is upserted into the module's peripheral registry.
    Threads, `runOnUiThread` and the sleep become a `TimerFired` event
    carrying the session the timer captured and whether the adapter is on. */
module ScanManagers {
  import opened Common
  import opened UuidHelper
  import AndroidPeripheral
  import AndroidManager

  // ---------------------------------------------------------------------------
  // The session counter: a Java `AtomicInteger`, so 32-bit and wrapping

  /** `incrementAndGet`: Java `int` addition, wrapping from the largest value
      to the smallest. */
  function Increment(x: Int32): (r: Int32)
    ensures r != x
    ensures r == (x - IntMin + 1) % 0x1_0000_0000 + IntMin
  {
    if x == IntMax then IntMin else x + 1
  }

  // ---------------------------------------------------------------------------
  // State, requests and what the managers do to the world

  /** Which subclass is installed. */
  datatype Kind = DefaultManager | LollipopManager | LegacyManager

  /** `isScanning` exists only in the default manager; the other two leave it
      untouched.  The registry is the module's `peripherals` map. */
  datatype ScanState = ScanState(session: Int32, scanning: bool, registry: AndroidManager.Registry)

  /** A fresh manager: the `AtomicInteger` starts at 0. */
  function Initial(registry: AndroidManager.Registry): (r: ScanState)
    ensures r.session == 0 && !r.scanning && r.registry == registry
  {
    ScanState(0, false, registry)
  }

  /** A `ScanFilter` as built: by service UUID, by exact device name, or by
      manufacturer data with its mask. */
  datatype ScanFilter =
    | ServiceFilter(uuid: Uuid)
    | NameFilter(name: string)
    | ManufacturerFilter(id: int, data: Bytes, mask: Bytes)

  /** The `manufacturerData` option when present and holding
      `manufacturerId`; a missing array is `None` and counts as empty. */
  datatype ManufacturerOption = ManufacturerOption(id: int, data: Option<seq<int>>, mask: Option<seq<int>>)

  /** The options the filters are built from; scan settings (mode, match
      mode, PHY, report delay) only tune the platform scanner and are not
      part of this model. */
  datatype Options = Options(exactNames: Option<seq<string>>, manufacturer: Option<ManufacturerOption>)

  datatype Request =
    | StartLeScanner(filters: seq<ScanFilter>)
    | StopLeScanner
    | StartLegacyScan
    | StopLegacyScan

  datatype Reply = Done | ScanError(message: string)

  /** The default manager puts the status into its stop event; the other
      two send an empty map. */
  datatype Event = DiscoverPeripheral(address: string) | StopScanEvent(status: Option<int>)

  datatype Effect =
    | Invoke(cb: Cb, reply: Reply)
    | Emit(event: Event)
    | Scanner(request: Request)
    | ArmTimer(session: Int32, seconds: int)
    | Thrown

  datatype Step = Step(next: ScanState, effects: seq<Effect>)

  /** A platform `ScanResult`: the device address, the RSSI and the scan
      record's bytes, `None` when the record is null. */
  datatype Sighting = Sighting(address: string, rssi: int, record: Option<Bytes>)

  const MaskLengthMessage: string := "manufacturerData and manufacturerDataMask must have the same length"

  /** The status the default manager reports when its timer ends a scan. */
  const TimeoutStatus: int := 10

  // ---------------------------------------------------------------------------
  // stopScan

  /** `stopScan`: the session advances first, so that a timer armed before
      finds itself stale; the scanner is stopped (the default manager only
      when it has one) and the callback answered. */
  function StopScan(kind: Kind, s: ScanState, hasScanner: bool, cb: Cb): (r: Step)
    ensures r.next.session == Increment(s.session)
    ensures r.next.registry == s.registry
    ensures r.next.scanning == (kind != DefaultManager && s.scanning)
    ensures |r.effects| > 0 && r.effects[|r.effects| - 1] == Invoke(cb, Done)
  {
    var next := s.(session := Increment(s.session));
    match kind
    case DefaultManager =>
      Step(next.(scanning := false), (if hasScanner then [Scanner(StopLeScanner)] else []) + [Invoke(cb, Done)])
    case LollipopManager => Step(next, [Scanner(StopLeScanner), Invoke(cb, Done)])
    case LegacyManager => Step(next, [Scanner(StopLegacyScan), Invoke(cb, Done)])
  }

  // ---------------------------------------------------------------------------
  // scan

  /** One service filter per requested UUID, in order; `None` when one of
      them makes `UUID.fromString` throw. */
  function ServiceFilters(uuids: seq<string>): (r: Option<seq<ScanFilter>>)
    ensures r.Some? <==> forall i :: 0 <= i < |uuids| ==> FromString(uuids[i]).Some?
    ensures r.Some? ==> (|r.value| == |uuids| &&
              forall i :: 0 <= i < |uuids| ==> r.value[i] == ServiceFilter(FromString(uuids[i]).value))
  {
    if uuids == [] then Some([])
    else match FromString(uuids[0])
      case None => None
      case Some(u) =>
        match ServiceFilters(uuids[1..])
        case None => None
        case Some(rest) => Some([ServiceFilter(u)] + rest)
  }

  /** One name filter per expected advertising name. */
  function NameFilters(names: Option<seq<string>>): (r: seq<ScanFilter>)
    ensures names.None? ==> r == []
    ensures names.Some? ==> (|r| == |names.value| &&
              forall i :: 0 <= i < |r| ==> r[i] == NameFilter(names.value[i]))
  {
    match names
    case None => []
    case Some(ns) => seq(|ns|, i requires 0 <= i < |ns| => NameFilter(ns[i]))
  }

  /** `Integer.valueOf(v).byteValue()`: the low eight bits. */
  function LowByte(v: int): (b: byte)
    ensures (b as int - v) % 256 == 0
  {
    (v % 256) as byte
  }

  function LowBytes(vs: Option<seq<int>>): (r: Bytes)
    ensures vs.None? ==> r == []
    ensures vs.Some? ==> |r| == |vs.value| && forall i :: 0 <= i < |r| ==> r[i] == LowByte(vs.value[i])
  {
    match vs
    case None => []
    case Some(xs) => seq(|xs|, i requires 0 <= i < |xs| => LowByte(xs[i]))
  }

  /** The manufacturer filter, if any; `None` when data and mask differ in
      length, which refuses the scan. */
  function ManufacturerFilters(option: Option<ManufacturerOption>): (r: Option<seq<ScanFilter>>)
    ensures option.None? ==> r == Some([])
    ensures option.Some? ==>
              (r.None? <==> |LowBytes(option.value.data)| != |LowBytes(option.value.mask)|)
    ensures option.Some? && r.Some? ==>
              r.value == [ManufacturerFilter(option.value.id, LowBytes(option.value.data), LowBytes(option.value.mask))]
  {
    match option
    case None => Some([])
    case Some(m) =>
      var data := LowBytes(m.data);
      var mask := LowBytes(m.mask);
      if |data| != |mask| then None else Some([ManufacturerFilter(m.id, data, mask)])
  }

  /** What every scan does after its filters: the scanning flag (default
      manager only), a fresh session and a timer when the scan is timed, and
      the answer. */
  function Started(kind: Kind, s: ScanState, start: Request, scanSeconds: int, cb: Cb): (r: Step)
    ensures r.next.registry == s.registry
    ensures r.next.scanning == (kind == DefaultManager || s.scanning)
    ensures |r.effects| >= 2 && r.effects[0] == Scanner(start) && r.effects[|r.effects| - 1] == Invoke(cb, Done)
    ensures scanSeconds > 0 ==> (r.next.session == Increment(s.session) && |r.effects| == 3 &&
              r.effects[1] == ArmTimer(r.next.session, scanSeconds))
    ensures scanSeconds <= 0 ==> r.next.session == s.session && |r.effects| == 2
  {
    var running := if kind == DefaultManager then s.(scanning := true) else s;
    if scanSeconds > 0 then
      var session := Increment(s.session);
      Step(running.(session := session), [Scanner(start), ArmTimer(session, scanSeconds), Invoke(cb, Done)])
    else Step(running, [Scanner(start), Invoke(cb, Done)])
  }

  /** `scan`.  The default manager filters by service, by name and by
      manufacturer; the Lollipop manager by service only; the legacy one
      not at all.  A malformed UUID throws before anything starts; unequal
      manufacturer data and mask answer an error and start nothing. */
  function Scan(kind: Kind, s: ScanState, serviceUuids: seq<string>, options: Options, scanSeconds: int, cb: Cb): (r: Step)
    ensures r.next.registry == s.registry
    ensures scanSeconds <= 0 ==> r.next.session == s.session
    ensures kind != LegacyManager && ServiceFilters(serviceUuids).None? ==> r == Step(s, [Thrown])
    ensures kind == DefaultManager && ServiceFilters(serviceUuids).Some? && ManufacturerFilters(options.manufacturer).None? ==>
              r == Step(s, [Invoke(cb, ScanError(MaskLengthMessage))])
    ensures kind == LegacyManager ==> r == Started(kind, s, StartLegacyScan, scanSeconds, cb)
    ensures kind == LollipopManager && ServiceFilters(serviceUuids).Some? ==>
              r == Started(kind, s, StartLeScanner(ServiceFilters(serviceUuids).value), scanSeconds, cb)
  {
    match kind
    case LegacyManager => Started(kind, s, StartLegacyScan, scanSeconds, cb)
    case LollipopManager =>
      (match ServiceFilters(serviceUuids)
       case None => Step(s, [Thrown])
       case Some(filters) => Started(kind, s, StartLeScanner(filters), scanSeconds, cb))
    case DefaultManager =>
      match ServiceFilters(serviceUuids)
      case None => Step(s, [Thrown])
      case Some(services) =>
        match ManufacturerFilters(options.manufacturer)
        case None => Step(s, [Invoke(cb, ScanError(MaskLengthMessage))])
        case Some(manufacturer) =>
          Started(kind, s, StartLeScanner(services + NameFilters(options.exactNames) + manufacturer), scanSeconds, cb)
  }

  // ---------------------------------------------------------------------------
  // The scan timer

  /** The timer of a timed scan, after its sleep: only while the session it
      captured is current does it stop the scanner (when the adapter is on,
      the default manager then also clearing its flag) and send a stop event. */
  function TimerFired(kind: Kind, s: ScanState, captured: Int32, adapterOn: bool): (r: Step)
    ensures captured != s.session ==> r == Step(s, [])
    ensures captured == s.session ==>
              && |r.effects| > 0
              && r.effects[|r.effects| - 1] == Emit(StopScanEvent(if kind == DefaultManager then Some(TimeoutStatus) else None))
              && (|r.effects| == 2 <==> adapterOn)
              && r.next.session == s.session && r.next.registry == s.registry
              && (r.next.scanning <==> s.scanning && !(adapterOn && kind == DefaultManager))
  {
    if captured != s.session then Step(s, [])
    else
      match kind
      case DefaultManager =>
        var stop := [Emit(StopScanEvent(Some(TimeoutStatus)))];
        if adapterOn then Step(s.(scanning := false), [Scanner(StopLeScanner)] + stop) else Step(s, stop)
      case LollipopManager =>
        Step(s, (if adapterOn then [Scanner(StopLeScanner)] else []) + [Emit(StopScanEvent(None))])
      case LegacyManager =>
        Step(s, (if adapterOn then [Scanner(StopLegacyScan)] else []) + [Emit(StopScanEvent(None))])
  }

  // ---------------------------------------------------------------------------
  // Scan results

  /** The registry entry a sighting leaves behind: a new peripheral, or the
      known one with its RSSI and (unless `keepData`) its advertising bytes
      refreshed. */
  function Upserted(reg: AndroidManager.Registry, address: string, rssi: int, data: Bytes, keepData: bool): (r: AndroidPeripheral.Peripheral)
    ensures r.rssi == rssi && r.address == (if AndroidManager.Get(reg, address).Some? then AndroidManager.Get(reg, address).value.address else address)
    ensures AndroidManager.Get(reg, address).None? || !keepData ==> r.advertising == data
  {
    match AndroidManager.Get(reg, address)
    case None => AndroidPeripheral.Discovered(address, rssi, data)
    case Some(p) => if keepData then p.(rssi := rssi) else p.(rssi := rssi, advertising := data)
  }

  /** The default manager's `onDiscoveredPeripheral`: the peripheral is
      created or refreshed, saved, and announced either way.  A null scan
      record makes both the constructor and `updateData` throw. */
  function DefaultResult(s: ScanState, result: Sighting): (r: Step)
    ensures result.record.None? ==> r == Step(s, [Thrown])
    ensures result.record.Some? ==>
              && r.effects == [Emit(DiscoverPeripheral(result.address))]
              && AndroidManager.Get(r.next.registry, result.address).Some?
              && AndroidManager.Get(r.next.registry, result.address).value.rssi == result.rssi
              && AndroidManager.Get(r.next.registry, result.address).value.advertising == result.record.value
    ensures forall k :: k != result.address ==> AndroidManager.Get(r.next.registry, k) == AndroidManager.Get(s.registry, k)
    ensures r.next.session == s.session && r.next.scanning == s.scanning
    ensures AndroidManager.UniqueKeys(s.registry) ==> AndroidManager.UniqueKeys(r.next.registry)
  {
    match result.record
    case None => Step(s, [Thrown])
    case Some(bytes) =>
      var p := Upserted(s.registry, result.address, result.rssi, bytes, false);
      Step(s.(registry := AndroidManager.Put(s.registry, result.address, p)), [Emit(DiscoverPeripheral(result.address))])
  }

  /** The Lollipop manager's `onScanResult`: a null record is skipped;
      otherwise the peripheral is created or refreshed and announced. */
  function LollipopResult(s: ScanState, result: Sighting): (r: Step)
    ensures result.record.None? ==> r == Step(s, [])
    ensures result.record.Some? ==>
              && r.effects == [Emit(DiscoverPeripheral(result.address))]
              && AndroidManager.Get(r.next.registry, result.address).Some?
              && AndroidManager.Get(r.next.registry, result.address).value.rssi == result.rssi
              && AndroidManager.Get(r.next.registry, result.address).value.advertising == result.record.value
    ensures forall k :: k != result.address ==> AndroidManager.Get(r.next.registry, k) == AndroidManager.Get(s.registry, k)
    ensures r.next.session == s.session && r.next.scanning == s.scanning
    ensures AndroidManager.UniqueKeys(s.registry) ==> AndroidManager.UniqueKeys(r.next.registry)
  {
    match result.record
    case None => Step(s, [])
    case Some(bytes) =>
      var p := Upserted(s.registry, result.address, result.rssi, bytes, false);
      Step(s.(registry := AndroidManager.Put(s.registry, result.address, p)), [Emit(DiscoverPeripheral(result.address))])
  }

  /** The legacy manager's `onLeScan`: a new address is registered and
      announced; a known one only has its RSSI refreshed, silently. */
  function LegacyResult(s: ScanState, address: string, rssi: int, scanRecord: Bytes): (r: Step)
    ensures AndroidManager.Get(s.registry, address).None? ==>
              && r.effects == [Emit(DiscoverPeripheral(address))]
              && AndroidManager.Get(r.next.registry, address) == Some(AndroidPeripheral.Discovered(address, rssi, scanRecord))
    ensures AndroidManager.Get(s.registry, address).Some? ==>
              && r.effects == []
              && AndroidManager.Get(r.next.registry, address) == Some(AndroidManager.Get(s.registry, address).value.(rssi := rssi))
    ensures forall k :: k != address ==> AndroidManager.Get(r.next.registry, k) == AndroidManager.Get(s.registry, k)
    ensures r.next.session == s.session && r.next.scanning == s.scanning
    ensures AndroidManager.UniqueKeys(s.registry) ==> AndroidManager.UniqueKeys(r.next.registry)
  {
    var known := AndroidManager.Get(s.registry, address).Some?;
    var p := Upserted(s.registry, address, rssi, scanRecord, true);
    var next := s.(registry := AndroidManager.Put(s.registry, address, p));
    Step(next, if known then [] else [Emit(DiscoverPeripheral(address))])
  }

  /** The default manager's `onBatchScanResults`: each result in order,
      stopping at the first that throws; an empty batch does nothing. */
  function DefaultBatch(s: ScanState, results: seq<Sighting>): (r: Step)
    ensures results == [] ==> r == Step(s, [])
    ensures r.next.session == s.session && r.next.scanning == s.scanning
    decreases |results|
  {
    if results == [] then Step(s, [])
    else
      var first := DefaultResult(s, results[0]);
      if first.effects == [Thrown] then first
      else
        var rest := DefaultBatch(first.next, results[1..]);
        Step(rest.next, first.effects + rest.effects)
  }

  /** The Lollipop manager's `onBatchScanResults` has an empty body. */
  function LollipopBatch(s: ScanState, results: seq<Sighting>): (r: Step)
    ensures r == Step(s, [])
  {
    Step(s, [])
  }

  /** `onScanFailed`: the default manager clears its flag and reports the
      error code; the Lollipop manager sends an empty stop event; the legacy
      callback has no such method. */
  function ScanFailed(kind: Kind, s: ScanState, errorCode: int): (r: Step)
    ensures r.next.session == s.session && r.next.registry == s.registry
    ensures kind == DefaultManager ==> !r.next.scanning && r.effects == [Emit(StopScanEvent(Some(errorCode)))]
    ensures kind == LollipopManager ==> r.next == s && r.effects == [Emit(StopScanEvent(None))]
    ensures kind == LegacyManager ==> r == Step(s, [])
  {
    match kind
    case DefaultManager => Step(s.(scanning := false), [Emit(StopScanEvent(Some(errorCode)))])
    case LollipopManager => Step(s, [Emit(StopScanEvent(None))])
    case LegacyManager => Step(s, [])
  }
}

=== FILE: scan_managers_properties.dfy ===
/** Properties of the scan managers over several calls: when a scan timer
    still acts, how far the wrapping session counter keeps sessions apart,
    the filter list each manager starts its scanner with, and what a batch
    of results leaves in the registry. */
module ScanManagersProperties {
  import opened Common
  import opened UuidHelper
  import AndroidPeripheral
  import AndroidManager
  import opened ScanManagers

  // ---------------------------------------------------------------------------
  // The session counter

  /** The number of distinct Java `int` values. */
  const Cycle: int := 0x1_0000_0000

  /** The session after `k` increments. */
  function Advance(x: Int32, k: nat): Int32
    decreases k
  {
    if k == 0 then x else Increment(Advance(x, k - 1))
  }

  lemma ModStep(n: nat)
    ensures (n % Cycle + 1) % Cycle == (n + 1) % Cycle
  {
    var q := n / Cycle;
    var m := n % Cycle;
    assert n == q * Cycle + m;
    if m + 1 < Cycle {
      assert n + 1 == q * Cycle + (m + 1);
    } else {
      assert n + 1 == (q + 1) * Cycle;
    }
  }

  /** `k` increments add `k` modulo 2^32. */
  lemma {:induction false} AdvanceWraps(x: Int32, k: nat)
    ensures Advance(x, k) == (x - IntMin + k) % Cycle + IntMin
  {
    if k > 0 {
      var n := x - IntMin + k - 1;
      var before := Advance(x, k - 1);
      AdvanceWraps(x, k - 1);
      assert before - IntMin == n % Cycle;
      assert Advance(x, k) == (before - IntMin + 1) % Cycle + IntMin;
      ModStep(n);
    }
  }

  lemma ModShift(n: nat, q: nat)
    ensures (n + q * Cycle) % Cycle == n % Cycle
  {
    var m := n % Cycle;
    assert n == (n / Cycle) * Cycle + m;
    assert n + q * Cycle == (n / Cycle + q) * Cycle + m;
  }

  lemma ModReturns(a: int, k: nat)
    requires 0 <= a < Cycle
    ensures (a + k) % Cycle == a <==> k % Cycle == 0
  {
    var r := k % Cycle;
    var q := k / Cycle;
    assert k == q * Cycle + r;
    ModShift(a + r, q);
    assert a + k == a + r + q * Cycle;
    if a + r < Cycle {
      assert (a + r) % Cycle == a + r;
    } else {
      assert (a + r) % Cycle == a + r - Cycle;
    }
  }

  /** Increments bring the counter back to where it started exactly when
      their number is a multiple of 2^32: fewer than 2^32 stops and timed
      scans never revisit a session, and 2^32 of them do. */
  lemma AdvanceReturnsIff(x: Int32, k: nat)
    ensures Advance(x, k) == x <==> k % Cycle == 0
  {
    AdvanceWraps(x, k);
    ModReturns(x - IntMin, k);
  }

  // ---------------------------------------------------------------------------
  // Scan timers

  /** A timer whose session has been advanced past, by fewer than 2^32 stops
      and timed scans, does nothing when it fires. */
  lemma StaleTimerIsNoOp(kind: Kind, s: ScanState, captured: Int32, k: nat, adapterOn: bool)
    requires 0 < k < Cycle && s.session == Advance(captured, k)
    ensures TimerFired(kind, s, captured, adapterOn) == Step(s, [])
  {
    AdvanceReturnsIff(captured, k);
  }

  /** After `stopScan`, the timer of the scan it stopped does nothing. */
  lemma StopDisarmsTimer(kind: Kind, s: ScanState, hasScanner: bool, cb: Cb, adapterOn: bool)
    ensures var stop := StopScan(kind, s, hasScanner, cb);
            TimerFired(kind, stop.next, s.session, adapterOn) == Step(stop.next, [])
  {
  }

  /** Whether a scan with these arguments starts the scanner: the legacy
      manager always does, the others need every UUID to parse, and the
      default manager also needs manufacturer data and mask of one length. */
  predicate Starts(kind: Kind, uuids: seq<string>, options: Options) {
    && (kind == LegacyManager || forall i :: 0 <= i < |uuids| ==> FromString(uuids[i]).Some?)
    && (kind == DefaultManager && options.manufacturer.Some? ==>
          |LowBytes(options.manufacturer.value.data)| == |LowBytes(options.manufacturer.value.mask)|)
  }

  /** The request a starting scan hands the scanner. */
  function StartRequest(kind: Kind, uuids: seq<string>, options: Options): Request
    requires Starts(kind, uuids, options)
  {
    match kind
    case LegacyManager => StartLegacyScan
    case LollipopManager => StartLeScanner(ServiceFilters(uuids).value)
    case DefaultManager =>
      StartLeScanner(ServiceFilters(uuids).value + NameFilters(options.exactNames) + ManufacturerFilters(options.manufacturer).value)
  }

  /** `scan` starts the scanner exactly when `Starts` holds; otherwise it
      throws or answers an error, and changes nothing. */
  lemma ScanStartsIff(kind: Kind, s: ScanState, uuids: seq<string>, options: Options, scanSeconds: int, cb: Cb)
    ensures var r := Scan(kind, s, uuids, options, scanSeconds, cb);
            Starts(kind, uuids, options) <==> r.effects[0].Scanner?
    ensures var r := Scan(kind, s, uuids, options, scanSeconds, cb);
            !Starts(kind, uuids, options) ==>
              && r.next == s
              && (r.effects == [Thrown] || r.effects == [Invoke(cb, ScanError(MaskLengthMessage))])
    ensures Starts(kind, uuids, options) ==>
              Scan(kind, s, uuids, options, scanSeconds, cb) == Started(kind, s, StartRequest(kind, uuids, options), scanSeconds, cb)
  {
    var r := Scan(kind, s, uuids, options, scanSeconds, cb);
    if Starts(kind, uuids, options) {
      var start := StartRequest(kind, uuids, options);
      assert r == Started(kind, s, start, scanSeconds, cb);
      assert r.effects[0] == Scanner(start);
    } else if kind != LegacyManager && ServiceFilters(uuids).None? {
      assert r == Step(s, [Thrown]);
    } else {
      assert kind == DefaultManager;
      assert r == Step(s, [Invoke(cb, ScanError(MaskLengthMessage))]);
    }
  }

  /** A scan without a time limit keeps the session, so the timer of an
      earlier timed scan, never stopped, ends the new scan too. */
  lemma UntimedRestartKeepsOldTimer(kind: Kind, s: ScanState, u1: seq<string>, o1: Options, seconds: int, cb1: Cb,
                                    u2: seq<string>, o2: Options, cb2: Cb, adapterOn: bool)
    requires Starts(kind, u1, o1) && Starts(kind, u2, o2) && seconds > 0
    ensures var first := Scan(kind, s, u1, o1, seconds, cb1);
            var second := Scan(kind, first.next, u2, o2, 0, cb2);
            var fired := TimerFired(kind, second.next, first.next.session, adapterOn);
            && ArmTimer(first.next.session, seconds) in first.effects
            && Scanner(StartRequest(kind, u2, o2)) in second.effects
            && fired.effects != []
            && fired.effects[|fired.effects| - 1] == Emit(StopScanEvent(if kind == DefaultManager then Some(TimeoutStatus) else None))
            && (adapterOn ==> fired.effects[0] == Scanner(if kind == LegacyManager then StopLegacyScan else StopLeScanner))
  {
    ScanStartsIff(kind, s, u1, o1, seconds, cb1);
    var first := Scan(kind, s, u1, o1, seconds, cb1);
    assert first.effects[1] == ArmTimer(first.next.session, seconds);
    ScanStartsIff(kind, first.next, u2, o2, 0, cb2);
  }

  /** A second timed scan takes the session over: the first timer does
      nothing and the second one acts. */
  lemma TimedRestartSupersedes(kind: Kind, s: ScanState, u1: seq<string>, o1: Options, seconds1: int, cb1: Cb,
                               u2: seq<string>, o2: Options, seconds2: int, cb2: Cb, adapterOn: bool)
    requires Starts(kind, u1, o1) && Starts(kind, u2, o2) && seconds1 > 0 && seconds2 > 0
    ensures var first := Scan(kind, s, u1, o1, seconds1, cb1);
            var second := Scan(kind, first.next, u2, o2, seconds2, cb2);
            && TimerFired(kind, second.next, first.next.session, adapterOn) == Step(second.next, [])
            && TimerFired(kind, second.next, second.next.session, adapterOn).effects != []
  {
    ScanStartsIff(kind, s, u1, o1, seconds1, cb1);
    var first := Scan(kind, s, u1, o1, seconds1, cb1);
    ScanStartsIff(kind, first.next, u2, o2, seconds2, cb2);
  }

  // ---------------------------------------------------------------------------
  // Filters

  /** The number of filters a `Some` list option contributes. */
  function Count<T>(xs: Option<seq<T>>): nat {
    if xs.None? then 0 else |xs.value|
  }

  /** The default manager's scanner gets the service filters in request
      order, then one name filter per expected name, then the manufacturer
      filter when one was asked for. */
  lemma DefaultFilterOrder(s: ScanState, uuids: seq<string>, options: Options, scanSeconds: int, cb: Cb)
    requires Starts(DefaultManager, uuids, options)
    ensures var r := Scan(DefaultManager, s, uuids, options, scanSeconds, cb);
            && r.next.scanning
            && r.effects[0].Scanner? && r.effects[0].request.StartLeScanner?
            && var fs := r.effects[0].request.filters;
            && |fs| == |uuids| + Count(options.exactNames) + (if options.manufacturer.Some? then 1 else 0)
            && (forall i :: 0 <= i < |uuids| ==> fs[i] == ServiceFilter(FromString(uuids[i]).value))
            && (forall i :: 0 <= i < Count(options.exactNames) ==>
                  fs[|uuids| + i] == NameFilter(options.exactNames.value[i]))
            && (options.manufacturer.Some? ==>
                  var m := options.manufacturer.value;
                  fs[|fs| - 1] == ManufacturerFilter(m.id, LowBytes(m.data), LowBytes(m.mask)))
  {
    ScanStartsIff(DefaultManager, s, uuids, options, scanSeconds, cb);
    var services := ServiceFilters(uuids).value;
    var names := NameFilters(options.exactNames);
    var manufacturer := ManufacturerFilters(options.manufacturer).value;
    var fs := services + names + manufacturer;
    forall i | 0 <= i < Count(options.exactNames)
      ensures fs[|uuids| + i] == NameFilter(options.exactNames.value[i])
    {
      assert fs[|uuids| + i] == names[i];
    }
  }

  /** The Lollipop manager looks at the service UUIDs only, the legacy
      manager at neither the UUIDs nor the options. */
  lemma IgnoredArguments(s: ScanState, u1: seq<string>, o1: Options, u2: seq<string>, o2: Options, scanSeconds: int, cb: Cb)
    ensures Scan(LollipopManager, s, u1, o1, scanSeconds, cb) == Scan(LollipopManager, s, u1, o2, scanSeconds, cb)
    ensures Scan(LegacyManager, s, u1, o1, scanSeconds, cb) == Scan(LegacyManager, s, u2, o2, scanSeconds, cb)
  {
  }

  // ---------------------------------------------------------------------------
  // Results

  /** One discovery event per result, in order. */
  function Announcements(results: seq<Sighting>): (r: seq<Effect>)
    ensures |r| == |results|
  {
    seq(|results|, i requires 0 <= i < |results| => Emit(DiscoverPeripheral(results[i].address)))
  }

  /** The first announcement, then the rest's. */
  lemma AnnouncementsCons(results: seq<Sighting>)
    requires results != []
    ensures Announcements(results) == [Emit(DiscoverPeripheral(results[0].address))] + Announcements(results[1..])
  {
    var r := Announcements(results);
    var tail := results[1..];
    assert forall i :: 0 < i < |r| ==> r[i] == Announcements(tail)[i - 1];
  }

  predicate AllRecorded(results: seq<Sighting>) {
    forall i :: 0 <= i < |results| ==> results[i].record.Some?
  }

  lemma TailRecorded(results: seq<Sighting>)
    requires results != [] && AllRecorded(results)
    ensures AllRecorded(results[1..]) && results[0].record.Some?
  {
    var tail := results[1..];
    forall i | 0 <= i < |tail| ensures tail[i].record.Some? {
      assert tail[i] == results[i + 1];
    }
  }

  /** A batch whose records are all present announces every result, in
      order. */
  lemma {:induction false} BatchAnnouncesEach(s: ScanState, results: seq<Sighting>)
    requires AllRecorded(results)
    ensures DefaultBatch(s, results).effects == Announcements(results)
    decreases |results|
  {
    if results != [] {
      TailRecorded(results);
      var first := DefaultResult(s, results[0]);
      var tail := results[1..];
      BatchAnnouncesEach(first.next, tail);
      assert first.effects == [Emit(DiscoverPeripheral(results[0].address))];
      assert DefaultBatch(s, results).effects == first.effects + DefaultBatch(first.next, tail).effects;
      AnnouncementsCons(results);
    }
  }

  /** ... and leaves every address of the batch registered. */
  lemma {:induction false} BatchRegistersEach(s: ScanState, results: seq<Sighting>)
    requires AllRecorded(results)
    ensures forall i :: 0 <= i < |results| ==> AndroidManager.Get(DefaultBatch(s, results).next.registry, results[i].address).Some?
    decreases |results|
  {
    if results != [] {
      TailRecorded(results);
      var first := DefaultResult(s, results[0]);
      var tail := results[1..];
      BatchRegistersEach(first.next, tail);
      BatchKeepsRegistered(first.next, tail, results[0].address);
      var reg := DefaultBatch(s, results).next.registry;
      assert reg == DefaultBatch(first.next, tail).next.registry;
      forall i | 0 < i < |results|
        ensures AndroidManager.Get(reg, results[i].address).Some?
      {
        assert tail[i - 1] == results[i];
      }
    }
  }

  /** A batch never unregisters an address: a registered peripheral stays
      registered, whatever the results and wherever the handler stops. */
  lemma {:induction false} BatchKeepsRegistered(s: ScanState, results: seq<Sighting>, address: string)
    requires AndroidManager.Get(s.registry, address).Some?
    ensures AndroidManager.Get(DefaultBatch(s, results).next.registry, address).Some?
    decreases |results|
  {
    if results != [] {
      var first := DefaultResult(s, results[0]);
      if first.effects != [Thrown] {
        assert AndroidManager.Get(first.next.registry, address).Some?;
        BatchKeepsRegistered(first.next, results[1..], address);
      }
    }
  }

  /** Any batch changes the registry only under the addresses it carries,
      and keeps one entry per key. */
  lemma {:induction false} BatchTouchesOnlyItsAddresses(s: ScanState, results: seq<Sighting>)
    ensures var reg := DefaultBatch(s, results).next.registry;
            forall k :: AndroidManager.Get(reg, k) != AndroidManager.Get(s.registry, k) ==>
              exists i :: 0 <= i < |results| && results[i].address == k
    ensures AndroidManager.UniqueKeys(s.registry) ==> AndroidManager.UniqueKeys(DefaultBatch(s, results).next.registry)
    decreases |results|
  {
    if results != [] {
      var first := DefaultResult(s, results[0]);
      if first.effects != [Thrown] {
        var tail := results[1..];
        BatchTouchesOnlyItsAddresses(first.next, tail);
        var reg := DefaultBatch(s, results).next.registry;
        assert reg == DefaultBatch(first.next, tail).next.registry;
        forall k | AndroidManager.Get(reg, k) != AndroidManager.Get(s.registry, k)
          ensures exists i :: 0 <= i < |results| && results[i].address == k
        {
          if AndroidManager.Get(reg, k) != AndroidManager.Get(first.next.registry, k) {
            var j :| 0 <= j < |tail| && tail[j].address == k;
            assert results[j + 1] == tail[j];
          } else {
            assert results[0].address == k;
          }
        }
      }
    }
  }

  /** A batch stops at its first null record: the results before it are
      announced, then the exception ends the handler. */
  lemma {:induction false} BatchStopsAtNull(s: ScanState, results: seq<Sighting>, n: nat)
    requires n < |results| && results[n].record.None?
    requires forall i :: 0 <= i < n ==> results[i].record.Some?
    ensures DefaultBatch(s, results).effects == Announcements(results[..n]) + [Thrown]
    decreases n
  {
    var first := DefaultResult(s, results[0]);
    if n > 0 {
      var tail := results[1..];
      StopTail(results, n);
      BatchStopsAtNull(first.next, tail, n - 1);
      assert first.effects == [Emit(DiscoverPeripheral(results[0].address))];
      assert DefaultBatch(s, results).effects == first.effects + DefaultBatch(first.next, tail).effects;
      AnnouncementsCons(results[..n]);
    }
  }

  /** Past the first result, the null record is one place earlier. */
  lemma StopTail(results: seq<Sighting>, n: nat)
    requires 0 < n < |results| && results[n].record.None?
    requires forall i :: 0 <= i < n ==> results[i].record.Some?
    ensures var tail := results[1..];
            && tail[n - 1].record.None?
            && (forall i :: 0 <= i < n - 1 ==> tail[i].record.Some?)
            && results[..n][1..] == tail[..n - 1]
  {
    var tail := results[1..];
    assert tail[n - 1] == results[n];
    forall i | 0 <= i < n - 1 ensures tail[i].record.Some? {
      assert tail[i] == results[i + 1];
    }
  }

  /** The legacy manager announces an address once: a second sighting only
      refreshes the RSSI and keeps the first advertising bytes. */
  lemma LegacySeenTwiceReportsOnce(s: ScanState, address: string, rssi1: int, data1: Bytes, rssi2: int, data2: Bytes)
    requires AndroidManager.Get(s.registry, address).None?
    ensures var first := LegacyResult(s, address, rssi1, data1);
            var second := LegacyResult(first.next, address, rssi2, data2);
            && first.effects + second.effects == [Emit(DiscoverPeripheral(address))]
            && AndroidManager.Get(second.next.registry, address) == Some(AndroidPeripheral.Discovered(address, rssi2, data1))
  {
  }

  /** The default manager announces every sighting and keeps the latest
      advertising bytes. */
  lemma DefaultSeenTwiceReportsTwice(s: ScanState, a: Sighting, b: Sighting)
    requires a.address == b.address && a.record.Some? && b.record.Some?
    ensures var first := DefaultResult(s, a);
            var second := DefaultResult(first.next, b);
            && first.effects + second.effects == [Emit(DiscoverPeripheral(a.address)), Emit(DiscoverPeripheral(a.address))]
            && AndroidManager.Get(second.next.registry, a.address).value.advertising == b.record.value
            && AndroidManager.Get(second.next.registry, a.address).value.rssi == b.rssi
  {
  }
}

=== FILE: scan_record.dfy ===
/** The advertising-data parser of android/src/main/java/it/innove/ScanResult.java,
    which reads the length-type-value structures of section 11 of Part C,
    Volume 3 of the Bluetooth Core Specification 4.1 (the data types are
    those of section 18).  Every out-of-range read or negative array size in
    the Java code ends the parse in its catch block; here that is a `None`
    from the walk, which the entry point turns into the fall-back record. */
module ScanRecord {
  import opened Common

  const FlagsType := 0x01
  const Uuid16Partial := 0x02
  const Uuid16Complete := 0x03
  const Uuid32Partial := 0x04
  const Uuid32Complete := 0x05
  const Uuid128Partial := 0x06
  const Uuid128Complete := 0x07
  const ShortNameType := 0x08
  const CompleteNameType := 0x09
  const TxPowerType := 0x0A
  const ServiceDataType := 0x16
  const ManufacturerType := 0xFF

  /** `Integer.MIN_VALUE`, the tx power of a record that has none. */
  const IntMinValue: int := IntMin

  // ---------------------------------------------------------------------------
  // Manufacturer data: a SparseArray, kept sorted by key

  /** A `SparseArray<byte[]>`: entries in strictly increasing key order. */
  type Sparse = seq<(int, Bytes)>

  predicate Sorted(es: Sparse) {
    forall i, j :: 0 <= i < j < |es| ==> es[i].0 < es[j].0
  }

  function Keys(es: Sparse): set<int> {
    if es == [] then {} else {es[0].0} + Keys(es[1..])
  }

  function SparseGet(es: Sparse, key: int): (r: Option<Bytes>)
    ensures r.Some? <==> key in Keys(es)
  {
    if es == [] then None
    else if es[0].0 == key then Some(es[0].1)
    else SparseGet(es[1..], key)
  }

  /** `SparseArray.put`: the value under `key` is replaced, or inserted at
      its place in key order. */
  function SparsePut(es: Sparse, key: int, value: Bytes): (r: Sparse)
    requires Sorted(es)
    ensures Sorted(r)
    ensures SparseGet(r, key) == Some(value)
    ensures forall k :: k != key ==> SparseGet(r, k) == SparseGet(es, k)
    ensures Keys(r) == Keys(es) + {key}
  {
    if es == [] then [(key, value)]
    else if key < es[0].0 then [(key, value)] + es
    else if key == es[0].0 then [(key, value)] + es[1..]
    else [es[0]] + SparsePut(es[1..], key, value)
  }

  // ---------------------------------------------------------------------------
  // The parse

  /** What the loop has gathered so far.  Service UUIDs are kept as the
      little-endian slices handed to `BluetoothUuid.parseUuidFrom`, and the
      local name as the bytes handed to `new String(byte[])`. */
  datatype Fields = Fields(
    flags: int, uuids: seq<Bytes>, name: Option<Bytes>, txPower: int, manufacturer: Sparse)

  predicate WellKept(f: Fields) { Sorted(f.manufacturer) }

  const Initial: Fields := Fields(-1, [], None, IntMinValue, [])

  /** The parsed record.  Its service-data map is always null and is not a
      field. */
  datatype Record = Record(
    serviceUuids: Option<seq<Bytes>>, manufacturerData: Option<Sparse>,
    flags: int, txPowerLevel: int, localName: Option<Bytes>, bytes: Bytes)

  /** The byte read as Java's signed `byte`. */
  function Signed(b: byte): (r: int)
    ensures -128 <= r < 128 && r % 256 == b as int
  {
    if b < 128 then b as int else b as int - 256
  }

  /** `extractBytes`: `None` where `new byte[length]` or `System.arraycopy`
      would throw. */
  function Extract(rec: Bytes, start: nat, length: int): (r: Option<Bytes>)
    ensures r.Some? <==> 0 <= length && start + length <= |rec|
    ensures r.Some? ==> |r.value| == length
  {
    if 0 <= length && start + length <= |rec| then Some(rec[start..start + length]) else None
  }

  /** The UUID width of a service-UUID list type, 0 for the other types. */
  function UuidWidth(adType: int): (w: nat)
    ensures w in {0, 2, 4, 16}
  {
    if adType == Uuid16Partial || adType == Uuid16Complete then 2
    else if adType == Uuid32Partial || adType == Uuid32Complete then 4
    else if adType == Uuid128Partial || adType == Uuid128Complete then 16
    else 0
  }

  /** `parseServiceUuid`: one slice of `width` bytes per step while any of
      the structure's length is left; a length that is not a multiple of the
      width reads the last slice past the structure. */
  function Slices(rec: Bytes, cur: nat, remaining: int, width: nat, acc: seq<Bytes>): (r: Option<seq<Bytes>>)
    requires width > 0
    ensures r.Some? ==> |acc| <= |r.value|
    decreases remaining
  {
    if remaining <= 0 then Some(acc)
    else match Extract(rec, cur, width)
      case None => None
      case Some(slice) => Slices(rec, cur + width, remaining - width, width, acc + [slice])
  }

  /** The body of the `switch` for one structure whose data starts at
      `start` and is `dataLength` bytes long. */
  function Structure(rec: Bytes, start: nat, dataLength: int, adType: int, f: Fields): (r: Option<Fields>)
    requires WellKept(f)
    ensures r.Some? ==> WellKept(r.value)
  {
    if adType == FlagsType then
      if start < |rec| then Some(f.(flags := rec[start] as int)) else None
    else if UuidWidth(adType) > 0 then
      match Slices(rec, start, dataLength, UuidWidth(adType), f.uuids)
      case None => None
      case Some(uuids) => Some(f.(uuids := uuids))
    else if adType == ShortNameType || adType == CompleteNameType then
      match Extract(rec, start, dataLength)
      case None => None
      case Some(name) => Some(f.(name := Some(name)))
    else if adType == TxPowerType then
      if start < |rec| then Some(f.(txPower := Signed(rec[start]))) else None
    else if adType == ServiceDataType then
      if Extract(rec, start, 2).Some? && Extract(rec, start + 2, dataLength - 2).Some? then Some(f) else None
    else if adType == ManufacturerType then
      if start + 1 < |rec| then
        var id := rec[start + 1] as int * 256 + rec[start] as int;
        match Extract(rec, start + 2, dataLength - 2)
        case None => None
        case Some(data) => Some(f.(manufacturer := SparsePut(f.manufacturer, id, data)))
      else None
    else Some(f)
  }

  /** The `while` loop from `currentPos == pos`: a zero length byte or the
      end of the array stops it; each structure moves the cursor past its
      length byte, its type byte and its data. */
  function Walk(rec: Bytes, pos: nat, f: Fields): (r: Option<Fields>)
    requires WellKept(f)
    decreases |rec| - pos
  {
    if pos >= |rec| || rec[pos] == 0 then Some(f)
    else if pos + 1 >= |rec| then None
    else
      var dataLength := rec[pos] as int - 1;
      var start := pos + 2;
      match Structure(rec, start, dataLength, rec[pos + 1] as int, f)
      case None => None
      case Some(g) => Walk(rec, start + dataLength, g)
  }

  /** `parseFromBytes`; `None` stands for null, in and out. */
  function ParseFromBytes(scanRecord: Option<Bytes>): (r: Option<Record>)
    ensures scanRecord.None? <==> r.None?
    ensures r.Some? ==> r.value.bytes == scanRecord.value
    ensures r.Some? && r.value.serviceUuids.Some? ==> r.value.serviceUuids.value != []
    ensures r.Some? && r.value.manufacturerData.None? ==>
              r.value == Record(None, None, -1, IntMinValue, None, scanRecord.value)
  {
    match scanRecord
    case None => None
    case Some(rec) =>
      match Walk(rec, 0, Initial)
      case None => Some(Record(None, None, -1, IntMinValue, None, rec))
      case Some(f) =>
        Some(Record(if f.uuids == [] then None else Some(f.uuids), Some(f.manufacturer),
                    f.flags, f.txPower, f.name, rec))
  }
}

=== FILE: scan_record_properties.dfy ===
/** What the advertising-data parser promises for well-formed input: a
    record built from length-type-value structures reads back as the
    structures' values, the last flags, name and tx power winning, service
    UUIDs appended in order and a repeated company id overwriting the
    earlier data; a zero length byte ends the data.  Malformed input falls
    back to a record holding only the raw bytes. */
module ScanRecordProperties {
  import opened Common
  import opened ScanRecord

  /** One advertising structure: its type and its data. */
  datatype Ad = Ad(adType: byte, data: Bytes)

  /** The structure fits its one length byte and carries what its type
      reads: a flags or tx-power byte, whole UUIDs, a 16-bit service-data
      UUID, a two-byte company id. */
  predicate WellFormed(ad: Ad) {
    var t := ad.adType as int;
    && |ad.data| + 1 < 256
    && (t == FlagsType || t == TxPowerType ==> |ad.data| >= 1)
    && (UuidWidth(t) > 0 ==> |ad.data| % UuidWidth(t) == 0)
    && (t == ServiceDataType || t == ManufacturerType ==> |ad.data| >= 2)
  }

  predicate AllWellFormed(ads: seq<Ad>) {
    forall i :: 0 <= i < |ads| ==> WellFormed(ads[i])
  }

  /** The structures laid out as section 11 of Part C, Volume 3 of the
      Bluetooth Core Specification 4.1 has them: length (counting the type
      byte), type, data. */
  function Encode(ads: seq<Ad>): (r: Bytes)
    requires AllWellFormed(ads)
    ensures |r| >= 2 * |ads|
  {
    if ads == [] then []
    else [(|ads[0].data| + 1) as byte, ads[0].adType] + ads[0].data + Encode(ads[1..])
  }

  /** Data cut into pieces of `width` bytes, the last one possibly shorter. */
  function Cut(data: Bytes, width: nat): seq<Bytes>
    requires width > 0
    decreases |data|
  {
    if data == [] then []
    else if |data| <= width then [data]
    else [data[..width]] + Cut(data[width..], width)
  }

  /** The pieces are non-empty, at most `width` long, and join back into
      the data. */
  lemma {:induction false} CutPartitions(data: Bytes, width: nat)
    requires width > 0
    ensures forall i :: 0 <= i < |Cut(data, width)| ==> 0 < |Cut(data, width)[i]| <= width
    ensures Flatten(Cut(data, width)) == data
    decreases |data|
  {
    if |data| > width {
      var r := Cut(data, width);
      CutPartitions(data[width..], width);
      assert r[1..] == Cut(data[width..], width);
      assert data == data[..width] + data[width..];
    } else if data != [] {
      assert Flatten([data]) == data + Flatten([]);
    }
  }

  /** Removing one UUID from a list of whole UUIDs leaves whole UUIDs. */
  lemma WholeStep(n: int, width: nat)
    requires width in {2, 4, 16} && n > 0 && n % width == 0
    ensures n >= width && (n - width) % width == 0
  {
  }

  /** What each well-formed structure does to the fields, stated on the
      structure rather than on the array. */
  function Apply(f: Fields, ad: Ad): (r: Fields)
    requires WellKept(f) && WellFormed(ad)
    ensures WellKept(r)
  {
    var t := ad.adType as int;
    if t == FlagsType then f.(flags := ad.data[0] as int)
    else if UuidWidth(t) > 0 then f.(uuids := f.uuids + Cut(ad.data, UuidWidth(t)))
    else if t == ShortNameType || t == CompleteNameType then f.(name := Some(ad.data))
    else if t == TxPowerType then f.(txPower := Signed(ad.data[0]))
    else if t == ManufacturerType then
      f.(manufacturer := SparsePut(f.manufacturer, ad.data[1] as int * 256 + ad.data[0] as int, ad.data[2..]))
    else f
  }

  function Fold(f: Fields, ads: seq<Ad>): (r: Fields)
    requires WellKept(f) && AllWellFormed(ads)
    ensures WellKept(r)
    decreases |ads|
  {
    if ads == [] then f else Fold(Apply(f, ads[0]), ads[1..])
  }

  /** The record a parse of well-formed structures yields. */
  function Expected(ads: seq<Ad>, raw: Bytes): Record
    requires AllWellFormed(ads)
  {
    var f := Fold(Initial, ads);
    Record(if f.uuids == [] then None else Some(f.uuids), Some(f.manufacturer), f.flags, f.txPower, f.name, raw)
  }

  lemma CutStep(data: Bytes, width: nat)
    requires 0 < width <= |data|
    ensures Cut(data, width) == [data[..width]] + Cut(data[width..], width)
  {
    if |data| == width {
      assert data[..width] == data && data[width..] == [];
    }
  }

  /** A UUID list of `n` bytes lying at `cur` is read as its whole UUIDs. */
  lemma {:induction false} SlicesRead(rec: Bytes, cur: nat, n: nat, width: nat, acc: seq<Bytes>)
    requires width in {2, 4, 16} && n % width == 0 && cur + n <= |rec|
    ensures Slices(rec, cur, n, width, acc) == Some(acc + Cut(rec[cur..cur + n], width))
    decreases n
  {
    var data := rec[cur..cur + n];
    if n == 0 {
      assert acc + Cut(data, width) == acc;
    } else {
      WholeStep(n, width);
      var first := rec[cur..cur + width];
      var rest := rec[cur + width..cur + n];
      assert Slices(rec, cur, n, width, acc) == Slices(rec, cur + width, n - width, width, acc + [first]);
      SlicesRead(rec, cur + width, n - width, width, acc + [first]);
      assert data[..width] == first && data[width..] == rest;
      CutStep(data, width);
      assert acc + [first] + Cut(rest, width) == acc + ([first] + Cut(rest, width));
    }
  }

  // One well-formed structure whose data lies at `start` is read as
  // `Apply` says; one lemma per kind of structure.

  lemma ByteRead(rec: Bytes, start: nat, ad: Ad, f: Fields)
    requires WellKept(f) && WellFormed(ad)
    requires ad.adType as int == FlagsType || ad.adType as int == TxPowerType
    requires start + |ad.data| <= |rec| && rec[start..start + |ad.data|] == ad.data
    ensures Structure(rec, start, |ad.data|, ad.adType as int, f) == Some(Apply(f, ad))
  {
    assert rec[start] == rec[start..start + |ad.data|][0];
  }

  lemma UuidListRead(rec: Bytes, start: nat, ad: Ad, f: Fields)
    requires WellKept(f) && WellFormed(ad) && UuidWidth(ad.adType as int) > 0
    requires start + |ad.data| <= |rec| && rec[start..start + |ad.data|] == ad.data
    ensures Structure(rec, start, |ad.data|, ad.adType as int, f) == Some(Apply(f, ad))
  {
    SlicesRead(rec, start, |ad.data|, UuidWidth(ad.adType as int), f.uuids);
  }

  lemma ManufacturerRead(rec: Bytes, start: nat, ad: Ad, f: Fields)
    requires WellKept(f) && WellFormed(ad) && ad.adType as int == ManufacturerType
    requires start + |ad.data| <= |rec| && rec[start..start + |ad.data|] == ad.data
    ensures Structure(rec, start, |ad.data|, ad.adType as int, f) == Some(Apply(f, ad))
  {
    var n := |ad.data|;
    var view := rec[start..start + n];
    assert rec[start] == view[0] && rec[start + 1] == view[1];
    assert rec[start + 2..start + n] == view[2..];
  }

  lemma OtherRead(rec: Bytes, start: nat, ad: Ad, f: Fields)
    requires WellKept(f) && WellFormed(ad) && UuidWidth(ad.adType as int) == 0
    requires ad.adType as int !in {FlagsType, TxPowerType, ManufacturerType}
    requires start + |ad.data| <= |rec| && rec[start..start + |ad.data|] == ad.data
    ensures Structure(rec, start, |ad.data|, ad.adType as int, f) == Some(Apply(f, ad))
  {
  }

  lemma StructureRead(rec: Bytes, start: nat, ad: Ad, f: Fields)
    requires WellKept(f) && WellFormed(ad)
    requires start + |ad.data| <= |rec| && rec[start..start + |ad.data|] == ad.data
    ensures Structure(rec, start, |ad.data|, ad.adType as int, f) == Some(Apply(f, ad))
  {
    var t := ad.adType as int;
    if t == FlagsType || t == TxPowerType {
      ByteRead(rec, start, ad, f);
    } else if UuidWidth(t) > 0 {
      UuidListRead(rec, start, ad, f);
    } else if t == ManufacturerType {
      ManufacturerRead(rec, start, ad, f);
    } else {
      OtherRead(rec, start, ad, f);
    }
  }

  /** The walk over one well-formed structure lying at `pos`. */
  lemma WalkStep(rec: Bytes, pos: nat, ad: Ad, f: Fields)
    requires WellKept(f) && WellFormed(ad)
    requires pos + 2 + |ad.data| <= |rec|
    requires rec[pos] == (|ad.data| + 1) as byte && rec[pos + 1] == ad.adType
    requires rec[pos + 2..pos + 2 + |ad.data|] == ad.data
    ensures Walk(rec, pos, f) == Walk(rec, pos + 2 + |ad.data|, Apply(f, ad))
  {
    StructureRead(rec, pos + 2, ad, f);
  }

  /** A piece of bytes known to lie at `pos`, read in parts. */
  lemma SubSlice(rec: Bytes, pos: nat, e: Bytes, i: nat, j: nat)
    requires pos + |e| <= |rec| && rec[pos..pos + |e|] == e && i <= j <= |e|
    ensures rec[pos + i..pos + j] == e[i..j]
  {
    forall k | 0 <= k < j - i
      ensures rec[pos + i..pos + j][k] == e[i..j][k]
    {
      assert rec[pos..pos + |e|][i + k] == e[i + k];
    }
  }

  /** The encoding of several structures is the first one's bytes followed
      by the encoding of the rest. */
  lemma EncodeHead(ads: seq<Ad>)
    requires AllWellFormed(ads) && ads != []
    ensures var ad := ads[0];
            var e := Encode(ads);
            && AllWellFormed(ads[1..]) && WellFormed(ad)
            && |e| == 2 + |ad.data| + |Encode(ads[1..])|
            && e[0] == (|ad.data| + 1) as byte && e[1] == ad.adType
            && e[2..2 + |ad.data|] == ad.data
            && e[2 + |ad.data|..] == Encode(ads[1..])
  {
    var ad := ads[0];
    var head := [(|ad.data| + 1) as byte, ad.adType] + ad.data;
    assert Encode(ads) == head + Encode(ads[1..]);
    assert forall i :: 0 <= i < |ads[1..]| ==> ads[1..][i] == ads[i + 1];
  }

  /** The first of several encoded structures lying at `pos`: its length
      byte, type byte and data, and the rest after it. */
  lemma HeadAt(rec: Bytes, pos: nat, ads: seq<Ad>)
    requires AllWellFormed(ads) && ads != []
    requires pos + |Encode(ads)| <= |rec| && rec[pos..pos + |Encode(ads)|] == Encode(ads)
    ensures var ad := ads[0];
            var next := pos + 2 + |ad.data|;
            && AllWellFormed(ads[1..]) && WellFormed(ad)
            && rec[pos] == (|ad.data| + 1) as byte && rec[pos + 1] == ad.adType
            && rec[pos + 2..next] == ad.data
            && next + |Encode(ads[1..])| == pos + |Encode(ads)|
            && rec[next..next + |Encode(ads[1..])|] == Encode(ads[1..])
  {
    var ad := ads[0];
    var e := Encode(ads);
    EncodeHead(ads);
    assert rec[pos..pos + |e|][0] == e[0] && rec[pos..pos + |e|][1] == e[1];
    SubSlice(rec, pos, e, 2, 2 + |ad.data|);
    SubSlice(rec, pos, e, 2 + |ad.data|, |e|);
  }

  /** The walk over the first of several encoded structures lying at `pos`. */
  lemma WalkHead(rec: Bytes, pos: nat, end: nat, ads: seq<Ad>, f: Fields)
    requires WellKept(f) && AllWellFormed(ads) && ads != []
    requires end == pos + |Encode(ads)| && end <= |rec| && rec[pos..end] == Encode(ads)
    ensures WellFormed(ads[0]) && AllWellFormed(ads[1..])
    ensures var next := pos + 2 + |ads[0].data|;
            && end == next + |Encode(ads[1..])| && rec[next..end] == Encode(ads[1..])
    ensures Walk(rec, pos, f) == Walk(rec, pos + 2 + |ads[0].data|, Apply(f, ads[0]))
  {
    HeadAt(rec, pos, ads);
    WalkStep(rec, pos, ads[0], f);
  }

  /** Walking over encoded structures lying between `pos` and `end` applies
      each in turn. */
  lemma {:induction false} WalkAt(rec: Bytes, pos: nat, end: nat, ads: seq<Ad>, f: Fields)
    requires WellKept(f) && AllWellFormed(ads)
    requires end == pos + |Encode(ads)| && end <= |rec| && rec[pos..end] == Encode(ads)
    ensures Walk(rec, pos, f) == Walk(rec, end, Fold(f, ads))
    decreases |ads|
  {
    if ads == [] {
      assert end == pos && Fold(f, ads) == f;
    } else {
      var g := Apply(f, ads[0]);
      var next := pos + 2 + |ads[0].data|;
      WalkHead(rec, pos, end, ads, f);
      WalkAt(rec, next, end, ads[1..], g);
      assert Fold(f, ads) == Fold(g, ads[1..]);
      assert Walk(rec, next, g) == Walk(rec, end, Fold(f, ads));
    }
  }

  /** Well-formed structures parse into the values they carry, with the
      input kept as the raw bytes. */
  lemma ParseEncoded(ads: seq<Ad>)
    requires AllWellFormed(ads)
    ensures ParseFromBytes(Some(Encode(ads))) == Some(Expected(ads, Encode(ads)))
  {
    var rec := Encode(ads);
    assert rec[0..|rec|] == rec;
    WalkAt(rec, 0, |Encode(ads)|, ads, Initial);
  }

  /** A zero length byte ends the data: whatever follows it is not read,
      though it stays in the raw bytes. */
  lemma ZeroLengthStops(ads: seq<Ad>, junk: Bytes)
    requires AllWellFormed(ads)
    ensures ParseFromBytes(Some(Encode(ads) + [0] + junk)) == Some(Expected(ads, Encode(ads) + [0] + junk))
  {
    var rec := Encode(ads) + [0] + junk;
    assert rec[0..|Encode(ads)|] == Encode(ads);
    WalkAt(rec, 0, |Encode(ads)|, ads, Initial);
    assert rec[|Encode(ads)|] == 0;
  }

  /** A repeated company id keeps the later data, and the tx power reads
      as a signed byte. */
  lemma LastValuesWin()
    ensures var ads := [Ad(0xFF, [0x4C, 0x00, 1]), Ad(0x0A, [0xF4]), Ad(0xFF, [0x4C, 0x00, 2])];
            var f := Fold(Initial, ads);
            && f.manufacturer == [(0x4C, [2])]
            && f.txPower == -12
            && f.flags == -1
  {
    var ads := [Ad(0xFF, [0x4C, 0x00, 1]), Ad(0x0A, [0xF4]), Ad(0xFF, [0x4C, 0x00, 2])];
    var d1: Bytes := [0x4C, 0x00, 1];
    var d2: Bytes := [0x4C, 0x00, 2];
    assert d1[2..] == [1] && d2[2..] == [2];
    var f1 := Apply(Initial, ads[0]);
    assert f1.manufacturer == [(0x4C, [1])];
    var f2 := Apply(f1, ads[1]);
    var f3 := Apply(f2, ads[2]);
    assert f3.manufacturer == [(0x4C, [2])];
    assert Fold(f3, ads[3..]) == f3;
    assert Fold(f2, ads[2..]) == f3;
    assert Fold(f1, ads[1..]) == f3;
  }

  /** Two 16-bit service UUID lists are read in order, one UUID per two
      bytes. */
  lemma UuidListsAppend()
    ensures var ads := [Ad(0x02, [0x0D, 0x18, 0x0F, 0x18]), Ad(0x03, [0x0A, 0x18])];
            Fold(Initial, ads).uuids == [[0x0D, 0x18], [0x0F, 0x18], [0x0A, 0x18]]
  {
    var ads := [Ad(0x02, [0x0D, 0x18, 0x0F, 0x18]), Ad(0x03, [0x0A, 0x18])];
    var d1: Bytes := [0x0D, 0x18, 0x0F, 0x18];
    var d2: Bytes := [0x0A, 0x18];
    var d3: Bytes := [0x0F, 0x18];
    assert d2[..2] == d2 && d2[2..] == [];
    assert Cut(d2, 2) == [d2];
    assert d3[..2] == d3 && d3[2..] == [];
    assert Cut(d3, 2) == [d3];
    assert d1[..2] == [0x0D, 0x18] && d1[2..] == d3;
    assert Cut(d1, 2) == [[0x0D, 0x18], d3];
    var f1 := Apply(Initial, ads[0]);
    var f2 := Apply(f1, ads[1]);
    assert Fold(f2, ads[2..]) == f2;
    assert Fold(f1, ads[1..]) == f2;
    assert Fold(Initial, ads).uuids == [[0x0D, 0x18], d3, d2];
  }

  /** A manufacturer structure too short for its company id makes the
      parse fall back to the raw bytes alone. */
  lemma ShortManufacturerFallsBack()
    ensures ParseFromBytes(Some([2, 0xFF, 0x4C])) == Some(Record(None, None, -1, IntMinValue, None, [2, 0xFF, 0x4C]))
  {
    var rec: Bytes := [2, 0xFF, 0x4C];
    assert Structure(rec, 2, 1, 0xFF, Initial).None?;
  }

  /** A structure of a type the parser skips may claim more bytes than
      there are: the cursor moves past the end and the parse succeeds. */
  lemma SkippedOverrunIsTolerated()
    ensures ParseFromBytes(Some([9, 0x30, 1])) == Some(Record(None, Some([]), -1, IntMinValue, None, [9, 0x30, 1]))
  {
    var rec: Bytes := [9, 0x30, 1];
    assert Structure(rec, 2, 8, 0x30, Initial) == Some(Initial);
    assert Walk(rec, 10, Initial) == Some(Initial);
  }
}

=== FILE: uuid_helper.dfy ===
/** UUIDs on the Android side (android/src/main/java/it/innove/UUIDHelper.java).
    A UUID is 128 bits, kept here as its 32 hexadecimal digits, most
    significant first.  Its canonical text is the lower-case 8-4-4-4-12 form
    that `java.util.UUID.toString` prints.  A 16-bit Bluetooth UUID stands for
    the 128-bit UUID obtained by putting it into the Bluetooth Base UUID
    0000XXXX-0000-1000-8000-00805F9B34FB (section 2.5.1 of Bluetooth Core
    Specification Vol 3 Part B). */
module UuidHelper {
  import opened Common
  import opened Hex

  type Nibble = n: int | 0 <= n < 16

  type Uuid = s: seq<Nibble> | |s| == 32 witness seq(32, i => 0)

  /** Text positions of the four dashes of the canonical form. */
  predicate IsDashPosition(i: int) {
    i == 8 || i == 13 || i == 18 || i == 23
  }

  /** Which digit of the UUID sits at a non-dash text position. */
  function DigitIndex(i: int): (d: int)
    requires 0 <= i < 36 && !IsDashPosition(i)
    ensures 0 <= d < 32
  {
    if i < 8 then i else if i < 13 then i - 1 else if i < 18 then i - 2
    else if i < 23 then i - 3 else i - 4
  }

  /** `UUID.toString`: 36 characters, lower-case digits and four dashes. */
  function ToText(u: Uuid): (s: string)
    ensures |s| == 36
    ensures forall i :: 0 <= i < 36 && IsDashPosition(i) ==> s[i] == '-'
    ensures forall i :: 0 <= i < 36 && !IsDashPosition(i) ==> s[i] == LowerDigit(u[DigitIndex(i)])
  {
    seq(36, i requires 0 <= i < 36 => if IsDashPosition(i) then '-' else LowerDigit(u[DigitIndex(i)]))
  }

  predicate IsCanonicalShape(s: string) {
    && |s| == 36
    && (forall i :: 0 <= i < 36 && IsDashPosition(i) ==> s[i] == '-')
    && (forall i :: 0 <= i < 36 && !IsDashPosition(i) ==> IsHexChar(s[i]))
  }

  /** The text position of each digit of the UUID. */
  function TextIndex(d: int): (i: int)
    requires 0 <= d < 32
    ensures 0 <= i < 36 && !IsDashPosition(i) && DigitIndex(i) == d
  {
    if d < 8 then d else if d < 12 then d + 1 else if d < 16 then d + 2
    else if d < 20 then d + 3 else d + 4
  }

  /** `UUID.fromString`, restricted to the canonical 8-4-4-4-12 shape; digits
      may be of either case. */
  function Parse(s: string): (r: Option<Uuid>)
    ensures r.Some? <==> IsCanonicalShape(s)
  {
    if IsCanonicalShape(s) then
      Some(seq(32, d requires 0 <= d < 32 => DigitValue(s[TextIndex(d)])))
    else None
  }

  /** Printing and parsing back gives the same UUID. */
  lemma ParsePrinted(u: Uuid)
    ensures Parse(ToText(u)) == Some(u)
  {
    var s := ToText(u);
    forall i | 0 <= i < 36 && !IsDashPosition(i)
      ensures IsHexChar(s[i])
    {
      DigitRoundTrip(u[DigitIndex(i)]);
    }
    assert IsCanonicalShape(s);
    var v := Parse(s).value;
    forall d | 0 <= d < 32
      ensures v[d] == u[d]
    {
      DigitRoundTrip(u[d]);
    }
    assert v == u;
  }

  /** The canonical text has no upper-case letter. */
  lemma TextIsLower(u: Uuid)
    ensures Lower(ToText(u)) == ToText(u)
  {
    var s := ToText(u);
    forall i | 0 <= i < 36 && !IsDashPosition(i)
      ensures !('A' <= s[i] <= 'Z')
    {
      DigitRoundTrip(u[DigitIndex(i)]);
    }
    LowerIdentity(s);
  }

  /** Parsing then printing gives the input in lower case. */
  lemma PrintParsed(s: string)
    requires Parse(s).Some?
    ensures ToText(Parse(s).value) == Lower(s)
  {
    var u := Parse(s).value;
    var t := ToText(u);
    forall i | 0 <= i < 36
      ensures t[i] == Lower(s)[i]
    {
      if !IsDashPosition(i) {
        assert TextIndex(DigitIndex(i)) == i;
        HexCharLowered(s[i]);
      }
    }
  }

  lemma HexCharLowered(c: char)
    requires IsHexChar(c)
    ensures LowerDigit(DigitValue(c)) == LowerChar(c)
  {
  }

  /** The Bluetooth Base UUID with the 16-bit slot marked `XXXX`. */
  const UuidBase: string := "0000XXXX-0000-1000-8000-00805f9b34fb"

  /** The part of the base after the 16-bit slot. */
  const BaseTail: string := "-0000-1000-8000-00805f9b34fb"

  /** `UUID_BASE.replace("XXXX", short)`. */
  function FillBase(short: string): (r: string)
    requires |short| == 4
    ensures r == UuidBase[..4] + short + UuidBase[8..]
  {
    assert UuidBase[..4] == "0000";
    assert UuidBase[8..] == BaseTail;
    "0000" + short + BaseTail
  }

  predicate AllHex(s: string) {
    forall i :: 0 <= i < |s| ==> IsHexChar(s[i])
  }

  /** `isValidBLEUUID`; `None` stands for a null string. */
  function IsValidBleUuid(text: Option<string>): (b: bool)
    ensures text.None? || text == Some("") ==> !b
    ensures text.Some? && |text.value| == 4 ==> (b <==> AllHex(text.value))
    ensures text.Some? && text.value != "" && |text.value| != 4 ==> (b <==> Parse(text.value).Some?)
  {
    match text
    case None => false
    case Some(s) =>
      if s == [] then false
      else if |s| == 4 then AllHex(s)
      else Parse(s).Some?
  }

  /** `uuidFromString`: a four-character string is a 16-bit UUID put into the
      base; anything else is parsed as it is.  `None` is the exception
      `UUID.fromString` throws on a malformed string. */
  function FromString(s: string): Option<Uuid> {
    if |s| == 4 then Parse(FillBase(s)) else Parse(s)
  }

  /** `uuidToString`: the 16-bit part when the canonical text is the base
      with some four characters in the slot, the canonical text otherwise. */
  function ToString(u: Uuid): string {
    var long := ToText(u);
    if Lower(long[..4]) == "0000" && Lower(long[8..]) == BaseTail then long[4..8] else long
  }

  /** Every string the validator accepts converts to a UUID. */
  lemma ValidConverts(s: string)
    requires IsValidBleUuid(Some(s))
    ensures FromString(s).Some?
  {
    if |s| == 4 {
      FilledShape(s);
    }
  }

  /** Four hexadecimal digits put into the base make a canonical UUID text. */
  lemma FilledShape(s: string)
    requires |s| == 4 && AllHex(s)
    ensures IsCanonicalShape(FillBase(s))
  {
    var t := FillBase(s);
    assert t == "0000" + s + BaseTail;
    BaseTailShape();
    forall i | 0 <= i < 36
      ensures IsDashPosition(i) ==> t[i] == '-'
      ensures !IsDashPosition(i) ==> IsHexChar(t[i])
    {
      if i < 4 {
        assert t[i] == '0';
      } else if i < 8 {
        assert t[i] == s[i - 4];
      } else {
        assert t[i] == BaseTail[i - 8];
      }
    }
  }

  /** The base after the 16-bit slot has its dashes where a UUID text has
      them and hexadecimal digits elsewhere. */
  lemma BaseTailShape()
    ensures |BaseTail| == 28
    ensures forall j :: 0 <= j < 28 && IsDashPosition(j + 8) ==> BaseTail[j] == '-'
    ensures forall j :: 0 <= j < 28 && !IsDashPosition(j + 8) ==> IsHexChar(BaseTail[j])
  {
  }

  /** A 16-bit UUID written as four hexadecimal digits comes back as the same
      digits in lower case. */
  lemma ShortRoundTrip(h: string)
    requires |h| == 4 && AllHex(h)
    ensures FromString(h).Some?
    ensures ToString(FromString(h).value) == Lower(h)
  {
    ValidConverts(h);
    PrintParsed(FillBase(h));
    FillBaseLowered(h);
    ShortenedText(FromString(h).value, Lower(h));
  }

  /** A UUID whose text is the base around `x` is printed as `x`. */
  lemma ShortenedText(u: Uuid, x: string)
    requires |x| == 4 && ToText(u) == "0000" + x + BaseTail
    ensures ToString(u) == x
  {
    var long := ToText(u);
    assert long[..4] == "0000" && long[4..8] == x && long[8..] == BaseTail;
    LowerIdentity("0000");
    TailIsLower();
  }

  lemma FillBaseLowered(h: string)
    requires |h| == 4
    ensures Lower(FillBase(h)) == "0000" + Lower(h) + BaseTail
  {
    var front := "0000" + h;
    assert FillBase(h) == front + BaseTail;
    LowerAppend(front, BaseTail);
    TailIsLower();
    FrontLowered(h);
  }

  lemma TailIsLower()
    ensures Lower(BaseTail) == BaseTail
  {
    NoCapitalsLowered(BaseTail);
  }

  lemma NoCapitalsLowered(t: string)
    requires t == BaseTail
    ensures Lower(t) == t
  {
    forall i | 0 <= i < |t|
      ensures !('A' <= t[i] <= 'Z')
    {
    }
    LowerIdentity(t);
  }

  lemma FrontLowered(h: string)
    ensures Lower("0000" + h) == "0000" + Lower(h)
  {
    LowerAppend("0000", h);
    LowerIdentity("0000");
  }

  lemma LowerAppend(a: string, b: string)
    ensures Lower(a + b) == Lower(a) + Lower(b)
  {
    var l, r := Lower(a + b), Lower(a) + Lower(b);
    forall k | 0 <= k < |a| + |b|
      ensures l[k] == r[k]
    {
      if k < |a| { assert (a + b)[k] == a[k]; } else { assert (a + b)[k] == b[k - |a|]; }
    }
  }

  lemma LowerSlice(s: string, i: int, j: int)
    requires 0 <= i <= j <= |s|
    ensures Lower(s)[i..j] == Lower(s[i..j])
  {
    var a, b := Lower(s)[i..j], Lower(s[i..j]);
    forall k | 0 <= k < j - i
      ensures a[k] == b[k]
    {
      assert a[k] == Lower(s)[i + k];
    }
  }

  lemma LowerIdentity(s: string)
    requires forall i :: 0 <= i < |s| ==> !('A' <= s[i] <= 'Z')
    ensures Lower(s) == s
  {
  }

  lemma TextSliceIsLower(u: Uuid, i: int, j: int)
    requires 0 <= i <= j <= 36
    ensures Lower(ToText(u)[i..j]) == ToText(u)[i..j]
  {
    TextIsLower(u);
    LowerSlice(ToText(u), i, j);
  }

  lemma FillBaseOfText(u: Uuid)
    requires ToText(u)[..4] == "0000" && ToText(u)[8..] == BaseTail
    ensures FillBase(ToText(u)[4..8]) == ToText(u)
  {
    var long := ToText(u);
    assert long == long[..4] + long[4..8] + long[8..];
  }

  /** Every UUID survives conversion to text and back, whether or not it is
      shortened to 16 bits on the way. */
  lemma LongRoundTrip(u: Uuid)
    ensures FromString(ToString(u)) == Some(u)
  {
    var long := ToText(u);
    ParsePrinted(u);
    TextSliceIsLower(u, 0, 4);
    TextSliceIsLower(u, 8, 36);
    assert long[8..] == long[8..36];
    if Lower(long[..4]) == "0000" && Lower(long[8..]) == BaseTail {
      FillBaseOfText(u);
    }
  }
}
